=== FILE: README.md ===
# web-rag core, modelled in Dafny

This project models the deterministic core of web-rag. web-rag is a retrieval-augmented chat application over uploaded PDF documents. Its core includes:

- an in-process cache engine with four eviction policies, plus the query cache, decorators and document serializer built on it;
- the utility helpers, in their service and legacy module forms;
- the metrics, health-check and monitoring middleware bookkeeping;
- the dependency-injection container;
- the plugin manager and the extension-point registry;
- the configuration services;
- the semantic text splitter;
- the re-ranking and filename-aware retrieval services;
- the shared application state and the model service.

Every locked Python operation is modelled as one pure state transition over an immutable record. Anything outside this code is a parameter of the operation that uses it:

- the wall clock (`now`);
- serialized sizes and hash digests;
- JSON encoding and regular-expression classes;
- sentence tokenization;
- the language model's replies;
- the vector store and base retrievers;
- plugin behaviour and health-check bodies.

Python's dynamic values are the `PyValue.PyVal` datatype. Shared string, sequence and number helpers that follow Python's builtins live in `PyCore`, and the stable descending sort used by every ranking step is in `StableSort`.

The cache engine follows the code in one irregular case: a get that finds an expired entry deletes it and releases its count, but not its size. The engine's invariant therefore bounds the live sizes by `total_size` from above, instead of equating the two.

Each source module has one Dafny file:

- `cache_engine.dfy`: src/infrastructure/caching/cache_service.py
- `query_cache.dfy`: src/infrastructure/caching/query_cache.py
- `cache_middleware.dfy`: src/infrastructure/caching/cache_middleware.py
- `document_serializer.dfy`, `documents.dfy`: src/infrastructure/caching/document_serializer.py
- `utility_service.dfy`: src/infrastructure/utilities/utility_service.py
- `legacy_utils.dfy`: utils.py
- `metrics.dfy`: src/infrastructure/monitoring/metrics_service.py
- `health_check.dfy`: src/infrastructure/monitoring/health_check_service.py
- `monitoring_middleware.dfy`: src/infrastructure/monitoring/monitoring_middleware.py
- `dependency_injection.dfy`: src/infrastructure/di/container.py
- `plugin_manager.dfy`: src/infrastructure/extensions/plugin_manager.py
- `extension_points.dfy`: src/infrastructure/extensions/extension_points.py
- `configuration_service.dfy`: src/infrastructure/config/configuration_service.py
- `production_config.dfy`: src/infrastructure/config/production_config.py
- `app_config.dfy`: config.py
- `semantic_text_splitter.dfy`: src/application/services/semantic_text_splitter.py
- `rerank_service.dfy`: src/application/services/rerank_service.py
- `rerank_retriever.dfy`: src/application/services/rerank_retriever.py
- `enhanced_retrieval.dfy`: src/application/services/enhanced_retrieval_service.py
- `application_state.dfy`: src/shared/state/application_state.py
- `model_service.dfy`: src/application/services/model_service.py
- `py_core.dfy`, `py_value.dfy`, `stable_sort.dfy`: Python builtins the modules rely on

## Model

| member | source | states |
| CacheEngine.Empty | src/infrastructure/caching/cache_service.py:108-115 | a new cache has no keys and no entries, every counter at zero, and satisfies the engine invariant every later operation preserves |
| CacheEngine.Access | src/infrastructure/caching/cache_service.py:49-52 | an access counts one more use and stamps the access time, changing neither value, ttl, size nor expiry |
| CacheEngine.EffectiveTtl | src/infrastructure/caching/cache_service.py:207 | a missing or zero ttl falls back to the default ttl; any other ttl is kept |
| CacheEngine.HitRate | src/infrastructure/caching/cache_service.py:69-74 | the hit rate is 0 without requests, otherwise hits divided by requests, and lies in [0, 1] when hits never exceed requests |
| CacheEngine.KeyPrefix | src/infrastructure/caching/cache_service.py:349-352 | the label is the text before the first ':' (itself free of ':'), or "default" when the key has no ':' |
| CacheEngine.Get | src/infrastructure/caching/cache_service.py:131-170 | every get counts one request and exactly one hit or miss; it hits iff the key is present and unexpired (age strictly above ttl expires, no ttl never does); an expired entry is dropped and its count released but not its size; a hit accesses the entry and moves the key to the recent end under LRU only; other keys are untouched and well-formedness and validity are kept (also lines 42-47) |
| CacheEngine.Victim | src/infrastructure/caching/cache_service.py:299-322 | the evicted key is the oldest under LRU and FIFO; under LFU the first key in order with the fewest accesses; under TTL the first expired key in order, else the oldest |
| CacheEngine.EvictOne | src/infrastructure/caching/cache_service.py:299-326 | an eviction on an empty cache changes nothing; otherwise it removes exactly the victim, one entry fewer, counting one eviction |
| CacheEngine.Detach | src/infrastructure/caching/cache_service.py:320-325 | popping a key releases exactly its size and one entry count and keeps the cache well formed |
| CacheEngine.EvictForCount | src/infrastructure/caching/cache_service.py:291-293 | with max_size at least 1 the count loop leaves min(count, max_size - 1) entries, only by evictions |
| CacheEngine.EvictForMemory | src/infrastructure/caching/cache_service.py:295-297 | the memory loop stops with room for the new bytes or with an empty cache, and evicts nothing when there was room already |
| CacheEngine.DropExisting | src/infrastructure/caching/cache_service.py:194-199 | a put first pops any previous entry for the key, releasing its size and count |
| CacheEngine.EnsureCapacity | src/infrastructure/caching/cache_service.py:289-297 | afterwards there is room for one more entry and, unless the cache was emptied, for the new bytes; nothing is evicted when both bounds already hold |
| CacheEngine.Insert | src/infrastructure/caching/cache_service.py:215-218 | the new key goes to the most-recent end and adds its size and one entry |
| CacheEngine.Put | src/infrastructure/caching/cache_service.py:172-225 | put succeeds iff the size fits the memory budget; a refused put changes nothing even for an existing key; a successful one leaves the key last with a fresh entry whose ttl is `ttl or default_ttl`, within max_size entries, keeping validity |
| CacheEngine.PutOnlyEvicts | src/infrastructure/caching/cache_service.py:289-326 | a successful put keeps every other surviving entry and its relative order, leaves the request counters alone, and counts one eviction per entry lost besides the replaced one (also lines 194-218) |
| CacheEngine.PutWithRoomKeepsAll | src/infrastructure/caching/cache_service.py:194-218 | with room for the entry and its bytes, put evicts nothing and only replaces the key's entry (also lines 289-297) |
| CacheEngine.PutTwiceWithRoom | src/infrastructure/caching/cache_service.py:172-225 | two puts of different keys into a cache with room for both keep the first entry intact |
| CacheEngine.PutWithinBounds | src/infrastructure/caching/cache_service.py:289-297 | after a put on a valid cache the entry count and the total size are within the configured bounds |
| CacheEngine.Delete | src/infrastructure/caching/cache_service.py:231-252 | delete returns true iff the key was present, releases its size and count, touches no other entry and no counter |
| CacheEngine.Clear | src/infrastructure/caching/cache_service.py:254-260 | clear empties the cache and zeroes size and entry count while hit, miss, eviction and request counters stay |
| CacheEngine.ExpiredKeys | src/infrastructure/caching/cache_service.py:357-361 | the collected keys are exactly the listed keys whose entries have expired |
| CacheEngine.PopAll | src/infrastructure/caching/cache_service.py:363-367 | popping a list of keys removes exactly those keys, each as an eviction |
| CacheEngine.CleanupExpired | src/infrastructure/caching/cache_service.py:354-367 | cleanup removes exactly the expired entries, each counted as an eviction, keeping validity |
| CacheEngine.FirstLeastUsed | src/infrastructure/caching/cache_service.py:309 | the LFU victim has the minimal access count and every key before it has strictly more accesses, as Python's min keeps the first |
| CacheEngine.FirstExpired | src/infrastructure/caching/cache_service.py:317-319 | the TTL victim index is the first expired key in order, or none when no key has expired |
| CacheEngine.MoveToEndWellFormed | src/infrastructure/caching/cache_service.py:165 | moving a key to the end keeps the same keys, their distinctness and the count |
| QueryCache.HashInput | src/infrastructure/caching/query_cache.py:85-105 | the hashed text starts with the stripped, lower-cased query followed by the model name, and is exactly those two when the context and the extra parameters are empty |
| QueryCache.NormalizedQueriesHashEqually | src/infrastructure/caching/query_cache.py:88-89 | two queries that agree after strip().lower() get the same hash under the same model, context and extras |
| QueryCache.PaddedQueryExample | src/infrastructure/caching/query_cache.py:88-89 | "  Foo? " and "foo?" hash equally |
| QueryCache.NoSeparatorCollision | src/infrastructure/caching/query_cache.py:89-92 | the parts are fed without separators, so ("ab", "c") and ("a", "bc") get the same hash whatever the digest |
| QueryCache.ExtraParamsChangeHash | src/infrastructure/caching/query_cache.py:100-103 | with a collision-free digest, non-empty extra parameters always change the hash |
| QueryCache.ToDict | src/infrastructure/caching/query_cache.py:30-42 | the record's dict is non-empty and rebuilding a record from it gives the same record back (also lines 220-230) |
| QueryCache.FromDict | src/infrastructure/caching/query_cache.py:220-230 | a record is rebuilt only from a dict carrying the required keys; a missing key fails |
| QueryCache.StoreTtl | src/infrastructure/caching/query_cache.py:154-165 | `ttl or default`: a missing or zero ttl takes the default, any other is kept |
| QueryCache.CacheQueryResult | src/infrastructure/caching/query_cache.py:107-168 | the query record is stored iff it fits, under query:<hash of query, model, context> with ttl `ttl or 1800`; a refused put changes nothing; only after a successful first put the {chunks, context, query} record goes under retrieval:<same hash> with the same ttl |
| QueryCache.GetQueryResult | src/infrastructure/caching/query_cache.py:200-249 | a lookup under query:<hash> rebuilds a record only from a truthy cached value, and a miss or falsy value gives None |
| QueryCache.PrefixesDiffer | src/infrastructure/caching/query_cache.py:155-160 | keys under the query: and retrieval: namespaces never coincide |
| QueryCache.QueryRoundTrip | src/infrastructure/caching/query_cache.py:209-236 | with room and no expiry in between, a query cached under some model and context is found by any query with the same normalised text, same model and context and no extras, with the same response, chunks, context and model (also lines 134, 149-168) |
| QueryCache.BothRecordsStored | src/infrastructure/caching/query_cache.py:149-168 | with room for both records, the query record stays stored, unchanged, after the side record is written |
| QueryCache.InvalidateQuery | src/infrastructure/caching/query_cache.py:348-373 | invalidation hashes with an empty context, removes both namespaced keys, reports true iff either existed, and leaves every other entry as it was |
| QueryCache.InvalidateMissesContextualEntry | src/infrastructure/caching/query_cache.py:134 | a record cached with a non-empty context survives invalidate_query of the same query and model (also line 360) |
| QueryCache.SideRecordKeyMatchesRetrievalKey | src/infrastructure/caching/query_cache.py:134 | the side record written by cache_query_result sits under the retrieval lookup's key exactly when model and context are empty (also lines 159, 291) |
| QueryCache.CacheRetrievalResult | src/infrastructure/caching/query_cache.py:273-318 | the retrieval record is stored iff it fits, under retrieval:<hash of the normalised query> with ttl `ttl or 3600` |
| QueryCache.GetRetrievalResult | src/infrastructure/caching/query_cache.py:320-346 | the lookup returns the stored value iff the retrieval key is present and unexpired, falsy values included |
| QueryCache.RetrievalRoundTrip | src/infrastructure/caching/query_cache.py:291-307 | a stored retrieval record is returned, unexpired, to any query with the same normalised text (also lines 329-342) |
| QueryCache.LengthBucketOf | src/infrastructure/caching/query_cache.py:395-404 | lengths up to 50 are short, up to 200 medium, up to 500 long, longer very long, each bucket exactly its range |
| QueryCache.LengthBucketMonotone | src/infrastructure/caching/query_cache.py:395-404 | a longer input never lands in a smaller bucket |
| CacheMiddleware.SortByKey | src/infrastructure/caching/cache_middleware.py:63 | sorting the keyword arguments keeps exactly the same items |
| CacheMiddleware.SortByKeySorted | src/infrastructure/caching/cache_middleware.py:63 | keyword arguments with distinct names come out ordered by name |
| CacheMiddleware.SortedByKeyUnique | src/infrastructure/caching/cache_middleware.py:63 | two name-ordered sequences of the same items are identical, so the sorted form does not depend on the call order |
| CacheMiddleware.DefaultKey | src/infrastructure/caching/cache_middleware.py:59-66 | the default key is the cache type, a ':' and the digest of the joined name, arguments and sorted keyword pairs |
| CacheMiddleware.DefaultKeyIgnoresKwargOrder | src/infrastructure/caching/cache_middleware.py:61-66 | calls passing the same keyword arguments in different orders share a default key |
| CacheMiddleware.CallKey | src/infrastructure/caching/cache_middleware.py:55-66 | a supplied key function replaces the default key; without one the key carries the cache-type prefix |
| CacheMiddleware.CacheResult | src/infrastructure/caching/cache_middleware.py:50-119 | a cached non-None value is returned without running the function; otherwise the function runs once, a returned value is put with the decorator's ttl and returned whether the put succeeded or not, and a raised exception propagates with nothing stored |
| CacheMiddleware.CachedNoneIsMiss | src/infrastructure/caching/cache_middleware.py:70-72 | a cached None is treated as a miss: the function runs again |
| CacheMiddleware.SecondCallHits | src/infrastructure/caching/cache_middleware.py:70-115 | after a miss stores a non-None result that fits, an identical call before expiry returns the same value without running the function |
| CacheMiddleware.Kwarg | src/infrastructure/caching/cache_middleware.py:137 | kwargs.get gives the default when the name is absent and the passed value when it is present |
| CacheMiddleware.EmbeddingKey | src/infrastructure/caching/cache_middleware.py:131-140 | embedding keys are "emb:" followed by the digest of "embedding:{model}:{text}" |
| CacheMiddleware.CacheEmbedding | src/infrastructure/caching/cache_middleware.py:125-142 | a cached non-None embedding under the emb: key is returned without running the function; otherwise the function runs once, and a returned value that fits is stored under that key with `ttl or default_ttl` of the ttl as passed (3600 when omitted) |
| CacheMiddleware.CacheWithTtl | src/infrastructure/caching/cache_middleware.py:145-152 | under the default key with the "ttl:" prefix, a cached non-None value is returned without a call; otherwise the function runs once and a returned value that fits is stored with the given ttl, the cache default for 0 |
| CacheMiddleware.EmbeddingKeyIgnoresOtherArgs | src/infrastructure/caching/cache_middleware.py:136-140 | only the first positional argument and the model keyword reach the embedding key |
| CacheMiddleware.PrefixedLookup | src/infrastructure/caching/cache_middleware.py:162-178 | a cached non-None value is returned; on a miss the function runs and the call to the undefined `cache_service.set` raises, so the miss path always fails (also lines 191-207) |
| CacheMiddleware.CacheRagQuery | src/infrastructure/caching/cache_middleware.py:154-180 | a returned result always comes from the cache, and the wrapper never adds a key |
| CacheMiddleware.CacheDocumentProcessing | src/infrastructure/caching/cache_middleware.py:183-209 | a returned result always comes from the cache, and the wrapper never adds a key |
| DocumentSerializer.SerializeMetadata | src/infrastructure/caching/document_serializer.py:131-155 | the same keys come out, every value JSON-encodable: encodable values unchanged, others replaced by their str() text, and empty metadata stays empty |
| DocumentSerializer.SerializeMetadataIdentity | src/infrastructure/caching/document_serializer.py:140-155 | serialising leaves metadata unchanged exactly when every value is JSON-encodable |
| DocumentSerializer.SerializeToDict | src/infrastructure/caching/document_serializer.py:77-96 | one {page_content, metadata} dict per document, same length and order |
| DocumentSerializer.ItemToDoc | src/infrastructure/caching/document_serializer.py:118-122 | an accepted item becomes a document with the item's page_content as its text |
| DocumentSerializer.DocItems | src/infrastructure/caching/document_serializer.py:117-118 | the kept items are the dicts with a "page_content" key, never more than the input |
| DocumentSerializer.DecodeItems | src/infrastructure/caching/document_serializer.py:115-129 | every kept item becomes one document, in order; the whole call fails only when some kept item is rejected by the Document constructor |
| DocumentSerializer.DeserializeFromDict | src/infrastructure/caching/document_serializer.py:102-129 | empty input gives [], and there are never more documents than input items |
| DocumentSerializer.DictRoundTrip | src/infrastructure/caching/document_serializer.py:157-170 | deserialising the dict form gives back as many documents with the same text and the serialised metadata, so documents with JSON-encodable metadata come back unchanged (also lines 86-96, 117-123) |
| DocumentSerializer.SerializeDocuments | src/infrastructure/caching/document_serializer.py:22-45 | the JSON text of the dict form, "[]" for no documents |
| DocumentSerializer.DeserializeDocuments | src/infrastructure/caching/document_serializer.py:47-75 | empty text, unparsable text and any JSON value other than a list give [] |
| DocumentSerializer.TextRoundTrip | src/infrastructure/caching/document_serializer.py:22-75 | when parsing inverts encoding, the text round trip gives the same documents as the dict round trip |
| Documents.MetaGet | src/infrastructure/caching/document_serializer.py:67 | metadata.get(key, default) gives the stored value for a present key and the default otherwise |
| UtilityService.TruncateText | src/infrastructure/utilities/utility_service.py:158-162 | text within max_length comes back unchanged; longer text becomes a prefix of itself plus the suffix, exactly max_length long when the suffix fits |
| UtilityService.SplitIntoBatches | src/infrastructure/utilities/utility_service.py:178-190 | a batch size of 0 or less raises; any other size gives the batches of the list in order |
| UtilityService.BatchesConcat | src/infrastructure/utilities/utility_service.py:185-186 | the batches concatenate back to the list |
| UtilityService.BatchesCount | src/infrastructure/utilities/utility_service.py:185-186 | there are ceil(n / batch_size) batches |
| UtilityService.BatchesSizes | src/infrastructure/utilities/utility_service.py:185-186 | every batch but the last holds exactly batch_size items and the last holds between 1 and batch_size |
| UtilityService.ReplaceEachPointwise | src/infrastructure/utilities/utility_service.py:140-143 | the replace loop turns each unsafe character into '_' and keeps every other character |
| UtilityService.ReplaceAndStrip | src/infrastructure/utilities/utility_service.py:140-146 | after replacement and strip no unsafe character is left and there is nothing more to strip |
| UtilityService.SafeFilename | src/infrastructure/utilities/utility_service.py:137-156 | the safe name is never empty and holds none of < > : " / \ | ? * |
| UtilityService.SafeFilenameIdempotent | src/infrastructure/utilities/utility_service.py:137-156 | a safe name is its own safe name |
| UtilityService.SafeFilenameFixes | src/infrastructure/utilities/utility_service.py:137-156 | a non-empty stripped name without unsafe characters is left as it is |
| UtilityService.CleanText | src/infrastructure/utilities/utility_service.py:170-176 | the cleaned text is the whitespace-separated words joined by single spaces: the final strip() never removes anything |
| UtilityService.CleanTextIdempotent | src/infrastructure/utilities/utility_service.py:170-176 | cleaning cleaned text changes nothing |
| UtilityService.CleanTextShape | src/infrastructure/utilities/utility_service.py:170-176 | cleaned text has no whitespace but single spaces between words and none at either end |
| UtilityService.RFind | src/infrastructure/utilities/utility_service.py:70 | the index found is the last occurrence of the character, or -1 when there is none |
| UtilityService.Extension | src/infrastructure/utilities/utility_service.py:70 | the extension is empty or a '.' followed by text free of '.' and '/' that ends the path |
| UtilityService.ExtensionOfName | src/infrastructure/utilities/utility_service.py:70 | a file name whose stem is not all dots has the text after its last dot as the extension |
| UtilityService.DotFileHasNoExtension | src/infrastructure/utilities/utility_service.py:70 | a leading-dot name such as ".env" has no extension |
| UtilityService.ValidateFileType | src/infrastructure/utilities/utility_service.py:67-83 | the file is valid iff its lower-cased extension is one of the allowed types |
| UtilityService.UpperCaseExtensionAccepted | src/infrastructure/utilities/utility_service.py:70-71 | "report.PDF" passes as ".pdf": the check ignores case |
| UtilityService.FileSizeUnit | src/infrastructure/utilities/utility_service.py:126-135 | the unit is B below 1024, KB below 1024², MB below 1024³ and GB from there on, each exactly its range |
| UtilityService.FormatFileSize | src/infrastructure/utilities/utility_service.py:126-135 | sizes below 1024 read "{n} B"; a larger size reads as its value in the FileSizeUnit (divided by 1024, 1024² or 1024³) rendered to one decimal, a space and "KB", "MB" or "GB" |
| UtilityService.UnitBytes | src/infrastructure/utilities/utility_service.py:130-135 | each unit is at least one byte: 1, 1024, 1024² and 1024³ |
| UtilityService.ScaledSizeInRange | src/infrastructure/utilities/utility_service.py:128-135 | the value printed before KB or MB lies in [1, 1024), and before GB it is at least 1: the unit chosen is the largest one the size fills |
| UtilityService.NewTracker | src/infrastructure/utilities/utility_service.py:208-219 | a tracker starts at 0 of its total |
| UtilityService.Update | src/infrastructure/utilities/utility_service.py:225-229 | an update adds the increment and caps the count at total, never above it |
| UtilityService.GetProgress | src/infrastructure/utilities/utility_service.py:235-247 | complete iff current has reached total; the percentage is 0 when total is not positive and within [0, 100] while current is between 0 and total |
| UtilityService.UpdatesCapAtTotal | src/infrastructure/utilities/utility_service.py:225-229 | from a fresh tracker, non-negative updates leave the running total capped at total |
| LegacyUtils.TruncateText | utils.py:63-67 | text within max_length comes back unchanged; longer text ends with the suffix and is exactly max_length long when the suffix fits |
| LegacyUtils.SafeFilename | utils.py:55-61 | the legacy name holds no unsafe character and differs from the service's safe name only by the "untitled" fallback |
| LegacyUtils.SafeFilenameCanBeEmpty | utils.py:55-61 | a blank name comes back empty: there is no "untitled" fallback |
| LegacyUtils.SplitIntoBatches | utils.py:83-88 | with no guard, a batch size of 0 raises, a negative one gives [] and a positive one gives the service's batches |
| LegacyUtils.ValidateFileType | utils.py:19-22 | the file is valid iff its lower-cased extension is among the allowed types |
| LegacyUtils.Update | utils.py:109-113 | an update adds the increment and caps the count at total |
| LegacyUtils.GetProgress | utils.py:115-127 | complete iff current has reached total, with a 0 percentage when total is not positive |
| LegacyUtils.UpdatePastTotalCompletes | utils.py:109-127 | an update that reaches total lands exactly on total and completes the tracker |
| LegacyUtils.CleanText | utils.py:75-81 | the legacy cleaning gives the words joined by single spaces, the same text as the service version |
| Metrics.EmptyMetrics | src/infrastructure/monitoring/metrics_service.py:63-74 | a new service holds no series, counters, gauges or histograms, and satisfies the capacity invariant the recording operations keep |
| Metrics.AddValue | src/infrastructure/monitoring/metrics_service.py:45-49 | the new point is always last; a series within capacity keeps exactly its newest max_size points |
| Metrics.AddAllKeepsNewest | src/infrastructure/monitoring/metrics_service.py:45-49 | after any number of additions a series holds exactly the newest max_size points of its history |
| Metrics.GetLatest | src/infrastructure/monitoring/metrics_service.py:51-53 | values[-count:]: a count of 0 gives every point, a positive count the newest count points, a negative one drops that many from the front |
| Metrics.GetRange | src/infrastructure/monitoring/metrics_service.py:55-57 | exactly the points with start <= timestamp <= end, in stored order: a subsequence of the stored points, all in the window, as many as there are stored points in the window, so repeated equal points are all kept |
| Metrics.RecordMetric | src/infrastructure/monitoring/metrics_service.py:85-113 | the series is created with capacity 1000 on first use and otherwise receives the point; no other series, counter or histogram changes |
| Metrics.IncrementCounter | src/infrastructure/monitoring/metrics_service.py:127-141 | the counter goes up by exactly 1 from 0 or its value, no other counter or histogram changes, and the new count is the last point of series name+"_total" |
| Metrics.CounterSuffixDoubles | src/infrastructure/monitoring/metrics_service.py:141 | counting 'cache_hit_total' records into 'cache_hit_total_total' |
| Metrics.CounterCounts | src/infrastructure/monitoring/metrics_service.py:138 | counting n times from nothing gives exactly n |
| Metrics.MinOf | src/infrastructure/monitoring/metrics_service.py:173 | min() is a value of the window and no value is below it |
| Metrics.MaxOf | src/infrastructure/monitoring/metrics_service.py:174 | max() is a value of the window and no value is above it |
| Metrics.Stats | src/infrastructure/monitoring/metrics_service.py:168-175 | the statistics of a window: its count and sum, a min and max that are values of it and bound every value, and avg = sum / count, which lies between min and max |
| Metrics.MeanBetween | src/infrastructure/monitoring/metrics_service.py:172-174 | the mean of a non-empty window lies between its min and max |
| Metrics.RecordStats | src/infrastructure/monitoring/metrics_service.py:177-179 | the statistics are recorded as series name_count ... name_max without touching histograms or counters |
| Metrics.Window | src/infrastructure/monitoring/metrics_service.py:161-165 | a histogram window after an append is non-empty and keeps the newest 1000 values |
| Metrics.RecordHistogram | src/infrastructure/monitoring/metrics_service.py:148-179 | only the named window changes, keeping its newest 1000 values, and the statistics series are recorded |
| Metrics.StoreWindow | src/infrastructure/monitoring/metrics_service.py:161-165 | storing the window changes only the named histogram |
| Metrics.GetMetrics | src/infrastructure/monitoring/metrics_service.py:186-244 | exactly the series whose name contains the pattern (all for no pattern), each cut to its newest 100 points; statistics for exactly the non-empty histograms; counters and gauges as they are |
| Metrics.ClearSeries | src/infrastructure/monitoring/metrics_service.py:381-384 | exactly the points strictly newer than the cutoff survive, in order: the survivors are a subsequence, all newer, and as many as there are newer points, so no duplicate is dropped |
| Metrics.ClearSeriesIdempotent | src/infrastructure/monitoring/metrics_service.py:381-384 | clearing a series twice with one cutoff is clearing it once |
| Metrics.ClearMetrics | src/infrastructure/monitoring/metrics_service.py:370-385 | every series keeps only its points strictly newer than now minus the hours; no series disappears, and nothing but the series changes |
| Metrics.ClearAll | src/infrastructure/monitoring/metrics_service.py:380-384 | the sweep over all series neither adds nor removes a series, and each one is cut at the same cutoff |
| Metrics.ClearMetricsIdempotent | src/infrastructure/monitoring/metrics_service.py:370-385 | clearing twice with the same cutoff is clearing once |
| Metrics.GetMetricHistory | src/infrastructure/monitoring/metrics_service.py:250-269 | an unknown series gives []; otherwise exactly the stored points of the last `hours` up to now: every returned point lies in the window, every stored point in the window is returned, in stored order, and there are as many as there are stored points in the window |
| HealthCheck.CountWith | src/infrastructure/monitoring/health_check_service.py:252-259 | the count of results with a status is positive iff some stored result has it |
| HealthCheck.OverallStatus | src/infrastructure/monitoring/health_check_service.py:243-272 | UNKNOWN iff nothing is stored; UNHEALTHY iff some result is unhealthy; DEGRADED iff some is degraded and none unhealthy; HEALTHY iff results exist and all are healthy or unknown |
| HealthCheck.UnhealthyDominates | src/infrastructure/monitoring/health_check_service.py:264-265 | storing one unhealthy result makes the overall status UNHEALTHY whatever else is stored |
| HealthCheck.Register | src/infrastructure/monitoring/health_check_service.py:89-99 | registering adds or overwrites the check for the name, leaving other checks and all stored results alone |
| HealthCheck.Unregister | src/infrastructure/monitoring/health_check_service.py:102-112 | unregistering removes the check and its stored result, keeps every other name with its check and result unchanged, and is a no-op for an unknown name |
| HealthCheck.RegisterUnregister | src/infrastructure/monitoring/health_check_service.py:89-112 | registering then unregistering a new name restores the service |
| HealthCheck.CheckResult | src/infrastructure/monitoring/health_check_service.py:192-239 | a check that returns is stored as returned with its check time and response time stamped; one that raises, or a missing check (KeyError), is stored as UNHEALTHY with the error text |
| HealthCheck.KeyErrorText | src/infrastructure/monitoring/health_check_service.py:200-232 | the error text of a missing check is str(KeyError(name)), the repr of the name, which reads back as the name |
| PyCore.UnreprOfRepr | src/infrastructure/monitoring/health_check_service.py:232 | repr() of a string (single quotes unless it holds a single quote and no double quote; backslash, the quote, tab, newline, return and unprintable Latin-1 characters escaped) is a literal that reads back as the string |
| PyCore.PlainRepr | src/infrastructure/monitoring/health_check_service.py:232 | a name without quotes, backslashes or unprintable characters is written as itself between single quotes |
| PyCore.ReprExamples | src/infrastructure/monitoring/health_check_service.py:232 | "it's" is written between double quotes, and a backslash is doubled |
| HealthCheck.CheckComponent | src/infrastructure/monitoring/health_check_service.py:192-239 | checking a component rewrites only that component's stored result |
| HealthCheck.CheckAll | src/infrastructure/monitoring/health_check_service.py:132-135 | a full check runs every registered check once and keeps results stored under other names |
| HealthCheck.CheckHealth | src/infrastructure/monitoring/health_check_service.py:115-150 | a named check runs only if registered and nothing runs otherwise; no name runs all checks; the overall status is always over every stored result and the components are the stored results |
| HealthCheck.IsHealthy | src/infrastructure/monitoring/health_check_service.py:171-178 | healthy iff after a full check some result is stored and none is degraded or unhealthy |
| HealthCheck.CheckServiceHealth | src/infrastructure/monitoring/health_check_service.py:442-481 | the stored result for the name is returned; an unregistered name hits KeyError inside the guarded block and is stored and returned as UNHEALTHY, so UNKNOWN is never returned for it |
| HealthCheck.UnknownServicePoisonsOverall | src/infrastructure/monitoring/health_check_service.py:230-239 | after asking about an unregistered service, every later full check reports UNHEALTHY overall (also lines 198-200, 455-459) |
| HealthCheck.GetComponentHealth | src/infrastructure/monitoring/health_check_service.py:159-169 | the stored record for the name, None when nothing is stored |
| HealthCheck.UnhealthyComponents | src/infrastructure/monitoring/health_check_service.py:180-190 | exactly the stored results whose status is UNHEALTHY or DEGRADED |
| HealthCheck.NoUnhealthyIffHealthyOrUnknown | src/infrastructure/monitoring/health_check_service.py:243-272 | nothing is reported failing exactly when the overall status is HEALTHY or UNKNOWN (also lines 180-190) |
| HealthCheck.UsageStatus | src/infrastructure/monitoring/health_check_service.py:285-293 | usage above the failure bound is UNHEALTHY, at most the warning bound HEALTHY, in between DEGRADED; no reading is HEALTHY (also lines 328-336) |
| HealthCheck.MemoryStatus | src/infrastructure/monitoring/health_check_service.py:285-293 | memory above 90 % fails and above 80 % degrades |
| HealthCheck.DiskStatus | src/infrastructure/monitoring/health_check_service.py:328-336 | disk above 95 % fails and above 90 % degrades |
| HealthCheck.DatabaseStatus | src/infrastructure/monitoring/health_check_service.py:362-381 | the database check is HEALTHY iff a vector store exists, and DEGRADED otherwise, never UNHEALTHY |
| HealthCheck.ApiKeyStatus | src/infrastructure/monitoring/health_check_service.py:399-416 | a missing key fails; a key is HEALTHY iff it is present and starts with "AIza" |
| MonitoringMiddleware.Merge | src/infrastructure/monitoring/monitoring_middleware.py:108-113 | a dict update holds the keys of both maps, the update's values winning (also line 45) |
| MonitoringMiddleware.MergeAssociative | src/infrastructure/monitoring/monitoring_middleware.py:45 | updating with a and then b is updating once with a merged with b |
| MonitoringMiddleware.SetRequestContext | src/infrastructure/monitoring/monitoring_middleware.py:36-45 | setting creates the context if missing and merges the update into it, later keys winning |
| MonitoringMiddleware.GetRequestContext | src/infrastructure/monitoring/monitoring_middleware.py:47-55 | the context read back is the stored map, or {} when none was ever set |
| MonitoringMiddleware.ClearRequestContext | src/infrastructure/monitoring/monitoring_middleware.py:57-60 | clearing leaves an empty context and creates none that did not exist |
| MonitoringMiddleware.SetTwice | src/infrastructure/monitoring/monitoring_middleware.py:36-55 | two successive sets read back as one set with the merged update |
| MonitoringMiddleware.ClearThenSet | src/infrastructure/monitoring/monitoring_middleware.py:36-60 | after a clear, a set reads back exactly its own update |
| MonitoringMiddleware.MetricName | src/infrastructure/monitoring/monitoring_middleware.py:102 | the metric name is the given one, or module.function when none is given |
| MonitoringMiddleware.AllTags | src/infrastructure/monitoring/monitoring_middleware.py:108-113 | the tags hold function and module, every explicit tag, and every context value not overridden by a tag |
| MonitoringMiddleware.TagPrecedence | src/infrastructure/monitoring/monitoring_middleware.py:108-113 | an explicit tag beats a context value, which beats the built-in function and module tags |
| MonitoringMiddleware.MonitorPerformance | src/infrastructure/monitoring/monitoring_middleware.py:96-183 | the wrapped outcome comes back unchanged, the duration is recorded either way, and exactly one of name_success_total or name_error_total goes up by 1: every other counter keeps its value and no other counter appears |
| MonitoringMiddleware.RecordResult | src/infrastructure/monitoring/monitoring_middleware.py:221-227 | a gauge point and a histogram value are recorded only for a numeric result, and counters are untouched |
| MonitoringMiddleware.TrackMetrics | src/infrastructure/monitoring/monitoring_middleware.py:205-237 | the outcome comes back unchanged; the counter goes up by 1 before the call; a failing call also adds 1 to counter_name+"_error"; histograms change only for numeric results |
| MonitoringMiddleware.LengthBucketName | src/infrastructure/monitoring/monitoring_middleware.py:350-366 | "short" iff the length is at most 50 and "very_long" iff above 500 |
| MonitoringMiddleware.CountBucketOf | src/infrastructure/monitoring/monitoring_middleware.py:368-384 | counts up to 5 are small, up to 20 medium, up to 100 large, beyond very large, each bucket exactly its range |
| MonitoringMiddleware.CountBucketMonotone | src/infrastructure/monitoring/monitoring_middleware.py:368-384 | more vectors never land in a smaller bucket |
| MonitoringMiddleware.TrackVectorOperation | src/infrastructure/monitoring/monitoring_middleware.py:314-347 | a vector operation records its count series and time histogram and adds exactly 1 to rag_vector_<op>_total |
| MonitoringMiddleware.TrackDocumentProcessing | src/infrastructure/monitoring/monitoring_middleware.py:254-281 | a processing run records the document count and time and adds exactly 1 to rag_document_processing_total |
| DependencyInjection.NewContainer | src/infrastructure/di/container.py:72-78 | a new container has no descriptors, no cached singletons or scoped instances, and an empty resolving stack |
| DependencyInjection.Register | src/infrastructure/di/container.py:80-111 | registering replaces the descriptor of the type, the implementation defaulting to the type itself, and leaves every other descriptor and every cache as it was |
| DependencyInjection.RegisterInstance | src/infrastructure/di/container.py:113-122 | a registered instance becomes a singleton descriptor holding it and is also put in the singleton cache |
| DependencyInjection.ClearScoped | src/infrastructure/di/container.py:206-244 | clearing the scope (also leaving a ServiceScope) empties the scoped cache and changes nothing else |
| DependencyInjection.RemovePushed | src/infrastructure/di/container.py:153-165 | removing a type pushed onto a stack it was not on restores the stack |
| DependencyInjection.TryResolve | src/infrastructure/di/container.py:131-165 | a type being resolved raises the cycle error; an unregistered type gives None; a cached singleton or scoped instance is returned as is; a new singleton or scoped instance is cached; a transient never touches the caches; a constructed transient is a new object |
| DependencyInjection.CreateAndCache | src/infrastructure/di/container.py:152-165 | creation pushes and pops the type and caches a successful result under the descriptor's lifetime; a raising creation leaves the type's cache entries as they were |
| DependencyInjection.CreateInstance | src/infrastructure/di/container.py:167-204 | a stored instance is returned first, then the factory's result or its exception, and otherwise a new object of the implementation built from resolved parameters, or the exception its constructor raises |
| DependencyInjection.ResolveParams | src/infrastructure/di/container.py:187-201 | a parameter without an annotation raises; the resolved arguments are never None and keep their order, and a parameter with a default may be skipped |
| DependencyInjection.Resolve | src/infrastructure/di/container.py:124-129 | resolve succeeds exactly when try_resolve gives a value other than None, and an unregistered type raises "服务类型 T 未注册" |
| DependencyInjection.RegisteredInstanceResolves | src/infrastructure/di/container.py:113-147 | a registered instance is what resolve returns, and resolving it changes nothing |
| DependencyInjection.SingletonResolvedOnce | src/infrastructure/di/container.py:145-159 | a singleton resolved once is returned again with no new object made |
| DependencyInjection.ScopedReusedUntilCleared | src/infrastructure/di/container.py:206-209 | a scoped instance is reused until clear_scoped, after which it is no longer cached and singletons stay (also lines 148-150, 160-161) |
| DependencyInjection.TransientIsFresh | src/infrastructure/di/container.py:152-163 | two transient constructions never return the same object (also lines 203-204) |
| DependencyInjection.ReRegisterKeepsSingleton | src/infrastructure/di/container.py:80-89 | re-registering a singleton that has been created keeps returning the old object (also lines 145-147) |
| DependencyInjection.SelfDependencyIsCycle | src/infrastructure/di/container.py:189-193 | a class whose constructor needs itself is reported as the cycle "A -> A" and leaves the container unchanged (also lines 135-137) |
| DependencyInjection.RaisingConstructorNotCached | src/infrastructure/di/container.py:152-165 | a singleton whose constructor raises makes resolve raise that exception, is not cached, and is constructed again on the next resolve (also line 204) |
| DependencyInjection.StackRestored | src/infrastructure/di/container.py:153-165 | after any resolution, successful or not, the resolving stack is as it was |
| PluginManager.NewManager | src/infrastructure/extensions/plugin_manager.py:87-105 | a new manager knows no plugins, has none loaded and no extension points |
| PluginManager.Discover | src/infrastructure/extensions/plugin_manager.py:126-137 | a discovered plugin's info is stored fresh and UNLOADED, replacing any earlier info, and nothing is loaded |
| PluginManager.SetStatus | src/infrastructure/extensions/plugin_manager.py:166-199 | a status change touches only the named plugin's status |
| PluginManager.DependenciesMet | src/infrastructure/extensions/plugin_manager.py:452-471 | the dependencies are met exactly when each one is known and LOADED or ACTIVE |
| PluginManager.Load | src/infrastructure/extensions/plugin_manager.py:145-220 | an already loaded plugin succeeds with no change; one without info fails with no change; success makes it loaded and LOADED, failure leaves it ERROR and not loaded; no other plugin changes |
| PluginManager.SelfDependencyNeverLoads | src/infrastructure/extensions/plugin_manager.py:461-469 | a plugin listing itself as a dependency never loads, because it is LOADING while its dependencies are checked (also lines 166-172) |
| PluginManager.Start | src/infrastructure/extensions/plugin_manager.py:222-266 | an unloaded plugin gives false; an ACTIVE one gives true unchanged; start() True makes it ACTIVE, False makes it ERROR but still loaded; an exception changes nothing |
| PluginManager.Stop | src/infrastructure/extensions/plugin_manager.py:268-301 | a plugin not loaded counts as stopped; stop() True makes it LOADED; otherwise false and no change |
| PluginManager.Unload | src/infrastructure/extensions/plugin_manager.py:303-340 | success exactly when the plugin is no longer loaded; a successful unload marks it UNLOADED; a failing cleanup() leaves it loaded |
| PluginManager.LoadStartUnload | src/infrastructure/extensions/plugin_manager.py:145-340 | load, start and unload of a plugin whose dependencies are met all succeed and leave it UNLOADED and not loaded |
| PluginManager.ActivePlugins | src/infrastructure/extensions/plugin_manager.py:362-372 | the active plugins are exactly the known plugins whose status is ACTIVE |
| PluginManager.RegisterExtensionPoint | src/infrastructure/extensions/plugin_manager.py:374-386 | the callback is appended to the point's list, created if missing, and no other point changes |
| PluginManager.Returns | src/infrastructure/extensions/plugin_manager.py:400-410 | the results are exactly the values of the callbacks that returned, in registration order (the list comprehension over the callbacks that did not raise); when none raises there is one per callback |
| PluginManager.ReturnsAppend | src/infrastructure/extensions/plugin_manager.py:403-408 | the results of two callback lists run one after the other are the two result lists concatenated |
| PluginManager.CallExtensionPoint | src/infrastructure/extensions/plugin_manager.py:388-410 | an unknown point gives []; a known one gives the values of its returning callbacks in registration order, at most one per callback |
| PluginManager.RegisteredCallbackRunsLast | src/infrastructure/extensions/plugin_manager.py:374-410 | after registering a callback that returns, its value comes last in the point's results |
| ExtensionPoints.NewRegistry | src/infrastructure/extensions/extension_points.py:93-134 | a new registry knows exactly the predefined points, each with no hooks, over the given plugin manager |
| ExtensionPoints.NewRegistryHas24Points | src/infrastructure/extensions/extension_points.py:100-134 | a new registry knows exactly 24 extension points, each with a hook count of 0 (also lines 251-261) |
| ExtensionPoints.RegisterHook | src/infrastructure/extensions/extension_points.py:138-162 | registering always succeeds: the point is created if missing, the hook is appended, no other point changes, and the same callback is appended to the plugin manager's point |
| PyCore.RemoveFirstCutsFirst | src/infrastructure/extensions/extension_points.py:183 | list.remove drops exactly the first occurrence of the hook and keeps everything around it |
| ExtensionPoints.UnregisterHook | src/infrastructure/extensions/extension_points.py:168-191 | unregistering succeeds exactly when the point holds the hook, then removes one occurrence; otherwise nothing changes; the plugin manager's copy stays |
| ExtensionPoints.Execute | src/infrastructure/extensions/extension_points.py:193-240 | an unknown point gives []; otherwise the result is the values of exactly those callbacks that returned, taken from the point's hooks followed by the plugin manager's callbacks of the same name, in that order |
| ExtensionPoints.HookCount | src/infrastructure/extensions/extension_points.py:251-261 | the hook count is the length of the point's list, and 0 for an unknown point |
| ExtensionPoints.UnknownPointIgnoresManager | src/infrastructure/extensions/extension_points.py:209-211 | a point the plugin manager knows but the registry does not executes to [] |
| ExtensionPoints.RegisteredHookRunsTwice | src/infrastructure/extensions/extension_points.py:220-234 | on a fresh registry one registered hook contributes its value twice: once directly and once through the plugin manager (also lines 150-159) |
| ExtensionPoints.UnregisteredHookStillRunsOnce | src/infrastructure/extensions/extension_points.py:180-185 | after unregistering that hook it still contributes once, through the plugin manager (also lines 156-159, 231-234) |
| ExtensionPoints.StagePoint | src/infrastructure/extensions/extension_points.py:276-406 | every RAG stage executes one of the predefined points |
| ExtensionPoints.MergeResults | src/infrastructure/extensions/extension_points.py:290-296 | for results that are values of their own, merging keeps every key of the data, and every new key comes from some dict result; MergeLiveIsMergeOfOwnValues makes it the merge of the shared dict |
| ExtensionPoints.MergeIgnoresNonDict | src/infrastructure/extensions/extension_points.py:293 | a result that is not a dict changes nothing |
| ExtensionPoints.MergeLaterWins | src/infrastructure/extensions/extension_points.py:292-294 | among results that are values of their own, the last dict result that mentions a key decides its value; RunStageLiveDecides carries this over to the shared dict |
| ExtensionPoints.MergeKeepsUntouched | src/infrastructure/extensions/extension_points.py:292-294 | a key that no dict result of its own mentions keeps the value it had before the merge |
| ExtensionPoints.RunStage | src/infrastructure/extensions/extension_points.py:276-296 | for hooks that neither change nor return the shared dict (PureHooksAreRunStage), a stage keeps every key of its data and, when its point is unknown, returns the data unchanged |
| ExtensionPoints.RunHooks | src/infrastructure/extensions/extension_points.py:220-234 | the hooks run in order, each on the data as the previous one left it; a raising hook is skipped but its changes stay; each result of the first hook comes first (also plugin_manager.py:400-410) |
| ExtensionPoints.ExecuteLive | src/infrastructure/extensions/extension_points.py:209-234 | an unknown point runs nothing and leaves the data; otherwise at most one result per hook and manager callback (also lines 214-218, where the caller's dict itself goes into the context) |
| ExtensionPoints.MergeLive | src/infrastructure/extensions/extension_points.py:290-296 | update() on the shared dict keeps every key it had |
| ExtensionPoints.SameDictMergesToNothing | src/infrastructure/extensions/extension_points.py:55 | a result that is the shared dict itself, as the default hooks return, changes nothing when merged (also lines 71, 292-294) |
| ExtensionPoints.MergeLiveIsMergeOfOwnValues | src/infrastructure/extensions/extension_points.py:290-296 | merging into the shared dict is merging the results that are values of their own, the self-results dropping out |
| ExtensionPoints.RunStageLive | src/infrastructure/extensions/extension_points.py:276-296 | a stage on the shared dict keeps every key the hooks left in it, and an unknown point returns the data unchanged |
| ExtensionPoints.RunStageLiveDecides | src/infrastructure/extensions/extension_points.py:214-234 | after the hooks ran, the last dict result of its own that mentions a key decides it, and a key no such result mentions keeps the value the hooks left in place (also lines 290-296) |
| ExtensionPoints.PureRunHooks | src/infrastructure/extensions/extension_points.py:220-234 | hooks that leave the data alone return exactly the values the value-only model lists |
| ExtensionPoints.PureHooksAreRunStage | src/infrastructure/extensions/extension_points.py:214-234 | for hooks that neither change nor return the shared dict, the stage on the shared dict equals RunStage (also lines 290-296) |
| ExtensionPoints.SameDictAfterValueKeepsValue | src/infrastructure/extensions/extension_points.py:290-296 | data {"a": 1} with results [{"a": 2}, the shared dict] ends with a = 2 |
| ExtensionPoints.InPlaceChangeSurvives | src/infrastructure/extensions/extension_points.py:214-218 | a hook that sets "b" in place and returns the shared dict leaves "b" in the stage's result (also lines 290-296) |
| ConfigurationService.DetectEnvironment | src/infrastructure/config/configuration_service.py:85-100 | a non-empty SPACE_ID means PRODUCTION; otherwise the lower-cased APP_ENVIRONMENT (default "development") picks the environment, and an unrecognised name means DEVELOPMENT |
| ConfigurationService.DefaultsFor | src/infrastructure/config/configuration_service.py:102-171 | production turns debugging off, logs at WARNING and serves on 0.0.0.0:7860; testing logs at DEBUG, caps uploads at 10 MB and uses ./test_chroma_db; development and staging use the base defaults; no other key changes and the key set is always the same |
| ConfigurationService.NewService | src/infrastructure/config/configuration_service.py:62-83 | an explicit environment wins over detection, and the cache starts empty |
| ConfigurationService.ConvertValue | src/infrastructure/config/configuration_service.py:203-227 | the built-in default's type decides: a bool is true iff the text is one of the truthy words; an int or float is the parsed number, or the default when parsing fails; a list is the stripped comma pieces, or [text] without a comma; anything else is the text |
| ConfigurationService.ConvertIntRoundTrip | src/infrastructure/config/configuration_service.py:210-212 | an integer setting read back from its own decimal text keeps its value |
| ConfigurationService.GetValue | src/infrastructure/config/configuration_service.py:173-197 | the cached value comes first; then the converted environment variable KEY.upper(), which is cached; then the built-in default, also cached; otherwise the caller's default, which is not cached |
| ConfigurationService.SetValue | src/infrastructure/config/configuration_service.py:199-201 | set_value overrides the key in the cache and changes nothing else |
| ConfigurationService.Reload | src/infrastructure/config/configuration_service.py:324-327 | a reload empties the cache and re-reads the environment |
| ConfigurationService.SetThenGet | src/infrastructure/config/configuration_service.py:173-201 | a value that was set is what get_value returns, whatever the environment says |
| ConfigurationService.ReloadForgetsSet | src/infrastructure/config/configuration_service.py:324-327 | after a reload an earlier set_value is forgotten (also lines 199-201) |
| ConfigurationService.GetValueStable | src/infrastructure/config/configuration_service.py:173-197 | a lookup answers the same before and after any other lookup |
| ConfigurationService.CachedValueSurvivesEnvironmentChange | src/infrastructure/config/configuration_service.py:176-194 | a key already looked up keeps its value when the environment later changes |
| ConfigurationService.Mask | src/infrastructure/config/configuration_service.py:284-290 | a truthy value longer than 8 characters shows its first and last four; a shorter truthy one shows as configured; a falsy one as not configured |
| ConfigurationService.ShowAll | src/infrastructure/config/configuration_service.py:280-292 | every listed key appears, shown or masked after its own lookup, and only listed keys enter the cache |
| ConfigurationService.GetAllConfigs | src/infrastructure/config/configuration_service.py:275-294 | every built-in key appears with its current value, sensitive keys masked |
| ConfigurationService.MaxTokensIsMasked | src/infrastructure/config/configuration_service.py:284-288 | max_tokens contains "token", so its 1000 is shown only as configured (also lines 81-83, 121) |
| ConfigurationService.AtMostZero | src/infrastructure/config/configuration_service.py:253-257 | the comparison v <= 0 is defined exactly for numbers and raises TypeError otherwise |
| ConfigurationService.Report | src/infrastructure/config/configuration_service.py:231-269 | the errors are exactly a missing key, a failed makedirs, and a non-positive chunk_size or max_file_size_mb; valid iff there are no errors; the warnings are a key not starting with "AIza" and a port outside 1024-65535; errors come in the order key, directories, chunk_size, max_file_size_mb, and warnings in the order key format, port; a comparison on a non-number raises |
| ConfigurationService.Errors | src/infrastructure/config/configuration_service.py:236-258 | a missing key, a failed makedirs with its message, and a non-positive chunk_size or max_file_size_mb are each an error exactly when they occur, and nothing else is |
| ConfigurationService.ErrorsInOrder | src/infrastructure/config/configuration_service.py:236-258 | the errors appear in the order they are appended: the key, the directories, chunk_size, then max_file_size_mb |
| ConfigurationService.Warnings | src/infrastructure/config/configuration_service.py:238-263 | a set key not starting with "AIza" and a port outside 1024-65535 are each a warning exactly when they occur, the key format first |
| ConfigurationService.Validate | src/infrastructure/config/configuration_service.py:229-269 | validation reports on the values get_value gives for the key, chunk_size, max_file_size_mb and the port |
| ConfigurationService.FreshServiceUsesDefaults | src/infrastructure/config/configuration_service.py:102-171 | with an empty environment and an empty cache, every built-in key resolves to its default (also lines 190-194) |
| ConfigurationService.DefaultsOnlyMissTheKey | src/infrastructure/config/configuration_service.py:229-269 | with the built-in values the only problem reported is the missing API key (also lines 106, 119, 132, 147) |
| ProductionConfig.DefaultSectionValues | src/infrastructure/config/production_config.py:18-91 | the dataclass defaults the validator looks at: 50 MB uploads, 3600 s sessions, 100 requests, 8 threads, 2048 MB memory, 20 connections, a 3600 s TTL and log level INFO |
| ProductionConfig.DefaultRuleValues | src/infrastructure/config/production_config.py:18-91 | each validation rule reads its field's default from the right section (also lines 246-274) |
| ProductionConfig.Coerce | src/infrastructure/config/production_config.py:158-163 | a bool variable is true iff its text is one of the truthy words; an int variable is its parsed value and fails exactly when int() raises; a str variable is the text |
| ProductionConfig.ApplyEnv | src/infrastructure/config/production_config.py:153-172 | a variable that is set and converts sets its field; one that is unset or fails to convert changes nothing; no other section changes |
| ProductionConfig.LoadFromEnvironment | src/infrastructure/config/production_config.py:151-172 | a section that no mapping names is left as it was |
| ProductionConfig.EnvMappingsTargetExistingFields | src/infrastructure/config/production_config.py:115-143 | each of the environment mappings writes a field its section already has |
| ProductionConfig.EmptyEnvironmentKeepsConfig | src/infrastructure/config/production_config.py:151-155 | with none of the variables set, the environment changes nothing |
| ProductionConfig.BadIntegerIgnored | src/infrastructure/config/production_config.py:160-172 | a variable that int() rejects leaves the configuration as it was |
| ProductionConfig.EnvKeepsKeys | src/infrastructure/config/production_config.py:151-172 | mappings onto existing fields never add or remove a field |
| ProductionConfig.ApplyFile | src/infrastructure/config/production_config.py:189-201 | a JSON object updates exactly the fields the section already has; any other content changes nothing |
| ProductionConfig.LoadFromFiles | src/infrastructure/config/production_config.py:174-201 | a section whose file is absent or unreadable stays as it was; otherwise its file is applied; no section's field set changes |
| ProductionConfig.NewConfig | src/infrastructure/config/production_config.py:97-147 | defaults, then the environment, then the files, with every section keeping its default field set |
| ProductionConfig.FilesNeverAddFields | src/infrastructure/config/production_config.py:174-201 | whatever the environment and the files say, no section gains or loses a field (also lines 145-147) |
| ProductionConfig.CheckAll | src/infrastructure/config/production_config.py:244-274 | the reported rules are exactly the broken ones, in the order the rules are checked, each once when the rules are distinct |
| ProductionConfig.CheckAllNone | src/infrastructure/config/production_config.py:244-274 | when no rule is broken, nothing is reported |
| ProductionConfig.ValidateConfig | src/infrastructure/config/production_config.py:238-281 | validation succeeds exactly when every checked field can be compared with 0, and then reports each broken rule exactly once, in the order the checks run |
| ProductionConfig.DefaultsAreValid | src/infrastructure/config/production_config.py:18-91 | the defaults break no rule (also lines 238-281) |
| ProductionConfig.SecurityHeaders | src/infrastructure/config/production_config.py:293-309 | no headers when secure_headers is falsy, otherwise the six fixed headers |
| ProductionConfig.Harden | src/infrastructure/config/production_config.py:324-349 | in one section the hardening flags become True, the monitoring log_level becomes "INFO", and every other field keeps its value |
| ProductionConfig.OptimizeForProduction | src/infrastructure/config/production_config.py:324-349 | the twelve security, performance, monitoring, database and cache flags become True and log_level becomes "INFO"; every other field keeps its value |
| ProductionConfig.OptimizedConfigSendsHeaders | src/infrastructure/config/production_config.py:324-349 | after hardening, the security headers are always the full set and the log level passes validation (also lines 293-309) |
| AppConfig.GetEnv | config.py:17-39 | os.getenv: a set variable gives its own text, even when that text is empty; an unset one gives the default |
| AppConfig.IntSetting | config.py:24-39 | an integer setting loads iff int() accepts the variable's text, or the default's text when the variable is unset, and it is that number |
| AppConfig.Load | config.py:13-39 | the settings load iff all six integer variables parse; the api key is present iff GOOGLE_API_KEY is set; the string settings are their variables or defaults; only ".pdf" files are allowed |
| AppConfig.EmptyEnvironmentDefaults | config.py:20-39 | with nothing set there is no api key, chunks are 1000 with 200 overlap, top-k is 4, max tokens 1000, file size 50 MB and history 10 |
| AppConfig.EmptyIntegerVariableFails | config.py:24 | CHUNK_SIZE set to the empty text makes loading fail and does not fall back to the default |
| AppConfig.ValidateConfig | config.py:42-51 | the configuration is valid iff a non-empty api key is set; the format warning fires iff that key does not start with "AIza" |
| AppConfig.ApiKeyDisplay | config.py:56-62 | no key shows "not configured"; a key of 8 characters or fewer shows the odd-format notice; a longer one shows its first 4 characters, "...", and its last 4 |
| AppConfig.ConfigInfo | config.py:54-74 | the info dict has exactly the nine keys, with the settings' values, the configured flag and the display text |
| AppConfig.ConfiguredIffValid | config.py:44-72 | api_key_configured, validate_config and the display text agree on whether a key is set |
| AppConfig.LongKeyHidden | config.py:59-60 | a key longer than 11 characters is never shown in full |
| SemanticTextSplitter.NewSplitter | src/application/services/semantic_text_splitter.py:35-58 | the default splitter aims at 1000-character chunks with 200 overlap, drops chunks under 100 and force-splits sentences over 2000 |
| SemanticTextSplitter.StripNonEmpty | src/application/services/semantic_text_splitter.py:107-110 | each kept piece is the stripped form of an input piece and is non-blank; no more pieces come out than went in (also line 170) |
| SemanticTextSplitter.StripNonEmptyKeepsNonBlank | src/application/services/semantic_text_splitter.py:107-110 | every piece survives iff no input piece is blank |
| SemanticTextSplitter.SplitByParagraphs | src/application/services/semantic_text_splitter.py:95-112 | paragraphs come back stripped and non-empty |
| SemanticTextSplitter.SplitBySentences | src/application/services/semantic_text_splitter.py:156-170 | sentences come back stripped and non-empty |
| SemanticTextSplitter.PackWords | src/application/services/semantic_text_splitter.py:213-227 | the packed words read the same as the pending chunk followed by the words, each packed chunk is clean and within the size unless it is one long word, and nothing comes out iff nothing went in |
| SemanticTextSplitter.PackWordsIsGreedy | src/application/services/semantic_text_splitter.py:213-227 | a chunk is flushed only when the word that opens the next chunk would have taken it past the size, and the pending chunk is extended rather than split |
| SemanticTextSplitter.ForceSplitLongSentence | src/application/services/semantic_text_splitter.py:208-227 | joining the pieces with spaces gives the sentence's words joined by single spaces; each piece fits the chunk size unless it is one over-long word; a sentence without words gives no pieces |
| SemanticTextSplitter.ForceSplitKeepsWords | src/application/services/semantic_text_splitter.py:208-227 | the pieces hold exactly the sentence's words, in order |
| SemanticTextSplitter.PackSentences | src/application/services/semantic_text_splitter.py:123-154 | every chunk is clean and fits the chunk size, or is a force-split piece; there are no chunks iff there was nothing to pack |
| SemanticTextSplitter.PackSentencesText | src/application/services/semantic_text_splitter.py:123-154 | the chunks read, joined by spaces, the same as the sentences, with over-long sentences reduced to single-spaced words |
| SemanticTextSplitter.PackSentencesIsGreedy | src/application/services/semantic_text_splitter.py:140-152 | when no sentence needs force-splitting, a chunk is flushed only when the sentence that opens the next chunk would have taken it past chunk_size |
| SemanticTextSplitter.ProcessParagraph | src/application/services/semantic_text_splitter.py:114-154 | a paragraph within the chunk size is its own chunk; a longer one becomes clean, bounded chunks that read the same as its sentences |
| SemanticTextSplitter.SmallSentencesPackTogether | src/application/services/semantic_text_splitter.py:140-152 | sentences that fit one chunk together are packed into exactly that one chunk |
| SemanticTextSplitter.CollectTail | src/application/services/semantic_text_splitter.py:261-269 | the trailing sentences gathered from the end fit the overlap size, and the sentence before them, if any, would not have fitted as well |
| SemanticTextSplitter.ExtractOverlap | src/application/services/semantic_text_splitter.py:253-274 | text within the overlap size is its own overlap; otherwise the overlap has at most overlap_size characters and is either a run of trailing sentences of at least half that size or the stripped last overlap_size characters |
| SemanticTextSplitter.ExtractOverlapUsesLongestTail | src/application/services/semantic_text_splitter.py:258-274 | for a text longer than overlap_size, the overlap is the longest run of final sentences that fits, unless that run is shorter than half of overlap_size, when it is the stripped last overlap_size characters |
| SemanticTextSplitter.WithOverlap | src/application/services/semantic_text_splitter.py:241-247 | a chunk gets the previous chunk's overlap and a space in front when that overlap is non-empty, and is unchanged otherwise |
| SemanticTextSplitter.AddOverlap | src/application/services/semantic_text_splitter.py:229-251 | at most one chunk or a non-positive overlap leaves the chunks unchanged; otherwise the count is kept, the first chunk is unchanged, and each later chunk takes its overlap from the original previous chunk |
| SemanticTextSplitter.KeepLargeEnough | src/application/services/semantic_text_splitter.py:89-91 | the kept chunks are exactly the chunks whose stripped length reaches min_chunk_size, in their original order: a subsequence, all long enough, and as many as there are long enough chunks |
| SemanticTextSplitter.SplitText | src/application/services/semantic_text_splitter.py:61-93 | blank text gives no chunks; every returned chunk's stripped length reaches min_chunk_size |
| SemanticTextSplitter.SplitTextKeepsOrder | src/application/services/semantic_text_splitter.py:78-93 | the result is the overlapped chunks, in order, minus exactly the ones that are too short: every long enough chunk is kept and the count matches |
| SemanticTextSplitter.OneShortParagraph | src/application/services/semantic_text_splitter.py:71-93 | a text that is a single paragraph between min_chunk_size and chunk_size comes back as that paragraph alone (also lines 117-118) |
| SemanticTextSplitter.ChunkMetadata | src/application/services/semantic_text_splitter.py:289-296 | a chunk's metadata is the document's, with chunk_index, chunk_total, splitter_type "semantic" and chunk_method "sentence_boundary" added or overwritten |
| SemanticTextSplitter.DocumentChunks | src/application/services/semantic_text_splitter.py:286-302 | one document per chunk, in order, carrying the chunk's text and its numbered metadata |
| SemanticTextSplitter.TagAllPlacesChunk | src/application/services/semantic_text_splitter.py:282-302 | chunk i of document d sits right after the chunks of the documents before it, with its text and d's metadata numbered i of d's chunk count |
| SemanticTextSplitter.SplitDocuments | src/application/services/semantic_text_splitter.py:276-306 | the output is every input document's chunks, document by document, each tagged as a semantic chunk |
| SemanticTextSplitter.FirstDocumentChunks | src/application/services/semantic_text_splitter.py:282-302 | the first document's k-th chunk comes first in the output at position k, with chunk_index k and chunk_total the number of its chunks |
| SemanticTextSplitter.EveryDocumentChunks | src/application/services/semantic_text_splitter.py:282-302 | every chunk of every document is in the output, at the position after the earlier documents' chunks, carrying its text, the document's metadata, its chunk_index and the document's chunk_total |
| RerankService.Trunc | src/application/services/rerank_service.py:68-74 | int() of a number drops its fraction toward zero, for positive and negative values alike |
| RerankService.GetBool | src/application/services/rerank_service.py:61-66 | a missing key gives the default; a text value is true iff its lower-case form is "true", "1", "yes" or "on"; any other value by its truthiness |
| RerankService.AsInt | src/application/services/rerank_service.py:68-74 | int() accepts an integer as itself and a text iff it parses; None and containers raise |
| RerankService.GetInt | src/application/services/rerank_service.py:68-74 | a missing key or a value int() rejects gives the default; otherwise the converted value |
| RerankService.AsFloat | src/application/services/rerank_service.py:76-82 | float() accepts floats, integers and texts the float parser reads; None and containers raise |
| RerankService.GetFloat | src/application/services/rerank_service.py:76-82 | a missing key or a value float() rejects gives the default; otherwise the converted value |
| RerankService.LoadSettings | src/application/services/rerank_service.py:37-48 | each of the ten settings (use_rerank, initial_k, final_k, score threshold, cache ttl, temperature, max retries, use_diversity, max_per_source, min_sources) is read from its key with its own default and converter |
| RerankService.EmptyConfigDefaults | src/application/services/rerank_service.py:37-48 | with nothing configured: rerank on, initial_k 8, final_k 4, threshold 0.6, cache ttl 3600, temperature 0.1, 3 retries, diversity on with 3 per source and at least 2 sources |
| RerankService.IntSettingFallsBack | src/application/services/rerank_service.py:39-74 | a text rerank_final_k is used iff it parses, and 4 is used otherwise |
| RerankService.BoolSettingWords | src/application/services/rerank_service.py:61-66 | "Yes" and "ON" read as true; "false" and "" read as false |
| RerankService.Sources | src/application/services/rerank_service.py:183-192 | the source groups' keys: no key twice, and every document's key among them |
| RerankService.GroupMembers | src/application/services/rerank_service.py:183-192 | a source group holds only documents with that source, all taken from the input |
| RerankService.GroupConcat | src/application/services/rerank_service.py:183-192 | grouping a concatenation groups each part and concatenates the groups |
| RerankService.RoundOfKey | src/application/services/rerank_service.py:203-205 | one round adds to a listed source exactly its document of that round, if it has one, and nothing to any other source |
| RerankService.RoundsOfKey | src/application/services/rerank_service.py:199-205 | after max_per_source rounds a listed source holds exactly its first max_per_source documents, in order |
| RerankService.RoundsPerKey | src/application/services/rerank_service.py:199-205 | over all sources, every source keeps exactly its first max_per_source documents, in order |
| RerankService.RoundsMembers | src/application/services/rerank_service.py:199-205 | the round-robin only takes input documents |
| RerankService.SourcesAreUsed | src/application/services/rerank_service.py:183-192 | every listed source has at least one document |
| RerankService.SourceOf | src/application/services/rerank_service.py:185-188 | a document without a source is grouped under "unknown"; a text source under its last "/"-separated segment; any other source raises |
| RerankService.SourceIsLastSegment | src/application/services/rerank_service.py:187-188 | the grouping key of a text source is source.split("/")[-1] |
| RerankService.Diversity | src/application/services/rerank_service.py:170-213 | an empty list comes back unchanged; otherwise the step succeeds iff every source is text; with fewer than min_sources sources the documents come back unchanged; the result only holds input documents |
| RerankService.DiversityIsRounds | src/application/services/rerank_service.py:195-213 | with enough sources the result is the round-robin over the sources in order of first appearance |
| RerankService.DiversityPerSource | src/application/services/rerank_service.py:195-213 | with enough sources each source contributes exactly its first max_per_source documents, in order |
| RerankService.RunLength | src/application/services/rerank_service.py:294 | the run of characters from the class [\d\.,\s] starting at a position is maximal |
| RerankService.Search | src/application/services/rerank_service.py:294-295 | re.search finds the leftmost position where a bracketed non-empty run of class characters starts, or reports that none exists |
| RerankService.DecimalTextShape | src/application/services/rerank_service.py:299 | a text float() reads here is non-empty digits with at most one dot |
| RerankService.DecimalOfNat | src/application/services/rerank_service.py:299 | the decimal text of a natural number reads back as that number |
| RerankService.ParseAll | src/application/services/rerank_service.py:299 | reading the pieces succeeds iff every stripped piece is a decimal text, and gives their values in order |
| RerankService.Clamp | src/application/services/rerank_service.py:303 | max(0.0, min(1.0, x)) lies in [0, 1], equals x inside it, and is the nearer bound outside it |
| RerankService.ClampAll | src/application/services/rerank_service.py:303 | every score is clamped, position by position |
| RerankService.ParseScores | src/application/services/rerank_service.py:289-314 | a reply without a match gives no scores; accepted scores number exactly the expected count, which is positive, and lie in [0, 1] |
| RerankService.ParseScoresOfList | src/application/services/rerank_service.py:294-304 | a bracketed comma-separated list of decimal pieces parses to those values, clamped, in order |
| RerankService.ParseScoresOfGroup | src/application/services/rerank_service.py:297-304 | once the match and its pieces are known, the scores are the pieces' values clamped |
| RerankService.DecimalTenths | src/application/services/rerank_service.py:299 | "0.d" reads as d tenths |
| RerankService.WrongCountRefused | src/application/services/rerank_service.py:301 | a list with the wrong number of scores is refused |
| RerankService.Zip | src/application/services/rerank_service.py:241 | zip pairs documents and scores position by position, up to the shorter length |
| RerankService.AtLeast | src/application/services/rerank_service.py:245-248 | the kept pairs all reach the threshold and come from the input |
| RerankService.AtLeastKeepsSorted | src/application/services/rerank_service.py:242-248 | filtering a descending list keeps it descending |
| RerankService.AtLeastCount | src/application/services/rerank_service.py:245-248 | a pair is kept exactly as often as it occurs when its score reaches the threshold, and never otherwise |
| RerankService.AtLeastKeepsEqualScores | src/application/services/rerank_service.py:245-248 | the filter keeps pairs of equal kept scores in their relative order |
| RerankService.Ranked | src/application/services/rerank_service.py:241-248 | the ranking is sorted by descending score and every kept score reaches the threshold |
| RerankService.RankedPermutes | src/application/services/rerank_service.py:241-248 | the ranking holds exactly the scored documents that reach the threshold, each as often as given |
| RerankService.RankedIsStable | src/application/services/rerank_service.py:242 | Python's stable sort keeps documents with equal scores in their input order |
| RerankService.RankedFromInput | src/application/services/rerank_service.py:241-248 | every ranked document is an input document |
| RerankService.Selected | src/application/services/rerank_service.py:250 | at most final_k ranked documents are returned, all from the input |
| RerankService.Attempts | src/application/services/rerank_service.py:234-257 | a successful ranking has at most final_k input documents; the retries raise only when the last attempt raised |
| RerankService.FirstUsableReplyDecides | src/application/services/rerank_service.py:234-250 | the first reply that parses decides the ranking, whatever failed before it |
| RerankService.NoUsableReplyFallsBack | src/application/services/rerank_service.py:234-257 | when no reply parses and the last call returned, the first final_k documents come back |
| RerankService.PerformRerank | src/application/services/rerank_service.py:215-257 | at most final_k documents pass through unchanged; with more, a source the prompt builder rejects raises before any attempt (also lines 259-265); a ranking has at most final_k input documents; otherwise it raises only when the last attempt raised |
| RerankService.TextSourceBuildsPrompt | src/application/services/rerank_service.py:262-265 | a source the diversity grouping accepts (text, or none) never makes the prompt builder raise |
| RerankService.PerformRerankUsesFirstScores | src/application/services/rerank_service.py:231-250 | when the prompt could be built, the first reply whose scores parse is the one whose ranking is returned |
| RerankService.PerformRerankFallsBack | src/application/services/rerank_service.py:231-257 | when the prompt could be built and every reply returns but none parses, the first final_k documents come back |
| RerankService.EffectiveK | src/application/services/rerank_service.py:122-127 | an absent or zero final_k argument takes the configured value |
| RerankService.RerankDocuments | src/application/services/rerank_service.py:108-168 | rerank off or no model gives the first final_k documents; no documents give []; a cached ranking is returned as is; otherwise at most final_k input documents come back; when the diversity step raises (a non-text source) the original first final_k documents come back; with diversity off and more than final_k documents, a source the prompt builder rejects also gives the first final_k documents; when ranking of the diversity output (or of the input, diversity off) succeeds, its ranking is the result |
| RerankService.FewDocumentsPassThrough | src/application/services/rerank_service.py:142-163 | with diversity off and no more documents than final_k, a cache miss returns the input itself (also lines 227-228) |
| RerankService.FailedRankingUsesDiverseOrder | src/application/services/rerank_service.py:142-168 | when the ranking raises, the first final_k of the diversity-ordered documents come back |
| RerankService.RejectedSourceFallsBack | src/application/services/rerank_service.py:146-168 | with diversity off, one document whose source the prompt builder rejects makes rerank_documents return the first final_k documents whatever the replies (also lines 231, 262-265) |
| RerankService.DiverseSourcesBuildPrompt | src/application/services/rerank_service.py:183-187 | once diversity succeeds every source is text, so the prompt of its output never raises (also lines 262-265) |
| RerankRetriever.OrConfigured | src/application/services/rerank_retriever.py:48-49 | `given or configured`: a missing or zero argument takes the configured value |
| RerankRetriever.LoadRetrieverSettings | src/application/services/rerank_retriever.py:48-76 | initial_k and final_k come from the arguments, else the configuration, else 8 and 4; the boost score and match threshold from the configuration, else 0.2 and 0.3 |
| RerankRetriever.EmptyConfigDefaults | src/application/services/rerank_retriever.py:48-54 | with no arguments and no configuration the retriever uses 8, 4, 0.2 and 0.3 |
| RerankRetriever.ZeroArgumentUsesConfig | src/application/services/rerank_retriever.py:49 | a final_k argument of 0 is replaced by the configured value |
| RerankRetriever.WordSet | src/application/services/rerank_retriever.py:227 | set(query.split()) holds exactly the query's words |
| RerankRetriever.Spaced | src/application/services/rerank_retriever.py:228 | replacing '_' and '-' by spaces changes those characters only |
| RerankRetriever.InStem | src/application/services/rerank_retriever.py:244-249 | the query words counted as substring matches are exactly those occurring in the stem |
| RerankRetriever.FilenameMatch | src/application/services/rerank_retriever.py:210-254 | the score lies in [0, 1] and is 0 when the query or file name is empty or either has no words |
| RerankRetriever.MatchPositiveIff | src/application/services/rerank_retriever.py:230-254 | the score is positive iff some query word is a file-name word or occurs in the stem |
| RerankRetriever.NameWordsInStem | src/application/services/rerank_retriever.py:224-249 | every file-name word occurs in the stem |
| RerankRetriever.SameWordsScoreOne | src/application/services/rerank_retriever.py:233-254 | a query with exactly the file name's words scores the full 1.0 |
| RerankRetriever.FilenameOf | src/application/services/rerank_retriever.py:174-175 | a document without a source has the empty file name; a text source gives its last "/"-separated segment; any other source raises |
| RerankRetriever.FilenameIsLastSegment | src/application/services/rerank_retriever.py:175 | the file name is the source itself without "/", and source.split("/")[-1] with one |
| RerankRetriever.Mark | src/application/services/rerank_retriever.py:172-199 | a document whose name scores above the threshold is copied with filename_match_score and boosted added; any other document is kept as it is; the text never changes |
| RerankRetriever.MarkAll | src/application/services/rerank_retriever.py:171-199 | marking succeeds iff every source is text, and marks each document in place |
| RerankRetriever.MatchKey | src/application/services/rerank_retriever.py:204 | the sort key is the stored filename_match_score, and 0.0 when there is none |
| RerankRetriever.ApplyFilenameBoost | src/application/services/rerank_retriever.py:156-208 | an empty list comes back as given; otherwise the boost succeeds iff every source is text and, for two or more documents, the stored scores are mutually comparable in Python (all numbers, or all strings); the result keeps the count and is in descending Python key order, numerically descending when the scores are numbers |
| RerankRetriever.BoostPermutes | src/application/services/rerank_retriever.py:202-206 | the sort only reorders the marked documents |
| RerankRetriever.BoostIsStable | src/application/services/rerank_retriever.py:203-206 | documents with equal sort keys keep the order the base retriever gave them |
| RerankRetriever.BoostKeySorts | src/application/services/rerank_retriever.py:203-206 | sorting on the real-valued key puts comparable scores in descending Python order, numbers by value and strings by str comparison |
| RerankRetriever.EqualTextKeysIff | src/application/services/rerank_retriever.py:203-206 | two string scores get equal sort keys exactly when the strings are equal, so stability among strings is stability among equal scores |
| RerankRetriever.TextScoresSort | src/application/services/rerank_retriever.py:203-206 | the scores "x" and "y" are comparable and sort "y" first |
| RerankRetriever.StringScoresAreSorted | src/application/services/rerank_retriever.py:171-208 | two unboosted documents with string scores "x" and "y" are sorted, "y" first, rather than refused |
| RerankRetriever.NoMatchKeepsOrder | src/application/services/rerank_retriever.py:156-208 | documents with no score and no name above the threshold come back unchanged and in order |
| RerankRetriever.NothingMarked | src/application/services/rerank_retriever.py:182-199 | with no name above the threshold, marking changes no document |
| RerankRetriever.OriginalK | src/application/services/rerank_retriever.py:138 | search_kwargs.get('k', 4) |
| RerankRetriever.RetrieveWithK | src/application/services/rerank_retriever.py:137-147 | a successful retrieval asks for k documents and restores the previous k (4 when there was none); a raising one leaves k changed and returns nothing (also lines 267-276) |
| RerankRetriever.InitialDocuments | src/application/services/rerank_retriever.py:133-154 | a base retriever without search_kwargs is asked directly; one with them is asked for initial_k documents; a raising retrieval gives [] |
| RerankRetriever.InitialRestoresOnlyOnSuccess | src/application/services/rerank_retriever.py:137-154 | a successful retrieval puts back the previous k; a failed one leaves k at initial_k |
| RerankRetriever.FallbackDocuments | src/application/services/rerank_retriever.py:256-283 | the fallback asks for final_k documents, or cuts a direct retrieval to final_k, and so returns at most final_k; a raising retrieval gives [] |
| RerankRetriever.GetRelevantDocuments | src/application/services/rerank_retriever.py:78-122 | an empty initial retrieval returns [] with no further step |
| RerankRetriever.BoostFailureFallsBack | src/application/services/rerank_retriever.py:101-122 | when the boost raises, the answer is the fallback retrieval, with at most final_k documents |
| RerankRetriever.ResultComesFromRetrieval | src/application/services/rerank_retriever.py:78-117 | without boost or cache, at most final_k documents come back and each was retrieved |
| RerankRetriever.BoostedResultComesFromRetrieval | src/application/services/rerank_retriever.py:78-117 | with the boost on and succeeding and no cached answer, at most final_k documents come back, each the marked copy of a retrieved document |
| EnhancedRetrieval.LoadEnhancedSettings | src/application/services/enhanced_retrieval_service.py:24-33 | each setting is the configured value as given, else True, 0.3, 0.7 and 0.2 |
| EnhancedRetrieval.ExtractFilename | src/application/services/enhanced_retrieval_service.py:224-236 | an empty source gives ""; otherwise the last "/" segment, without its final ".ext" when it has a dot, and never longer than the source |
| EnhancedRetrieval.ExtractIgnoresDirectories | src/application/services/enhanced_retrieval_service.py:230 | the directories in front of a name do not change the extracted name |
| EnhancedRetrieval.FilenameFromSource | src/application/services/enhanced_retrieval_service.py:224-227 | a text source gives its extracted name; a missing or falsy source gives ""; any other truthy value raises (also lines 122-123) |
| EnhancedRetrieval.RunLen | src/application/services/enhanced_retrieval_service.py:293 | the run of word characters at the front of a text is maximal |
| EnhancedRetrieval.Runs | src/application/services/enhanced_retrieval_service.py:293 | re.findall(r'\b\w+\b') yields non-empty runs of word characters only |
| EnhancedRetrieval.CjkSingles | src/application/services/enhanced_retrieval_service.py:296-299 | every ideograph in U+4E00 to U+9FFF becomes a one-character token |
| EnhancedRetrieval.Tokenize | src/application/services/enhanced_retrieval_service.py:283-303 | every token has at least two characters |
| EnhancedRetrieval.IdeographsNeverSurvive | src/application/services/enhanced_retrieval_service.py:296-301 | the single-ideograph tokens are all removed again, so the tokens are exactly the word runs of two or more characters |
| EnhancedRetrieval.TokenSet | src/application/services/enhanced_retrieval_service.py:252-253 | the token set holds exactly the tokens |
| EnhancedRetrieval.Related | src/application/services/enhanced_retrieval_service.py:263-269 | a query token counts as a partial match iff it contains, or is contained in, some file-name token |
| EnhancedRetrieval.InName | src/application/services/enhanced_retrieval_service.py:272-276 | a query token counts as a substring match iff it occurs in the file name |
| EnhancedRetrieval.Similarity | src/application/services/enhanced_retrieval_service.py:238-281 | the score lies in [0, 0.85] and is 0 for an empty query, an empty file name or a query without tokens |
| EnhancedRetrieval.SharedIsRelated | src/application/services/enhanced_retrieval_service.py:259-269 | every exactly matching token is also a partial match |
| EnhancedRetrieval.SimilarityPositiveIff | src/application/services/enhanced_retrieval_service.py:248-281 | the score is positive iff the query has tokens and one of them partially matches a file-name token or occurs in the file name |
| EnhancedRetrieval.MarkCandidate | src/application/services/enhanced_retrieval_service.py:120-138 | a candidate is copied with search_type "filename", its score and its file name added, and its text unchanged; a source the string methods reject raises |
| EnhancedRetrieval.MarkCandidates | src/application/services/enhanced_retrieval_service.py:120-138 | marking succeeds iff every candidate's source is accepted, and marks each candidate in place |
| EnhancedRetrieval.KeepAndSort | src/application/services/enhanced_retrieval_service.py:128-142 | the result is exactly the candidates reaching the minimum score, as a multiset, sorted by descending score, with equal scores in candidate order |
| EnhancedRetrieval.FilenameSearch | src/application/services/enhanced_retrieval_service.py:104-149 | no candidates give []; a minimum that is not a number raises; otherwise the matches are exactly the marked candidates reaching the minimum, as a multiset, sorted by descending score, with equal scores in candidate order |
| EnhancedRetrieval.FilenameSearchComplete | src/application/services/enhanced_retrieval_service.py:120-138 | every candidate whose score reaches the minimum is among the matches |
| EnhancedRetrieval.IndexOf | src/application/services/enhanced_retrieval_service.py:182 | the position of an id in the score dictionary is its first occurrence, or the end when it is absent |
| EnhancedRetrieval.Upsert | src/application/services/enhanced_retrieval_service.py:171-192 | doc_scores[id] = entry: an existing id keeps its place and takes the new entry, a new id goes last |
| EnhancedRetrieval.UpsertKeepsDistinct | src/application/services/enhanced_retrieval_service.py:171-175 | doc_scores[id] = entry keeps the dictionary's keys distinct |
| EnhancedRetrieval.SemScore | src/application/services/enhanced_retrieval_service.py:170 | (n - i) / n lies in (0, 1] and is 1 for the first hit |
| EnhancedRetrieval.SemScoresDecrease | src/application/services/enhanced_retrieval_service.py:170 | a later semantic hit scores strictly less |
| EnhancedRetrieval.SemanticScores | src/application/services/enhanced_retrieval_service.py:168-175 | with distinct ids the semantic loop gives one entry per hit, in order, hit i scoring (n - i) / n |
| EnhancedRetrieval.AddHit | src/application/services/enhanced_retrieval_service.py:178-192 | a file-name hit with a known id sets only that entry's file-name score; an unknown one is added last with semantic score 0 |
| EnhancedRetrieval.Ids | src/application/services/enhanced_retrieval_service.py:182 | the dictionary keys, one per entry, in order |
| EnhancedRetrieval.IndexOfPresent | src/application/services/enhanced_retrieval_service.py:182 | a key that is in the dictionary is found |
| EnhancedRetrieval.UpsertIds | src/application/services/enhanced_retrieval_service.py:171-175 | doc_scores[id] = entry keeps every key and has the entry's |
| EnhancedRetrieval.SemanticIdsCover | src/application/services/enhanced_retrieval_service.py:168-175 | after the semantic loop every hit's id is a key, and no key is lost |
| EnhancedRetrieval.FilenameEntriesOnlyScore | src/application/services/enhanced_retrieval_service.py:178-192 | a file-name loop whose every hit has a known key adds no entry and changes only file-name scores |
| EnhancedRetrieval.SemanticDocsFrom | src/application/services/enhanced_retrieval_service.py:168-175 | the semantic loop only records documents it was given |
| EnhancedRetrieval.FilenameDocsFrom | src/application/services/enhanced_retrieval_service.py:178-192 | the file-name loop only records documents it was given |
| EnhancedRetrieval.Scored | src/application/services/enhanced_retrieval_service.py:194-209 | a scored document keeps its text, records its combined score, and the score is semantic * semantic_weight + filename * filename_weight |
| EnhancedRetrieval.ScoredAll | src/application/services/enhanced_retrieval_service.py:194-209 | every entry is scored, in dictionary order |
| EnhancedRetrieval.SortedByCombined | src/application/services/enhanced_retrieval_service.py:211-214 | after the sort, the first k documents are in descending combined_score order |
| EnhancedRetrieval.MergedIdsDistinct | src/application/services/enhanced_retrieval_service.py:164-192 | the score dictionary never holds an id twice |
| EnhancedRetrieval.MergeResults | src/application/services/enhanced_retrieval_service.py:151-222 | the merge succeeds iff every weight and score is a number; for k >= 0 it returns min(k, number of merged entries) documents, in descending combined_score order |
| EnhancedRetrieval.MergeIsTopK | src/application/services/enhanced_retrieval_service.py:185-215 | the merge returns the top k: every returned document is a scored entry, and an entry whose combined score beats the last returned one is among those returned |
| EnhancedRetrieval.MergeDrawsFromInputs | src/application/services/enhanced_retrieval_service.py:151-222 | every merged document has the text of a semantic or file-name hit |
| EnhancedRetrieval.SemanticSearch | src/application/services/enhanced_retrieval_service.py:80-102 | the store's hits, each tagged search_type "semantic", with nothing added or lost; [] when the store raises |
| EnhancedRetrieval.HybridSearch | src/application/services/enhanced_retrieval_service.py:41-78 | no vector store gives []; with file-name search off the first k semantic hits; never more than k documents; the merge keys documents by DocId (also lines 305-310) |
| EnhancedRetrieval.SameSourceAndTextSameId | src/application/services/enhanced_retrieval_service.py:305-310 | two documents with the same source value and the same text have the same id |
| EnhancedRetrieval.MarkKeepsId | src/application/services/enhanced_retrieval_service.py:126-138 | the marked copy of a candidate keeps its source and text, so it keeps the candidate's id (also lines 305-310) |
| EnhancedRetrieval.KeptIsMarkedCandidate | src/application/services/enhanced_retrieval_service.py:126-140 | a match the search keeps is the marked copy of one of the candidates |
| EnhancedRetrieval.MatchIdsAreCandidateIds | src/application/services/enhanced_retrieval_service.py:104-149 | every file-name match carries the id of one of the candidates |
| EnhancedRetrieval.HybridFilenameMatchesJoinTheirHits | src/application/services/enhanced_retrieval_service.py:56-60 | in hybrid_search the file-name loop of the merge only sets the file-name score of existing semantic entries: the entries, their order, documents and semantic scores are those of the semantic hits (also lines 178-192, 305-310) |
| EnhancedRetrieval.HybridMergesWhenEnabled | src/application/services/enhanced_retrieval_service.py:56-74 | with the default settings and file-name search working, the answer is the merge of the semantic hits with their file-name matches |
| EnhancedRetrieval.SearchByFilename | src/application/services/enhanced_retrieval_service.py:312-334 | no vector store gives []; when the file-name search over the 5k hits of the empty query raises, []; otherwise its first k matches, at most k, each marked |
| EnhancedRetrieval.SearchByFilenameIsBest | src/application/services/enhanced_retrieval_service.py:322-330 | the matches returned reach the minimum score and come highest first, and a match left out scores no higher than the last one returned (also lines 140-142) |
| ApplicationState.Initial | src/shared/state/application_state.py:45-75 | a new state has no vector store, no chain, no files, is not ready, holds no services, and takes its model settings from the configuration |
| ApplicationState.SetCurrentModel | src/shared/state/application_state.py:116-133 | the setter accepts a model iff it is available, then makes it current and stamps the time, leaving everything else as it was |
| ApplicationState.AssignModel | src/shared/state/application_state.py:116-133 | an accepted assignment changes the current model; a refused one leaves the state exactly as it was |
| ApplicationState.AssignmentsKeepModelValid | src/shared/state/application_state.py:116-133 | no run of assignments, accepted or refused, makes the current model unavailable |
| ApplicationState.AssignAll | src/shared/state/application_state.py:116-133 | assignments never change the available models or the uploaded files |
| ApplicationState.SetVectorstore | src/shared/state/application_state.py:87-92 | the setter stores the vector store and the time; the chain, the current model and the files stay as they were |
| ApplicationState.SetQaChain | src/shared/state/application_state.py:103-108 | the setter stores the chain and the time; the vector store, the models, the files and readiness stay as they were |
| ApplicationState.SetSystemReady | src/shared/state/application_state.py:164-169 | the setter stores the flag and the time; the vector store, the chain, the models and the files stay as they were |
| ApplicationState.AddUploadedFile | src/shared/state/application_state.py:141-145 | the file goes at the end of the list, and the other fields stay as they were |
| ApplicationState.UploadsKeepOrder | src/shared/state/application_state.py:141-145 | files are listed in the order they were added, none lost |
| ApplicationState.ClearUploadedFiles | src/shared/state/application_state.py:152-156 | clearing empties the file list and changes nothing else |
| ApplicationState.ClearThenAdd | src/shared/state/application_state.py:141-156 | after clearing, the list holds exactly the files added since |
| ApplicationState.ResetState | src/shared/state/application_state.py:290-297 | a reset drops the vector store, the chain and the files, clears readiness and stamps the time; the model settings and services stay |
| ApplicationState.ResetIdempotent | src/shared/state/application_state.py:290-297 | resetting twice is resetting once, at the later time |
| ApplicationState.ServiceStatus | src/shared/state/application_state.py:261-276 | a service's entry is its status, or {"error": message} when asking raises |
| ApplicationState.ServicesStatus | src/shared/state/application_state.py:259-276 | exactly the services that are set get an entry, and each of memory_service, chat_service and document_service maps to its own status or error record |
| ApplicationState.ModelValue | src/shared/state/application_state.py:280 | the current model is reported as text, or None when it is not set |
| ApplicationState.StrList | src/shared/state/application_state.py:281 | the available models are reported as a list of the same texts, in order |
| ApplicationState.StateInfo | src/shared/state/application_state.py:255-288 | the report has exactly its eight keys: the current and available models, the file count, the two initialised flags, readiness, the update time and the service statuses |
| ApplicationState.ResetReport | src/shared/state/application_state.py:255-297 | after a reset the report shows no files, nothing initialised and not ready |
| ApplicationState.ResetKeepsReportedSettings | src/shared/state/application_state.py:255-297 | a reset leaves the reported models and service statuses as they were |
| ModelService.ModelInfo | src/application/services/model_service.py:132-134 | the metadata of a model is found iff the model is listed, and it is the metadata listed under that name |
| ModelService.Names | src/application/services/model_service.py:137-142 | the model names in metadata order |
| ModelService.SwitchModel | src/application/services/model_service.py:75-112 | a switch succeeds iff the model is available; a refused switch changes nothing and says so; an accepted one makes the model current, drops the QA chain and reports the old and new model; the models, files, vector store and readiness stay |
| ModelService.SwitchKeepsModelValid | src/application/services/model_service.py:75-112 | no switch leaves the current model outside the available ones |
| ModelService.SwitchTwice | src/application/services/model_service.py:75-112 | a second switch to the same model has the same outcome and leaves the same current model |
| ModelService.RecommendedModels | src/application/services/model_service.py:137-142 | the listing follows metadata order and holds only available models marked recommended |
| ModelService.RecommendedComplete | src/application/services/model_service.py:137-142 | no available model marked recommended is left out of the listing |
| ModelService.DefaultRecommendations | src/application/services/model_service.py:29-60 | with the default metadata and fallback models, the listing is 2.0 Flash and 1.5 Pro: the preview model is not available (also lines 137-142) |
| ModelService.ValidateModelCompatibility | src/application/services/model_service.py:144-170 | a model passes iff it is available and has non-empty metadata whose max_tokens is a number of at least 1000; an unavailable model and one without metadata get their own messages |
| ModelService.AmpleMetadataCompatible | src/application/services/model_service.py:144-170 | when every metadata entry is non-empty with at least 1000 tokens, each listed model passes as soon as it is available |
| ModelService.DefaultModelsCompatible | src/application/services/model_service.py:29-60 | every model of the default metadata passes once it is available (also lines 144-170) |
| ModelService.CompatibleIsAvailable | src/application/services/model_service.py:156-162 | a model that passes is available and has metadata |
| ModelService.ForceModelReinit | src/application/services/model_service.py:198-207 | the QA chain and readiness are dropped, the model, files and vector store stay, and the message names the current model |
| ModelService.ReinitReport | src/application/services/model_service.py:198-207 | after a forced re-initialisation the state report shows no chain, not ready, and the same model |
| ModelService.InfoOrEmpty | src/application/services/model_service.py:117-118 | the current model's metadata, or the empty dict when it has none or no model is set |
| ModelService.StatusLines | src/application/services/model_service.py:114-126 | five lines; the recommendation line says 是 iff the metadata recommends the model, and the state line says 就绪 iff a QA chain exists |
| ModelService.GetModelStatus | src/application/services/model_service.py:114-131 | the report opens with the current-model line and closes with the readiness line; the lines are joined by the source's `"\\n"` literal, a backslash and the letter n |
| ModelService.StatusOfUndescribedModel | src/application/services/model_service.py:118-124 | a model without metadata is shown by its own name (None when unset), with '标准AI模型', '未知' and 否 as defaults |
| ModelService.StatusOfDescribedModel | src/application/services/model_service.py:118-124 | a model with metadata is shown by its display name, description, token limit and recommendation |
| ModelService.StatusAfterSwitch | src/application/services/model_service.py:93-97 | after a switch the status names the new model and reads 需要初始化, the chain having been dropped (also lines 121-125) |
| ModelService.EntryOf | src/application/services/model_service.py:180-189 | one model's entry: marked current iff it is the current model, starred iff its metadata recommends it, and the name, '标准AI模型' and '未知' for a model without metadata |
| ModelService.SelectionParts | src/application/services/model_service.py:172-191 | a heading, then one entry per available model in their order, then the legend |
| ModelService.GetModelSelectionInfo | src/application/services/model_service.py:172-196 | the report opens with the heading and closes with the legend, joined by the same `"\\n"` literal |
| ModelService.CurrentMarkedIffAvailable | src/application/services/model_service.py:176-182 | some entry is marked current exactly when the current model is among the available ones |
| ModelService.StarsMatchRecommendations | src/application/services/model_service.py:183 | an available model is starred exactly when get_recommended_models lists it (also lines 137-142) |

## Left out

- Concurrency: the RLocks, the background clean-up thread and its shutdown join, thread-local storage mechanics and the double-checked singleton accessors (`get_cache_service`, `get_metrics_service` and the like). Each locked operation is one atomic step from a state to the next.
- Persistence: the cache's JSON save and load, configuration file writes (`save_to_files`), metrics export (`export_metrics`) and the conversation files. All of these are file I/O.
- Value sizes: `_calculate_size` pickles the value with heuristic fallbacks. The size is an input (`size`, `sizeOf`).
- Hashes, JSON and regular expressions: SHA-256, MD5, `hash()`, `json.dumps`/`json.loads` and the regex engines are library code. They appear as uninterpreted function parameters.
- The clock: `datetime.now()`, `time.time()` and `isoformat()` are the parameters `now` and `nowIso`.
- Logging, and the metrics each service records about itself: these are side effects with no bearing on results, so they are not modelled.
- Floating point: scores, averages and percentages are exact reals. `str()` of a float and the decimal rendering in `format_file_size` are a `render` parameter.
- UtilityService.GetProgress: the percentage is the exact ratio current / total · 100. The source rounds it with `round(percentage, 1)` (src/infrastructure/utilities/utility_service.py:243), which is not modelled because float rounding of binary values is outside the exact reals used here.
- LegacyUtils.GetProgress: the same `round(percentage, 1)` (utils.py:123) is not applied, for the same reason.
- psutil: the memory, disk and CPU readings are inputs to the health checks. The auto-scaling monitor is not part of this model.
- Plugin discovery and dynamic import (`os.listdir`, `importlib`), and the dependency container's use of `inspect` on constructors. Constructors are explicit parameter lists, and whether `__init__` raises, and with what message, is the environment's `initRaises`; what the constructor does to the new object is not modelled.
- NLTK sentence tokenization and its regular-expression fallback: an opaque sentence split. The splitter itself strips the pieces and drops the empty ones.
- The LLM: `_create_llm` and the model call are given as the reply of each attempt. Of `_build_rerank_prompt` only whether it raises is modelled (RerankService.PromptRaises); the prompt text itself is not.
- RerankService.PromptSourceRaises: an object source other than None, a bool, a number, a str, a list or a dict is taken to raise at `"/" in source`, as one without `__contains__` or `__iter__` does.
- The rerank result cache (`_generate_cache_key`, `_get_cached_result`, `_cache_result`): the cached list for the query is a parameter.
- `AdaptiveSemanticSplitter` and the LangChain `RecursiveCharacterTextSplitter` fallback: third-party splitting code.
- `RerankRetriever`'s `update_config`, `get_stats` and the async `aget_relevant_documents`, which only delegates to the synchronous path.
- EnhancedRetrieval.DocId: Python's `hash()` of the first 100 characters is the `hash` parameter, and `str()` of a float, list or dict source is `render`. The id itself, source text, ":" and the hash, is modelled.
- Health reporting:
  - `get_health_status` turns the overall status into float scores (1.0, 0.7, 0.3) for an older interface;
  - `check_all_services_health` returns the components of the modelled `check_health`.
- Cache reporting: `get_stats` (a copy of the counters), `get_memory_usage`, `get_cache_info`, `miss_rate`, `get_age` and `get_similar_queries`. These are float reporting or unused lookups.
- Utility I/O: `validate_file_size`, `calculate_file_hash`, `format_timestamp` and the `handle_error` decorator. They read the disk, the clock or the logger.
- Serializer checks `is_serializable`, `safe_serialize` and `safe_deserialize`: these are try/except wrappers around `json`.
- Metrics aggregates: `record_api_request`, `record_rag_metrics`, `_update_performance_stats` and `track_query_processing`. These are fixed sequences of the modelled `record_metric`, `increment_counter` and `record_histogram`.
- The RAG extension wrappers (`before_document_upload` … `validate_answer`) are modelled as ExtensionPoints.RunStageLive, one fixed point each.
- ExtensionPoints.MergeResults, MergeLaterWins, MergeKeepsUntouched and RunStage describe hooks that neither change the shared `context.data` nor return it. PureHooksAreRunStage shows they are exactly that case of RunStageLive; hooks that do either are covered by the live members.
- ExtensionPoints.RunHooks: a dict a hook returns other than `context.data` is taken as it stood when the hook returned; a later hook changing that other dict in place is not modelled.
- Trivial getters with no logic beyond a field read:
  - `get_available_models`, `get_current_model`;
  - `get_cors_config`, `get_environment`, `get_all_config`;
  - `get_model_configs`, `get_gradio_configs`, `get_database_configs`;
  - `get_extension_points`, `get_plugin_list`, `get_plugin_info`, `get_service_registry`.
- `get_config_summary` (src/infrastructure/config/production_config.py:351-371): a report that JSON-dumps the whole configuration, md5-hashes the dump and formats it as multi-line text. It is left out because JSON encoding and md5 are outside the model.
- `generate_secret_key`: it draws randomness.
- Unicode case mapping: `str.lower()` and `str.upper()` are modelled on ASCII letters only. Other characters are left unchanged. This affects the lower-cased names and queries throughout and the `KEY.upper()` of ConfigurationService.GetValue, which looks up a different environment variable for a key with non-ASCII letters.
- Unicode digits: `int()`, `float()` and the `\d` of a regular expression accept every Unicode decimal digit (`int('٣') == 3`), but PyCore.IsDigit holds for '0' to '9' only. PyCore.ParseInt, and so RerankService.AsInt, AppConfig.IntSetting, ProductionConfig.Coerce and ConfigurationService.ConvertValue, reject text with other decimal digits, and RerankService.Search, RunLength and ParseScores do not match them. The Unicode digit tables are not modelled.
- PyCore.StrRepr: characters beyond Latin-1 that `str.isprintable()` rejects (line and paragraph separators, format characters, unassigned code points) are kept as they are rather than written as `\u`/`\U` escapes, because the Unicode category tables are not modelled.
- Copies: the defensive `.copy()` calls that protect the shared state. Values are immutable here, so they have no counterpart.
- `reset_state` also resets the memory service's current session. The memory service is not part of this model.
- The lazily created service properties of the application state, their setters and `cleanup_resources`. They hold foreign service objects.
- ModelService: the per-model metadata dictionary is its items in insertion order, not a map.
- CacheEngine.Put: requires `max_size` of at least 1. With 0 the eviction loop of `_ensure_capacity` calls a no-op eviction on the empty cache forever. The same bound is required by EnsureCapacity, EvictForCount and the query-cache and middleware operations built on put.
- PluginManager.Unload: requires the manager invariant that every loaded plugin has an info record. Every operation of the manager keeps this invariant.
- RerankRetriever.ApplyFilenameBoost: of the stored scores only numbers and strings are sorted; a list score, which Python would compare element by element, and None, dict or object scores are treated as refusing the comparison.
- SemanticTextSplitter.PackSentencesIsGreedy: covers only sentences that fit max_chunk_size. Around a force-split sentence the chunk is flushed whatever its length, as the source does, so no maximality is promised there.
- ProductionConfig.ApplyFile: updates only the section's dataclass fields. The source's `hasattr` test also accepts inherited attribute names such as `__doc__`, and `setattr` would then overwrite them; configuration files that name such attributes are not modelled.

=== FILE: app_config.dfy ===
/**
 * The class-level Config of config.py: settings read once from the
 * environment, the API-key check and the masked summary. Reading the
 * environment is the `env` parameter; an integer setting whose text int()
 * rejects makes the class body raise, which is Err here.
 */
module AppConfig {
  import opened PyCore
  import opened PyValue

  datatype Settings = Settings(
    apiKey: Option<string>,
    embeddingModel: string,
    chatModel: string,
    chunkSize: int,
    chunkOverlap: int,
    similarityTopK: int,
    maxTokens: int,
    chromaDbPath: string,
    maxFileSizeMb: int,
    allowedFileTypes: seq<string>,
    maxHistoryLength: int)

  /** os.getenv(name, default). */
  function GetEnv(env: map<string, string>, name: string, default: string): (r: string)
    ensures name in env ==> r == env[name]
    ensures name !in env ==> r == default
  {
    if name in env then env[name] else default
  }

  /** int(os.getenv(name, default)): the variable's text when set, even when it is empty. */
  function IntSetting(env: map<string, string>, name: string, default: string): (r: Result<int>)
    ensures r.Ok? <==> ParseInt(GetEnv(env, name, default)).Some?
    ensures r.Ok? ==> Some(r.value) == ParseInt(GetEnv(env, name, default))
  {
    match ParseInt(GetEnv(env, name, default))
    case Some(n) => Ok(n)
    case None => Err("ValueError: invalid literal for int() with base 10")
  }

  /** Every integer setting parses. */
  predicate IntsParse(env: map<string, string>)
  {
    && IntSetting(env, "CHUNK_SIZE", "1000").Ok?
    && IntSetting(env, "CHUNK_OVERLAP", "200").Ok?
    && IntSetting(env, "SIMILARITY_TOP_K", "4").Ok?
    && IntSetting(env, "MAX_TOKENS", "1000").Ok?
    && IntSetting(env, "MAX_FILE_SIZE_MB", "50").Ok?
    && IntSetting(env, "MAX_HISTORY_LENGTH", "10").Ok?
  }

  /** Evaluating the class body: every string setting is echoed, every integer setting parsed. */
  function Load(env: map<string, string>): (r: Result<Settings>)
    ensures r.Ok? <==> IntsParse(env)
    ensures r.Ok? ==>
      && (r.value.apiKey.Some? <==> "GOOGLE_API_KEY" in env)
      && ("GOOGLE_API_KEY" in env ==> r.value.apiKey == Some(env["GOOGLE_API_KEY"]))
      && r.value.embeddingModel == GetEnv(env, "EMBEDDING_MODEL", "models/embedding-001")
      && r.value.chatModel == GetEnv(env, "CHAT_MODEL", "gemini-2.0-flash-001")
      && r.value.chromaDbPath == GetEnv(env, "CHROMA_DB_PATH", "./chroma_db")
      && r.value.allowedFileTypes == [".pdf"]
    ensures r.Ok? ==>
      && Some(r.value.chunkSize) == ParseInt(GetEnv(env, "CHUNK_SIZE", "1000"))
      && Some(r.value.chunkOverlap) == ParseInt(GetEnv(env, "CHUNK_OVERLAP", "200"))
      && Some(r.value.similarityTopK) == ParseInt(GetEnv(env, "SIMILARITY_TOP_K", "4"))
      && Some(r.value.maxTokens) == ParseInt(GetEnv(env, "MAX_TOKENS", "1000"))
      && Some(r.value.maxFileSizeMb) == ParseInt(GetEnv(env, "MAX_FILE_SIZE_MB", "50"))
      && Some(r.value.maxHistoryLength) == ParseInt(GetEnv(env, "MAX_HISTORY_LENGTH", "10"))
  {
    var chunk := IntSetting(env, "CHUNK_SIZE", "1000");
    var overlap := IntSetting(env, "CHUNK_OVERLAP", "200");
    var topK := IntSetting(env, "SIMILARITY_TOP_K", "4");
    var tokens := IntSetting(env, "MAX_TOKENS", "1000");
    var fileSize := IntSetting(env, "MAX_FILE_SIZE_MB", "50");
    var history := IntSetting(env, "MAX_HISTORY_LENGTH", "10");
    if chunk.Err? || overlap.Err? || topK.Err? || tokens.Err? || fileSize.Err? || history.Err? then
      Err("ValueError: invalid literal for int() with base 10")
    else
      Ok(Settings(
        if "GOOGLE_API_KEY" in env then Some(env["GOOGLE_API_KEY"]) else None,
        GetEnv(env, "EMBEDDING_MODEL", "models/embedding-001"),
        GetEnv(env, "CHAT_MODEL", "gemini-2.0-flash-001"),
        chunk.value, overlap.value, topK.value, tokens.value,
        GetEnv(env, "CHROMA_DB_PATH", "./chroma_db"),
        fileSize.value, [".pdf"], history.value))
  }

  /** The default texts are the decimal forms of their values. */
  lemma DefaultTexts()
    ensures IntToString(4) == "4" && IntToString(10) == "10" && IntToString(50) == "50"
    ensures IntToString(200) == "200" && IntToString(1000) == "1000"
  {
    assert NatToString(1) == "1" && NatToString(2) == "2" && NatToString(4) == "4" && NatToString(5) == "5";
    assert NatToString(10) == NatToString(1) + "0";
    assert NatToString(20) == NatToString(2) + "0";
    assert NatToString(50) == NatToString(5) + "0";
    assert NatToString(100) == NatToString(10) + "0";
    assert NatToString(200) == NatToString(20) + "0";
    assert NatToString(1000) == NatToString(100) + "0";
  }

  lemma ParseDefaults()
    ensures ParseInt("1000") == Some(1000) && ParseInt("200") == Some(200) && ParseInt("4") == Some(4)
    ensures ParseInt("50") == Some(50) && ParseInt("10") == Some(10)
  {
    DefaultTexts();
    ParseIntOfIntToString(1000);
    ParseIntOfIntToString(200);
    ParseIntOfIntToString(4);
    ParseIntOfIntToString(50);
    ParseIntOfIntToString(10);
  }

  /** With none of the variables set, the integer settings take their default texts' values. */
  lemma EmptyEnvironmentDefaults()
    ensures Load(map[]).Ok?
    ensures var s := Load(map[]).value;
      s.apiKey == None && s.chunkSize == 1000 && s.chunkOverlap == 200 && s.similarityTopK == 4
      && s.maxTokens == 1000 && s.maxFileSizeMb == 50 && s.maxHistoryLength == 10
  {
    var none: map<string, string> := map[];
    assert IntSetting(none, "CHUNK_SIZE", "1000") == Ok(1000) by { ParseDefaults(); }
    assert IntSetting(none, "CHUNK_OVERLAP", "200") == Ok(200) by { ParseDefaults(); }
    assert IntSetting(none, "SIMILARITY_TOP_K", "4") == Ok(4) by { ParseDefaults(); }
    assert IntSetting(none, "MAX_TOKENS", "1000") == Ok(1000) by { ParseDefaults(); }
    assert IntSetting(none, "MAX_FILE_SIZE_MB", "50") == Ok(50) by { ParseDefaults(); }
    assert IntSetting(none, "MAX_HISTORY_LENGTH", "10") == Ok(10) by { ParseDefaults(); }
  }

  /** A set but empty integer variable is not a number, so the class cannot be built. */
  lemma EmptyIntegerVariableFails(env: map<string, string>)
    requires "CHUNK_SIZE" in env && env["CHUNK_SIZE"] == ""
    ensures Load(env).Err?
  {
    assert Strip("") == "";
    assert IntSetting(env, "CHUNK_SIZE", "1000").Err?;
  }

  /** The Python truthiness of the optional key: present and non-empty. */
  predicate KeyGiven(key: Option<string>)
  {
    key.Some? && key.value != ""
  }

  /**
   * validate_config: the verdict, and whether the format warning would be
   * printed (a key that does not start with "AIza" only warns).
   */
  function ValidateConfig(s: Settings): (res: (bool, bool))
    ensures res.0 <==> KeyGiven(s.apiKey)
    ensures res.1 <==> KeyGiven(s.apiKey) && !StartsWith(s.apiKey.value, "AIza")
  {
    if !KeyGiven(s.apiKey) then (false, false)
    else (true, !StartsWith(s.apiKey.value, "AIza"))
  }

  const NotConfigured: string := "未配置"
  const OddFormat: string := "已配置（格式异常）"

  /** api_key_display: first four and last four characters of a long key, a notice otherwise. */
  function ApiKeyDisplay(key: Option<string>): (d: string)
    ensures !KeyGiven(key) ==> d == NotConfigured
    ensures KeyGiven(key) && |key.value| <= 8 ==> d == OddFormat
    ensures KeyGiven(key) && |key.value| > 8 ==>
      |d| == 11 && d[..4] == key.value[..4] && d[4..7] == "..." && d[7..] == key.value[|key.value| - 4..]
  {
    if !KeyGiven(key) then NotConfigured
    else if |key.value| > 8 then ShowEdges(key.value)
    else OddFormat
  }

  /** get_config_info: the settings echoed, the key reduced to a flag and its display. */
  function ConfigInfo(s: Settings): (info: map<string, PyVal>)
    ensures info.Keys == {"embedding_model", "chat_model", "chunk_size", "chunk_overlap", "similarity_top_k",
                          "max_tokens", "max_history_length", "api_key_configured", "api_key_display"}
    ensures info["api_key_configured"] == PBool(KeyGiven(s.apiKey))
    ensures info["api_key_display"] == PStr(ApiKeyDisplay(s.apiKey))
    ensures info["embedding_model"] == PStr(s.embeddingModel) && info["chat_model"] == PStr(s.chatModel)
    ensures info["chunk_size"] == PInt(s.chunkSize) && info["chunk_overlap"] == PInt(s.chunkOverlap)
    ensures info["similarity_top_k"] == PInt(s.similarityTopK) && info["max_tokens"] == PInt(s.maxTokens)
    ensures info["max_history_length"] == PInt(s.maxHistoryLength)
  {
    map[
      "embedding_model" := PStr(s.embeddingModel),
      "chat_model" := PStr(s.chatModel),
      "chunk_size" := PInt(s.chunkSize),
      "chunk_overlap" := PInt(s.chunkOverlap),
      "similarity_top_k" := PInt(s.similarityTopK),
      "max_tokens" := PInt(s.maxTokens),
      "max_history_length" := PInt(s.maxHistoryLength),
      "api_key_configured" := PBool(KeyGiven(s.apiKey)),
      "api_key_display" := PStr(ApiKeyDisplay(s.apiKey))
    ]
  }

  /** The summary reports a configured key exactly when validation accepts the settings. */
  lemma ConfiguredIffValid(s: Settings)
    ensures ConfigInfo(s)["api_key_configured"] == PBool(true) <==> ValidateConfig(s).0
    ensures ValidateConfig(s).0 <==> ApiKeyDisplay(s.apiKey) != NotConfigured
  {
    if KeyGiven(s.apiKey) && |s.apiKey.value| > 8 {
      var d := ApiKeyDisplay(s.apiKey);
      assert |d| == 11;
    }
  }

  /** A long key is never shown whole: the display leaves out everything but its first and last four. */
  lemma LongKeyHidden(key: string)
    requires |key| > 11
    ensures ApiKeyDisplay(Some(key)) != key
  {
  }
}

=== FILE: application_state.dfy ===
/**
 * ApplicationState: the one shared record of the vector store, the QA
 * chain, the model choice, the uploaded files and the readiness flag.
 * Each locked method is one step from a state to the next; the clock is the
 * `now` parameter, and the stores, chains and services are handles whose
 * only observable property here is whether they are set.
 */
module ApplicationState {
  import opened PyCore
  import opened PyValue

  /** A reference to an object held by the state. */
  type Handle = nat

  datatype FileInfo = FileInfo(name: string, uploadTime: int, pages: int, chunks: int, model: string,
                               fileHash: Option<string>)

  datatype AppState = AppState(
    vectorstore: Option<Handle>,
    qaChain: Option<Handle>,
    currentModel: Option<string>,
    availableModels: seq<string>,
    uploadedFiles: seq<FileInfo>,
    systemReady: bool,
    lastUpdate: int,
    memoryService: Option<Handle>,
    chatService: Option<Handle>,
    documentService: Option<Handle>)

  /** __init__: the model settings from the configuration (chat_model may be absent), everything else empty. */
  function Initial(chatModel: Option<string>, fallbackModels: seq<string>, now: int): (s: AppState)
    ensures s.vectorstore.None? && s.qaChain.None? && s.uploadedFiles == [] && !s.systemReady
    ensures s.currentModel == chatModel && s.availableModels == fallbackModels
    ensures s.memoryService.None? && s.chatService.None? && s.documentService.None?
  {
    AppState(None, None, chatModel, fallbackModels, [], false, now, None, None, None)
  }

  /** The current model is one of the available ones. */
  predicate ModelValid(s: AppState)
  {
    s.currentModel.Some? && s.currentModel.value in s.availableModels
  }

  /** The current_model setter: only an available model is accepted; any other raises ValueError. */
  function SetCurrentModel(s: AppState, value: string, now: int): (r: Result<AppState>)
    ensures r.Ok? <==> value in s.availableModels
    ensures r.Ok? ==> r.value.currentModel == Some(value) && ModelValid(r.value) && r.value.lastUpdate == now
    ensures r.Ok? ==> r.value.availableModels == s.availableModels && r.value.uploadedFiles == s.uploadedFiles
    ensures r.Ok? ==> r.value.vectorstore == s.vectorstore && r.value.qaChain == s.qaChain
    ensures r.Ok? ==> r.value.systemReady == s.systemReady
  {
    if value in s.availableModels then Ok(s.(currentModel := Some(value), lastUpdate := now))
    else Err("ValueError: 不支持的模型: " + value)
  }

  /** The state after an assignment to current_model, the exception caught: a refused value leaves it as it was. */
  function AssignModel(s: AppState, value: string, now: int): (t: AppState)
    ensures value in s.availableModels ==> t.currentModel == Some(value)
    ensures value !in s.availableModels ==> t == s
  {
    match SetCurrentModel(s, value, now)
    case Ok(t) => t
    case Err(_) => s
  }

  /** No assignment, accepted or refused, can make the current model unavailable. */
  lemma {:induction false} AssignmentsKeepModelValid(s: AppState, values: seq<string>, now: int)
    requires ModelValid(s)
    ensures ModelValid(AssignAll(s, values, now))
    decreases |values|
  {
    if |values| > 0 {
      AssignmentsKeepModelValid(AssignModel(s, values[0], now), values[1..], now);
    }
  }

  /** A run of assignments to current_model, in order. */
  function AssignAll(s: AppState, values: seq<string>, now: int): (t: AppState)
    ensures t.availableModels == s.availableModels && t.uploadedFiles == s.uploadedFiles
    decreases |values|
  {
    if |values| == 0 then s else AssignAll(AssignModel(s, values[0], now), values[1..], now)
  }

  /** The vectorstore setter. */
  function SetVectorstore(s: AppState, v: Option<Handle>, now: int): (t: AppState)
    ensures t.vectorstore == v && t.lastUpdate == now
    ensures t.qaChain == s.qaChain && t.currentModel == s.currentModel && t.uploadedFiles == s.uploadedFiles
  {
    s.(vectorstore := v, lastUpdate := now)
  }

  /** The qa_chain setter. */
  function SetQaChain(s: AppState, v: Option<Handle>, now: int): (t: AppState)
    ensures t.qaChain == v && t.lastUpdate == now
    ensures t.vectorstore == s.vectorstore && t.currentModel == s.currentModel && t.availableModels == s.availableModels
    ensures t.uploadedFiles == s.uploadedFiles && t.systemReady == s.systemReady
  {
    s.(qaChain := v, lastUpdate := now)
  }

  /** The system_ready setter. */
  function SetSystemReady(s: AppState, v: bool, now: int): (t: AppState)
    ensures t.systemReady == v && t.lastUpdate == now
    ensures t.vectorstore == s.vectorstore && t.qaChain == s.qaChain && t.currentModel == s.currentModel
    ensures t.availableModels == s.availableModels && t.uploadedFiles == s.uploadedFiles
  {
    s.(systemReady := v, lastUpdate := now)
  }

  /** add_uploaded_file: the file goes at the end. */
  function AddUploadedFile(s: AppState, f: FileInfo, now: int): (t: AppState)
    ensures t.uploadedFiles == s.uploadedFiles + [f]
    ensures t.currentModel == s.currentModel && t.availableModels == s.availableModels
    ensures t.vectorstore == s.vectorstore && t.qaChain == s.qaChain && t.systemReady == s.systemReady
  {
    s.(uploadedFiles := s.uploadedFiles + [f], lastUpdate := now)
  }

  /** Several add_uploaded_file calls in a row. */
  function AddUploadedFiles(s: AppState, fs: seq<FileInfo>, now: int): AppState
    decreases |fs|
  {
    if |fs| == 0 then s else AddUploadedFiles(AddUploadedFile(s, fs[0], now), fs[1..], now)
  }

  /** Files are listed in the order they were added. */
  lemma {:induction false} UploadsKeepOrder(s: AppState, fs: seq<FileInfo>, now: int)
    ensures AddUploadedFiles(s, fs, now).uploadedFiles == s.uploadedFiles + fs
    ensures |AddUploadedFiles(s, fs, now).uploadedFiles| == |s.uploadedFiles| + |fs|
    decreases |fs|
  {
    if |fs| > 0 {
      UploadsKeepOrder(AddUploadedFile(s, fs[0], now), fs[1..], now);
      assert s.uploadedFiles + [fs[0]] + fs[1..] == s.uploadedFiles + fs;
    }
  }

  /** clear_uploaded_files */
  function ClearUploadedFiles(s: AppState, now: int): (t: AppState)
    ensures t.uploadedFiles == []
    ensures t.currentModel == s.currentModel && t.availableModels == s.availableModels
    ensures t.vectorstore == s.vectorstore && t.qaChain == s.qaChain && t.systemReady == s.systemReady
  {
    s.(uploadedFiles := [], lastUpdate := now)
  }

  /** After clearing, the list holds exactly the files added since. */
  lemma ClearThenAdd(s: AppState, fs: seq<FileInfo>, t1: int, t2: int)
    ensures AddUploadedFiles(ClearUploadedFiles(s, t1), fs, t2).uploadedFiles == fs
  {
    UploadsKeepOrder(ClearUploadedFiles(s, t1), fs, t2);
  }

  /**
   * reset_state: drops the vector store, the QA chain, the files and
   * readiness; keeps the model settings and the services.
   */
  function ResetState(s: AppState, now: int): (t: AppState)
    ensures t.vectorstore.None? && t.qaChain.None? && t.uploadedFiles == [] && !t.systemReady
    ensures t.currentModel == s.currentModel && t.availableModels == s.availableModels
    ensures t.memoryService == s.memoryService && t.chatService == s.chatService && t.documentService == s.documentService
    ensures t.lastUpdate == now
  {
    s.(vectorstore := None, qaChain := None, uploadedFiles := [], systemReady := false, lastUpdate := now)
  }

  /** What a service's get_service_status gives, or {"error": str(e)} when it raises. */
  function ServiceStatus(h: Handle, status: Handle -> Outcome): (v: PyVal)
    ensures status(h).Returned? ==> v == status(h).value
    ensures status(h).Raised? ==> v == PDict(map["error" := PStr(status(h).error)])
  {
    match status(h)
    case Returned(v) => v
    case Raised(e) => PDict(map["error" := PStr(e)])
  }

  /** The services that are set. */
  function ServiceNames(s: AppState): set<string>
  {
    (if s.memoryService.Some? then {"memory_service"} else {}) +
    (if s.chatService.Some? then {"chat_service"} else {}) +
    (if s.documentService.Some? then {"document_service"} else {})
  }

  /** services_status: one entry per service that is set. */
  function ServicesStatus(s: AppState, status: Handle -> Outcome): (m: map<string, PyVal>)
    ensures m.Keys == ServiceNames(s)
    ensures s.memoryService.Some? ==> m["memory_service"] == ServiceStatus(s.memoryService.value, status)
    ensures s.chatService.Some? ==> m["chat_service"] == ServiceStatus(s.chatService.value, status)
    ensures s.documentService.Some? ==> m["document_service"] == ServiceStatus(s.documentService.value, status)
  {
    var m0: map<string, PyVal> := map[];
    var m1 := if s.memoryService.Some? then m0["memory_service" := ServiceStatus(s.memoryService.value, status)] else m0;
    var m2 := if s.chatService.Some? then m1["chat_service" := ServiceStatus(s.chatService.value, status)] else m1;
    if s.documentService.Some? then m2["document_service" := ServiceStatus(s.documentService.value, status)] else m2
  }

  function ModelValue(m: Option<string>): (v: PyVal)
    ensures m.None? ==> v == PNone
    ensures m.Some? ==> v == PStr(m.value)
  {
    if m.Some? then PStr(m.value) else PNone
  }

  function StrList(xs: seq<string>): (v: PyVal)
    ensures v.PList? && |v.items| == |xs|
    ensures forall i :: 0 <= i < |xs| ==> v.items[i] == PStr(xs[i])
  {
    PList(seq(|xs|, i requires 0 <= i < |xs| => PStr(xs[i])))
  }

  const InfoKeys: set<string> := {"current_model", "available_models", "uploaded_files_count", "vectorstore_initialized",
                                  "qa_chain_initialized", "system_ready", "last_update", "services"}

  /**
   * get_state_info: the file count, whether the store and chain are set,
   * readiness, the model settings, the update time through `isoformat` and
   * the service statuses.
   */
  function StateInfo(s: AppState, isoformat: int -> string, status: Handle -> Outcome): (info: map<string, PyVal>)
    ensures info.Keys == InfoKeys
    ensures info["uploaded_files_count"] == PInt(|s.uploadedFiles|)
    ensures info["vectorstore_initialized"] == PBool(s.vectorstore.Some?)
    ensures info["qa_chain_initialized"] == PBool(s.qaChain.Some?)
    ensures info["system_ready"] == PBool(s.systemReady)
    ensures info["current_model"] == ModelValue(s.currentModel)
    ensures info["available_models"] == StrList(s.availableModels)
    ensures info["services"] == PDict(ServicesStatus(s, status)) && info["services"].fields.Keys == ServiceNames(s)
  {
    map[
      "current_model" := ModelValue(s.currentModel),
      "available_models" := StrList(s.availableModels),
      "uploaded_files_count" := PInt(|s.uploadedFiles|),
      "vectorstore_initialized" := PBool(s.vectorstore.Some?),
      "qa_chain_initialized" := PBool(s.qaChain.Some?),
      "system_ready" := PBool(s.systemReady),
      "last_update" := PStr(isoformat(s.lastUpdate)),
      "services" := PDict(ServicesStatus(s, status))
    ]
  }

  /** After a reset the report shows no files, nothing initialised and not ready. */
  lemma ResetReport(s: AppState, now: int, isoformat: int -> string, status: Handle -> Outcome)
    ensures var after := StateInfo(ResetState(s, now), isoformat, status);
      && after["uploaded_files_count"] == PInt(0)
      && after["vectorstore_initialized"] == PBool(false)
      && after["qa_chain_initialized"] == PBool(false)
      && after["system_ready"] == PBool(false)
  {
  }

  /** A reset leaves the reported model settings and service statuses as they were. */
  lemma ResetKeepsReportedSettings(s: AppState, now: int, isoformat: int -> string, status: Handle -> Outcome)
    ensures var before := StateInfo(s, isoformat, status);
      var after := StateInfo(ResetState(s, now), isoformat, status);
      && after["current_model"] == before["current_model"]
      && after["available_models"] == before["available_models"]
      && after["services"] == before["services"]
  {
    assert ServicesStatus(ResetState(s, now), status) == ServicesStatus(s, status);
  }

  /** Resetting twice is resetting once, at the later time. */
  lemma ResetIdempotent(s: AppState, t1: int, t2: int)
    ensures ResetState(ResetState(s, t1), t2) == ResetState(s, t2)
  {
  }
}

=== FILE: cache_engine.dfy ===
/**
 * The in-process cache engine: an insertion-ordered key -> entry map bounded
 * by an entry count and a byte budget, with LRU, LFU, FIFO and TTL victim
 * selection, strict TTL expiry and hit/miss/eviction counters.
 *
 * Every public operation runs under one lock in the original, so each is
 * modelled as one atomic transition on an immutable `Cache`. The wall clock
 * (`now`, in seconds) and the serialised size of a value are inputs.
 */
module CacheEngine {
  import opened PyCore

  type Key = string

  datatype Strategy = LRU | LFU | FIFO | TTL

  /** Construction parameters; `maxMemory` is in bytes (max_memory_mb * 1024 * 1024). */
  datatype Config = Config(maxSize: int, maxMemory: int, strategy: Strategy, defaultTtl: Option<int>)

  datatype Entry<V> = Entry(
    value: V,
    createdAt: real,
    lastAccessed: real,
    accessCount: nat,
    ttl: Option<int>,
    size: nat)

  datatype Stats = Stats(
    totalSize: int,
    entryCount: int,
    hitCount: nat,
    missCount: nat,
    evictionCount: nat,
    totalRequests: nat)

  /** `order` is the OrderedDict's key order, oldest first. */
  datatype Cache<V> = Cache(order: seq<Key>, entries: map<Key, Entry<V>>, stats: Stats)

  /** The new state of an operation together with what it returned. */
  datatype Step<V, R> = Step(cache: Cache<V>, out: R)

  const MiB: int := 1024 * 1024

  /** The shared instance: 1000 entries, 100 MB, LRU, one hour default TTL. */
  const SharedConfig: Config := Config(1000, 100 * MiB, LRU, Some(3600))

  /** A freshly constructed cache: no entries and every counter at zero. */
  function Empty<V>(): (c: Cache<V>)
    ensures |c.order| == 0 && c.entries == map[]
    ensures c.stats.totalSize == 0 && c.stats.entryCount == 0 && c.stats.totalRequests == 0
    ensures c.stats.hitCount == 0 && c.stats.missCount == 0 && c.stats.evictionCount == 0
    ensures Valid(c)
  {
    Cache([], map[], Stats(0, 0, 0, 0, 0, 0))
  }

  // ---------------------------------------------------------------------
  // Representation invariant
  // ---------------------------------------------------------------------

  predicate Distinct(s: seq<Key>)
  {
    forall i, j :: 0 <= i < j < |s| ==> s[i] != s[j]
  }

  /** The key order and the map hold the same keys, each once; entry_count tracks them. */
  predicate WellFormed<V>(c: Cache<V>)
  {
    Distinct(c.order)
    && (forall k :: k in c.order ==> k in c.entries)
    && (forall k :: k in c.entries ==> k in c.order)
    && c.stats.entryCount == |c.order|
  }

  function SizeOf<V>(m: map<Key, Entry<V>>, k: Key): nat
  {
    if k in m then m[k].size else 0
  }

  /** The bytes held by the entries listed in `ks`. */
  function LiveSize<V>(ks: seq<Key>, m: map<Key, Entry<V>>): nat
  {
    if |ks| == 0 then 0 else SizeOf(m, ks[0]) + LiveSize(ks[1..], m)
  }

  /**
   * What every reachable state satisfies. total_size only over-approximates
   * the live bytes: an expired `get` drops an entry without releasing its size.
   */
  predicate Valid<V>(c: Cache<V>)
  {
    WellFormed(c)
    && LiveSize(c.order, c.entries) <= c.stats.totalSize
    && c.stats.hitCount + c.stats.missCount == c.stats.totalRequests
  }

  /** The bounds `put` maintains. */
  predicate WithinBounds<V>(cfg: Config, c: Cache<V>)
  {
    |c.order| <= cfg.maxSize && LiveSize(c.order, c.entries) <= cfg.maxMemory
  }

  // ---------------------------------------------------------------------
  // Entries
  // ---------------------------------------------------------------------

  /** An entry with a ttl expires once its age is strictly greater than the ttl. */
  predicate IsExpired<V>(e: Entry<V>, now: real)
  {
    e.ttl.Some? && now - e.createdAt > e.ttl.value as real
  }

  /** CacheEntry.access(): stamps the access time and counts the access. */
  function Access<V>(e: Entry<V>, now: real): (r: Entry<V>)
    ensures r.accessCount == e.accessCount + 1 && r.lastAccessed == now
    ensures r.value == e.value && r.createdAt == e.createdAt && r.ttl == e.ttl && r.size == e.size
    ensures IsExpired(r, now) == IsExpired(e, now)
  {
    e.(lastAccessed := now, accessCount := e.accessCount + 1)
  }

  /** `ttl or default_ttl`: a missing or zero ttl falls back to the default. */
  function EffectiveTtl(ttl: Option<int>, defaultTtl: Option<int>): (r: Option<int>)
    ensures ttl.Some? && ttl.value != 0 ==> r == ttl
    ensures ttl.None? || ttl.value == 0 ==> r == defaultTtl
  {
    if ttl.None? || ttl.value == 0 then defaultTtl else ttl
  }

  /** CacheStats.hit_rate */
  function HitRate(s: Stats): (r: real)
    ensures s.totalRequests == 0 ==> r == 0.0
    ensures s.totalRequests > 0 ==> r * s.totalRequests as real == s.hitCount as real
    ensures s.hitCount <= s.totalRequests ==> 0.0 <= r <= 1.0
  {
    if s.totalRequests == 0 then 0.0 else s.hitCount as real / s.totalRequests as real
  }

  /** The label used for per-prefix statistics: the text before the first ':', else "default". */
  function KeyPrefix(key: Key): (r: string)
    ensures FindChar(key, ':') < |key| ==> |r| < |key| && key[..|r| + 1] == r + ":" && ':' !in r
    ensures FindChar(key, ':') == |key| ==> r == "default"
  {
    var i := FindChar(key, ':');
    if i < |key| then key[..i] else "default"
  }

  // ---------------------------------------------------------------------
  // Key order helpers
  // ---------------------------------------------------------------------

  /** The key order with k removed. */
  function Without(s: seq<Key>, k: Key): (r: seq<Key>)
    ensures forall x :: x in r <==> x in s && x != k
    ensures |r| <= |s|
    ensures k in s ==> |r| < |s|
    ensures k !in s ==> r == s
    ensures Distinct(s) ==> Distinct(r)
  {
    if |s| == 0 then []
    else if s[0] == k then Without(s[1..], k)
    else
      var rest := Without(s[1..], k);
      assert Distinct(s) ==> Distinct([s[0]] + rest) by {
        if Distinct(s) {
          DistinctCons(s[0], rest);
        }
      }
      [s[0]] + rest
  }

  lemma DistinctCons(a: Key, s: seq<Key>)
    requires a !in s && Distinct(s)
    ensures Distinct([a] + s)
  {
    var t := [a] + s;
    forall i, j | 0 <= i < j < |t| ensures t[i] != t[j] {
      assert t[j] == s[j - 1];
      if i > 0 {
        assert t[i] == s[i - 1];
      }
    }
  }

  /** Dropping one key from a well-formed cache, its order and entry_count keeps it well formed. */
  lemma WellFormedWithout<V>(c: Cache<V>, r: Cache<V>, k: Key)
    requires WellFormed(c) && k in c.entries
    requires r.order == Without(c.order, k) && r.entries == c.entries - {k}
    requires r.stats.entryCount == c.stats.entryCount - 1
    ensures WellFormed(r)
  {
    LengthWithout(c.order, k);
  }

  lemma {:induction false} LiveSizeFrame<V>(ks: seq<Key>, m1: map<Key, Entry<V>>, m2: map<Key, Entry<V>>)
    requires forall x :: x in ks ==> SizeOf(m1, x) == SizeOf(m2, x)
    ensures LiveSize(ks, m1) == LiveSize(ks, m2)
  {
    if |ks| > 0 {
      LiveSizeFrame(ks[1..], m1, m2);
    }
  }

  lemma {:induction false} LiveSizeAppend<V>(a: seq<Key>, b: seq<Key>, m: map<Key, Entry<V>>)
    ensures LiveSize(a + b, m) == LiveSize(a, m) + LiveSize(b, m)
  {
    if |a| == 0 {
      assert a + b == b;
    } else {
      assert (a + b)[0] == a[0];
      assert (a + b)[1..] == a[1..] + b;
      LiveSizeAppend(a[1..], b, m);
    }
  }

  /** Removing one listed key from the order and the map releases exactly its size. */
  lemma {:induction false} LiveSizeWithout<V>(s: seq<Key>, m: map<Key, Entry<V>>, k: Key)
    requires Distinct(s) && k in s
    ensures LiveSize(Without(s, k), m - {k}) == LiveSize(s, m) - SizeOf(m, k)
  {
    if s[0] == k {
      assert k !in s[1..];
      LiveSizeFrame(s[1..], m, m - {k});
    } else {
      LiveSizeWithout(s[1..], m, k);
    }
  }

  /** Replacing the entry of a listed key by one of the same size keeps the live size. */
  lemma LiveSizeUpdate<V>(s: seq<Key>, m: map<Key, Entry<V>>, k: Key, e: Entry<V>)
    requires k in m && e.size == m[k].size
    ensures LiveSize(s, m[k := e]) == LiveSize(s, m)
  {
    LiveSizeFrame(s, m, m[k := e]);
  }

  // ---------------------------------------------------------------------
  // get
  // ---------------------------------------------------------------------

  /**
   * CacheService.get: counts the request; a missing key is a miss; an
   * expired entry is dropped and counted as a miss without releasing its
   * size; otherwise the entry is accessed, a hit is counted and, under LRU
   * only, the key moves to the most-recent end.
   */
  function Get<V>(cfg: Config, c: Cache<V>, key: Key, now: real): (r: Step<V, Option<V>>)
    ensures r.cache.stats.totalRequests == c.stats.totalRequests + 1
    ensures r.out.Some? ==> r.cache.stats.hitCount == c.stats.hitCount + 1 && r.cache.stats.missCount == c.stats.missCount
    ensures r.out.None? ==> r.cache.stats.missCount == c.stats.missCount + 1 && r.cache.stats.hitCount == c.stats.hitCount
    ensures r.cache.stats.evictionCount == c.stats.evictionCount
    ensures r.out.Some? <==> key in c.entries && !IsExpired(c.entries[key], now)
    ensures r.out.Some? ==>
      r.out.value == c.entries[key].value
      && key in r.cache.entries && r.cache.entries[key] == Access(c.entries[key], now)
      && r.cache.stats.totalSize == c.stats.totalSize && r.cache.stats.entryCount == c.stats.entryCount
      && (cfg.strategy == LRU ==> r.cache.order == Without(c.order, key) + [key])
      && (cfg.strategy != LRU ==> r.cache.order == c.order)
    ensures key in c.entries && IsExpired(c.entries[key], now) ==>
      key !in r.cache.entries && r.cache.order == Without(c.order, key)
      && r.cache.stats.entryCount == c.stats.entryCount - 1
      && r.cache.stats.totalSize == c.stats.totalSize
    ensures key !in c.entries ==>
      r.cache.order == c.order && r.cache.entries == c.entries
      && r.cache.stats.entryCount == c.stats.entryCount && r.cache.stats.totalSize == c.stats.totalSize
    ensures forall k :: k != key ==>
      (k in r.cache.entries <==> k in c.entries)
      && (k in c.entries ==> r.cache.entries[k] == c.entries[k])
    ensures WellFormed(c) ==> WellFormed(r.cache)
    ensures Valid(c) ==> Valid(r.cache)
  {
    var s := c.stats.(totalRequests := c.stats.totalRequests + 1);
    if key !in c.entries then
      Step(c.(stats := s.(missCount := s.missCount + 1)), None)
    else
      var e := c.entries[key];
      if IsExpired(e, now) then
        var r := Cache(Without(c.order, key), c.entries - {key},
                       s.(missCount := s.missCount + 1, entryCount := s.entryCount - 1));
        GetExpiredValid(c, r, key);
        Step(r, None)
      else
        var order := if cfg.strategy == LRU then Without(c.order, key) + [key] else c.order;
        var r := Cache(order, c.entries[key := Access(e, now)], s.(hitCount := s.hitCount + 1));
        GetHitValid(c, r, key, Access(e, now), cfg.strategy == LRU);
        Step(r, Some(e.value))
  }

  lemma GetExpiredValid<V>(c: Cache<V>, r: Cache<V>, key: Key)
    requires key in c.entries
    requires r.order == Without(c.order, key) && r.entries == c.entries - {key}
    requires r.stats.entryCount == c.stats.entryCount - 1 && r.stats.totalSize == c.stats.totalSize
    requires r.stats.hitCount == c.stats.hitCount && r.stats.missCount == c.stats.missCount + 1
    requires r.stats.totalRequests == c.stats.totalRequests + 1
    ensures WellFormed(c) ==> WellFormed(r)
    ensures Valid(c) ==> Valid(r)
  {
    if WellFormed(c) {
      WellFormedWithout(c, r, key);
    }
    if Valid(c) {
      LiveSizeWithout(c.order, c.entries, key);
    }
  }

  lemma GetHitValid<V>(c: Cache<V>, r: Cache<V>, key: Key, e: Entry<V>, moved: bool)
    requires key in c.entries
    requires r.order == (if moved then Without(c.order, key) + [key] else c.order)
    requires r.entries == c.entries[key := e] && e.size == c.entries[key].size
    requires r.stats.entryCount == c.stats.entryCount && r.stats.totalSize == c.stats.totalSize
    requires r.stats.hitCount == c.stats.hitCount + 1 && r.stats.missCount == c.stats.missCount
    requires r.stats.totalRequests == c.stats.totalRequests + 1
    ensures WellFormed(c) ==> WellFormed(r)
    ensures Valid(c) ==> Valid(r)
  {
    if WellFormed(c) && moved {
      MoveToEndWellFormed(c.order, key);
    }
    if Valid(c) {
      LiveSizeUpdate(c.order, c.entries, key, e);
      if moved {
        var w := Without(c.order, key);
        MoveToEndWellFormed(c.order, key);
        LiveSizeAppend(w, [key], r.entries);
        LiveSizeWithout(c.order, r.entries, key);
        LiveSizeFrame(w, r.entries, r.entries - {key});
      }
    }
  }

  /** OrderedDict.move_to_end keeps the keys and their distinctness. */
  lemma MoveToEndWellFormed(s: seq<Key>, k: Key)
    requires Distinct(s) && k in s
    ensures Distinct(Without(s, k) + [k])
    ensures forall x :: x in Without(s, k) + [k] <==> x in s
    ensures |Without(s, k) + [k]| == |s|
  {
    var w := Without(s, k);
    var t := w + [k];
    forall i, j | 0 <= i < j < |t| ensures t[i] != t[j] {
      assert t[i] == w[i];
      if j < |w| {
        assert t[j] == w[j];
      }
    }
    LengthWithout(s, k);
  }

  lemma {:induction false} LengthWithout(s: seq<Key>, k: Key)
    requires Distinct(s) && k in s
    ensures |Without(s, k)| == |s| - 1
  {
    if s[0] != k {
      LengthWithout(s[1..], k);
    } else {
      assert k !in s[1..];
    }
  }

  // ---------------------------------------------------------------------
  // Order preservation
  // ---------------------------------------------------------------------

  /** a is obtained from b by deleting elements: the survivors keep their relative order. */
  predicate Subseq(a: seq<Key>, b: seq<Key>)
    decreases |b|
  {
    |a| == 0 || (|b| > 0 && ((a[0] == b[0] && Subseq(a[1..], b[1..])) || Subseq(a, b[1..])))
  }

  lemma {:induction false} SubseqLength(a: seq<Key>, b: seq<Key>)
    requires Subseq(a, b)
    ensures |a| <= |b|
    decreases |b|
  {
    if |a| > 0 {
      if a[0] == b[0] && Subseq(a[1..], b[1..]) {
        SubseqLength(a[1..], b[1..]);
      } else {
        SubseqLength(a, b[1..]);
      }
    }
  }

  lemma {:induction false} SubseqRefl(s: seq<Key>)
    ensures Subseq(s, s)
  {
    if |s| > 0 {
      SubseqRefl(s[1..]);
    }
  }

  lemma {:induction false} SubseqTrans(a: seq<Key>, b: seq<Key>, c: seq<Key>)
    requires Subseq(a, b) && Subseq(b, c)
    ensures Subseq(a, c)
    decreases |c|
  {
    if |a| > 0 {
      if b[0] == c[0] && Subseq(b[1..], c[1..]) {
        if a[0] == b[0] && Subseq(a[1..], b[1..]) {
          SubseqTrans(a[1..], b[1..], c[1..]);
        } else {
          SubseqTrans(a, b[1..], c[1..]);
        }
      } else {
        SubseqTrans(a, b, c[1..]);
      }
    }
  }

  lemma {:induction false} SubseqWithout(s: seq<Key>, k: Key)
    ensures Subseq(Without(s, k), s)
  {
    if |s| > 0 {
      SubseqWithout(s[1..], k);
      if s[0] != k {
        assert Without(s, k)[1..] == Without(s[1..], k);
      }
    }
  }

  /**
   * r arises from c by evictions only: the survivors keep their entries and
   * their relative order, every dropped entry counts one eviction and
   * releases exactly its size, and the request counters are untouched.
   */
  ghost predicate EvictedFrom<V>(c: Cache<V>, r: Cache<V>)
  {
    Subseq(r.order, c.order)
    && (forall k :: k in r.entries ==> k in c.entries && r.entries[k] == c.entries[k])
    && r.stats.hitCount == c.stats.hitCount
    && r.stats.missCount == c.stats.missCount
    && r.stats.totalRequests == c.stats.totalRequests
    && r.stats.evictionCount == c.stats.evictionCount + (|c.order| - |r.order|)
    && c.stats.totalSize - r.stats.totalSize == LiveSize(c.order, c.entries) - LiveSize(r.order, r.entries)
  }

  lemma EvictedFromRefl<V>(c: Cache<V>)
    ensures EvictedFrom(c, c)
  {
    SubseqRefl(c.order);
  }

  lemma EvictedFromTrans<V>(a: Cache<V>, b: Cache<V>, c: Cache<V>)
    requires EvictedFrom(a, b) && EvictedFrom(b, c)
    ensures EvictedFrom(a, c)
  {
    SubseqTrans(c.order, b.order, a.order);
  }

  lemma EvictedFromValid<V>(c: Cache<V>, r: Cache<V>)
    requires EvictedFrom(c, r) && WellFormed(r)
    ensures Valid(c) ==> Valid(r)
  {
  }

  // ---------------------------------------------------------------------
  // Victim selection and eviction
  // ---------------------------------------------------------------------

  /** Index of the first key, in order, whose access count is minimal (Python's min keeps the first). */
  function FirstLeastUsed<V>(order: seq<Key>, entries: map<Key, Entry<V>>): (i: nat)
    requires |order| > 0 && forall k :: k in order ==> k in entries
    ensures i < |order|
    ensures forall j :: 0 <= j < |order| ==> entries[order[i]].accessCount <= entries[order[j]].accessCount
    ensures forall j :: 0 <= j < i ==> entries[order[j]].accessCount > entries[order[i]].accessCount
  {
    if |order| == 1 then 0
    else
      var j := 1 + FirstLeastUsed(order[1..], entries);
      assert order[j] == order[1..][j - 1];
      assert forall x :: 1 <= x < |order| ==> order[x] == order[1..][x - 1];
      if entries[order[0]].accessCount <= entries[order[j]].accessCount then 0 else j
  }

  /** Index of the first expired key in order, or |order| when none has expired. */
  function FirstExpired<V>(order: seq<Key>, entries: map<Key, Entry<V>>, now: real): (i: nat)
    requires forall k :: k in order ==> k in entries
    ensures i <= |order|
    ensures i < |order| ==> IsExpired(entries[order[i]], now)
    ensures forall j :: 0 <= j < i ==> !IsExpired(entries[order[j]], now)
  {
    if |order| == 0 then 0
    else if IsExpired(entries[order[0]], now) then 0
    else
      var j := FirstExpired(order[1..], entries, now);
      assert forall x :: 1 <= x < |order| ==> order[x] == order[1..][x - 1];
      1 + j
  }

  /**
   * The key _evict_one removes: the oldest under LRU and FIFO; the first key
   * with the fewest accesses under LFU; under TTL the first expired key,
   * else the oldest.
   */
  function Victim<V>(cfg: Config, c: Cache<V>, now: real): (v: Key)
    requires WellFormed(c) && |c.order| > 0
    ensures v in c.entries
    ensures cfg.strategy in {LRU, FIFO} ==> v == c.order[0]
    ensures cfg.strategy == LFU ==>
      (forall k :: k in c.order ==> c.entries[v].accessCount <= c.entries[k].accessCount)
      && (forall i, j :: 0 <= i < j < |c.order| && c.order[j] == v ==>
            c.entries[c.order[i]].accessCount > c.entries[v].accessCount)
    ensures cfg.strategy == TTL && (forall k :: k in c.order ==> !IsExpired(c.entries[k], now)) ==>
      v == c.order[0]
    ensures cfg.strategy == TTL && (exists k :: k in c.order && IsExpired(c.entries[k], now)) ==>
      IsExpired(c.entries[v], now)
      && (forall i, j :: 0 <= i < j < |c.order| && c.order[j] == v ==> !IsExpired(c.entries[c.order[i]], now))
  {
    match cfg.strategy
    case LRU => c.order[0]
    case FIFO => c.order[0]
    case LFU =>
      var i := FirstLeastUsed(c.order, c.entries);
      assert forall j :: 0 <= j < |c.order| && c.order[j] == c.order[i] ==> j == i;
      c.order[i]
    case TTL =>
      var i := FirstExpired(c.order, c.entries, now);
      if i < |c.order| then
        assert forall j :: 0 <= j < |c.order| && c.order[j] == c.order[i] ==> j == i;
        c.order[i]
      else c.order[0]
  }

  /** Pops key k (del / pop): releases its size and one entry_count. */
  function Detach<V>(c: Cache<V>, k: Key): (r: Cache<V>)
    requires WellFormed(c) && k in c.entries
    ensures WellFormed(r)
    ensures r.order == Without(c.order, k) && r.entries == c.entries - {k}
    ensures r.stats == c.stats.(totalSize := c.stats.totalSize - c.entries[k].size,
                                entryCount := c.stats.entryCount - 1)
    ensures LiveSize(r.order, r.entries) == LiveSize(c.order, c.entries) - c.entries[k].size
  {
    var r := Cache(Without(c.order, k), c.entries - {k},
                   c.stats.(totalSize := c.stats.totalSize - c.entries[k].size,
                            entryCount := c.stats.entryCount - 1));
    WellFormedWithout(c, r, k);
    LiveSizeWithout(c.order, c.entries, k);
    r
  }

  /** _evict_one: nothing when empty, else pops the victim and counts an eviction. */
  function EvictOne<V>(cfg: Config, c: Cache<V>, now: real): (r: Cache<V>)
    requires WellFormed(c)
    ensures WellFormed(r) && EvictedFrom(c, r)
    ensures |c.order| == 0 ==> r == c
    ensures |c.order| > 0 ==>
      |r.order| == |c.order| - 1 && Victim(cfg, c, now) !in r.entries
  {
    if |c.order| == 0 then
      EvictedFromRefl(c);
      c
    else
      var v := Victim(cfg, c, now);
      var d := Detach(c, v);
      LengthWithout(c.order, v);
      SubseqWithout(c.order, v);
      d.(stats := d.stats.(evictionCount := d.stats.evictionCount + 1))
  }

  /** The first loop of _ensure_capacity: evict while the entry count has reached max_size. */
  function EvictForCount<V>(cfg: Config, c: Cache<V>, now: real): (r: Cache<V>)
    requires WellFormed(c) && cfg.maxSize >= 1
    ensures WellFormed(r) && EvictedFrom(c, r)
    ensures |r.order| == if |c.order| < cfg.maxSize then |c.order| else cfg.maxSize - 1
    decreases |c.order|
  {
    if |c.order| >= cfg.maxSize then
      var c1 := EvictOne(cfg, c, now);
      var r := EvictForCount(cfg, c1, now);
      EvictedFromTrans(c, c1, r);
      r
    else
      EvictedFromRefl(c);
      c
  }

  /**
   * The second loop of _ensure_capacity: evict while total_size plus the
   * incoming size exceeds max_memory and the cache is not empty.
   */
  function EvictForMemory<V>(cfg: Config, c: Cache<V>, newSize: nat, now: real): (r: Cache<V>)
    requires WellFormed(c)
    ensures WellFormed(r) && EvictedFrom(c, r)
    ensures |r.order| == 0 || r.stats.totalSize + newSize <= cfg.maxMemory
    ensures c.stats.totalSize + newSize <= cfg.maxMemory ==> r == c
    decreases |c.order|
  {
    if c.stats.totalSize + newSize > cfg.maxMemory && |c.order| > 0 then
      var c1 := EvictOne(cfg, c, now);
      var r := EvictForMemory(cfg, c1, newSize, now);
      EvictedFromTrans(c, c1, r);
      r
    else
      EvictedFromRefl(c);
      c
  }

  // ---------------------------------------------------------------------
  // put, delete, clear, cleanup
  // ---------------------------------------------------------------------

  /** The first step of put: any previous entry for the key is popped, releasing its size and count. */
  function DropExisting<V>(c: Cache<V>, key: Key): (r: Cache<V>)
    requires WellFormed(c)
    ensures WellFormed(r)
    ensures r.order == Without(c.order, key) && r.entries == c.entries - {key}
    ensures r.stats == c.stats.(totalSize := c.stats.totalSize - SizeOf(c.entries, key),
                                entryCount := c.stats.entryCount - (if key in c.entries then 1 else 0))
    ensures |r.order| == |c.order| - (if key in c.entries then 1 else 0)
    ensures Valid(c) ==> Valid(r)
  {
    if key in c.entries then
      LengthWithout(c.order, key);
      Detach(c, key)
    else c
  }

  /**
   * _ensure_capacity: after it there is room for one more entry and, unless
   * the cache had to be emptied, for `newSize` more bytes; it evicts nothing
   * when both bounds already hold. Needs max_size >= 1: otherwise the first
   * loop keeps calling a no-op eviction on the empty cache forever.
   */
  function EnsureCapacity<V>(cfg: Config, c: Cache<V>, newSize: nat, now: real): (r: Cache<V>)
    requires WellFormed(c) && cfg.maxSize >= 1
    ensures WellFormed(r) && EvictedFrom(c, r)
    ensures |r.order| < cfg.maxSize
    ensures |r.order| == 0 || r.stats.totalSize + newSize <= cfg.maxMemory
    ensures |c.order| < cfg.maxSize && c.stats.totalSize + newSize <= cfg.maxMemory ==> r == c
  {
    var c1 := EvictForCount(cfg, c, now);
    var r := EvictForMemory(cfg, c1, newSize, now);
    EvictedFromTrans(c, c1, r);
    SubseqLength(r.order, c1.order);
    assert |c.order| < cfg.maxSize ==> c1 == c;
    r
  }

  /** Appends a fresh key at the most-recent end. */
  function Insert<V>(c: Cache<V>, key: Key, e: Entry<V>): (r: Cache<V>)
    requires WellFormed(c) && key !in c.entries
    ensures WellFormed(r)
    ensures r.order == c.order + [key] && r.entries == c.entries[key := e]
    ensures r.stats == c.stats.(entryCount := c.stats.entryCount + 1, totalSize := c.stats.totalSize + e.size)
    ensures LiveSize(r.order, r.entries) == LiveSize(c.order, c.entries) + e.size
  {
    var r := Cache(c.order + [key], c.entries[key := e],
                   c.stats.(entryCount := c.stats.entryCount + 1, totalSize := c.stats.totalSize + e.size));
    var t := r.order;
    assert key !in c.order;
    forall i, j | 0 <= i < j < |t| ensures t[i] != t[j] {
      assert t[i] == c.order[i];
      if j < |c.order| {
        assert t[j] == c.order[j];
      }
    }
    LiveSizeAppend(c.order, [key], r.entries);
    LiveSizeFrame(c.order, c.entries, r.entries);
    r
  }

  /**
   * CacheService.put: refuses a value larger than the whole budget without
   * touching anything, even when the key exists; otherwise drops any
   * previous entry for the key, makes room, and appends the new entry at the
   * most-recent end with ttl `ttl or default_ttl`.
   */
  function Put<V>(cfg: Config, c: Cache<V>, key: Key, value: V, size: nat, ttl: Option<int>, now: real)
    : (r: Step<V, bool>)
    requires WellFormed(c) && cfg.maxSize >= 1
    ensures WellFormed(r.cache)
    ensures r.out <==> size <= cfg.maxMemory
    ensures !r.out ==> r.cache == c
    ensures r.out ==>
      |r.cache.order| > 0 && r.cache.order[|r.cache.order| - 1] == key
      && key in r.cache.entries
      && r.cache.entries[key] == Entry(value, now, now, 0, EffectiveTtl(ttl, cfg.defaultTtl), size)
      && |r.cache.order| <= cfg.maxSize
    ensures Valid(c) ==> Valid(r.cache)
  {
    if size > cfg.maxMemory then Step(c, false)
    else
      var c1 := DropExisting(c, key);
      var c2 := EnsureCapacity(cfg, c1, size, now);
      var r := Insert(c2, key, Entry(value, now, now, 0, EffectiveTtl(ttl, cfg.defaultTtl), size));
      assert Valid(c) ==> Valid(r) by {
        if Valid(c) {
          EvictedFromValid(c1, c2);
        }
      }
      Step(r, true)
  }

  /**
   * A successful put only evicts: every other surviving key keeps its entry
   * and its relative order, the request counters are untouched, and each
   * entry lost besides the replaced one is counted as an eviction.
   */
  lemma PutOnlyEvicts<V>(cfg: Config, c: Cache<V>, key: Key, value: V, size: nat, ttl: Option<int>, now: real)
    requires WellFormed(c) && cfg.maxSize >= 1 && size <= cfg.maxMemory
    ensures var r := Put(cfg, c, key, value, size, ttl, now).cache;
      Subseq(r.order[..|r.order| - 1], Without(c.order, key))
      && (forall k :: k in r.entries && k != key ==> k in c.entries && r.entries[k] == c.entries[k])
      && r.stats.hitCount == c.stats.hitCount && r.stats.missCount == c.stats.missCount
      && r.stats.totalRequests == c.stats.totalRequests
      && r.stats.evictionCount - c.stats.evictionCount
         == |c.order| - (if key in c.entries then 1 else 0) - (|r.order| - 1)
  {
    var c1 := DropExisting(c, key);
    var c2 := EnsureCapacity(cfg, c1, size, now);
    var r := Put(cfg, c, key, value, size, ttl, now).cache;
    assert r.order[..|r.order| - 1] == c2.order;
  }

  /** A put into a cache with room for the entry and its bytes evicts nothing. */
  lemma PutWithRoomKeepsAll<V>(cfg: Config, c: Cache<V>, key: Key, value: V, size: nat, ttl: Option<int>, now: real)
    requires WellFormed(c) && cfg.maxSize >= 1 && size <= cfg.maxMemory
    requires |Without(c.order, key)| < cfg.maxSize
    requires c.stats.totalSize - SizeOf(c.entries, key) + size <= cfg.maxMemory
    ensures var r := Put(cfg, c, key, value, size, ttl, now).cache;
      r.stats.evictionCount == c.stats.evictionCount
      && r.order == Without(c.order, key) + [key]
      && (forall k :: k in c.entries ==> k in r.entries)
      && (forall k :: k in c.entries && k != key ==> r.entries[k] == c.entries[k])
      && r.stats.totalSize == c.stats.totalSize - SizeOf(c.entries, key) + size
  {
    var c1 := DropExisting(c, key);
    assert EnsureCapacity(cfg, c1, size, now) == c1;
  }

  /** Two puts of different keys into a cache with room for both: the first entry survives the second. */
  lemma PutTwiceWithRoom<V>(cfg: Config, c: Cache<V>, k1: Key, v1: V, s1: nat, k2: Key, v2: V, s2: nat,
                            ttl: Option<int>, now: real)
    requires Valid(c) && cfg.maxSize >= 1 && k1 != k2
    requires |c.order| + 2 <= cfg.maxSize
    requires c.stats.totalSize + s1 + s2 <= cfg.maxMemory
    ensures var p1 := Put(cfg, c, k1, v1, s1, ttl, now);
      var p2 := Put(cfg, p1.cache, k2, v2, s2, ttl, now);
      p1.out && p2.out && k1 in p2.cache.entries
      && p2.cache.entries[k1] == Entry(v1, now, now, 0, EffectiveTtl(ttl, cfg.defaultTtl), s1)
  {
    var p1 := Put(cfg, c, k1, v1, s1, ttl, now);
    if k1 in c.order {
      LengthWithout(c.order, k1);
    }
    PutWithRoomKeepsAll(cfg, c, k1, v1, s1, ttl, now);
    if k2 in p1.cache.order {
      LengthWithout(p1.cache.order, k2);
    }
    assert |Without(p1.cache.order, k2)| < cfg.maxSize;
    assert p1.cache.stats.totalSize <= c.stats.totalSize + s1;
    PutWithRoomKeepsAll(cfg, p1.cache, k2, v2, s2, ttl, now);
  }

  lemma PutWithinBounds<V>(cfg: Config, c: Cache<V>, key: Key, value: V, size: nat, ttl: Option<int>, now: real)
    requires Valid(c) && cfg.maxSize >= 1 && size <= cfg.maxMemory
    ensures WithinBounds(cfg, Put(cfg, c, key, value, size, ttl, now).cache)
  {
    var c1 := DropExisting(c, key);
    var c2 := EnsureCapacity(cfg, c1, size, now);
    EvictedFromValid(c1, c2);
  }

  /** CacheService.delete: true iff the key was present; releases its size and count. */
  function Delete<V>(c: Cache<V>, key: Key): (r: Step<V, bool>)
    requires WellFormed(c)
    ensures r.out <==> key in c.entries
    ensures key !in r.cache.entries && WellFormed(r.cache)
    ensures forall k :: k != key ==>
      (k in r.cache.entries <==> k in c.entries) && (k in c.entries ==> r.cache.entries[k] == c.entries[k])
    ensures r.cache.order == Without(c.order, key)
    ensures r.out ==>
      r.cache.stats.totalSize == c.stats.totalSize - c.entries[key].size
      && r.cache.stats.entryCount == c.stats.entryCount - 1
    ensures !r.out ==> r.cache == c
    ensures r.cache.stats.hitCount == c.stats.hitCount && r.cache.stats.missCount == c.stats.missCount
    ensures r.cache.stats.evictionCount == c.stats.evictionCount
    ensures r.cache.stats.totalRequests == c.stats.totalRequests
    ensures Valid(c) ==> Valid(r.cache)
  {
    if key in c.entries then Step(Detach(c, key), true) else Step(c, false)
  }

  /** CacheService.clear: drops every entry and zeroes size and count; the counters stay. */
  function Clear<V>(c: Cache<V>): (r: Cache<V>)
    ensures |r.order| == 0 && |r.entries| == 0
    ensures r.stats.totalSize == 0 && r.stats.entryCount == 0
    ensures r.stats.hitCount == c.stats.hitCount && r.stats.missCount == c.stats.missCount
    ensures r.stats.evictionCount == c.stats.evictionCount
    ensures r.stats.totalRequests == c.stats.totalRequests
    ensures Valid(c) ==> Valid(r)
  {
    Cache([], map[], c.stats.(totalSize := 0, entryCount := 0))
  }

  /** The keys of `order` whose entries have expired, in order. */
  function ExpiredKeys<V>(order: seq<Key>, entries: map<Key, Entry<V>>, now: real): (r: seq<Key>)
    requires forall k :: k in order ==> k in entries
    ensures forall k :: k in r <==> k in order && IsExpired(entries[k], now)
    ensures Distinct(order) ==> Distinct(r)
  {
    if |order| == 0 then []
    else
      var rest := ExpiredKeys(order[1..], entries, now);
      if IsExpired(entries[order[0]], now) then
        assert Distinct(order) ==> Distinct([order[0]] + rest) by {
          if Distinct(order) {
            DistinctCons(order[0], rest);
          }
        }
        [order[0]] + rest
      else rest
  }

  /** Pops each listed key in turn, counting one eviction per key. */
  function PopAll<V>(c: Cache<V>, ks: seq<Key>): (r: Cache<V>)
    requires WellFormed(c) && Distinct(ks)
    requires forall k :: k in ks ==> k in c.entries
    ensures WellFormed(r) && EvictedFrom(c, r)
    ensures forall k :: k in r.entries <==> k in c.entries && k !in ks
    decreases |ks|
  {
    if |ks| == 0 then
      EvictedFromRefl(c);
      c
    else
      var d := Detach(c, ks[0]);
      var c1 := d.(stats := d.stats.(evictionCount := d.stats.evictionCount + 1));
      LengthWithout(c.order, ks[0]);
      SubseqWithout(c.order, ks[0]);
      assert EvictedFrom(c, c1);
      assert forall k :: k in ks[1..] ==> k in ks && k != ks[0];
      var r := PopAll(c1, ks[1..]);
      EvictedFromTrans(c, c1, r);
      r
  }

  /** _cleanup_expired: removes exactly the expired entries, each counted as an eviction. */
  function CleanupExpired<V>(c: Cache<V>, now: real): (r: Cache<V>)
    requires WellFormed(c)
    ensures WellFormed(r) && EvictedFrom(c, r)
    ensures forall k :: k in r.entries <==> k in c.entries && !IsExpired(c.entries[k], now)
    ensures Valid(c) ==> Valid(r)
  {
    var r := PopAll(c, ExpiredKeys(c.order, c.entries, now));
    EvictedFromValid(c, r);
    r
  }
}

=== FILE: cache_middleware.dfy ===
/**
 * The caching decorators: how each derives its cache key from a call, and
 * the hit/miss control flow around the wrapped function, as one transition
 * of the cache engine.
 *
 * The wrapped function is the parameter `func`, which returns a value or
 * raises; MD5, SHA-256 and Python's process-randomised `hash()` are
 * parameters; `render` stands for str() of floats, lists and dicts.
 */
module CacheMiddleware {
  import opened PyCore
  import opened PyValue
  import opened CacheEngine

  /** A call: positional arguments and keyword arguments in call order. */
  datatype Call = Call(name: string, args: seq<PyVal>, kwargs: seq<(string, PyVal)>)

  predicate DistinctKeys(kw: seq<(string, PyVal)>)
  {
    forall i, j :: 0 <= i < j < |kw| ==> kw[i].0 != kw[j].0
  }

  /** Python forbids repeating a keyword argument. */
  predicate WellFormedCall(call: Call)
  {
    DistinctKeys(call.kwargs)
  }

  predicate SortedByKey(kw: seq<(string, PyVal)>)
  {
    forall i, j :: 0 <= i < j < |kw| ==> StrLess(kw[i].0, kw[j].0)
  }

  function InsertByKey(p: (string, PyVal), kw: seq<(string, PyVal)>): (r: seq<(string, PyVal)>)
    ensures multiset(r) == multiset(kw) + multiset{p}
  {
    if |kw| == 0 then [p]
    else if StrLess(p.0, kw[0].0) then [p] + kw
    else
      assert kw == [kw[0]] + kw[1..];
      [kw[0]] + InsertByKey(p, kw[1..])
  }

  lemma {:induction false} InsertByKeySorted(p: (string, PyVal), kw: seq<(string, PyVal)>)
    requires SortedByKey(kw)
    requires forall i :: 0 <= i < |kw| ==> kw[i].0 != p.0
    ensures SortedByKey(InsertByKey(p, kw))
  {
    if |kw| > 0 && !StrLess(p.0, kw[0].0) {
      StrLessTotal(p.0, kw[0].0);
      InsertByKeySorted(p, kw[1..]);
      var t := InsertByKey(p, kw[1..]);
      forall x | x in t
        ensures StrLess(kw[0].0, x.0)
      {
        assert x in multiset(t);
        if x != p {
          assert x in multiset(kw[1..]);
          var j :| 0 <= j < |kw[1..]| && kw[1..][j] == x;
          assert kw[j + 1] == x;
        }
      }
      var r := [kw[0]] + t;
      forall i, j | 0 <= i < j < |r|
        ensures StrLess(r[i].0, r[j].0)
      {
        if i == 0 {
          assert r[j] == t[j - 1];
          assert r[j] in t;
        } else {
          assert r[i] == t[i - 1] && r[j] == t[j - 1];
        }
      }
    } else if |kw| > 0 {
      var r := [p] + kw;
      forall i, j | 0 <= i < j < |r|
        ensures StrLess(r[i].0, r[j].0)
      {
        if i == 0 && j > 1 {
          StrLessTransitive(p.0, kw[0].0, kw[j - 1].0);
        }
      }
    }
  }

  /** sorted(kwargs.items()) */
  function SortByKey(kw: seq<(string, PyVal)>): (r: seq<(string, PyVal)>)
    ensures multiset(r) == multiset(kw)
  {
    if |kw| == 0 then []
    else
      assert kw == kw[..|kw| - 1] + [kw[|kw| - 1]];
      InsertByKey(kw[|kw| - 1], SortByKey(kw[..|kw| - 1]))
  }

  lemma {:induction false} SortByKeySorted(kw: seq<(string, PyVal)>)
    requires DistinctKeys(kw)
    ensures SortedByKey(SortByKey(kw))
  {
    if |kw| > 0 {
      var init := kw[..|kw| - 1];
      var last := kw[|kw| - 1];
      SortByKeySorted(init);
      var s := SortByKey(init);
      forall i | 0 <= i < |s|
        ensures s[i].0 != last.0
      {
        assert s[i] in multiset(init);
        var j :| 0 <= j < |init| && init[j] == s[i];
      }
      InsertByKeySorted(last, s);
    }
  }

  /** Two key-sorted sequences holding the same items are the same sequence. */
  lemma {:induction false} SortedByKeyUnique(a: seq<(string, PyVal)>, b: seq<(string, PyVal)>)
    requires SortedByKey(a) && SortedByKey(b) && multiset(a) == multiset(b)
    ensures a == b
    decreases |a|
  {
    if |a| > 0 {
      assert |b| == |multiset(b)| == |multiset(a)| == |a|;
      SortedHeadsEqual(a, b);
      MultisetTail(a);
      MultisetTail(b);
      SortedByKeyUnique(a[1..], b[1..]);
      assert a == [a[0]] + a[1..] && b == [b[0]] + b[1..];
    }
  }

  lemma SortedHeadsEqual(a: seq<(string, PyVal)>, b: seq<(string, PyVal)>)
    requires SortedByKey(a) && SortedByKey(b) && multiset(a) == multiset(b)
    requires |a| > 0 && |b| > 0
    ensures a[0] == b[0]
  {
    assert a[0] in multiset(b) && b[0] in multiset(a);
    var i :| 0 <= i < |a| && a[i] == b[0];
    var j :| 0 <= j < |b| && b[j] == a[0];
    if i != 0 && j != 0 {
      StrLessTransitive(a[0].0, a[i].0, b[j].0);
      StrLessIrreflexive(a[0].0);
    } else if i != 0 {
      StrLessIrreflexive(a[0].0);
    } else if j != 0 {
      StrLessIrreflexive(b[0].0);
    }
  }

  lemma MultisetTail<T>(a: seq<T>)
    requires |a| > 0
    ensures multiset(a[1..]) == multiset(a) - multiset{a[0]}
  {
    assert a == [a[0]] + a[1..];
  }

  /** "|".join([name, str(arg)..., "k=v" for sorted kwargs]) */
  function KeyText(call: Call, render: PyVal -> string): string
  {
    var kw := SortByKey(call.kwargs);
    Join("|", [call.name]
              + seq(|call.args|, i requires 0 <= i < |call.args| => Str(call.args[i], render))
              + seq(|kw|, i requires 0 <= i < |kw| => kw[i].0 + "=" + Str(kw[i].1, render)))
  }

  /** cache_result's default key: cache_type:md5(key text). */
  function DefaultKey(call: Call, cacheType: string, md5: string -> string, render: PyVal -> string)
    : (k: string)
    ensures StartsWith(k, cacheType + ":")
  {
    cacheType + ":" + md5(KeyText(call, render))
  }

  /** The default key does not depend on the order the keyword arguments were passed in. */
  lemma DefaultKeyIgnoresKwargOrder(name: string, args: seq<PyVal>, kw1: seq<(string, PyVal)>,
                                    kw2: seq<(string, PyVal)>, cacheType: string,
                                    md5: string -> string, render: PyVal -> string)
    requires DistinctKeys(kw1) && DistinctKeys(kw2) && multiset(kw1) == multiset(kw2)
    ensures DefaultKey(Call(name, args, kw1), cacheType, md5, render)
         == DefaultKey(Call(name, args, kw2), cacheType, md5, render)
  {
    SortByKeySorted(kw1);
    SortByKeySorted(kw2);
    SortedByKeyUnique(SortByKey(kw1), SortByKey(kw2));
  }

  /** The key cache_result uses: the custom key function's, else the default one. */
  function CallKey(call: Call, keyFunc: Option<Call -> string>, cacheType: string,
                   md5: string -> string, render: PyVal -> string): (k: string)
    ensures keyFunc.None? ==> StartsWith(k, cacheType + ":")
  {
    if keyFunc.Some? then keyFunc.value(call) else DefaultKey(call, cacheType, md5, render)
  }

  /** What a decorated call returns, and whether the wrapped function ran. */
  datatype Decorated = Decorated(outcome: Outcome, ran: bool)

  /**
   * The wrapper cache_result installs: derive the key, return a cached
   * non-None value without running the function; otherwise run the
   * function once, store a returned value with the decorator's ttl, and
   * return it whether or not the store succeeded. An exception from the
   * function propagates and nothing is stored.
   */
  function CacheResult(cfg: Config, c: Cache<PyVal>, call: Call, ttl: Option<int>,
                       keyFunc: Option<Call -> string>, cacheType: string,
                       md5: string -> string, render: PyVal -> string,
                       func: Call -> Outcome, sizeOf: PyVal -> nat, now: real)
    : (r: Step<PyVal, Decorated>)
    requires WellFormed(c) && cfg.maxSize >= 1
    ensures var key := CallKey(call, keyFunc, cacheType, md5, render);
      var g := Get(cfg, c, key, now);
      var hit := g.out.Some? && g.out.value != PNone;
      (hit ==> r.cache == g.cache && r.out == Decorated(Returned(g.out.value), false))
      && (!hit ==> r.out.ran && r.out.outcome == func(call))
      && (!hit && func(call).Raised? ==> r.cache == g.cache)
      && (!hit && func(call).Returned? ==>
            r.cache == Put(cfg, g.cache, key, func(call).value, sizeOf(func(call).value), ttl, now).cache)
    ensures WellFormed(r.cache)
    ensures Valid(c) ==> Valid(r.cache)
  {
    var key := CallKey(call, keyFunc, cacheType, md5, render);
    var g := Get(cfg, c, key, now);
    if g.out.Some? && g.out.value != PNone then
      Step(g.cache, Decorated(Returned(g.out.value), false))
    else
      var result := func(call);
      match result
      case Raised(_) => Step(g.cache, Decorated(result, true))
      case Returned(v) =>
        var p := Put(cfg, g.cache, key, v, sizeOf(v), ttl, now);
        Step(p.cache, Decorated(result, true))
  }

  /**
   * A cached None is the same as a miss: the function runs again and its
   * result replaces the stored None.
   */
  lemma CachedNoneIsMiss(cfg: Config, c: Cache<PyVal>, call: Call, ttl: Option<int>,
                         keyFunc: Option<Call -> string>, cacheType: string,
                         md5: string -> string, render: PyVal -> string,
                         func: Call -> Outcome, sizeOf: PyVal -> nat, now: real)
    requires WellFormed(c) && cfg.maxSize >= 1
    requires var key := CallKey(call, keyFunc, cacheType, md5, render);
      key in c.entries && c.entries[key].value == PNone && !IsExpired(c.entries[key], now)
    ensures CacheResult(cfg, c, call, ttl, keyFunc, cacheType, md5, render, func, sizeOf, now).out.ran
  {
  }

  /**
   * A call whose key is not cached runs the function; when the result is
   * not None and fits, an identical call before it expires returns the
   * same value without running the function.
   */
  lemma SecondCallHits(cfg: Config, c: Cache<PyVal>, call: Call, ttl: Option<int>,
                       keyFunc: Option<Call -> string>, cacheType: string,
                       md5: string -> string, render: PyVal -> string,
                       func: Call -> Outcome, sizeOf: PyVal -> nat, now: real, later: real)
    requires WellFormed(c) && cfg.maxSize >= 1
    requires CallKey(call, keyFunc, cacheType, md5, render) !in c.entries
    requires func(call).Returned? && func(call).value != PNone
    requires sizeOf(func(call).value) <= cfg.maxMemory
    requires var t := EffectiveTtl(ttl, cfg.defaultTtl); t.None? || later - now <= t.value as real
    ensures var first := CacheResult(cfg, c, call, ttl, keyFunc, cacheType, md5, render, func, sizeOf, now);
      var second := CacheResult(cfg, first.cache, call, ttl, keyFunc, cacheType, md5, render, func, sizeOf, later);
      first.out == Decorated(func(call), true) && second.out == Decorated(func(call), false)
  {
    var key := CallKey(call, keyFunc, cacheType, md5, render);
    var v := func(call).value;
    var g := Get(cfg, c, key, now);
    assert g.out.None?;
    var p := Put(cfg, g.cache, key, v, sizeOf(v), ttl, now);
    var first := CacheResult(cfg, c, call, ttl, keyFunc, cacheType, md5, render, func, sizeOf, now);
    assert first.cache == p.cache;
    assert p.cache.entries[key] == Entry(v, now, now, 0, EffectiveTtl(ttl, cfg.defaultTtl), sizeOf(v));
    assert !IsExpired(p.cache.entries[key], later);
    var g2 := Get(cfg, p.cache, key, later);
    assert g2.out == Some(v);
  }

  /**
   * cache_with_ttl: cache_result with the default key under the "ttl" key
   * type; a result is stored with the given ttl, or the cache's default for 0.
   */
  function CacheWithTtl(cfg: Config, c: Cache<PyVal>, call: Call, ttl: int,
                        md5: string -> string, render: PyVal -> string,
                        func: Call -> Outcome, sizeOf: PyVal -> nat, now: real)
    : (r: Step<PyVal, Decorated>)
    requires WellFormed(c) && cfg.maxSize >= 1
    ensures var key := "ttl:" + md5(KeyText(call, render));
      var g := Get(cfg, c, key, now);
      g.out.Some? && g.out.value != PNone ==> r.out == Decorated(Returned(g.out.value), false) && r.cache == g.cache
    ensures var key := "ttl:" + md5(KeyText(call, render));
      var g := Get(cfg, c, key, now);
      !(g.out.Some? && g.out.value != PNone) ==> r.out.ran && r.out.outcome == func(call)
    ensures var key := "ttl:" + md5(KeyText(call, render));
      var g := Get(cfg, c, key, now);
      (!(g.out.Some? && g.out.value != PNone) && func(call).Returned? &&
       sizeOf(func(call).value) <= cfg.maxMemory) ==>
      key in r.cache.entries &&
      r.cache.entries[key] == Entry(func(call).value, now, now, 0, if ttl == 0 then cfg.defaultTtl else Some(ttl),
                                    sizeOf(func(call).value))
  {
    assert CallKey(call, None, "ttl", md5, render) == "ttl:" + md5(KeyText(call, render));
    assert EffectiveTtl(Some(ttl), cfg.defaultTtl) == if ttl == 0 then cfg.defaultTtl else Some(ttl);
    CacheResult(cfg, c, call, Some(ttl), None, "ttl", md5, render, func, sizeOf, now)
  }

  /** kwargs.get(name, default) over call-ordered keyword arguments. */
  function Kwarg(kw: seq<(string, PyVal)>, name: string, default: PyVal): (v: PyVal)
    ensures (forall i :: 0 <= i < |kw| ==> kw[i].0 != name) ==> v == default
    ensures |kw| > 0 && kw[0].0 == name ==> v == kw[0].1
  {
    if |kw| == 0 then default
    else if kw[0].0 == name then kw[0].1
    else Kwarg(kw[1..], name, default)
  }

  /** cache_embedding's key: emb:sha256("embedding:{model}:{text}"). */
  function EmbeddingKey(call: Call, sha256: string -> string, render: PyVal -> string): (k: string)
    ensures StartsWith(k, "emb:")
  {
    var text := if |call.args| > 0 then Str(call.args[0], render) else "";
    var model := Str(Kwarg(call.kwargs, "model", PStr("default")), render);
    "emb:" + sha256("embedding:" + model + ":" + text)
  }

  /** cache_embedding's default ttl, one hour. */
  const EmbeddingTtl: Option<int> := Some(3600)

  /**
   * cache_embedding(ttl): cache_result with the embedding key function and
   * the "embedding" key type. `ttl` is the decorator's argument as passed,
   * EmbeddingTtl when omitted; an explicit None reaches the cache, which
   * falls back to its own default.
   */
  function CacheEmbedding(cfg: Config, c: Cache<PyVal>, call: Call, ttl: Option<int>,
                          md5: string -> string, sha256: string -> string, render: PyVal -> string,
                          func: Call -> Outcome, sizeOf: PyVal -> nat, now: real)
    : (r: Step<PyVal, Decorated>)
    requires WellFormed(c) && cfg.maxSize >= 1
    ensures var key := EmbeddingKey(call, sha256, render);
      var g := Get(cfg, c, key, now);
      g.out.Some? && g.out.value != PNone ==> r.out == Decorated(Returned(g.out.value), false) && r.cache == g.cache
    ensures var key := EmbeddingKey(call, sha256, render);
      var g := Get(cfg, c, key, now);
      !(g.out.Some? && g.out.value != PNone) ==> r.out.ran && r.out.outcome == func(call)
    ensures var key := EmbeddingKey(call, sha256, render);
      var g := Get(cfg, c, key, now);
      (!(g.out.Some? && g.out.value != PNone) && func(call).Returned? &&
       sizeOf(func(call).value) <= cfg.maxMemory) ==>
      key in r.cache.entries &&
      r.cache.entries[key] == Entry(func(call).value, now, now, 0, EffectiveTtl(ttl, cfg.defaultTtl),
                                    sizeOf(func(call).value))
  {
    CacheResult(cfg, c, call, ttl, Some((x: Call) => EmbeddingKey(x, sha256, render)), "embedding",
                md5, render, func, sizeOf, now)
  }

  /** Only the first positional argument and the `model` keyword reach the embedding key. */
  lemma EmbeddingKeyIgnoresOtherArgs(a: Call, b: Call, sha256: string -> string, render: PyVal -> string)
    requires |a.args| > 0 && |b.args| > 0 && a.args[0] == b.args[0]
    requires Kwarg(a.kwargs, "model", PStr("default")) == Kwarg(b.kwargs, "model", PStr("default"))
    ensures EmbeddingKey(a, sha256, render) == EmbeddingKey(b, sha256, render)
  {
  }

  /**
   * The wrappers of cache_rag_query and cache_document_processing: a cached
   * non-None value is returned; on a miss the function runs and the wrapper
   * then calls `cache_service.set`, which the cache service does not define,
   * so the call fails with AttributeError after the function ran and nothing
   * is stored.
   */
  function PrefixedLookup(cfg: Config, c: Cache<PyVal>, key: string, call: Call, func: Call -> Outcome,
                          now: real): (r: Step<PyVal, Decorated>)
    ensures var g := Get(cfg, c, key, now);
      r.cache == g.cache
      && (g.out.Some? && g.out.value != PNone ==> r.out == Decorated(Returned(g.out.value), false))
      && (!(g.out.Some? && g.out.value != PNone) ==> r.out.ran && r.out.outcome.Raised?)
  {
    var g := Get(cfg, c, key, now);
    if g.out.Some? && g.out.value != PNone then Step(g.cache, Decorated(Returned(g.out.value), false))
    else
      match func(call)
      case Raised(e) => Step(g.cache, Decorated(Raised(e), true))
      case Returned(_) => Step(g.cache, Decorated(Raised("AttributeError"), true))
  }

  /** cache_rag_query's key: prefix:hash(str(query)), query from the `query` keyword or the first argument. */
  function RagQueryKey(call: Call, prefix: string, hash: string -> int, render: PyVal -> string): string
  {
    var q := Kwarg(call.kwargs, "query", if |call.args| > 0 then call.args[0] else PStr(""));
    prefix + ":" + IntToString(hash(Str(q, render)))
  }

  /** cache_document_processing's key: prefix:document_id, from the keyword or the first argument. */
  function DocumentKey(call: Call, prefix: string, render: PyVal -> string): string
  {
    var d := Kwarg(call.kwargs, "document_id", if |call.args| > 0 then call.args[0] else PStr(""));
    prefix + ":" + Str(d, render)
  }

  function CacheRagQuery(cfg: Config, c: Cache<PyVal>, call: Call, prefix: string, hash: string -> int,
                         render: PyVal -> string, func: Call -> Outcome, now: real): (r: Step<PyVal, Decorated>)
    ensures r.out.outcome.Returned? ==> !r.out.ran
    ensures r.cache.entries.Keys <= c.entries.Keys
  {
    var r := PrefixedLookup(cfg, c, RagQueryKey(call, prefix, hash, render), call, func, now);
    r
  }

  function CacheDocumentProcessing(cfg: Config, c: Cache<PyVal>, call: Call, prefix: string,
                                   render: PyVal -> string, func: Call -> Outcome, now: real)
    : (r: Step<PyVal, Decorated>)
    ensures r.out.outcome.Returned? ==> !r.out.ran
    ensures r.cache.entries.Keys <= c.entries.Keys
  {
    PrefixedLookup(cfg, c, DocumentKey(call, prefix, render), call, func, now)
  }
}

=== FILE: configuration_service.dfy ===
/**
 * ConfigurationService: configuration lookup with the precedence
 * cache > environment variable > built-in default > caller's default,
 * conversion of environment text by the type of the built-in default,
 * environment detection, masking of sensitive values and the validation
 * report. The process environment is a snapshot map; float() parsing and
 * the repr of floats, lists and dicts are parameters.
 */
module ConfigurationService {
  import opened PyCore
  import opened PyValue

  datatype Environment = Development | Production | Testing | Staging

  datatype Service = Service(
    environment: Environment,
    vars: map<string, string>,
    defaults: map<string, PyVal>,
    cache: map<string, PyVal>)

  /** Python's float() on a string: Some(value) or None where it raises ValueError. */
  type FloatParser = string -> Option<real>

  // ---------------------------------------------------------------------
  // Environment and defaults
  // ---------------------------------------------------------------------

  /**
   * _detect_environment: a non-empty SPACE_ID means PRODUCTION; otherwise
   * the lower-cased APP_ENVIRONMENT (default "development") picks the
   * environment, anything unrecognised being DEVELOPMENT.
   */
  function DetectEnvironment(vars: map<string, string>): (e: Environment)
    ensures "SPACE_ID" in vars && vars["SPACE_ID"] != "" ==> e == Production
    ensures !("SPACE_ID" in vars && vars["SPACE_ID"] != "") ==>
      var name := Lower(if "APP_ENVIRONMENT" in vars then vars["APP_ENVIRONMENT"] else "development");
      e == (if name == "production" then Production
            else if name == "testing" then Testing
            else if name == "staging" then Staging
            else Development)
  {
    var name := Lower(if "APP_ENVIRONMENT" in vars then vars["APP_ENVIRONMENT"] else "development");
    if "SPACE_ID" in vars && vars["SPACE_ID"] != "" then Production
    else if name == "production" then Production
    else if name == "testing" then Testing
    else if name == "staging" then Staging
    else Development
  }

  /** The keys of the built-in defaults, in declaration order. */
  const DefaultKeys: seq<string> := [
    "google_api_key", "embedding_model", "chat_model", "fallback_models",
    "chunk_size", "chunk_overlap", "max_tokens",
    "similarity_top_k", "search_similarity_threshold",
    "chroma_db_path", "chroma_collection_name",
    "max_file_size_mb", "allowed_file_types", "upload_temp_dir",
    "max_history_length", "conversation_timeout_minutes",
    "request_timeout_seconds", "max_concurrent_requests", "rate_limit_requests_per_minute",
    "gradio_server_name", "gradio_server_port", "gradio_debug",
    "log_level", "log_format", "log_file_path", "log_max_file_size_mb", "log_backup_count"
  ]

  const BaseDefaults: map<string, PyVal> := map[
    "google_api_key" := PNone,
    "embedding_model" := PStr("models/embedding-001"),
    "chat_model" := PStr("gemini-2.0-flash"),
    "fallback_models" := PList([PStr("gemini-2.0-flash"), PStr("gemini-2.0-flash-lite"),
                                PStr("gemini-1.5-flash"), PStr("gemini-1.5-pro")]),
    "chunk_size" := PInt(1000),
    "chunk_overlap" := PInt(200),
    "max_tokens" := PInt(1000),
    "similarity_top_k" := PInt(4),
    "search_similarity_threshold" := PFloat(0.7),
    "chroma_db_path" := PStr("./chroma_db"),
    "chroma_collection_name" := PStr("documents"),
    "max_file_size_mb" := PInt(50),
    "allowed_file_types" := PList([PStr(".pdf")]),
    "upload_temp_dir" := PStr("./uploads"),
    "max_history_length" := PInt(10),
    "conversation_timeout_minutes" := PInt(30),
    "request_timeout_seconds" := PInt(120),
    "max_concurrent_requests" := PInt(5),
    "rate_limit_requests_per_minute" := PInt(60),
    "gradio_server_name" := PStr("127.0.0.1"),
    "gradio_server_port" := PInt(7862),
    "gradio_debug" := PBool(true),
    "log_level" := PStr("INFO"),
    "log_format" := PStr("%(asctime)s - %(name)s - %(levelname)s - %(message)s"),
    "log_file_path" := PStr("./logs/app.log"),
    "log_max_file_size_mb" := PInt(10),
    "log_backup_count" := PInt(5)
  ]

  /** The keys some environment overrides. */
  const OverriddenKeys: set<string> :=
    {"gradio_debug", "log_level", "gradio_server_name", "gradio_server_port", "max_file_size_mb", "chroma_db_path"}

  /**
   * _init_default_configs: production turns debugging off, logs at WARNING
   * and serves on 0.0.0.0:7860; testing logs at DEBUG, caps uploads at
   * 10 MB and uses a separate Chroma path. The key set never changes.
   */
  function DefaultsFor(e: Environment): (d: map<string, PyVal>)
    ensures d.Keys == BaseDefaults.Keys
    ensures e == Production ==>
      (d["gradio_debug"] == PBool(false) && d["log_level"] == PStr("WARNING")
       && d["gradio_server_name"] == PStr("0.0.0.0") && d["gradio_server_port"] == PInt(7860))
    ensures e == Testing ==>
      (d["log_level"] == PStr("DEBUG") && d["max_file_size_mb"] == PInt(10)
       && d["chroma_db_path"] == PStr("./test_chroma_db"))
    ensures e in {Development, Staging} ==> d == BaseDefaults
    ensures forall k :: k in d && k !in OverriddenKeys ==> d[k] == BaseDefaults[k]
  {
    match e
    case Production =>
      BaseDefaults["gradio_debug" := PBool(false)]["log_level" := PStr("WARNING")]
        ["gradio_server_name" := PStr("0.0.0.0")]["gradio_server_port" := PInt(7860)]
    case Testing =>
      BaseDefaults["log_level" := PStr("DEBUG")]["max_file_size_mb" := PInt(10)]
        ["chroma_db_path" := PStr("./test_chroma_db")]
    case _ => BaseDefaults
  }

  lemma DefaultKeysAreTheDefaults()
    ensures forall k :: k in DefaultKeys <==> k in BaseDefaults
  {
  }

  /** ConfigurationService(environment): an explicit environment wins over detection; the cache starts empty. */
  function NewService(explicit: Option<Environment>, vars: map<string, string>): (s: Service)
    ensures s.environment == (if explicit.Some? then explicit.value else DetectEnvironment(vars))
    ensures s.defaults == DefaultsFor(s.environment) && s.cache == map[] && s.vars == vars
  {
    var e := if explicit.Some? then explicit.value else DetectEnvironment(vars);
    Service(e, vars, DefaultsFor(e), map[])
  }

  // ---------------------------------------------------------------------
  // Lookup
  // ---------------------------------------------------------------------

  /**
   * _convert_value: the built-in default's type decides. bool: one of the
   * truthy words; int and float: the parsed number, or the default when
   * parsing fails; list: the stripped comma-separated pieces, or the text
   * as a one-element list; anything else (or no default): the text itself.
   */
  function ConvertValue(defaults: map<string, PyVal>, key: string, text: string, parseFloat: FloatParser): (v: PyVal)
    ensures var d := DictGet(defaults, key, PNone);
      && (d.PBool? ==> v == PBool(TruthyText(text)))
      && (d.PInt? ==> v == (if ParseInt(text).Some? then PInt(ParseInt(text).value) else d))
      && (d.PFloat? ==> v == (if parseFloat(text).Some? then PFloat(parseFloat(text).value) else d))
      && (d.PList? && ',' !in text ==> v == PList([PStr(text)]))
      && (d.PList? && ',' in text ==>
            (v.PList? && |v.items| == |SplitOn(text, ',')|
             && forall i :: 0 <= i < |v.items| ==> v.items[i] == PStr(Strip(SplitOn(text, ',')[i]))))
      && (!(d.PBool? || d.PInt? || d.PFloat? || d.PList?) ==> v == PStr(text))
  {
    var d := DictGet(defaults, key, PNone);
    match d
    case PBool(_) => PBool(TruthyText(text))
    case PInt(_) =>
      var n := ParseInt(text);
      if n.Some? then PInt(n.value) else d
    case PFloat(_) =>
      var f := parseFloat(text);
      if f.Some? then PFloat(f.value) else d
    case PList(_) =>
      if ',' in text then
        var pieces := SplitOn(text, ',');
        PList(seq(|pieces|, i requires 0 <= i < |pieces| => PStr(Strip(pieces[i]))))
      else PList([PStr(text)])
    case _ => PStr(text)
  }

  /** An integer setting read back from its own decimal text keeps its value. */
  lemma ConvertIntRoundTrip(defaults: map<string, PyVal>, key: string, i: int, parseFloat: FloatParser)
    requires key in defaults && defaults[key].PInt?
    ensures ConvertValue(defaults, key, IntToString(i), parseFloat) == PInt(i)
  {
    ParseIntOfIntToString(i);
  }

  /**
   * get_value: the cached value; else the environment variable KEY.upper()
   * converted, and cached; else the built-in default, and cached; else the
   * caller's default, which is not cached.
   */
  function GetValue(s: Service, key: string, default: PyVal, parseFloat: FloatParser): (res: (PyVal, Service))
    ensures key in s.cache ==> res == (s.cache[key], s)
    ensures key !in s.cache && Upper(key) in s.vars ==>
      var v := ConvertValue(s.defaults, key, s.vars[Upper(key)], parseFloat);
      res == (v, s.(cache := s.cache[key := v]))
    ensures key !in s.cache && Upper(key) !in s.vars && key in s.defaults ==>
      res == (s.defaults[key], s.(cache := s.cache[key := s.defaults[key]]))
    ensures key !in s.cache && Upper(key) !in s.vars && key !in s.defaults ==> res == (default, s)
  {
    if key in s.cache then (s.cache[key], s)
    else if Upper(key) in s.vars then
      var v := ConvertValue(s.defaults, key, s.vars[Upper(key)], parseFloat);
      (v, s.(cache := s.cache[key := v]))
    else if key in s.defaults then (s.defaults[key], s.(cache := s.cache[key := s.defaults[key]]))
    else (default, s)
  }

  /** set_value: the key is overridden in the cache. */
  function SetValue(s: Service, key: string, value: PyVal): (r: Service)
    ensures r.cache == s.cache[key := value]
    ensures r.vars == s.vars && r.defaults == s.defaults && r.environment == s.environment
  {
    s.(cache := s.cache[key := value])
  }

  /** reload_configuration: the cache is emptied and the environment re-read. */
  function Reload(s: Service, vars: map<string, string>): (r: Service)
    ensures r.cache == map[] && r.vars == vars
    ensures r.defaults == s.defaults && r.environment == s.environment
  {
    s.(cache := map[], vars := vars)
  }

  /** A value that was set is what get_value returns, whatever the environment says. */
  lemma SetThenGet(s: Service, key: string, value: PyVal, default: PyVal, parseFloat: FloatParser)
    ensures GetValue(SetValue(s, key, value), key, default, parseFloat).0 == value
  {
  }

  /** After a reload, an earlier set_value is forgotten. */
  lemma ReloadForgetsSet(s: Service, key: string, value: PyVal, vars: map<string, string>, default: PyVal, parseFloat: FloatParser)
    ensures GetValue(Reload(SetValue(s, key, value), vars), key, default, parseFloat)
         == GetValue(Reload(s, vars), key, default, parseFloat)
  {
  }

  /**
   * A lookup answers the same before and after any other lookup: caching
   * one key never changes what another key (or the same key) resolves to.
   */
  lemma GetValueStable(s: Service, j: string, k: string, d1: PyVal, d2: PyVal, parseFloat: FloatParser)
    ensures GetValue(GetValue(s, j, d1, parseFloat).1, k, d2, parseFloat).0 == GetValue(s, k, d2, parseFloat).0
  {
  }

  /** A key already looked up keeps its value even when the environment later changes. */
  lemma CachedValueSurvivesEnvironmentChange(s: Service, key: string, vars: map<string, string>, parseFloat: FloatParser)
    requires key in s.defaults
    ensures var r := GetValue(s, key, PNone, parseFloat);
      GetValue(r.1.(vars := vars), key, PNone, parseFloat).0 == r.0
  {
  }

  // ---------------------------------------------------------------------
  // get_all_configs
  // ---------------------------------------------------------------------

  const SensitiveKeys: set<string> := {"google_api_key", "api_key", "secret", "password", "token"}

  /** A key is masked when its lower-cased form contains a sensitive word. */
  predicate IsSensitive(key: string)
  {
    exists w :: w in SensitiveKeys && Contains(Lower(key), w)
  }

  /** The masked display: first4...last4 for long values, then configured or not configured. */
  function Mask(v: PyVal, render: PyVal -> string): (r: PyVal)
    ensures Truthy(v) && |Str(v, render)| > 8 ==> r == PStr(ShowEdges(Str(v, render)))
    ensures Truthy(v) && |Str(v, render)| <= 8 ==> r == PStr("***已配置***")
    ensures !Truthy(v) ==> r == PStr("***未配置***")
  {
    var t := Str(v, render);
    if Truthy(v) && |t| > 8 then PStr(ShowEdges(t))
    else if Truthy(v) then PStr("***已配置***")
    else PStr("***未配置***")
  }

  function Shown(key: string, v: PyVal, render: PyVal -> string): PyVal
  {
    if IsSensitive(key) then Mask(v, render) else v
  }

  /** Looks up each listed key in turn, collecting the displayed values. */
  function ShowAll(s: Service, keys: seq<string>, render: PyVal -> string, parseFloat: FloatParser): (res: (map<string, PyVal>, Service))
    ensures res.0.Keys == set k | k in keys
    ensures forall k :: k in keys ==> res.0[k] == Shown(k, GetValue(s, k, PNone, parseFloat).0, render)
    ensures forall k :: k in res.1.cache ==> k in s.cache || k in keys
    ensures res.1.defaults == s.defaults && res.1.vars == s.vars
    decreases |keys|
  {
    if |keys| == 0 then (map[], s)
    else
      var (v, s1) := GetValue(s, keys[0], PNone, parseFloat);
      var (rest, s2) := ShowAll(s1, keys[1..], render, parseFloat);
      forall k | k in keys[1..]
        ensures GetValue(s1, k, PNone, parseFloat).0 == GetValue(s, k, PNone, parseFloat).0
      {
        GetValueStable(s, keys[0], k, PNone, PNone, parseFloat);
      }
      assert forall k :: k in keys ==> k == keys[0] || k in keys[1..];
      (rest[keys[0] := Shown(keys[0], v, render)], s2)
  }

  /**
   * get_all_configs: every built-in key with its current value, sensitive
   * ones masked; looking them up caches them.
   */
  function GetAllConfigs(s: Service, render: PyVal -> string, parseFloat: FloatParser): (res: (map<string, PyVal>, Service))
    ensures res.0.Keys == set k | k in DefaultKeys
    ensures forall k :: k in DefaultKeys ==> res.0[k] == Shown(k, GetValue(s, k, PNone, parseFloat).0, render)
  {
    var keys := DefaultKeys;
    ShowAll(s, keys, render, parseFloat)
  }

  /** max_tokens contains "token", so its 1000 is displayed as configured rather than shown. */
  lemma MaxTokensIsMasked(render: PyVal -> string)
    ensures IsSensitive("max_tokens")
    ensures Mask(PInt(1000), render) == PStr("***已配置***")
  {
    assert OccursAt(Lower("max_tokens"), "token", 4);
    assert "token" in SensitiveKeys;
    assert NatToString(1000) == NatToString(100) + ['0'];
  }

  // ---------------------------------------------------------------------
  // validate_configuration
  // ---------------------------------------------------------------------

  /** `v <= 0`: None where Python raises TypeError (None, str, list, dict, objects). */
  function AtMostZero(v: PyVal): (r: Option<bool>)
    ensures r.Some? <==> IsNumber(v)
    ensures r.Some? ==> r.value == (AsReal(v) <= 0.0)
  {
    if IsNumber(v) then Some(AsReal(v) <= 0.0) else None
  }

  /** The problems validate_configuration reports; `Message` gives the text the source uses. */
  datatype Problem =
    | MissingKey
    | DirectoryFailed(reason: string)
    | ChunkSizeNotPositive
    | FileSizeNotPositive
    | KeyFormat
    | PortOutOfRange(port: string)

  function Message(p: Problem): string
  {
    match p
    case MissingKey => "Google API Key 未配置"
    case DirectoryFailed(e) => "无法创建必要目录: " + e
    case ChunkSizeNotPositive => "chunk_size 必须大于0"
    case FileSizeNotPositive => "max_file_size_mb 必须大于0"
    case KeyFormat => "Google API Key 格式可能不正确"
    case PortOutOfRange(port) => "端口 " + port + " 可能不在推荐范围内 (1024-65535)"
  }

  datatype ValidationResult = ValidationResult(isValid: bool, errors: seq<Problem>, warnings: seq<Problem>)

  /** [p] when the condition holds, else []. */
  function When(c: bool, p: Problem): (r: seq<Problem>)
    ensures p in r <==> c
    ensures |r| == if c then 1 else 0
    ensures forall q :: q in r ==> q == p
    ensures IsSubseq(r, [p])
  {
    if c then [p] else []
  }

  /** The order the errors are appended in: the key, the directories, chunk_size, max_file_size_mb. */
  function ErrorOrder(makedirsError: Option<string>): seq<Problem>
  {
    [MissingKey] + (if makedirsError.Some? then [DirectoryFailed(makedirsError.value)] else [])
    + [ChunkSizeNotPositive, FileSizeNotPositive]
  }

  /**
   * The report validate_configuration builds from the values it looked up.
   * Errors: a missing key, a failed directory creation (`makedirsError`,
   * the outcome of os.makedirs), chunk_size or max_file_size_mb not
   * positive. Warnings: a key not starting with "AIza", a port outside
   * 1024..65535. A comparison Python cannot make (a truthy key that is not
   * a string, a non-numeric size or port) raises, which is Err.
   */
  function Report(key: PyVal, makedirsError: Option<string>, chunk: PyVal, fileSize: PyVal, port: PyVal,
                  render: PyVal -> string): (r: Result<ValidationResult>)
    ensures r.Err? <==> (Truthy(key) && !key.PStr?) || !IsNumber(chunk) || !IsNumber(fileSize) || !IsNumber(port)
    ensures r.Ok? ==> (r.value.isValid <==> |r.value.errors| == 0)
    ensures r.Ok? ==> (MissingKey in r.value.errors <==> !Truthy(key))
    ensures r.Ok? ==> (ChunkSizeNotPositive in r.value.errors <==> AsReal(chunk) <= 0.0)
    ensures r.Ok? ==> (FileSizeNotPositive in r.value.errors <==> AsReal(fileSize) <= 0.0)
    ensures r.Ok? ==> (makedirsError.Some? ==> DirectoryFailed(makedirsError.value) in r.value.errors)
    ensures r.Ok? ==> (forall e :: DirectoryFailed(e) in r.value.errors ==> makedirsError == Some(e))
    ensures r.Ok? ==>
      |r.value.errors| == (if !Truthy(key) then 1 else 0) + (if makedirsError.Some? then 1 else 0)
      + (if AsReal(chunk) <= 0.0 then 1 else 0) + (if AsReal(fileSize) <= 0.0 then 1 else 0)
    ensures r.Ok? ==> (KeyFormat in r.value.warnings <==> Truthy(key) && !StartsWith(key.s, "AIza"))
    ensures r.Ok? ==> (PortOutOfRange(Str(port, render)) in r.value.warnings <==> !(1024.0 <= AsReal(port) <= 65535.0))
    ensures r.Ok? ==> |r.value.warnings| <= 2
    ensures r.Ok? ==> IsSubseq(r.value.errors, ErrorOrder(makedirsError))
    ensures r.Ok? ==> IsSubseq(r.value.warnings, [KeyFormat, PortOutOfRange(Str(port, render))])
  {
    if Truthy(key) && !key.PStr? then Err("AttributeError: startswith")
    else if !IsNumber(chunk) || !IsNumber(fileSize) || !IsNumber(port) then Err("TypeError: '<=' not supported")
    else
      var errors := Errors(key, makedirsError, chunk, fileSize);
      var warnings := Warnings(key, port, render);
      ErrorsInOrder(key, makedirsError, chunk, fileSize);
      Ok(ValidationResult(|errors| == 0, errors, warnings))
  }

  /** The errors of the report, in the order they are appended. */
  function Errors(key: PyVal, makedirsError: Option<string>, chunk: PyVal, fileSize: PyVal): (es: seq<Problem>)
    requires IsNumber(chunk) && IsNumber(fileSize)
    ensures MissingKey in es <==> !Truthy(key)
    ensures ChunkSizeNotPositive in es <==> AsReal(chunk) <= 0.0
    ensures FileSizeNotPositive in es <==> AsReal(fileSize) <= 0.0
    ensures makedirsError.Some? ==> DirectoryFailed(makedirsError.value) in es
    ensures forall e :: DirectoryFailed(e) in es ==> makedirsError == Some(e)
    ensures |es| == (if !Truthy(key) then 1 else 0) + (if makedirsError.Some? then 1 else 0)
      + (if AsReal(chunk) <= 0.0 then 1 else 0) + (if AsReal(fileSize) <= 0.0 then 1 else 0)
  {
    var dir := if makedirsError.Some? then [DirectoryFailed(makedirsError.value)] else [];
    var sizes := When(AsReal(chunk) <= 0.0, ChunkSizeNotPositive) + When(AsReal(fileSize) <= 0.0, FileSizeNotPositive);
    When(!Truthy(key), MissingKey) + dir + sizes
  }

  /** The errors come in the order they are appended: key, directories, chunk_size, max_file_size_mb. */
  lemma ErrorsInOrder(key: PyVal, makedirsError: Option<string>, chunk: PyVal, fileSize: PyVal)
    requires IsNumber(chunk) && IsNumber(fileSize)
    ensures IsSubseq(Errors(key, makedirsError, chunk, fileSize), ErrorOrder(makedirsError))
  {
    var dir := if makedirsError.Some? then [DirectoryFailed(makedirsError.value)] else [];
    var k := When(!Truthy(key), MissingKey);
    var c := When(AsReal(chunk) <= 0.0, ChunkSizeNotPositive);
    var f := When(AsReal(fileSize) <= 0.0, FileSizeNotPositive);
    SubseqRefl(dir);
    SubseqConcat(c, [ChunkSizeNotPositive], f, [FileSizeNotPositive]);
    SubseqConcat(k, [MissingKey], dir, dir);
    SubseqConcat(k + dir, [MissingKey] + dir, c + f, [ChunkSizeNotPositive, FileSizeNotPositive]);
    assert Errors(key, makedirsError, chunk, fileSize) == k + dir + (c + f);
  }

  /** The warnings of the report: the key's format, then the port's range. */
  function Warnings(key: PyVal, port: PyVal, render: PyVal -> string): (ws: seq<Problem>)
    requires !Truthy(key) || key.PStr?
    requires IsNumber(port)
    ensures KeyFormat in ws <==> Truthy(key) && !StartsWith(key.s, "AIza")
    ensures PortOutOfRange(Str(port, render)) in ws <==> !(1024.0 <= AsReal(port) <= 65535.0)
    ensures |ws| <= 2
    ensures IsSubseq(ws, [KeyFormat, PortOutOfRange(Str(port, render))])
  {
    SubseqConcat(When(Truthy(key) && !StartsWith(key.s, "AIza"), KeyFormat), [KeyFormat],
                 When(!(1024.0 <= AsReal(port) <= 65535.0), PortOutOfRange(Str(port, render))),
                 [PortOutOfRange(Str(port, render))]);
    When(Truthy(key) && !StartsWith(key.s, "AIza"), KeyFormat)
      + When(!(1024.0 <= AsReal(port) <= 65535.0), PortOutOfRange(Str(port, render)))
  }

  /**
   * validate_configuration: looks up the key, the two paths, chunk_size,
   * max_file_size_mb and the port (caching each), and reports on them. The
   * paths only feed os.makedirs, whose outcome is `makedirsError`.
   */
  function Validate(s: Service, makedirsError: Option<string>, render: PyVal -> string, parseFloat: FloatParser)
    : (res: (Result<ValidationResult>, Service))
    ensures res.0 == Report(
      GetValue(s, "google_api_key", PNone, parseFloat).0, makedirsError,
      GetValue(s, "chunk_size", PNone, parseFloat).0,
      GetValue(s, "max_file_size_mb", PNone, parseFloat).0,
      GetValue(s, "gradio_server_port", PNone, parseFloat).0, render)
  {
    var (key, s1) := GetValue(s, "google_api_key", PNone, parseFloat);
    var s2 := GetValue(s1, "chroma_db_path", PNone, parseFloat).1;
    var s3 := GetValue(s2, "upload_temp_dir", PNone, parseFloat).1;
    var (chunk, s4) := GetValue(s3, "chunk_size", PNone, parseFloat);
    var (fileSize, s5) := GetValue(s4, "max_file_size_mb", PNone, parseFloat);
    var (port, s6) := GetValue(s5, "gradio_server_port", PNone, parseFloat);
    StableThrough3(s, "google_api_key", "chroma_db_path", "upload_temp_dir", "chunk_size", parseFloat);
    StableThrough4(s, "google_api_key", "chroma_db_path", "upload_temp_dir", "chunk_size", "max_file_size_mb", parseFloat);
    StableThrough5(s, "google_api_key", "chroma_db_path", "upload_temp_dir", "chunk_size",
                   "max_file_size_mb", "gradio_server_port", parseFloat);
    (Report(key, makedirsError, chunk, fileSize, port, render), s6)
  }

  /** The value of `k` after three other lookups, as seen from the start. */
  lemma StableThrough3(s: Service, a: string, b: string, c: string, k: string, parseFloat: FloatParser)
    ensures var s1 := GetValue(s, a, PNone, parseFloat).1;
      var s2 := GetValue(s1, b, PNone, parseFloat).1;
      var s3 := GetValue(s2, c, PNone, parseFloat).1;
      GetValue(s3, k, PNone, parseFloat).0 == GetValue(s, k, PNone, parseFloat).0
  {
    var s1 := GetValue(s, a, PNone, parseFloat).1;
    var s2 := GetValue(s1, b, PNone, parseFloat).1;
    GetValueStable(s2, c, k, PNone, PNone, parseFloat);
    GetValueStable(s1, b, k, PNone, PNone, parseFloat);
    GetValueStable(s, a, k, PNone, PNone, parseFloat);
  }

  lemma StableThrough4(s: Service, a: string, b: string, c: string, d: string, k: string, parseFloat: FloatParser)
    ensures var s1 := GetValue(s, a, PNone, parseFloat).1;
      var s2 := GetValue(s1, b, PNone, parseFloat).1;
      var s3 := GetValue(s2, c, PNone, parseFloat).1;
      var s4 := GetValue(s3, d, PNone, parseFloat).1;
      GetValue(s4, k, PNone, parseFloat).0 == GetValue(s, k, PNone, parseFloat).0
  {
    var s1 := GetValue(s, a, PNone, parseFloat).1;
    StableThrough3(s1, b, c, d, k, parseFloat);
    GetValueStable(s, a, k, PNone, PNone, parseFloat);
  }

  lemma StableThrough5(s: Service, a: string, b: string, c: string, d: string, e: string, k: string, parseFloat: FloatParser)
    ensures var s1 := GetValue(s, a, PNone, parseFloat).1;
      var s2 := GetValue(s1, b, PNone, parseFloat).1;
      var s3 := GetValue(s2, c, PNone, parseFloat).1;
      var s4 := GetValue(s3, d, PNone, parseFloat).1;
      var s5 := GetValue(s4, e, PNone, parseFloat).1;
      GetValue(s5, k, PNone, parseFloat).0 == GetValue(s, k, PNone, parseFloat).0
  {
    var s1 := GetValue(s, a, PNone, parseFloat).1;
    StableThrough4(s1, b, c, d, e, k, parseFloat);
    GetValueStable(s, a, k, PNone, PNone, parseFloat);
  }

  /** With an empty environment and nothing cached, every built-in key resolves to its default. */
  lemma FreshServiceUsesDefaults(e: Environment, key: string, parseFloat: FloatParser)
    requires key in BaseDefaults
    ensures GetValue(NewService(Some(e), map[]), key, PNone, parseFloat).0 == DefaultsFor(e)[key]
  {
  }

  /** With the built-in values, the only problem reported is the missing key. */
  lemma DefaultsOnlyMissTheKey(render: PyVal -> string)
    ensures var r := Report(PNone, None, PInt(1000), PInt(50), PInt(7862), render);
      r.Ok? && !r.value.isValid && r.value.errors == [MissingKey] && r.value.warnings == []
  {
  }
}

=== FILE: dependency_injection.dfy ===
/**
 * DependencyContainer: service descriptors, the singleton and scoped caches,
 * the resolving stack that detects cycles, and instance creation by stored
 * instance, factory or constructor injection. Constructor signatures,
 * factories and what running a constructor does are parameters (`Env`);
 * objects are identified by serial numbers.
 */
module DependencyInjection {
  import opened PyCore

  type TypeName = string

  datatype Lifetime = Singleton | Transient | Scoped

  /** A resolved value: None, or an object (a constructed one records its class and arguments). */
  datatype Val = NoneVal | Obj(id: nat, cls: TypeName, args: seq<Val>)

  /** ServiceDescriptor; `instance` is NoneVal when no instance was given. */
  datatype Descriptor = Descriptor(
    serviceType: TypeName,
    impl: Option<TypeName>,
    factory: Option<nat>,
    instance: Val,
    lifetime: Lifetime)

  /** One constructor parameter after `self`. */
  datatype Param = Param(name: string, annotation: Option<TypeName>, hasDefault: bool)

  /** What calling a factory did. */
  datatype FactoryRun = Made(v: Val) | Threw(msg: string)

  /**
   * Constructor signatures by class; factories by id and call serial; and
   * initRaises(cls, args), the message of the exception `cls(*args)` raises
   * from its `__init__`, or None when construction returns.
   */
  datatype Env = Env(
    signature: TypeName -> seq<Param>,
    runFactory: (nat, nat) -> FactoryRun,
    initRaises: (TypeName, seq<Val>) -> Option<string>)

  datatype Container = Container(
    services: map<TypeName, Descriptor>,
    singletons: map<TypeName, Val>,
    scoped: map<TypeName, Val>,
    stack: seq<TypeName>,
    nextId: nat)

  /** A result together with the container it leaves behind (also after an exception). */
  datatype Step<T> = Step(out: Result<T>, c: Container)

  function NewContainer(): (c: Container)
    ensures c.services == map[] && c.singletons == map[] && c.scoped == map[] && c.stack == []
  {
    Container(map[], map[], map[], [], 0)
  }

  // ---------------------------------------------------------------------
  // Registration
  // ---------------------------------------------------------------------

  /**
   * register_singleton / register_transient / register_scoped: the
   * descriptor for t is replaced; the implementation defaults to t itself;
   * no cache is touched.
   */
  function Register(c: Container, t: TypeName, impl: Option<TypeName>, factory: Option<nat>, lifetime: Lifetime): (r: Container)
    ensures t in r.services
    ensures r.services[t].impl == (if impl.Some? then impl else Some(t))
    ensures r.services[t].lifetime == lifetime && r.services[t].factory == factory
    ensures r.services[t].instance == NoneVal
    ensures forall x :: x != t ==> (x in r.services <==> x in c.services)
    ensures forall x :: x in c.services && x != t ==> r.services[x] == c.services[x]
    ensures r.singletons == c.singletons && r.scoped == c.scoped && r.stack == c.stack
  {
    var implType := if impl.Some? then impl.value else t;
    c.(services := c.services[t := Descriptor(t, Some(implType), factory, NoneVal, lifetime)])
  }

  /** register_instance: a singleton descriptor holding v, and v placed in the singleton cache. */
  function RegisterInstance(c: Container, t: TypeName, v: Val): (r: Container)
    ensures t in r.services && r.services[t].lifetime == Singleton && r.services[t].instance == v
    ensures r.services[t].impl.None? && r.services[t].factory.None?
    ensures t in r.singletons && r.singletons[t] == v
    ensures forall x :: x != t ==> (x in r.services <==> x in c.services)
    ensures r.scoped == c.scoped && r.stack == c.stack
  {
    c.(services := c.services[t := Descriptor(t, None, None, v, Singleton)],
       singletons := c.singletons[t := v])
  }

  /** clear_scoped (also what leaving a ServiceScope does). */
  function ClearScoped(c: Container): (r: Container)
    ensures r.scoped == map[]
    ensures r.services == c.services && r.singletons == c.singletons && r.stack == c.stack && r.nextId == c.nextId
  {
    c.(scoped := map[])
  }

  // ---------------------------------------------------------------------
  // The resolving stack
  // ---------------------------------------------------------------------

  /** Pushing a type that is not on the stack and removing it again restores the stack. */
  lemma {:induction false} RemovePushed(s: seq<TypeName>, x: TypeName)
    requires x !in s
    ensures RemoveFirst(s + [x], x) == s
  {
    if |s| > 0 {
      assert (s + [x])[1..] == s[1..] + [x];
      RemovePushed(s[1..], x);
    }
  }

  function StackSet(s: seq<TypeName>): set<TypeName>
  {
    set x | x in s
  }

  /** Registered types not currently being resolved: the measure that makes resolution terminate. */
  function Unvisited(c: Container): set<TypeName>
  {
    c.services.Keys - StackSet(c.stack)
  }

  /** The caches hold the same entry (or none) for x in a and b. */
  predicate SameCaches(a: Container, b: Container, x: TypeName)
  {
    (x in a.singletons <==> x in b.singletons) && (x in a.singletons ==> a.singletons[x] == b.singletons[x])
    && (x in a.scoped <==> x in b.scoped) && (x in a.scoped ==> a.scoped[x] == b.scoped[x])
  }

  /** Cached entries are never replaced or dropped by resolution. */
  predicate CachesGrow(a: Container, b: Container)
  {
    (forall x :: x in a.singletons ==> x in b.singletons && b.singletons[x] == a.singletons[x])
    && (forall x :: x in a.scoped ==> x in b.scoped && b.scoped[x] == a.scoped[x])
  }

  /** What resolution may change: caches grow, serial numbers advance, nothing else. */
  predicate Evolves(a: Container, b: Container)
  {
    b.services == a.services && b.stack == a.stack && b.nextId >= a.nextId
    && CachesGrow(a, b)
    && (forall x :: x in a.stack ==> SameCaches(a, b, x))
  }

  lemma EvolvesTransitive(a: Container, b: Container, d: Container)
    requires Evolves(a, b) && Evolves(b, d)
    ensures Evolves(a, d)
  {
  }

  function CycleMessage(stack: seq<TypeName>, t: TypeName): string
  {
    "检测到循环依赖: " + Join(" -> ", stack) + " -> " + t
  }

  // ---------------------------------------------------------------------
  // Resolution
  // ---------------------------------------------------------------------

  /** Store a new instance in the cache its lifetime calls for. */
  function CacheFor(c: Container, t: TypeName, lifetime: Lifetime, v: Val): Container
  {
    match lifetime
    case Singleton => c.(singletons := c.singletons[t := v])
    case Scoped => c.(scoped := c.scoped[t := v])
    case Transient => c
  }

  /**
   * try_resolve. A type already being resolved raises the cycle error; an
   * unregistered type gives None; a cached singleton or scoped instance is
   * returned as is; otherwise the type is pushed, an instance is created
   * and cached by lifetime, and the type is removed from the stack whether
   * creation succeeded or raised.
   */
  function TryResolve(env: Env, c: Container, t: TypeName): (r: Step<Val>)
    decreases Unvisited(c), 1, 0
    ensures Evolves(c, r.c)
    ensures t in c.stack ==> r == Step(Err(CycleMessage(c.stack, t)), c)
    ensures t !in c.stack && t !in c.services ==> r == Step(Ok(NoneVal), c)
    ensures t !in c.stack && t in c.services && c.services[t].lifetime == Singleton && t in c.singletons ==>
      r == Step(Ok(c.singletons[t]), c)
    ensures t !in c.stack && t in c.services && c.services[t].lifetime == Scoped && t in c.scoped ==>
      r == Step(Ok(c.scoped[t]), c)
    ensures r.out.Ok? && t in c.services && c.services[t].lifetime == Singleton ==>
      t in r.c.singletons && r.c.singletons[t] == r.out.value
    ensures r.out.Ok? && t in c.services && c.services[t].lifetime == Scoped ==>
      t in r.c.scoped && r.c.scoped[t] == r.out.value
    ensures t in c.services && c.services[t].lifetime == Transient ==> SameCaches(c, r.c, t)
    ensures r.out.Err? ==> SameCaches(c, r.c, t)
    ensures var d := if t in c.services then c.services[t] else Descriptor(t, None, None, NoneVal, Transient);
      (t !in c.stack && t in c.services && d.lifetime == Transient && d.instance == NoneVal && d.factory.None?
       && r.out.Ok?) ==> r.out.value.Obj? && c.nextId <= r.out.value.id < r.c.nextId
  {
    if t in c.stack then Step(Err(CycleMessage(c.stack, t)), c)
    else if t !in c.services then Step(Ok(NoneVal), c)
    else
      var d := c.services[t];
      if d.lifetime == Singleton && t in c.singletons then Step(Ok(c.singletons[t]), c)
      else if d.lifetime == Scoped && t in c.scoped then Step(Ok(c.scoped[t]), c)
      else CreateAndCache(env, c, t)
  }

  /**
   * The creating half of try_resolve: push t, create, remove t from the
   * stack (also when creation raised), and cache a new instance by lifetime.
   */
  function CreateAndCache(env: Env, c: Container, t: TypeName): (r: Step<Val>)
    requires t !in c.stack && t in c.services
    requires c.services[t].lifetime == Singleton ==> t !in c.singletons
    requires c.services[t].lifetime == Scoped ==> t !in c.scoped
    decreases Unvisited(c), 0, 0
    ensures Evolves(c, r.c)
    ensures r.out.Ok? && c.services[t].lifetime == Singleton ==>
      t in r.c.singletons && r.c.singletons[t] == r.out.value
    ensures r.out.Ok? && c.services[t].lifetime == Scoped ==>
      t in r.c.scoped && r.c.scoped[t] == r.out.value
    ensures c.services[t].lifetime == Transient ==> SameCaches(c, r.c, t)
    ensures r.out.Err? ==> SameCaches(c, r.c, t)
    ensures var d := c.services[t];
      (d.instance == NoneVal && d.factory.None? && r.out.Ok?) ==>
        r.out.value.Obj? && c.nextId <= r.out.value.id < r.c.nextId
  {
    var d := c.services[t];
    var pushed := c.(stack := c.stack + [t]);
    assert t in Unvisited(c) && Unvisited(pushed) == Unvisited(c) - {t};
    var made := CreateInstance(env, pushed, d);
    RemovePushed(c.stack, t);
    var popped := made.c.(stack := RemoveFirst(made.c.stack, t));
    PopEvolves(c, t, made.c);
    match made.out
    case Err(e) => Step(Err(e), popped)
    case Ok(v) =>
      CacheEvolves(c, popped, t, d.lifetime, v);
      Step(Ok(v), CacheFor(popped, t, d.lifetime, v))
  }

  /** Removing t again after a nested resolution leaves a container c evolves into. */
  lemma PopEvolves(c: Container, t: TypeName, m: Container)
    requires t !in c.stack && Evolves(c.(stack := c.stack + [t]), m)
    ensures Evolves(c, m.(stack := c.stack)) && SameCaches(c, m, t)
  {
    var pushed := c.(stack := c.stack + [t]);
    assert SameCaches(pushed, m, t);
    forall x | x in c.stack
      ensures SameCaches(c, m.(stack := c.stack), x)
    {
      assert x in pushed.stack;
    }
  }

  /** Caching the new instance of t, which had no entry, keeps the evolution. */
  lemma CacheEvolves(c: Container, p: Container, t: TypeName, lifetime: Lifetime, v: Val)
    requires Evolves(c, p) && t !in c.stack && SameCaches(c, p, t)
    requires lifetime == Singleton ==> t !in c.singletons
    requires lifetime == Scoped ==> t !in c.scoped
    ensures Evolves(c, CacheFor(p, t, lifetime, v))
  {
    var q := CacheFor(p, t, lifetime, v);
    forall x | x in c.stack
      ensures SameCaches(c, q, x)
    {
      assert x != t;
    }
  }

  /**
   * _create_instance: a stored instance first, else the factory, else the
   * implementation's constructor with every annotated parameter resolved.
   */
  function CreateInstance(env: Env, c: Container, d: Descriptor): (r: Step<Val>)
    decreases Unvisited(c), 3, 0
    ensures Evolves(c, r.c)
    ensures d.instance != NoneVal ==> r == Step(Ok(d.instance), c)
    ensures d.instance == NoneVal && d.factory.Some? ==>
      match env.runFactory(d.factory.value, c.nextId)
      case Made(v) => r.out == Ok(v)
      case Threw(m) => r.out == Err(m)
    ensures d.instance == NoneVal && d.factory.None? && d.impl.None? ==> r.out.Err?
    ensures d.instance == NoneVal && d.factory.None? && r.out.Ok? ==>
      r.out.value.Obj? && d.impl == Some(r.out.value.cls) && c.nextId <= r.out.value.id < r.c.nextId
      && forall j :: 0 <= j < |r.out.value.args| ==> r.out.value.args[j] != NoneVal
    ensures d.instance == NoneVal && d.factory.None? && r.out.Ok? ==>
      env.initRaises(r.out.value.cls, r.out.value.args).None?
    ensures d.instance == NoneVal && d.factory.None? && d.impl.Some? ==>
      var p := ResolveParams(env, c, env.signature(d.impl.value), 0, []);
      p.out.Ok? && env.initRaises(d.impl.value, p.out.value).Some? ==>
        r.out == Err(env.initRaises(d.impl.value, p.out.value).value)
  {
    if d.instance != NoneVal then Step(Ok(d.instance), c)
    else if d.factory.Some? then
      var next := c.(nextId := c.nextId + 1);
      match env.runFactory(d.factory.value, c.nextId)
      case Made(v) => Step(Ok(v), next)
      case Threw(m) => Step(Err(m), next)
    else if d.impl.None? then
      Step(Err("服务 " + d.serviceType + " 没有实现类型或工厂方法"), c)
    else
      var cls := d.impl.value;
      var resolved := ResolveParams(env, c, env.signature(cls), 0, []);
      match resolved.out
      case Err(e) => Step(Err(e), resolved.c)
      case Ok(args) =>
        var next := resolved.c.(nextId := resolved.c.nextId + 1);
        match env.initRaises(cls, args)
        case Some(m) => Step(Err(m), next)
        case None => Step(Ok(Obj(resolved.c.nextId, cls, args)), next)
  }

  /**
   * The constructor-parameter loop: a missing annotation raises; an
   * unresolvable parameter is skipped when it has a default and raises
   * otherwise; exceptions from nested resolution propagate.
   */
  function ResolveParams(env: Env, c: Container, ps: seq<Param>, i: nat, acc: seq<Val>): (r: Step<seq<Val>>)
    requires i <= |ps|
    requires forall j :: 0 <= j < |acc| ==> acc[j] != NoneVal
    decreases Unvisited(c), 2, |ps| - i
    ensures Evolves(c, r.c)
    ensures r.out.Ok? ==> |acc| <= |r.out.value| <= |acc| + |ps| - i && r.out.value[..|acc|] == acc
    ensures r.out.Ok? ==> forall j :: 0 <= j < |r.out.value| ==> r.out.value[j] != NoneVal
    ensures (exists j :: i <= j < |ps| && ps[j].annotation.None?) ==> r.out.Err?
  {
    if i == |ps| then Step(Ok(acc), c)
    else
      var p := ps[i];
      if p.annotation.None? then
        Step(Err("构造函数参数 " + p.name + " 缺少类型注解"), c)
      else
        var dep := TryResolve(env, c, p.annotation.value);
        match dep.out
        case Err(e) => Step(Err(e), dep.c)
        case Ok(v) =>
          if v == NoneVal && !p.hasDefault then Step(Err("无法解析依赖 " + p.annotation.value), dep.c)
          else
            var next := if v == NoneVal then acc else acc + [v];
            var rest := ResolveParams(env, dep.c, ps, i + 1, next);
            ParamsStep(c, dep.c, rest, acc, next, ps, i);
            rest
  }

  /** One parameter of the loop: what the rest of the loop promises carries back to this step. */
  lemma ParamsStep(c: Container, mid: Container, r: Step<seq<Val>>, acc: seq<Val>, next: seq<Val>,
                   ps: seq<Param>, i: nat)
    requires Evolves(c, mid) && Evolves(mid, r.c)
    requires i < |ps| && ps[i].annotation.Some?
    requires next == acc || (|next| == |acc| + 1 && next[..|acc|] == acc)
    requires r.out.Ok? ==> |next| <= |r.out.value| <= |next| + |ps| - (i + 1) && r.out.value[..|next|] == next
    requires (exists j :: i + 1 <= j < |ps| && ps[j].annotation.None?) ==> r.out.Err?
    ensures Evolves(c, r.c)
    ensures r.out.Ok? ==> |acc| <= |r.out.value| <= |acc| + |ps| - i && r.out.value[..|acc|] == acc
    ensures (exists j :: i <= j < |ps| && ps[j].annotation.None?) ==> r.out.Err?
  {
    EvolvesTransitive(c, mid, r.c);
    if r.out.Ok? {
      assert r.out.value[..|acc|] == r.out.value[..|next|][..|acc|];
    }
  }

  /** resolve: try_resolve, with None (unregistered, or a registered None) turned into ValueError. */
  function Resolve(env: Env, c: Container, t: TypeName): (r: Step<Val>)
    ensures r.c == TryResolve(env, c, t).c
    ensures r.out.Ok? <==> TryResolve(env, c, t).out.Ok? && TryResolve(env, c, t).out.value != NoneVal
    ensures r.out.Ok? ==> r.out == TryResolve(env, c, t).out
    ensures t !in c.stack && t !in c.services ==> r == Step(Err("服务类型 " + t + " 未注册"), c)
  {
    var s := TryResolve(env, c, t);
    if s.out.Ok? && s.out.value == NoneVal then Step(Err("服务类型 " + t + " 未注册"), s.c)
    else s
  }

  // ---------------------------------------------------------------------
  // Lifetime properties
  // ---------------------------------------------------------------------

  /** A registered instance is what resolve returns, unchanged, with no effect on the container. */
  lemma RegisteredInstanceResolves(env: Env, c: Container, t: TypeName, v: Val)
    requires t !in c.stack && v != NoneVal
    ensures var c1 := RegisterInstance(c, t, v);
      Resolve(env, c1, t) == Step(Ok(v), c1)
  {
  }

  /** A singleton, once resolved, is returned again without creating anything. */
  lemma SingletonResolvedOnce(env: Env, c: Container, t: TypeName)
    requires t in c.services && c.services[t].lifetime == Singleton
    requires TryResolve(env, c, t).out.Ok?
    ensures var r1 := TryResolve(env, c, t);
      TryResolve(env, r1.c, t) == Step(r1.out, r1.c)
  {
    var r1 := TryResolve(env, c, t);
    assert r1.c.services == c.services && r1.c.stack == c.stack;
  }

  /** A scoped instance is reused until clear_scoped, after which it is created anew. */
  lemma ScopedReusedUntilCleared(env: Env, c: Container, t: TypeName)
    requires t in c.services && c.services[t].lifetime == Scoped && t !in c.stack
    requires TryResolve(env, c, t).out.Ok?
    ensures var r1 := TryResolve(env, c, t);
      TryResolve(env, r1.c, t) == Step(r1.out, r1.c)
    ensures var r1 := TryResolve(env, c, t);
      t !in ClearScoped(r1.c).scoped && ClearScoped(r1.c).singletons == r1.c.singletons
  {
  }

  /** Two transient constructions never return the same object. */
  lemma TransientIsFresh(env: Env, c: Container, t: TypeName)
    requires t in c.services && t !in c.stack
    requires c.services[t].lifetime == Transient && c.services[t].instance == NoneVal && c.services[t].factory.None?
    requires TryResolve(env, c, t).out.Ok?
    requires TryResolve(env, TryResolve(env, c, t).c, t).out.Ok?
    ensures var r1 := TryResolve(env, c, t);
      TryResolve(env, r1.c, t).out.value != r1.out.value
  {
    var r1 := TryResolve(env, c, t);
    var r2 := TryResolve(env, r1.c, t);
    assert r1.out.value.id < r1.c.nextId <= r2.out.value.id;
  }

  /** Re-registering a singleton keeps the instance already created: resolve returns the old object. */
  lemma ReRegisterKeepsSingleton(env: Env, c: Container, t: TypeName, impl: Option<TypeName>, factory: Option<nat>)
    requires t in c.singletons && t !in c.stack
    ensures var c1 := Register(c, t, impl, factory, Singleton);
      TryResolve(env, c1, t) == Step(Ok(c.singletons[t]), c1)
  {
  }

  /** A transient class whose constructor needs itself is reported as a cycle "A -> A". */
  lemma SelfDependencyIsCycle(env: Env, c: Container, t: TypeName)
    requires c.stack == [] && t in c.services
    requires c.services[t] == Descriptor(t, Some(t), None, NoneVal, Transient)
    requires env.signature(t) == [Param("dep", Some(t), false)]
    ensures TryResolve(env, c, t).out == Err(CycleMessage([t], t))
    ensures TryResolve(env, c, t).c == c
  {
    var pushed := c.(stack := [t]);
    assert c.stack + [t] == [t];
    var inner := TryResolve(env, pushed, t);
    assert inner == Step(Err(CycleMessage([t], t)), pushed);
    assert ResolveParams(env, pushed, env.signature(t), 0, []) == Step(Err(CycleMessage([t], t)), pushed);
    var made := CreateInstance(env, pushed, c.services[t]);
    assert made.out == Err(CycleMessage([t], t)) && made.c == pushed;
    assert RemoveFirst([t], t) == [];
    assert pushed.(stack := []) == c;
  }

  /**
   * A singleton whose constructor raises: resolve raises the constructor's
   * exception, nothing is cached, and the next resolve runs the constructor again.
   */
  lemma RaisingConstructorNotCached(env: Env, c: Container, t: TypeName, cls: TypeName, m: string)
    requires t in c.services && t !in c.stack && t !in c.singletons
    requires c.services[t] == Descriptor(t, Some(cls), None, NoneVal, Singleton)
    requires env.signature(cls) == [] && env.initRaises(cls, []) == Some(m)
    ensures var r1 := Resolve(env, c, t);
      r1 == Step(Err(m), c.(nextId := c.nextId + 1)) && t !in r1.c.singletons
      && Resolve(env, r1.c, t).out == Err(m)
  {
    RaisingConstructorOnce(env, c, t, cls, m);
    RaisingConstructorOnce(env, c.(nextId := c.nextId + 1), t, cls, m);
  }

  /** One resolution of the raising singleton: the error, and only the serial number advanced. */
  lemma RaisingConstructorOnce(env: Env, c: Container, t: TypeName, cls: TypeName, m: string)
    requires t in c.services && t !in c.stack && t !in c.singletons
    requires c.services[t] == Descriptor(t, Some(cls), None, NoneVal, Singleton)
    requires env.signature(cls) == [] && env.initRaises(cls, []) == Some(m)
    ensures TryResolve(env, c, t) == Step(Err(m), c.(nextId := c.nextId + 1))
  {
    var pushed := c.(stack := c.stack + [t]);
    assert ResolveParams(env, pushed, [], 0, []) == Step(Ok([]), pushed);
    assert CreateInstance(env, pushed, c.services[t]) == Step(Err(m), pushed.(nextId := c.nextId + 1));
    RemovePushed(c.stack, t);
    assert CreateAndCache(env, c, t) == Step(Err(m), c.(nextId := c.nextId + 1));
  }

  /** After any resolution, successful or not, the resolving stack is as it was. */
  lemma StackRestored(env: Env, c: Container, t: TypeName)
    ensures TryResolve(env, c, t).c.stack == c.stack
    ensures Resolve(env, c, t).c.stack == c.stack
  {
  }
}

=== FILE: document_serializer.dfy ===
/**
 * DocumentSerializer: documents to and from JSON-ready dictionaries and JSON
 * text. json.dumps and json.loads are the parameters `dumps` and `loads`
 * (None when the text does not parse); `render` stands for str() of values
 * JSON cannot encode.
 */
module DocumentSerializer {
  import opened PyCore
  import opened PyValue
  import opened Documents

  /** _serialize_metadata: JSON-encodable values kept, others replaced by their str() text. */
  function SerializeMetadata(m: map<string, PyVal>, render: PyVal -> string): (r: map<string, PyVal>)
    ensures r.Keys == m.Keys
    ensures forall k :: k in m ==> IsJsonable(r[k])
    ensures forall k :: k in m && IsJsonable(m[k]) ==> r[k] == m[k]
    ensures forall k :: k in m && !IsJsonable(m[k]) ==> r[k] == PStr(Str(m[k], render))
  {
    if |m| == 0 then map[]
    else map k | k in m :: if IsJsonable(m[k]) then m[k] else PStr(Str(m[k], render))
  }

  /** Metadata survives serialisation unchanged exactly when every value is JSON-encodable. */
  lemma SerializeMetadataIdentity(m: map<string, PyVal>, render: PyVal -> string)
    ensures SerializeMetadata(m, render) == m <==> forall k :: k in m ==> IsJsonable(m[k])
  {
    var r := SerializeMetadata(m, render);
    if forall k :: k in m ==> IsJsonable(m[k]) {
      assert r.Keys == m.Keys;
    } else {
      var k :| k in m && !IsJsonable(m[k]);
      assert IsJsonable(r[k]);
    }
  }

  /** The dictionary form of one document. */
  function DocToDict(d: Document, render: PyVal -> string): PyVal
  {
    PDict(map["page_content" := PStr(d.pageContent),
              "metadata" := PDict(SerializeMetadata(d.metadata, render))])
  }

  /** DocumentSerializer.serialize_documents_to_dict */
  function SerializeToDict(docs: seq<Document>, render: PyVal -> string): (r: seq<PyVal>)
    ensures |r| == |docs|
    ensures forall i :: 0 <= i < |docs| ==> r[i] == DocToDict(docs[i], render)
  {
    seq(|docs|, i requires 0 <= i < |docs| => DocToDict(docs[i], render))
  }

  /** The items deserialisation looks at: dicts holding "page_content". */
  predicate IsDocItem(v: PyVal)
  {
    v.PDict? && "page_content" in v.fields
  }

  /** Document(...) accepts the item: text content and dict metadata (a falsy metadata becomes {}). */
  function ItemToDoc(v: PyVal): (r: Option<Document>)
    requires IsDocItem(v)
    ensures r.Some? ==> PStr(r.value.pageContent) == v.fields["page_content"]
  {
    var pc := v.fields["page_content"];
    var md := DictGet(v.fields, "metadata", PDict(map[]));
    var meta := if !Truthy(md) then PDict(map[]) else md;
    if pc.PStr? && meta.PDict? then Some(Document(pc.s, meta.fields)) else None
  }

  function DocItems(items: seq<PyVal>): (r: seq<PyVal>)
    ensures |r| <= |items|
    ensures forall i :: 0 <= i < |r| ==> IsDocItem(r[i])
  {
    if |items| == 0 then []
    else if IsDocItem(items[0]) then [items[0]] + DocItems(items[1..])
    else DocItems(items[1..])
  }

  /**
   * The loop of deserialize_documents_from_dict: skips other items, keeps
   * order, and fails as a whole (None) when Document(...) rejects an item.
   */
  function DecodeItems(items: seq<PyVal>): (r: Option<seq<Document>>)
    ensures r.Some? ==>
      var ds := DocItems(items);
      |r.value| == |ds|
      && forall i :: 0 <= i < |ds| ==> ItemToDoc(ds[i]) == Some(r.value[i])
    ensures r.None? ==> exists i :: 0 <= i < |DocItems(items)| && ItemToDoc(DocItems(items)[i]).None?
  {
    if |items| == 0 then Some([])
    else
      var rest := DecodeItems(items[1..]);
      if !IsDocItem(items[0]) then
        assert DocItems(items) == DocItems(items[1..]);
        rest
      else
        match ItemToDoc(items[0])
        case None =>
          assert DocItems(items)[0] == items[0];
          None
        case Some(d) =>
          if rest.None? then
            var ds := DocItems(items[1..]);
            var j :| 0 <= j < |ds| && ItemToDoc(ds[j]).None?;
            assert DocItems(items)[j + 1] == ds[j];
            None
          else Some([d] + rest.value)
  }

  /** DocumentSerializer.deserialize_documents_from_dict: [] for empty input or when an item is rejected. */
  function DeserializeFromDict(data: seq<PyVal>): (r: seq<Document>)
    ensures |data| == 0 ==> r == []
    ensures |r| <= |data|
  {
    if |data| == 0 then []
    else
      match DecodeItems(data)
      case None => []
      case Some(ds) => ds
  }

  /**
   * Round trip through the dictionary form: same number of documents, same
   * text, and metadata equal to its serialised form, hence unchanged when
   * every metadata value is JSON-encodable.
   */
  lemma {:induction false} DictRoundTrip(docs: seq<Document>, render: PyVal -> string)
    ensures var r := DeserializeFromDict(SerializeToDict(docs, render));
      |r| == |docs|
      && forall i :: 0 <= i < |docs| ==>
           r[i].pageContent == docs[i].pageContent
           && r[i].metadata == SerializeMetadata(docs[i].metadata, render)
           && ((forall k :: k in docs[i].metadata ==> IsJsonable(docs[i].metadata[k])) ==> r[i] == docs[i])
  {
    var items := SerializeToDict(docs, render);
    AllDocItems(docs, render);
    assert DocItems(items) == items;
    if |docs| > 0 {
      var r := DecodeItems(items);
      assert r.Some?;
      forall i | 0 <= i < |docs|
        ensures r.value[i].pageContent == docs[i].pageContent
        ensures r.value[i].metadata == SerializeMetadata(docs[i].metadata, render)
      {
        assert items[i] == DocToDict(docs[i], render);
        assert ItemToDoc(items[i]) == Some(r.value[i]);
      }
      forall i | 0 <= i < |docs| && (forall k :: k in docs[i].metadata ==> IsJsonable(docs[i].metadata[k]))
        ensures r.value[i] == docs[i]
      {
        SerializeMetadataIdentity(docs[i].metadata, render);
      }
    }
  }

  lemma {:induction false} AllDocItems(docs: seq<Document>, render: PyVal -> string)
    ensures DocItems(SerializeToDict(docs, render)) == SerializeToDict(docs, render)
  {
    if |docs| > 0 {
      AllDocItems(docs[1..], render);
      var items := SerializeToDict(docs, render);
      assert items[1..] == SerializeToDict(docs[1..], render);
    }
  }

  /** DocumentSerializer.serialize_documents: the JSON text of the dictionary form. */
  function SerializeDocuments(docs: seq<Document>, render: PyVal -> string, dumps: PyVal -> string)
    : (r: string)
    ensures |docs| == 0 ==> r == dumps(PList([]))
  {
    dumps(PList(SerializeToDict(docs, render)))
  }

  /**
   * DocumentSerializer.deserialize_documents: [] for empty or unparsable
   * text and for any JSON value that is not a list (iterating a dict or a
   * string yields no dict items; a number is not iterable).
   */
  function DeserializeDocuments(text: string, loads: string -> Option<PyVal>): (r: seq<Document>)
    ensures text == "" || loads(text).None? || !loads(text).value.PList? ==> r == []
  {
    if text == "" then []
    else
      match loads(text)
      case None => []
      case Some(v) =>
        if v.PList? then
          match DecodeItems(v.items)
          case None => []
          case Some(ds) => ds
        else []
  }

  /** Through JSON text: when loads inverts dumps on the encoded list, documents come back as with the dictionary form. */
  lemma TextRoundTrip(docs: seq<Document>, render: PyVal -> string, dumps: PyVal -> string,
                      loads: string -> Option<PyVal>)
    requires SerializeDocuments(docs, render, dumps) != ""
    requires loads(SerializeDocuments(docs, render, dumps)) == Some(PList(SerializeToDict(docs, render)))
    ensures DeserializeDocuments(SerializeDocuments(docs, render, dumps), loads)
         == DeserializeFromDict(SerializeToDict(docs, render))
  {
  }
}

=== FILE: documents.dfy ===
/**
 * The document record passed between the splitter, the retrievers, the
 * rerankers and the caches: page text plus a metadata dictionary.
 */
module Documents {
  import opened PyValue

  datatype Document = Document(pageContent: string, metadata: map<string, PyVal>)

  /** doc.metadata.get(key, default) */
  function MetaGet(d: Document, key: string, default: PyVal): (v: PyVal)
    ensures key in d.metadata ==> v == d.metadata[key]
    ensures key !in d.metadata ==> v == default
  {
    if key in d.metadata then d.metadata[key] else default
  }
}

=== FILE: enhanced_retrieval.dfy ===
/**
 * EnhancedRetrievalService: semantic search from the vector store, a
 * file-name search over its hits, and the weighted merge of the two.
 * The vector store is the `search` parameter (its hits for a given k, None
 * when it raises) and the regular-expression class \w is `isWordChar`.
 * The merge keys documents by `docId`; hybrid_search passes DocId, the
 * source and a hash of the first 100 characters, Python's hash() being
 * the `hash` parameter.
 */
module EnhancedRetrieval {
  import opened PyCore
  import opened PyValue
  import opened Documents
  import opened StableSort

  // ---------------------------------------------------------------------
  // Settings
  // ---------------------------------------------------------------------

  /** The configuration values as read, unconverted: they are used as Python values. */
  datatype EnhancedSettings = EnhancedSettings(
    enableFilenameSearch: PyVal,
    filenameWeight: PyVal,
    semanticWeight: PyVal,
    minFilenameScore: PyVal)

  /** __init__: each value from the configuration, else True, 0.3, 0.7 and 0.2. */
  function LoadEnhancedSettings(values: map<string, PyVal>): (st: EnhancedSettings)
    ensures "enable_filename_search" !in values ==> st.enableFilenameSearch == PBool(true)
    ensures "filename_search_weight" !in values ==> st.filenameWeight == PFloat(0.3)
    ensures "semantic_search_weight" !in values ==> st.semanticWeight == PFloat(0.7)
    ensures "min_filename_score" !in values ==> st.minFilenameScore == PFloat(0.2)
    ensures "enable_filename_search" in values ==> st.enableFilenameSearch == values["enable_filename_search"]
    ensures "filename_search_weight" in values ==> st.filenameWeight == values["filename_search_weight"]
    ensures "semantic_search_weight" in values ==> st.semanticWeight == values["semantic_search_weight"]
    ensures "min_filename_score" in values ==> st.minFilenameScore == values["min_filename_score"]
  {
    EnhancedSettings(
      DictGet(values, "enable_filename_search", PBool(true)),
      DictGet(values, "filename_search_weight", PFloat(0.3)),
      DictGet(values, "semantic_search_weight", PFloat(0.7)),
      DictGet(values, "min_filename_score", PFloat(0.2)))
  }

  // ---------------------------------------------------------------------
  // File names and tokens
  // ---------------------------------------------------------------------

  /** _extract_filename: the last "/" segment without its final ".ext"; "" for "". */
  function ExtractFilename(source: string): (r: string)
    ensures source == "" ==> r == ""
    ensures '/' !in r && |r| <= |source|
    ensures '.' !in LastPiece(source, '/') ==> r == LastPiece(source, '/')
    ensures '.' in LastPiece(source, '/') ==>
      r + "." + LastPiece(LastPiece(source, '/'), '.') == LastPiece(source, '/')
  {
    if source == "" then ""
    else
      var name := LastPiece(source, '/');
      var r := Stem(name);
      assert r == name[..|r|];
      r
  }

  /** The name of a path is unchanged by the directories in front of it. */
  lemma ExtractIgnoresDirectories(dir: string, name: string)
    requires '/' !in name && name != ""
    ensures ExtractFilename(dir + "/" + name) == ExtractFilename(name)
  {
    var s := dir + "/" + name;
    AfterLastUnique(s, '/', |dir| + 1);
    assert s[|dir| + 1..] == name;
    AfterLastUnique(name, '/', 0);
  }

  /**
   * The file name for a metadata source value. Any falsy value reads as "";
   * any other value that is not text raises in the string methods (None).
   */
  function FilenameFromSource(v: PyVal): (r: Option<string>)
    ensures v.PStr? ==> r == Some(ExtractFilename(v.s))
    ensures !v.PStr? && !Truthy(v) ==> r == Some("")
    ensures !v.PStr? && Truthy(v) ==> r.None?
  {
    if v.PStr? then Some(ExtractFilename(v.s))
    else if !Truthy(v) then Some("")
    else None
  }

  /** Length of the run of `inRun` characters at the front of s. */
  function RunLen(s: string, inRun: char -> bool): (n: nat)
    ensures n <= |s|
    ensures forall i :: 0 <= i < n ==> inRun(s[i])
    ensures n == |s| || !inRun(s[n])
  {
    if |s| == 0 || !inRun(s[0]) then 0 else 1 + RunLen(s[1..], inRun)
  }

  /** re.findall(r'\b\w+\b', s): the maximal runs of word characters. */
  function Runs(s: string, inRun: char -> bool): (r: seq<string>)
    ensures forall i :: 0 <= i < |r| ==> |r[i]| > 0 && forall j :: 0 <= j < |r[i]| ==> inRun(r[i][j])
    decreases |s|
  {
    if |s| == 0 then []
    else if !inRun(s[0]) then Runs(s[1..], inRun)
    else
      var n := RunLen(s, inRun);
      [s[..n]] + Runs(s[n..], inRun)
  }

  /** Ideographs in the range U+4E00 to U+9FFF. */
  predicate IsCjk(c: char)
  {
    '一' <= c <= '鿿'
  }

  /** list(chars) for every run of ideographs: each ideograph of the text, one per token, in order. */
  function CjkSingles(text: string): (r: seq<string>)
    ensures forall i :: 0 <= i < |r| ==> |r[i]| == 1 && IsCjk(r[i][0])
  {
    if |text| == 0 then []
    else (if IsCjk(text[0]) then [[text[0]]] else []) + CjkSingles(text[1..])
  }

  predicate LongToken(w: string)
  {
    |w| > 1
  }

  /** _tokenize: the word runs of the lower-cased text and the single ideographs, less every one-character token. */
  function Tokenize(text: string, isWordChar: char -> bool): (r: seq<string>)
    ensures forall i :: 0 <= i < |r| ==> |r[i]| > 1
  {
    Filter(Runs(Lower(text), isWordChar) + CjkSingles(text), LongToken)
  }

  /** The single ideographs are all dropped again: only word runs of two or more characters remain. */
  lemma IdeographsNeverSurvive(text: string, isWordChar: char -> bool)
    ensures Tokenize(text, isWordChar) == Filter(Runs(Lower(text), isWordChar), LongToken)
  {
    var runs := Runs(Lower(text), isWordChar);
    var singles := CjkSingles(text);
    FilterConcat(runs, singles, LongToken);
    FilterNone(singles, LongToken);
    assert Filter(runs, LongToken) + [] == Filter(runs, LongToken);
  }

  // ---------------------------------------------------------------------
  // File-name similarity
  // ---------------------------------------------------------------------

  function TokenSet(text: string, isWordChar: char -> bool): (r: set<string>)
    ensures forall w :: w in r <==> w in Tokenize(text, isWordChar)
  {
    set w | w in Tokenize(text, isWordChar)
  }

  /** x contains, or is contained in, some token of f. */
  predicate RelatedTo(x: string, f: set<string>)
  {
    exists y :: y in f && (Contains(y, x) || Contains(x, y))
  }

  /** Query tokens related to some file-name token. */
  function Related(q: set<string>, f: set<string>): (r: set<string>)
    ensures r <= q
    ensures forall x :: x in r <==> x in q && RelatedTo(x, f)
  {
    set x | x in q && RelatedTo(x, f)
  }

  /** Query tokens found anywhere in the file name. */
  function InName(q: set<string>, filename: string): (r: set<string>)
    ensures r <= q
    ensures forall x :: x in r <==> x in q && Contains(filename, x)
  {
    set x | x in q && Contains(filename, x)
  }

  /**
   * _calculate_filename_similarity on lower-cased text: 0.5 share of query
   * tokens that are file-name tokens, 0.3 times half the share of related
   * tokens, 0.2 share of query tokens found in the name. Each related token
   * adds only 0.5, so the score never exceeds 0.85 and the cap at 1.0 never
   * applies.
   */
  function Similarity(query: string, filename: string, isWordChar: char -> bool): (r: real)
    ensures 0.0 <= r <= 0.85
    ensures query == [] || filename == [] || TokenSet(query, isWordChar) == {} ==> r == 0.0
  {
    if query == [] || filename == [] then 0.0
    else
      var q := TokenSet(query, isWordChar);
      var f := TokenSet(filename, isWordChar);
      if q == {} then 0.0
      else
        SubsetSize(q * f, q);
        SubsetSize(Related(q, f), q);
        SubsetSize(InName(q, filename), q);
        var exact := Share(|q * f|, |q|);
        var partial := AtMostOne(Share(|Related(q, f)|, |q|) * 0.5);
        var substring := Share(|InName(q, filename)|, |q|);
        AtMostOne(exact * 0.5 + partial * 0.3 + substring * 0.2)
  }

  /** A shared token is related to itself. */
  lemma SharedIsRelated(q: set<string>, f: set<string>)
    ensures q * f <= Related(q, f)
  {
    forall x | x in q * f
      ensures x in Related(q, f)
    {
      assert OccursAt(x, x, 0);
    }
  }

  /** The score is positive exactly when some query token is related to a name token or occurs in the name. */
  lemma SimilarityPositiveIff(query: string, filename: string, isWordChar: char -> bool)
    requires query != [] && filename != []
    ensures var q := TokenSet(query, isWordChar);
      Similarity(query, filename, isWordChar) > 0.0 <==>
        q != {} && (Related(q, TokenSet(filename, isWordChar)) != {} || InName(q, filename) != {})
  {
    var q := TokenSet(query, isWordChar);
    var f := TokenSet(filename, isWordChar);
    if q != {} {
      SubsetSize(q * f, q);
      SubsetSize(Related(q, f), q);
      SubsetSize(InName(q, filename), q);
      SharedIsRelated(q, f);
      if q * f != {} {
        SubsetSize(q * f, Related(q, f));
      }
    }
  }

  // ---------------------------------------------------------------------
  // File-name search
  // ---------------------------------------------------------------------

  /** A document the file-name search produced: tagged "filename", with a float score. */
  predicate Marked(d: Document)
  {
    && "search_type" in d.metadata && d.metadata["search_type"] == PStr("filename")
    && "filename_score" in d.metadata && d.metadata["filename_score"].PFloat?
  }

  /** metadata["filename_score"] of a document the search produced. */
  function FilenameScore(d: Document): (s: real)
    ensures "filename_score" in d.metadata && d.metadata["filename_score"].PFloat? ==> s == d.metadata["filename_score"].f
  {
    if "filename_score" in d.metadata && d.metadata["filename_score"].PFloat? then d.metadata["filename_score"].f else 0.0
  }

  /** The marked copy of a candidate: its file name and score; None when the source makes the string methods raise. */
  function MarkCandidate(query: string, d: Document, isWordChar: char -> bool): (r: Option<Document>)
    ensures r.Some? <==> FilenameFromSource(MetaGet(d, "source", PStr(""))).Some?
    ensures r.Some? ==> r.value.pageContent == d.pageContent && Marked(r.value)
    ensures r.Some? ==>
      var name := FilenameFromSource(MetaGet(d, "source", PStr(""))).value;
      r.value.metadata == d.metadata["search_type" := PStr("filename")]
                                    ["filename_score" := PFloat(Similarity(Lower(query), Lower(name), isWordChar))]
                                    ["filename" := PStr(name)]
      && FilenameScore(r.value) == Similarity(Lower(query), Lower(name), isWordChar)
  {
    match FilenameFromSource(MetaGet(d, "source", PStr("")))
    case None => None
    case Some(name) =>
      var score := Similarity(Lower(query), Lower(name), isWordChar);
      Some(Document(d.pageContent, d.metadata["search_type" := PStr("filename")]
                                             ["filename_score" := PFloat(score)]["filename" := PStr(name)]))
  }

  function MarkCandidates(query: string, docs: seq<Document>, isWordChar: char -> bool): (r: Option<seq<Document>>)
    ensures r.Some? <==> forall i :: 0 <= i < |docs| ==> MarkCandidate(query, docs[i], isWordChar).Some?
    ensures r.Some? ==> |r.value| == |docs|
    ensures r.Some? ==> forall i :: 0 <= i < |docs| ==> Some(r.value[i]) == MarkCandidate(query, docs[i], isWordChar)
    ensures r.Some? ==> forall i :: 0 <= i < |r.value| ==> Marked(r.value[i])
  {
    MapAll(docs, d => MarkCandidate(query, d, isWordChar))
  }

  /** match_score >= min_filename_score */
  function AtLeastScore(m: real): Document -> bool
  {
    d => FilenameScore(d) >= m
  }

  /** The marked candidates that reach m, highest score first. */
  function KeepAndSort(ms: seq<Document>, m: real): (r: seq<Document>)
    requires forall i :: 0 <= i < |ms| ==> Marked(ms[i])
    ensures SortedDesc(r, FilenameScore)
    ensures forall i :: 0 <= i < |r| ==> Marked(r[i]) && FilenameScore(r[i]) >= m
    ensures forall i :: 0 <= i < |ms| && FilenameScore(ms[i]) >= m ==> ms[i] in r
    ensures multiset(r) == multiset(Filter(ms, AtLeastScore(m)))
    ensures forall x :: WithKey(r, FilenameScore, x) == WithKey(Filter(ms, AtLeastScore(m)), FilenameScore, x)
  {
    var kept := Filter(ms, AtLeastScore(m));
    FilterMembers(ms, AtLeastScore(m));
    SortDescMembers(kept, FilenameScore);
    SortDescPermutes(kept, FilenameScore);
    assert forall i :: 0 <= i < |ms| && FilenameScore(ms[i]) >= m ==> AtLeastScore(m)(ms[i]);
    assert forall x :: WithKey(SortDesc(kept, FilenameScore), FilenameScore, x) == WithKey(kept, FilenameScore, x) by {
      forall x
        ensures WithKey(SortDesc(kept, FilenameScore), FilenameScore, x) == WithKey(kept, FilenameScore, x)
      {
        SortDescIsStable(kept, FilenameScore, x);
      }
    }
    SortDesc(kept, FilenameScore)
  }

  /**
   * _filename_search: the candidates whose score reaches min_filename_score,
   * marked, highest score first. A threshold that is not a number makes
   * the first comparison raise.
   */
  function FilenameSearch(query: string, docs: seq<Document>, minScore: PyVal,
                          isWordChar: char -> bool): (r: Result<seq<Document>>)
    ensures |docs| == 0 ==> r == Ok([])
    ensures |docs| > 0 && !IsNumber(minScore) ==> r.Err?
    ensures r.Ok? ==> SortedDesc(r.value, FilenameScore)
    ensures r.Ok? ==> forall i :: 0 <= i < |r.value| ==>
      Marked(r.value[i]) && IsNumber(minScore) && FilenameScore(r.value[i]) >= AsReal(minScore)
    ensures r.Ok? && |docs| > 0 ==>
      MarkCandidates(query, docs, isWordChar).Some? &&
      multiset(r.value) == multiset(Filter(MarkCandidates(query, docs, isWordChar).value, AtLeastScore(AsReal(minScore))))
    ensures r.Ok? && |docs| > 0 ==> forall x ::
      WithKey(r.value, FilenameScore, x) ==
        WithKey(Filter(MarkCandidates(query, docs, isWordChar).value, AtLeastScore(AsReal(minScore))), FilenameScore, x)
  {
    if |docs| == 0 then Ok([])
    else if !IsNumber(minScore) then Err("TypeError: '>=' not supported")
    else
      match MarkCandidates(query, docs, isWordChar)
      case None => Err("AttributeError: source is not a string")
      case Some(ms) => Ok(KeepAndSort(ms, AsReal(minScore)))
  }

  /** Every candidate whose score reaches the threshold is in the result, marked. */
  lemma FilenameSearchComplete(query: string, docs: seq<Document>, minScore: PyVal, isWordChar: char -> bool, i: int)
    requires FilenameSearch(query, docs, minScore, isWordChar).Ok? && 0 <= i < |docs| && IsNumber(minScore)
    requires var name := FilenameFromSource(MetaGet(docs[i], "source", PStr("")));
      name.Some? && Similarity(Lower(query), Lower(name.value), isWordChar) >= AsReal(minScore)
    ensures MarkCandidate(query, docs[i], isWordChar).Some?
    ensures MarkCandidate(query, docs[i], isWordChar).value in FilenameSearch(query, docs, minScore, isWordChar).value
  {
    var ms := MarkCandidates(query, docs, isWordChar).value;
    assert FilenameScore(ms[i]) >= AsReal(minScore);
  }

  // ---------------------------------------------------------------------
  // Merging
  // ---------------------------------------------------------------------

  /** One value of the doc_scores dictionary, with its key. */
  datatype Entry = Entry(id: string, doc: Document, semantic: real, filename: PyVal)

  /**
   * _get_doc_id: f"{source}:{hash(page_content[:100])}", the source being
   * metadata.get("source", ""). `render` is str() of the values Str leaves
   * to it, `hash` is Python's hash() of a str.
   */
  function DocId(d: Document, render: PyVal -> string, hash: string -> int): string
  {
    Str(MetaGet(d, "source", PStr("")), render) + ":" + IntToString(hash(Take(d.pageContent, 100)))
  }

  function IdOf(render: PyVal -> string, hash: string -> int): Document -> string
  {
    d => DocId(d, render, hash)
  }

  /** Documents with the same source value and the same first 100 characters share an id. */
  lemma SameSourceAndTextSameId(a: Document, b: Document, render: PyVal -> string, hash: string -> int)
    requires MetaGet(a, "source", PStr("")) == MetaGet(b, "source", PStr(""))
    requires a.pageContent == b.pageContent
    ensures DocId(a, render, hash) == DocId(b, render, hash)
  {
  }

  /** Position of the entry with this id, |es| when there is none. */
  function IndexOf(es: seq<Entry>, id: string): (i: nat)
    ensures i <= |es|
    ensures i < |es| ==> es[i].id == id
    ensures forall j :: 0 <= j < i ==> es[j].id != id
  {
    IndexFrom(es, id, 0)
  }

  /** The first position from k on holding this id, |es| when there is none. */
  function IndexFrom(es: seq<Entry>, id: string, k: nat): (i: nat)
    requires k <= |es|
    ensures k <= i <= |es|
    ensures i < |es| ==> es[i].id == id
    ensures forall j :: k <= j < i ==> es[j].id != id
    decreases |es| - k
  {
    if k == |es| then k else if es[k].id == id then k else IndexFrom(es, id, k + 1)
  }

  /** The dictionary keys are distinct. */
  predicate DistinctIds(es: seq<Entry>)
  {
    forall i, j :: 0 <= i < j < |es| ==> es[i].id != es[j].id
  }

  /** doc_scores[id] = e: a new key goes last, an existing one keeps its place. */
  function Upsert(es: seq<Entry>, e: Entry): (r: seq<Entry>)
    ensures IndexOf(es, e.id) < |es| ==> r == es[IndexOf(es, e.id) := e]
    ensures IndexOf(es, e.id) == |es| ==> r == es + [e]
  {
    var i := IndexOf(es, e.id);
    if i < |es| then es[i := e] else es + [e]
  }

  /** (n - j) / n, the semantic score of hit j of n: 1 for the first, falling by 1/n per place. */
  function SemScore(n: nat, j: nat): (r: real)
    requires j < n
    ensures 0.0 < r <= 1.0
    ensures j == 0 ==> r == 1.0
  {
    (n - j) as real / n as real
  }

  /** Later hits score strictly less. */
  lemma SemScoresDecrease(n: nat, j: nat, k: nat)
    requires j < k < n
    ensures SemScore(n, j) > SemScore(n, k)
  {
    var x := n as real;
    assert (n - j) as real > (n - k) as real;
    assert (n - j) as real / x > (n - k) as real / x;
  }

  function SemEntry(sem: seq<Document>, j: nat, docId: Document -> string): Entry
    requires j < |sem|
  {
    Entry(docId(sem[j]), sem[j], SemScore(|sem|, j), PFloat(0.0))
  }

  /** The semantic loop from position i on. */
  function SemanticEntries(es: seq<Entry>, sem: seq<Document>, i: nat, docId: Document -> string): (r: seq<Entry>)
    requires i <= |sem|
    decreases |sem| - i
  {
    if i == |sem| then es
    else SemanticEntries(Upsert(es, SemEntry(sem, i, docId)), sem, i + 1, docId)
  }

  /** With distinct ids the semantic loop yields one entry per hit, in order, hit j scoring (n - j) / n. */
  lemma {:induction false} SemanticScores(es: seq<Entry>, sem: seq<Document>, i: nat, docId: Document -> string)
    requires i <= |sem|
    requires |es| == i
    requires forall j :: 0 <= j < i ==> es[j] == SemEntry(sem, j, docId)
    requires forall a, b :: 0 <= a < b < |sem| ==> docId(sem[a]) != docId(sem[b])
    ensures |SemanticEntries(es, sem, i, docId)| == |sem|
    ensures forall j :: 0 <= j < |sem| ==> SemanticEntries(es, sem, i, docId)[j] == SemEntry(sem, j, docId)
    decreases |sem| - i
  {
    if i < |sem| {
      var e := SemEntry(sem, i, docId);
      assert forall j :: 0 <= j < |es| ==> es[j].id != e.id;
      assert IndexOf(es, e.id) == |es|;
      SemanticScores(es + [e], sem, i + 1, docId);
    }
  }

  /** filename_score of a file-name hit, metadata.get("filename_score", 0.0). */
  function HitScore(d: Document): PyVal
  {
    MetaGet(d, "filename_score", PFloat(0.0))
  }

  /** One step of the file-name loop: an existing id gets the score, a new one is added with semantic score 0. */
  function AddHit(es: seq<Entry>, d: Document, docId: Document -> string): (r: seq<Entry>)
    ensures IndexOf(es, docId(d)) < |es| ==> r == es[IndexOf(es, docId(d)) := es[IndexOf(es, docId(d))].(filename := HitScore(d))]
    ensures IndexOf(es, docId(d)) == |es| ==> r == es + [Entry(docId(d), d, 0.0, HitScore(d))]
  {
    var i := IndexOf(es, docId(d));
    if i < |es| then es[i := es[i].(filename := HitScore(d))] else es + [Entry(docId(d), d, 0.0, HitScore(d))]
  }

  /** The file-name loop. */
  function FilenameEntries(es: seq<Entry>, fn: seq<Document>, docId: Document -> string): (r: seq<Entry>)
    decreases |fn|
  {
    if |fn| == 0 then es else FilenameEntries(AddHit(es, fn[0], docId), fn[1..], docId)
  }

  /** The dictionary's keys, in order. */
  function Ids(es: seq<Entry>): (r: seq<string>)
    ensures |r| == |es|
    ensures forall i :: 0 <= i < |es| ==> r[i] == es[i].id
  {
    seq(|es|, i requires 0 <= i < |es| => es[i].id)
  }

  /** b holds the entries of a, in place, with at most their file-name scores changed. */
  predicate SameExceptScores(a: seq<Entry>, b: seq<Entry>)
  {
    |a| == |b| &&
    forall i :: 0 <= i < |a| ==> a[i].id == b[i].id && a[i].doc == b[i].doc && a[i].semantic == b[i].semantic
  }

  /** A key that is present is found. */
  lemma IndexOfPresent(es: seq<Entry>, id: string)
    requires id in Ids(es)
    ensures IndexOf(es, id) < |es|
  {
    var j :| 0 <= j < |es| && Ids(es)[j] == id;
    assert es[j].id == id;
  }

  /**
   * A file-name loop whose every hit has a key already in the dictionary
   * adds no entry: it only sets file-name scores.
   */
  lemma {:induction false} FilenameEntriesOnlyScore(es: seq<Entry>, fn: seq<Document>, docId: Document -> string)
    requires forall j :: 0 <= j < |fn| ==> docId(fn[j]) in Ids(es)
    ensures SameExceptScores(es, FilenameEntries(es, fn, docId))
    decreases |fn|
  {
    if |fn| > 0 {
      IndexOfPresent(es, docId(fn[0]));
      var es1 := AddHit(es, fn[0], docId);
      assert SameExceptScores(es, es1);
      assert Ids(es1) == Ids(es);
      assert forall j :: 0 <= j < |fn[1..]| ==> docId(fn[1..][j]) in Ids(es1) by {
        forall j | 0 <= j < |fn[1..]|
          ensures docId(fn[1..][j]) in Ids(es1)
        {
          assert fn[1..][j] == fn[j + 1];
        }
      }
      FilenameEntriesOnlyScore(es1, fn[1..], docId);
    }
  }

  /** doc_scores[id] = e keeps every key and has e's. */
  lemma UpsertIds(es: seq<Entry>, e: Entry)
    ensures forall x :: x in Ids(es) ==> x in Ids(Upsert(es, e))
    ensures e.id in Ids(Upsert(es, e))
  {
    var r := Upsert(es, e);
    var n := IndexOf(es, e.id);
    if n < |es| {
      assert Ids(r) == Ids(es);
    } else {
      assert Ids(r) == Ids(es) + [e.id];
    }
  }

  /** One turn of the semantic loop: an upsert, then the rest of the loop. */
  lemma SemanticStep(es: seq<Entry>, sem: seq<Document>, i: nat, docId: Document -> string)
    requires i < |sem|
    ensures SemanticEntries(es, sem, i, docId) == SemanticEntries(Upsert(es, SemEntry(sem, i, docId)), sem, i + 1, docId)
  {
  }

  /** The semantic loop keeps every key it starts with. */
  lemma {:induction false} SemanticKeepsIds(es: seq<Entry>, sem: seq<Document>, i: nat, docId: Document -> string, x: string)
    requires i <= |sem| && x in Ids(es)
    ensures x in Ids(SemanticEntries(es, sem, i, docId))
    decreases |sem| - i
  {
    if i < |sem| {
      var e := SemEntry(sem, i, docId);
      var es1 := Upsert(es, e);
      assert x in Ids(es1) by { UpsertIds(es, e); }
      SemanticKeepsIds(es1, sem, i + 1, docId, x);
      assert SemanticEntries(es, sem, i, docId) == SemanticEntries(es1, sem, i + 1, docId) by {
        SemanticStep(es, sem, i, docId);
      }
    }
  }

  /** The semantic loop from i on adds the key of hit i. */
  lemma SemanticAddsOwnId(es: seq<Entry>, sem: seq<Document>, i: nat, docId: Document -> string)
    requires i < |sem|
    ensures docId(sem[i]) in Ids(SemanticEntries(es, sem, i, docId))
  {
    var e := SemEntry(sem, i, docId);
    UpsertIds(es, e);
    SemanticKeepsIds(Upsert(es, e), sem, i + 1, docId, e.id);
    SemanticStep(es, sem, i, docId);
  }

  /** The semantic loop from i on adds the key of hit j. */
  lemma {:induction false} SemanticAddsId(es: seq<Entry>, sem: seq<Document>, i: nat, docId: Document -> string, j: nat)
    requires i <= j < |sem|
    ensures docId(sem[j]) in Ids(SemanticEntries(es, sem, i, docId))
    decreases |sem| - i
  {
    if j == i {
      SemanticAddsOwnId(es, sem, i, docId);
    } else {
      SemanticAddsId(Upsert(es, SemEntry(sem, i, docId)), sem, i + 1, docId, j);
      SemanticStep(es, sem, i, docId);
    }
  }

  /** The semantic loop keeps every key it starts with and adds the key of every hit from i on. */
  lemma SemanticIdsCover(es: seq<Entry>, sem: seq<Document>, i: nat, docId: Document -> string)
    requires i <= |sem|
    ensures forall x :: x in Ids(es) ==> x in Ids(SemanticEntries(es, sem, i, docId))
    ensures forall j :: i <= j < |sem| ==> docId(sem[j]) in Ids(SemanticEntries(es, sem, i, docId))
  {
    forall x | x in Ids(es)
      ensures x in Ids(SemanticEntries(es, sem, i, docId))
    {
      SemanticKeepsIds(es, sem, i, docId, x);
    }
    forall j | i <= j < |sem|
      ensures docId(sem[j]) in Ids(SemanticEntries(es, sem, i, docId))
    {
      SemanticAddsId(es, sem, i, docId, j);
    }
  }

  /** Every entry's document is one of the inputs. */
  predicate DocsFrom(es: seq<Entry>, ds: seq<Document>)
  {
    forall i :: 0 <= i < |es| ==> es[i].doc in ds
  }

  lemma {:induction false} SemanticDocsFrom(es: seq<Entry>, sem: seq<Document>, i: nat, docId: Document -> string, ds: seq<Document>)
    requires i <= |sem| && DocsFrom(es, ds) && forall j :: 0 <= j < |sem| ==> sem[j] in ds
    ensures DocsFrom(SemanticEntries(es, sem, i, docId), ds)
    decreases |sem| - i
  {
    if i < |sem| {
      SemanticDocsFrom(Upsert(es, SemEntry(sem, i, docId)), sem, i + 1, docId, ds);
    }
  }

  lemma {:induction false} FilenameDocsFrom(es: seq<Entry>, fn: seq<Document>, docId: Document -> string, ds: seq<Document>)
    requires DocsFrom(es, ds) && forall j :: 0 <= j < |fn| ==> fn[j] in ds
    ensures DocsFrom(FilenameEntries(es, fn, docId), ds)
    decreases |fn|
  {
    if |fn| > 0 {
      FilenameDocsFrom(AddHit(es, fn[0], docId), fn[1..], docId, ds);
    }
  }

  predicate ScoresNumeric(es: seq<Entry>)
  {
    forall i :: 0 <= i < |es| ==> IsNumber(es[i].filename)
  }

  lemma {:induction false} SemanticNumeric(es: seq<Entry>, sem: seq<Document>, i: nat, docId: Document -> string)
    requires i <= |sem| && ScoresNumeric(es)
    ensures ScoresNumeric(SemanticEntries(es, sem, i, docId))
    decreases |sem| - i
  {
    if i < |sem| {
      var e := SemEntry(sem, i, docId);
      UpsertNumeric(es, e);
      SemanticNumeric(Upsert(es, e), sem, i + 1, docId);
    }
  }

  lemma UpsertNumeric(es: seq<Entry>, e: Entry)
    requires ScoresNumeric(es) && IsNumber(e.filename)
    ensures ScoresNumeric(Upsert(es, e))
  {
  }

  lemma {:induction false} FilenameNumeric(es: seq<Entry>, fn: seq<Document>, docId: Document -> string)
    requires ScoresNumeric(es) && forall j :: 0 <= j < |fn| ==> IsNumber(HitScore(fn[j]))
    ensures ScoresNumeric(FilenameEntries(es, fn, docId))
    decreases |fn|
  {
    if |fn| > 0 {
      FilenameNumeric(AddHit(es, fn[0], docId), fn[1..], docId);
    }
  }

  /** Every score and weight the combination multiplies is a number. */
  predicate Numeric(es: seq<Entry>, semanticWeight: PyVal, filenameWeight: PyVal)
  {
    |es| > 0 ==> (IsNumber(semanticWeight) && IsNumber(filenameWeight) && ScoresNumeric(es))
  }

  /** The pair's document records the pair's score as its combined_score. */
  predicate CarriesScore(p: (Document, real))
  {
    "combined_score" in p.0.metadata && p.0.metadata["combined_score"] == PFloat(p.1)
  }

  /** The document of an entry with its scores written into the metadata, and its combined score. */
  function Scored(e: Entry, semanticWeight: PyVal, filenameWeight: PyVal): (p: (Document, real))
    requires IsNumber(semanticWeight) && IsNumber(filenameWeight) && IsNumber(e.filename)
    ensures p.0.pageContent == e.doc.pageContent
    ensures CarriesScore(p)
    ensures p.1 == e.semantic * AsReal(semanticWeight) + AsReal(e.filename) * AsReal(filenameWeight)
  {
    var c := e.semantic * AsReal(semanticWeight) + AsReal(e.filename) * AsReal(filenameWeight);
    (Document(e.doc.pageContent,
              e.doc.metadata["combined_score" := PFloat(c)]["semantic_score" := PFloat(e.semantic)]
                            ["filename_score" := e.filename]),
     c)
  }

  function ScoredAll(es: seq<Entry>, semanticWeight: PyVal, filenameWeight: PyVal): (r: seq<(Document, real)>)
    requires Numeric(es, semanticWeight, filenameWeight)
    ensures |r| == |es|
    ensures forall i :: 0 <= i < |es| ==> r[i] == Scored(es[i], semanticWeight, filenameWeight)
  {
    seq(|es|, i requires 0 <= i < |es| => Scored(es[i], semanticWeight, filenameWeight))
  }

  function Second(p: (Document, real)): real
  {
    p.1
  }

  function Firsts(ps: seq<(Document, real)>): (r: seq<Document>)
    ensures |r| == |ps|
    ensures forall i :: 0 <= i < |ps| ==> r[i] == ps[i].0
  {
    seq(|ps|, i requires 0 <= i < |ps| => ps[i].0)
  }

  /** metadata["combined_score"] as the merge writes it. */
  function CombinedScore(d: Document): real
  {
    if "combined_score" in d.metadata && d.metadata["combined_score"].PFloat? then d.metadata["combined_score"].f else 0.0
  }

  lemma SortedByCombined(sorted: seq<(Document, real)>, k: int)
    requires SortedDesc(sorted, Second)
    requires forall i :: 0 <= i < |sorted| ==> CarriesScore(sorted[i])
    ensures SortedDesc(Take(Firsts(sorted), k), CombinedScore)
  {
    var r := Take(Firsts(sorted), k);
    assert forall i :: 0 <= i < |r| ==> CombinedScore(r[i]) == Second(sorted[i]);
  }

  /** doc_scores[id] = e keeps the keys distinct. */
  lemma UpsertKeepsDistinct(es: seq<Entry>, e: Entry)
    requires DistinctIds(es)
    ensures DistinctIds(Upsert(es, e))
  {
  }

  /** A file-name hit keeps the keys distinct. */
  lemma AddHitKeepsDistinct(es: seq<Entry>, d: Document, docId: Document -> string)
    requires DistinctIds(es)
    ensures DistinctIds(AddHit(es, d, docId))
  {
  }

  /** The semantic loop keeps the keys distinct. */
  lemma {:induction false} SemanticKeepsDistinct(es: seq<Entry>, sem: seq<Document>, i: nat, docId: Document -> string)
    requires i <= |sem| && DistinctIds(es)
    ensures DistinctIds(SemanticEntries(es, sem, i, docId))
    decreases |sem| - i
  {
    if i < |sem| {
      UpsertKeepsDistinct(es, SemEntry(sem, i, docId));
      SemanticKeepsDistinct(Upsert(es, SemEntry(sem, i, docId)), sem, i + 1, docId);
    }
  }

  /** The file-name loop keeps the keys distinct. */
  lemma {:induction false} FilenameKeepsDistinct(es: seq<Entry>, fn: seq<Document>, docId: Document -> string)
    requires DistinctIds(es)
    ensures DistinctIds(FilenameEntries(es, fn, docId))
    decreases |fn|
  {
    if |fn| > 0 {
      AddHitKeepsDistinct(es, fn[0], docId);
      FilenameKeepsDistinct(AddHit(es, fn[0], docId), fn[1..], docId);
    }
  }

  /** The merged entries: semantic hits first, then the file-name hits. */
  function MergedEntries(sem: seq<Document>, fn: seq<Document>, docId: Document -> string): seq<Entry>
  {
    FilenameEntries(SemanticEntries([], sem, 0, docId), fn, docId)
  }

  /** The score dictionary never holds an id twice. */
  lemma MergedIdsDistinct(sem: seq<Document>, fn: seq<Document>, docId: Document -> string)
    ensures DistinctIds(MergedEntries(sem, fn, docId))
  {
    SemanticKeepsDistinct([], sem, 0, docId);
    FilenameKeepsDistinct(SemanticEntries([], sem, 0, docId), fn, docId);
  }

  /**
   * _merge_results: combined = semantic * semantic_weight + filename *
   * filename_weight, the documents sorted on it, highest first, the first k
   * kept. A weight or file-name score that is not a number raises.
   */
  function MergeResults(sem: seq<Document>, fn: seq<Document>, k: int, docId: Document -> string,
                        semanticWeight: PyVal, filenameWeight: PyVal): (r: Result<seq<Document>>)
    ensures r.Ok? <==> Numeric(MergedEntries(sem, fn, docId), semanticWeight, filenameWeight)
    ensures r.Ok? && k >= 0 ==> |r.value| <= k
    ensures r.Ok? && k >= 0 ==> |r.value| == (if k < |MergedEntries(sem, fn, docId)| then k else |MergedEntries(sem, fn, docId)|)
    ensures r.Ok? ==> SortedDesc(r.value, CombinedScore)
  {
    var es := MergedEntries(sem, fn, docId);
    if !Numeric(es, semanticWeight, filenameWeight) then Err("TypeError: unsupported operand type")
    else
      var scored := ScoredAll(es, semanticWeight, filenameWeight);
      var sorted := SortDesc(scored, Second);
      SortDescMembers(scored, Second);
      SortedByCombined(sorted, k);
      Ok(Take(Firsts(sorted), k))
  }

  /** In pairs sorted on their score, a pair past the first k scores no higher than the last one kept. */
  lemma {:induction false} PastTakeScoresLower(sorted: seq<(Document, real)>, k: int, m: int)
    requires SortedDesc(sorted, Second)
    requires forall i :: 0 <= i < |sorted| ==> CarriesScore(sorted[i])
    requires 0 < SliceBound(|sorted|, k) <= m < |sorted|
    ensures sorted[m].1 <= CombinedScore(Take(Firsts(sorted), k)[SliceBound(|sorted|, k) - 1])
  {
    var last := SliceBound(|sorted|, k) - 1;
    assert Take(Firsts(sorted), k)[last] == sorted[last].0;
    assert Second(sorted[last]) >= Second(sorted[m]);
  }

  /** A document kept from the sorted pairs is the document of one of the scored pairs. */
  lemma {:induction false} KeptIsScored(scored: seq<(Document, real)>, sorted: seq<(Document, real)>, k: int, i: int)
    requires forall m :: 0 <= m < |sorted| ==> sorted[m] in scored
    requires 0 <= i < |Take(Firsts(sorted), k)|
    ensures exists j :: 0 <= j < |scored| && Take(Firsts(sorted), k)[i] == scored[j].0
  {
    assert sorted[i] in scored;
    var j :| 0 <= j < |scored| && scored[j] == sorted[i];
    assert Take(Firsts(sorted), k)[i] == scored[j].0;
  }

  /** A scored pair that outscores the last kept document is among those kept. */
  lemma {:induction false} HighScoreIsKept(scored: seq<(Document, real)>, sorted: seq<(Document, real)>, k: int, j: int)
    requires SortedDesc(sorted, Second)
    requires forall i :: 0 <= i < |sorted| ==> CarriesScore(sorted[i])
    requires 0 <= j < |scored| && scored[j] in sorted && |Take(Firsts(sorted), k)| > 0
    requires scored[j].1 > CombinedScore(Take(Firsts(sorted), k)[|Take(Firsts(sorted), k)| - 1])
    ensures scored[j].0 in Take(Firsts(sorted), k)
  {
    var b := SliceBound(|sorted|, k);
    var m :| 0 <= m < |sorted| && sorted[m] == scored[j];
    if m >= b {
      PastTakeScoresLower(sorted, k, m);
      assert false;
    }
    assert Take(Firsts(sorted), k)[m] == scored[j].0;
  }

  /** Sorting keeps every pair's recorded score. */
  lemma SortedCarriesScore(scored: seq<(Document, real)>)
    requires forall i :: 0 <= i < |scored| ==> CarriesScore(scored[i])
    ensures forall i :: 0 <= i < |SortDesc(scored, Second)| ==> CarriesScore(SortDesc(scored, Second)[i])
  {
    var sorted := SortDesc(scored, Second);
    SortDescMembers(scored, Second);
    forall i | 0 <= i < |sorted|
      ensures CarriesScore(sorted[i])
    {
      var j :| 0 <= j < |scored| && scored[j] == sorted[i];
    }
  }

  /** Every document of r is the scored document of one of the entries. */
  predicate DrawnFromEntries(r: seq<Document>, es: seq<Entry>, semanticWeight: PyVal, filenameWeight: PyVal)
    requires Numeric(es, semanticWeight, filenameWeight)
  {
    forall i :: 0 <= i < |r| ==>
      exists j :: 0 <= j < |es| && r[i] == Scored(es[j], semanticWeight, filenameWeight).0
  }

  /** No entry whose combined score beats the last document of r is left out of r. */
  predicate KeepsTopK(r: seq<Document>, es: seq<Entry>, semanticWeight: PyVal, filenameWeight: PyVal)
    requires Numeric(es, semanticWeight, filenameWeight)
  {
    forall j ::
      (0 <= j < |es| && |r| > 0 &&
       Scored(es[j], semanticWeight, filenameWeight).1 > CombinedScore(r[|r| - 1])) ==>
      Scored(es[j], semanticWeight, filenameWeight).0 in r
  }

  /**
   * The merge keeps the top k: every returned document is a scored entry,
   * and an entry that is left out scores no higher than the last one kept.
   */
  lemma MergeIsTopK(sem: seq<Document>, fn: seq<Document>, k: int, docId: Document -> string,
                    semanticWeight: PyVal, filenameWeight: PyVal)
    requires MergeResults(sem, fn, k, docId, semanticWeight, filenameWeight).Ok?
    ensures Numeric(MergedEntries(sem, fn, docId), semanticWeight, filenameWeight)
    ensures var r := MergeResults(sem, fn, k, docId, semanticWeight, filenameWeight).value;
      DrawnFromEntries(r, MergedEntries(sem, fn, docId), semanticWeight, filenameWeight)
      && KeepsTopK(r, MergedEntries(sem, fn, docId), semanticWeight, filenameWeight)
  {
    MergeResultsValue(sem, fn, k, docId, semanticWeight, filenameWeight);
    TopKOfEntries(MergedEntries(sem, fn, docId), k, semanticWeight, filenameWeight);
  }

  /** A merge that does not raise returns the first k scored documents, best first. */
  lemma MergeResultsValue(sem: seq<Document>, fn: seq<Document>, k: int, docId: Document -> string,
                          semanticWeight: PyVal, filenameWeight: PyVal)
    requires MergeResults(sem, fn, k, docId, semanticWeight, filenameWeight).Ok?
    ensures Numeric(MergedEntries(sem, fn, docId), semanticWeight, filenameWeight)
    ensures MergeResults(sem, fn, k, docId, semanticWeight, filenameWeight).value ==
      Take(Firsts(SortDesc(ScoredAll(MergedEntries(sem, fn, docId), semanticWeight, filenameWeight), Second)), k)
  {
  }

  /** The first k documents of the scored entries, best first, are the top k of them. */
  lemma TopKOfEntries(es: seq<Entry>, k: int, semanticWeight: PyVal, filenameWeight: PyVal)
    requires Numeric(es, semanticWeight, filenameWeight)
    ensures var r := Take(Firsts(SortDesc(ScoredAll(es, semanticWeight, filenameWeight), Second)), k);
      DrawnFromEntries(r, es, semanticWeight, filenameWeight) && KeepsTopK(r, es, semanticWeight, filenameWeight)
  {
    TopKDrawn(es, k, semanticWeight, filenameWeight);
    TopKKept(es, k, semanticWeight, filenameWeight);
  }

  lemma TopKDrawn(es: seq<Entry>, k: int, semanticWeight: PyVal, filenameWeight: PyVal)
    requires Numeric(es, semanticWeight, filenameWeight)
    ensures var r := Take(Firsts(SortDesc(ScoredAll(es, semanticWeight, filenameWeight), Second)), k);
      DrawnFromEntries(r, es, semanticWeight, filenameWeight)
  {
    var scored := ScoredAll(es, semanticWeight, filenameWeight);
    var sorted := SortDesc(scored, Second);
    var r := Take(Firsts(sorted), k);
    SortDescMembers(scored, Second);
    forall i | 0 <= i < |r|
      ensures exists j :: 0 <= j < |es| && r[i] == Scored(es[j], semanticWeight, filenameWeight).0
    {
      KeptIsScored(scored, sorted, k, i);
      var j :| 0 <= j < |scored| && r[i] == scored[j].0;
      assert scored[j] == Scored(es[j], semanticWeight, filenameWeight);
    }
  }

  lemma TopKKept(es: seq<Entry>, k: int, semanticWeight: PyVal, filenameWeight: PyVal)
    requires Numeric(es, semanticWeight, filenameWeight)
    ensures var r := Take(Firsts(SortDesc(ScoredAll(es, semanticWeight, filenameWeight), Second)), k);
      KeepsTopK(r, es, semanticWeight, filenameWeight)
  {
    var scored := ScoredAll(es, semanticWeight, filenameWeight);
    var sorted := SortDesc(scored, Second);
    var r := Take(Firsts(sorted), k);
    SortedCarriesScore(scored);
    forall j | (0 <= j < |es| && |r| > 0 &&
                Scored(es[j], semanticWeight, filenameWeight).1 > CombinedScore(r[|r| - 1]))
      ensures Scored(es[j], semanticWeight, filenameWeight).0 in r
    {
      assert scored[j] == Scored(es[j], semanticWeight, filenameWeight);
      assert scored[j] in sorted by { SortDescMembers(scored, Second); }
      HighScoreIsKept(scored, sorted, k, j);
    }
  }

  /** Every merged document is one of the semantic or file-name hits, with its content unchanged. */
  lemma MergeDrawsFromInputs(sem: seq<Document>, fn: seq<Document>, k: int, docId: Document -> string,
                             semanticWeight: PyVal, filenameWeight: PyVal, i: int)
    requires MergeResults(sem, fn, k, docId, semanticWeight, filenameWeight).Ok?
    requires 0 <= i < |MergeResults(sem, fn, k, docId, semanticWeight, filenameWeight).value|
    ensures exists d :: (d in sem + fn &&
      MergeResults(sem, fn, k, docId, semanticWeight, filenameWeight).value[i].pageContent == d.pageContent)
  {
    var ds := sem + fn;
    SemanticDocsFrom([], sem, 0, docId, ds);
    FilenameDocsFrom(SemanticEntries([], sem, 0, docId), fn, docId, ds);
    var es := MergedEntries(sem, fn, docId);
    var scored := ScoredAll(es, semanticWeight, filenameWeight);
    SortDescMembers(scored, Second);
    var sorted := SortDesc(scored, Second);
    var j :| 0 <= j < |scored| && scored[j] == sorted[i];
    assert es[j].doc in ds;
  }

  // ---------------------------------------------------------------------
  // Searches
  // ---------------------------------------------------------------------

  /** _semantic_search: the store's k hits, each tagged search_type "semantic"; [] when it raises. */
  function SemanticSearch(search: int -> Option<seq<Document>>, k: int): (r: seq<Document>)
    ensures search(k).None? ==> r == []
    ensures search(k).Some? ==> |r| == |search(k).value|
    ensures search(k).Some? ==> forall i :: 0 <= i < |r| ==> r[i] == Document(search(k).value[i].pageContent,
                                                     search(k).value[i].metadata["search_type" := PStr("semantic")])
  {
    match search(k)
    case None => []
    case Some(ds) =>
      seq(|ds|, i requires 0 <= i < |ds| =>
        Document(ds[i].pageContent, ds[i].metadata["search_type" := PStr("semantic")]))
  }

  /**
   * hybrid_search: nothing without a vector store; otherwise 2k semantic
   * hits, merged with their file-name matches when that search is enabled,
   * else cut to k. Any exception gives [].
   */
  function HybridSearch(st: EnhancedSettings, storeReady: bool, query: string, k: int,
                        search: int -> Option<seq<Document>>, render: PyVal -> string, hash: string -> int,
                        isWordChar: char -> bool): (r: seq<Document>)
    ensures !storeReady ==> r == []
    ensures storeReady && !Truthy(st.enableFilenameSearch) ==> r == Take(SemanticSearch(search, k * 2), k)
    ensures k >= 0 ==> |r| <= k
  {
    if !storeReady then []
    else
      var sem := SemanticSearch(search, k * 2);
      if Truthy(st.enableFilenameSearch) then
        match FilenameSearch(query, sem, st.minFilenameScore, isWordChar)
        case Err(_) => []
        case Ok(fn) =>
          match MergeResults(sem, fn, k, IdOf(render, hash), st.semanticWeight, st.filenameWeight)
          case Err(_) => []
          case Ok(r) => r
      else Take(sem, k)
  }

  /** A marked copy keeps the candidate's source and text, so it keeps its id. */
  lemma MarkKeepsId(query: string, d: Document, isWordChar: char -> bool, render: PyVal -> string, hash: string -> int)
    requires MarkCandidate(query, d, isWordChar).Some?
    ensures DocId(MarkCandidate(query, d, isWordChar).value, render, hash) == DocId(d, render, hash)
  {
    var c := MarkCandidate(query, d, isWordChar).value;
    var name := FilenameFromSource(MetaGet(d, "source", PStr(""))).value;
    var score := Similarity(Lower(query), Lower(name), isWordChar);
    MarksKeepSource(d, PFloat(score), PStr(name));
    assert c.metadata == d.metadata["search_type" := PStr("filename")]["filename_score" := PFloat(score)]["filename" := PStr(name)];
    SameSourceAndTextSameId(c, d, render, hash);
  }

  /** The three keys the file-name search writes leave the source alone. */
  lemma MarksKeepSource(d: Document, score: PyVal, name: PyVal)
    ensures var m := d.metadata["search_type" := PStr("filename")]["filename_score" := score]["filename" := name];
      MetaGet(Document(d.pageContent, m), "source", PStr("")) == MetaGet(d, "source", PStr(""))
  {
    assert "source" != "search_type" && "source" != "filename_score" && "source" != "filename" by {
      assert "source"[0] != "search_type"[1];
      assert "source"[0] != "filename_score"[0];
      assert "source"[0] != "filename"[0];
    }
  }

  /** A candidate the search keeps is the marked copy of one of the candidates. */
  lemma KeptIsMarkedCandidate(query: string, docs: seq<Document>, m: real, isWordChar: char -> bool, x: Document)
    requires MarkCandidates(query, docs, isWordChar).Some?
    requires x in multiset(Filter(MarkCandidates(query, docs, isWordChar).value, AtLeastScore(m)))
    ensures exists i :: 0 <= i < |docs| && Some(x) == MarkCandidate(query, docs[i], isWordChar)
  {
    var ms := MarkCandidates(query, docs, isWordChar).value;
    var kept := Filter(ms, AtLeastScore(m));
    FilterMembers(ms, AtLeastScore(m));
    assert x in kept;
    var a :| 0 <= a < |kept| && kept[a] == x;
    assert x in ms;
    var i :| 0 <= i < |ms| && ms[i] == x;
    assert Some(ms[i]) == MarkCandidate(query, docs[i], isWordChar);
  }

  /** Every file-name match of the candidates carries the id of one of them. */
  lemma MatchIdsAreCandidateIds(query: string, docs: seq<Document>, minScore: PyVal, isWordChar: char -> bool,
                                render: PyVal -> string, hash: string -> int, j: int)
    requires FilenameSearch(query, docs, minScore, isWordChar).Ok?
    requires 0 <= j < |FilenameSearch(query, docs, minScore, isWordChar).value|
    ensures exists i :: (0 <= i < |docs| &&
      DocId(FilenameSearch(query, docs, minScore, isWordChar).value[j], render, hash) == DocId(docs[i], render, hash))
  {
    var fn := FilenameSearch(query, docs, minScore, isWordChar).value;
    assert |docs| > 0;
    var m := AsReal(minScore);
    assert fn[j] in multiset(fn);
    KeptIsMarkedCandidate(query, docs, m, isWordChar, fn[j]);
    var i :| 0 <= i < |docs| && Some(fn[j]) == MarkCandidate(query, docs[i], isWordChar);
    MarkKeepsId(query, docs[i], isWordChar, render, hash);
  }

  /**
   * In hybrid_search the file-name matches are marked copies of semantic
   * hits with the same id, so the file-name loop of the merge only sets the
   * file-name score of the hit's own entry: no document enters the merge
   * through the file-name search alone.
   */
  lemma HybridFilenameMatchesJoinTheirHits(st: EnhancedSettings, query: string, k: int,
                                           search: int -> Option<seq<Document>>, render: PyVal -> string,
                                           hash: string -> int, isWordChar: char -> bool)
    requires FilenameSearch(query, SemanticSearch(search, k * 2), st.minFilenameScore, isWordChar).Ok?
    ensures var sem := SemanticSearch(search, k * 2);
      var fn := FilenameSearch(query, sem, st.minFilenameScore, isWordChar).value;
      SameExceptScores(SemanticEntries([], sem, 0, IdOf(render, hash)), MergedEntries(sem, fn, IdOf(render, hash)))
  {
    var sem := SemanticSearch(search, k * 2);
    var fn := FilenameSearch(query, sem, st.minFilenameScore, isWordChar).value;
    var id := IdOf(render, hash);
    var es := SemanticEntries([], sem, 0, id);
    SemanticIdsCover([], sem, 0, id);
    forall j | 0 <= j < |fn|
      ensures id(fn[j]) in Ids(es)
    {
      MatchIdsAreCandidateIds(query, sem, st.minFilenameScore, isWordChar, render, hash, j);
    }
    FilenameEntriesOnlyScore(es, fn, id);
  }

  /** With the defaults and file-name search on, the answer is the merge of the hits with their matches. */
  lemma HybridMergesWhenEnabled(query: string, k: int, search: int -> Option<seq<Document>>,
                                render: PyVal -> string, hash: string -> int, isWordChar: char -> bool)
    requires |SemanticSearch(search, k * 2)| > 0
    requires FilenameSearch(query, SemanticSearch(search, k * 2), PFloat(0.2), isWordChar).Ok?
    ensures var sem := SemanticSearch(search, k * 2);
      var fn := FilenameSearch(query, sem, PFloat(0.2), isWordChar).value;
      MergeResults(sem, fn, k, IdOf(render, hash), PFloat(0.7), PFloat(0.3)).Ok? &&
      HybridSearch(LoadEnhancedSettings(map[]), true, query, k, search, render, hash, isWordChar) ==
        MergeResults(sem, fn, k, IdOf(render, hash), PFloat(0.7), PFloat(0.3)).value
  {
    var sem := SemanticSearch(search, k * 2);
    var fn := FilenameSearch(query, sem, PFloat(0.2), isWordChar).value;
    MergeOkWithDefaults(sem, fn, k, IdOf(render, hash));
  }

  /** With the default weights the merge of semantic hits and file-name matches does not raise. */
  lemma MergeOkWithDefaults(sem: seq<Document>, fn: seq<Document>, k: int, docId: Document -> string)
    requires forall i :: 0 <= i < |fn| ==> Marked(fn[i])
    ensures MergeResults(sem, fn, k, docId, PFloat(0.7), PFloat(0.3)).Ok?
  {
    SemanticNumeric([], sem, 0, docId);
    FilenameNumeric(SemanticEntries([], sem, 0, docId), fn, docId);
  }

  /**
   * search_by_filename: the first k file-name matches among the 5k hits of
   * the empty query (`search` answers it); [] without a vector store or
   * when the file-name search raises.
   */
  function SearchByFilename(storeReady: bool, filenameQuery: string, k: int, minScore: PyVal,
                            search: int -> Option<seq<Document>>, isWordChar: char -> bool): (r: seq<Document>)
    ensures !storeReady ==> r == []
    ensures k >= 0 ==> |r| <= k
    ensures forall i :: 0 <= i < |r| ==> Marked(r[i])
    ensures var fs := FilenameSearch(filenameQuery, SemanticSearch(search, k * 5), minScore, isWordChar);
      storeReady && fs.Ok? ==> r == Take(fs.value, k)
    ensures var fs := FilenameSearch(filenameQuery, SemanticSearch(search, k * 5), minScore, isWordChar);
      storeReady && fs.Err? ==> r == []
  {
    if !storeReady then []
    else
      match FilenameSearch(filenameQuery, SemanticSearch(search, k * 5), minScore, isWordChar)
      case Err(_) => []
      case Ok(ms) => Take(ms, k)
  }

  /**
   * search_by_filename returns the best matches: each reaches min_score,
   * they come highest score first, and a match left out scores no higher
   * than the last one returned.
   */
  lemma SearchByFilenameIsBest(filenameQuery: string, k: int, minScore: PyVal,
                               search: int -> Option<seq<Document>>, isWordChar: char -> bool)
    requires FilenameSearch(filenameQuery, SemanticSearch(search, k * 5), minScore, isWordChar).Ok?
    ensures var r := SearchByFilename(true, filenameQuery, k, minScore, search, isWordChar);
      SortedDesc(r, FilenameScore)
      && (forall i :: 0 <= i < |r| ==> IsNumber(minScore) && FilenameScore(r[i]) >= AsReal(minScore))
    ensures var r := SearchByFilename(true, filenameQuery, k, minScore, search, isWordChar);
      var ms := FilenameSearch(filenameQuery, SemanticSearch(search, k * 5), minScore, isWordChar).value;
      forall j :: 0 < |r| <= j < |ms| ==> FilenameScore(ms[j]) <= FilenameScore(r[|r| - 1])
  {
    var ms := FilenameSearch(filenameQuery, SemanticSearch(search, k * 5), minScore, isWordChar).value;
    TakeSortedIsBest(ms, k);
  }

  /** The first k of a list sorted on the file-name score are sorted, and outscore the rest. */
  lemma TakeSortedIsBest(ms: seq<Document>, k: int)
    requires SortedDesc(ms, FilenameScore)
    ensures SortedDesc(Take(ms, k), FilenameScore)
    ensures var r := Take(ms, k);
      forall j :: 0 < |r| <= j < |ms| ==> FilenameScore(ms[j]) <= FilenameScore(r[|r| - 1])
  {
    var r := Take(ms, k);
    assert r == ms[..|r|];
    forall j | 0 < |r| <= j < |ms|
      ensures FilenameScore(ms[j]) <= FilenameScore(r[|r| - 1])
    {
      assert FilenameScore(ms[|r| - 1]) >= FilenameScore(ms[j]);
    }
  }
}

=== FILE: extension_points.dfy ===
/**
 * ExtensionPointRegistry and RAGExtensionPoints: named lists of hooks,
 * each hook also registered as a callback with the plugin manager, and the
 * merging of hook results into the caller's dictionary. A hook is known by
 * an id; what running it does on a given context is the `run` parameter,
 * which serves both the registry's own call and the plugin-manager wrapper
 * (the wrapper only forwards to the hook).
 */
module ExtensionPoints {
  import opened PyCore
  import opened PyValue
  import PluginManager

  datatype Registry = Registry(points: map<string, seq<nat>>, manager: PluginManager.Manager)

  /** The 24 extension points every registry starts with. */
  const PredefinedPoints: seq<string> := [
    "document.before_upload", "document.after_upload",
    "document.before_processing", "document.after_processing",
    "document.before_indexing", "document.after_indexing",
    "query.before_processing", "query.after_processing",
    "query.before_retrieval", "query.after_retrieval",
    "query.before_generation", "query.after_generation",
    "response.before_formatting", "response.after_formatting",
    "response.before_delivery", "response.after_delivery",
    "system.startup", "system.shutdown", "system.error", "system.maintenance",
    "rag.context_enhancement", "rag.answer_validation",
    "rag.source_filtering", "rag.relevance_scoring"
  ]

  /** A fresh registry over the given plugin manager: every predefined point, no hooks. */
  function NewRegistry(manager: PluginManager.Manager): (r: Registry)
    ensures forall p :: p in r.points <==> p in PredefinedPoints
    ensures forall p :: p in r.points ==> r.points[p] == []
    ensures r.manager == manager
  {
    Registry(map p | p in PredefinedPoints :: [], manager)
  }

  lemma PredefinedPointsDistinct()
    ensures forall i, j :: 0 <= i < j < |PredefinedPoints| ==> PredefinedPoints[i] != PredefinedPoints[j]
  {
  }

  lemma {:induction false} DistinctSeqCard(s: seq<string>)
    requires forall i, j :: 0 <= i < j < |s| ==> s[i] != s[j]
    ensures |set x | x in s| == |s|
  {
    if |s| > 0 {
      var t := s[..|s| - 1];
      DistinctSeqCard(t);
      assert (set x | x in s) == (set x | x in t) + {s[|s| - 1]};
      assert s[|s| - 1] !in t;
    }
  }

  /** A fresh registry knows exactly 24 extension points, each with a hook count of 0. */
  lemma NewRegistryHas24Points(manager: PluginManager.Manager)
    ensures |NewRegistry(manager).points| == 24
    ensures forall p :: p in PredefinedPoints ==> HookCount(NewRegistry(manager), p) == 0
  {
    var r := NewRegistry(manager);
    PredefinedPointsDistinct();
    DistinctSeqCard(PredefinedPoints);
    assert r.points.Keys == set x | x in PredefinedPoints;
  }

  /**
   * register_hook: the point is created if missing, the hook appended to its
   * list, and a forwarding callback appended to the plugin manager's list
   * for the same name; it always reports success.
   */
  function RegisterHook(reg: Registry, point: string, hook: nat): (res: (bool, Registry))
    ensures res.0
    ensures point in res.1.points
    ensures res.1.points[point] == (if point in reg.points then reg.points[point] else []) + [hook]
    ensures forall p :: p in reg.points && p != point ==> p in res.1.points && res.1.points[p] == reg.points[p]
    ensures res.1.points.Keys == reg.points.Keys + {point}
    ensures res.1.manager == PluginManager.RegisterExtensionPoint(reg.manager, point, hook)
  {
    var existing := if point in reg.points then reg.points[point] else [];
    (true, Registry(reg.points[point := existing + [hook]],
                    PluginManager.RegisterExtensionPoint(reg.manager, point, hook)))
  }

  /**
   * unregister_hook: removes one occurrence of the hook and reports whether
   * it was there; the plugin manager's forwarding callback is left in place.
   */
  function UnregisterHook(reg: Registry, point: string, hook: nat): (res: (bool, Registry))
    ensures res.0 <==> point in reg.points && hook in reg.points[point]
    ensures !res.0 ==> res.1 == reg
    ensures res.1.points.Keys == reg.points.Keys
    ensures res.0 ==> |res.1.points[point]| == |reg.points[point]| - 1
    ensures forall p :: p in reg.points && p != point ==> res.1.points[p] == reg.points[p]
    ensures res.1.manager == reg.manager
  {
    if point in reg.points && hook in reg.points[point] then
      (true, reg.(points := reg.points[point := RemoveFirst(reg.points[point], hook)]))
    else (false, reg)
  }

  /**
   * execute_extension_point: [] for an unknown point; otherwise the values
   * of the hooks that did not raise, in registration order, followed by the
   * plugin manager's callback values for the same name.
   */
  function Execute(reg: Registry, point: string, run: nat -> Outcome): (r: seq<PyVal>)
    ensures point !in reg.points ==> r == []
    ensures point in reg.points ==>
      r == PluginManager.ValuesOf(Filter(reg.points[point] + PluginManager.Callbacks(reg.manager, point),
                                         PluginManager.Returning(run)), run)
  {
    if point !in reg.points then []
    else
      PluginManager.ReturnsAppend(reg.points[point], PluginManager.Callbacks(reg.manager, point), run);
      PluginManager.Returns(reg.points[point], run) + PluginManager.CallExtensionPoint(reg.manager, point, run)
  }

  /** get_hook_count: the length of the point's hook list, 0 for an unknown point. */
  function HookCount(reg: Registry, point: string): (n: nat)
    ensures point in reg.points ==> n == |reg.points[point]|
    ensures point !in reg.points ==> n == 0
  {
    if point in reg.points then |reg.points[point]| else 0
  }

  /** A point known only to the plugin manager still executes to nothing. */
  lemma UnknownPointIgnoresManager(reg: Registry, point: string, run: nat -> Outcome)
    requires point !in reg.points && point in reg.manager.extensionPoints
    ensures Execute(reg, point, run) == []
  {
  }

  /** On a fresh registry and manager, one registered hook contributes its value twice. */
  lemma RegisteredHookRunsTwice(point: string, hook: nat, run: nat -> Outcome)
    requires run(hook).Returned?
    ensures var reg := RegisterHook(NewRegistry(PluginManager.NewManager()), point, hook).1;
      Execute(reg, point, run) == [run(hook).value, run(hook).value]
  {
    var reg0 := NewRegistry(PluginManager.NewManager());
    var reg := RegisterHook(reg0, point, hook).1;
    assert reg.points[point] == [hook];
    assert reg.manager.extensionPoints[point] == [hook];
    assert PluginManager.Returns([hook], run) == [run(hook).value];
  }

  /** Unregistering the hook again leaves its plugin-manager copy, so it still contributes once. */
  lemma UnregisteredHookStillRunsOnce(point: string, hook: nat, run: nat -> Outcome)
    requires run(hook).Returned?
    ensures var reg := RegisterHook(NewRegistry(PluginManager.NewManager()), point, hook).1;
      var un := UnregisterHook(reg, point, hook);
      un.0 && Execute(un.1, point, run) == [run(hook).value]
  {
    var reg0 := NewRegistry(PluginManager.NewManager());
    var reg := RegisterHook(reg0, point, hook).1;
    assert reg.points[point] == [hook];
    var un := UnregisterHook(reg, point, hook);
    assert un.1.points[point] == [];
    assert reg.manager.extensionPoints[point] == [hook];
    assert PluginManager.Returns([hook], run) == [run(hook).value];
  }

  // ---------------------------------------------------------------------
  // RAGExtensionPoints
  // ---------------------------------------------------------------------

  /** The stages RAGExtensionPoints exposes and the point each executes. */
  datatype RagStage =
    | BeforeDocumentUpload | AfterDocumentUpload
    | BeforeQueryProcessing | AfterQueryProcessing
    | EnhanceContext | ValidateAnswer

  function StagePoint(s: RagStage): (p: string)
    ensures p in PredefinedPoints
  {
    match s
    case BeforeDocumentUpload => "document.before_upload"
    case AfterDocumentUpload => "document.after_upload"
    case BeforeQueryProcessing => "query.before_processing"
    case AfterQueryProcessing => "query.after_processing"
    case EnhanceContext => "rag.context_enhancement"
    case ValidateAnswer => "rag.answer_validation"
  }

  /** data.update(result) for each dict result in order; anything else is ignored. */
  function MergeResults(data: map<string, PyVal>, results: seq<PyVal>): (r: map<string, PyVal>)
    ensures data.Keys <= r.Keys
    ensures forall k :: k in r ==> k in data || exists i :: 0 <= i < |results| && results[i].PDict? && k in results[i].fields
    decreases |results|
  {
    if |results| == 0 then data
    else
      var prev := MergeResults(data, results[..|results| - 1]);
      var last := results[|results| - 1];
      assert forall i :: 0 <= i < |results| - 1 ==> results[..|results| - 1][i] == results[i];
      if last.PDict? then prev + last.fields else prev
  }

  /** A non-dict result changes nothing. */
  lemma MergeIgnoresNonDict(data: map<string, PyVal>, results: seq<PyVal>, v: PyVal)
    requires !v.PDict?
    ensures MergeResults(data, results + [v]) == MergeResults(data, results)
  {
    assert (results + [v])[..|results|] == results;
  }

  /** The last dict result that mentions a key decides its value. */
  lemma {:induction false} MergeLaterWins(data: map<string, PyVal>, results: seq<PyVal>, i: nat, k: string)
    requires i < |results| && results[i].PDict? && k in results[i].fields
    requires forall j :: i < j < |results| && results[j].PDict? ==> k !in results[j].fields
    ensures k in MergeResults(data, results) && MergeResults(data, results)[k] == results[i].fields[k]
    decreases |results|
  {
    var init := results[..|results| - 1];
    if i < |results| - 1 {
      assert forall j :: i < j < |init| ==> init[j] == results[j];
      MergeLaterWins(data, init, i, k);
    }
  }

  /** A key no dict result mentions keeps the caller's value. */
  lemma {:induction false} MergeKeepsUntouched(data: map<string, PyVal>, results: seq<PyVal>, k: string)
    requires k in data
    requires forall j :: 0 <= j < |results| && results[j].PDict? ==> k !in results[j].fields
    ensures MergeResults(data, results)[k] == data[k]
    decreases |results|
  {
    if |results| > 0 {
      var init := results[..|results| - 1];
      assert forall j :: 0 <= j < |init| ==> init[j] == results[j];
      MergeKeepsUntouched(data, init, k);
    }
  }

  /** One RAG stage: execute its point with the data and merge the dict results into it. */
  function RunStage(reg: Registry, stage: RagStage, data: map<string, PyVal>, run: nat -> Outcome): (r: map<string, PyVal>)
    ensures data.Keys <= r.Keys
    ensures StagePoint(stage) !in reg.points ==> r == data
  {
    MergeResults(data, Execute(reg, StagePoint(stage), run))
  }

  // ---------------------------------------------------------------------
  // The shared context dictionary
  // ---------------------------------------------------------------------

  /*
   * execute_extension_point puts the caller's dict itself into the context,
   * so every hook (and every plugin-manager callback forwarding to one)
   * sees the changes the earlier ones made to it in place, and a hook may
   * return that same dict, as the default hooks do. The members above treat
   * each run as independent of the data and each result as a value of its
   * own; those below follow the one dictionary through the call.
   */

  /** What a hook returned: the context's own data dict, or a value of its own. */
  datatype HookResult = SameDict | Value(v: PyVal)

  datatype HookOutcome = Gave(result: HookResult) | Threw(error: string)

  /** One hook run: the context data as the hook left it, and what it returned or raised. */
  datatype HookRun = HookRun(data: map<string, PyVal>, outcome: HookOutcome)

  /**
   * The hooks in order, each on the data as the previous one left it. A
   * hook that raises is skipped, but its changes to the data stay.
   */
  function RunHooks(hooks: seq<nat>, live: (nat, map<string, PyVal>) -> HookRun, data: map<string, PyVal>)
    : (res: (map<string, PyVal>, seq<HookResult>))
    ensures |res.1| <= |hooks|
    ensures |hooks| > 0 ==>
      var step := live(hooks[0], data);
      var rest := RunHooks(hooks[1..], live, step.data);
      res.0 == rest.0 && res.1 == (if step.outcome.Gave? then [step.outcome.result] else []) + rest.1
    decreases |hooks|
  {
    if |hooks| == 0 then (data, [])
    else
      var step := live(hooks[0], data);
      var rest := RunHooks(hooks[1..], live, step.data);
      match step.outcome
      case Gave(x) => (rest.0, [x] + rest.1)
      case Threw(_) => rest
  }

  /**
   * execute_extension_point over the shared dict: the point's hooks, then
   * the plugin manager's callbacks of the same name; the data as they left
   * it and their results. An unknown point runs nothing.
   */
  function ExecuteLive(reg: Registry, point: string, live: (nat, map<string, PyVal>) -> HookRun,
                       data: map<string, PyVal>): (res: (map<string, PyVal>, seq<HookResult>))
    ensures point !in reg.points ==> res == (data, [])
    ensures point in reg.points ==> |res.1| <= |reg.points[point]| + |PluginManager.Callbacks(reg.manager, point)|
  {
    if point !in reg.points then (data, [])
    else RunHooks(reg.points[point] + PluginManager.Callbacks(reg.manager, point), live, data)
  }

  /** The results that are values of their own, in order. */
  function OwnValues(rs: seq<HookResult>): (r: seq<PyVal>)
    ensures |r| <= |rs|
    ensures forall i :: 0 <= i < |rs| && rs[i].Value? ==> rs[i].v in r
    ensures forall v :: v in r ==> Value(v) in rs
  {
    if |rs| == 0 then []
    else (if rs[0].Value? then [rs[0].v] else []) + OwnValues(rs[1..])
  }

  /**
   * data.update(result) for each dict result, on the shared dict. A result
   * that is that dict itself updates it with its own items, which changes
   * nothing; any other dict's items are written over it.
   */
  function MergeLive(data: map<string, PyVal>, results: seq<HookResult>): (r: map<string, PyVal>)
    ensures data.Keys <= r.Keys
    decreases |results|
  {
    if |results| == 0 then data
    else
      var prev := MergeLive(data, results[..|results| - 1]);
      var last := results[|results| - 1];
      if last.Value? && last.v.PDict? then prev + last.v.fields else prev
  }

  /** A dict result that is the shared dict itself merges to nothing. */
  lemma SameDictMergesToNothing(data: map<string, PyVal>, results: seq<HookResult>)
    ensures MergeLive(data, results + [SameDict]) == MergeLive(data, results)
  {
    assert (results + [SameDict])[..|results|] == results;
  }

  /** OwnValues of a sequence with one more result at the end. */
  lemma {:induction false} OwnValuesSnoc(rs: seq<HookResult>, x: HookResult)
    ensures OwnValues(rs + [x]) == OwnValues(rs) + (if x.Value? then [x.v] else [])
    decreases |rs|
  {
    if |rs| > 0 {
      assert (rs + [x])[1..] == rs[1..] + [x];
      OwnValuesSnoc(rs[1..], x);
    } else {
      assert rs + [x] == [x];
    }
  }

  /**
   * The merge on the shared dict is the value-by-value merge of the
   * results that are values of their own: the SameDict results drop out.
   */
  lemma {:induction false} MergeLiveIsMergeOfOwnValues(data: map<string, PyVal>, results: seq<HookResult>)
    ensures MergeLive(data, results) == MergeResults(data, OwnValues(results))
    decreases |results|
  {
    if |results| > 0 {
      var init := results[..|results| - 1];
      var last := results[|results| - 1];
      assert results == init + [last];
      assert init == results[..|results| - 1];
      MergeLiveIsMergeOfOwnValues(data, init);
      OwnValuesSnoc(init, last);
      var own := OwnValues(init);
      var prev := MergeResults(data, own);
      assert MergeLive(data, results) == (if last.Value? && last.v.PDict? then prev + last.v.fields else prev);
      if last.Value? {
        var xs := own + [last.v];
        assert xs[..|xs| - 1] == own;
        assert xs[|xs| - 1] == last.v;
        assert OwnValues(results) == xs;
        assert MergeResults(data, xs) == (if last.v.PDict? then prev + last.v.fields else prev);
      } else {
        assert OwnValues(results) == own;
      }
    }
  }

  /**
   * One RAG stage on the shared dict: the hooks change it in place, then
   * their dict results are merged into it, and that dict is returned.
   */
  function RunStageLive(reg: Registry, stage: RagStage, data: map<string, PyVal>,
                        live: (nat, map<string, PyVal>) -> HookRun): (r: map<string, PyVal>)
    ensures StagePoint(stage) !in reg.points ==> r == data
    ensures ExecuteLive(reg, StagePoint(stage), live, data).0.Keys <= r.Keys
  {
    var ex := ExecuteLive(reg, StagePoint(stage), live, data);
    MergeLive(ex.0, ex.1)
  }

  /**
   * After the hooks ran, the last dict result of their own that mentions a
   * key decides it; a key none of them mentions keeps the value the hooks
   * left in the shared dict.
   */
  lemma RunStageLiveDecides(reg: Registry, stage: RagStage, data: map<string, PyVal>,
                            live: (nat, map<string, PyVal>) -> HookRun, k: string)
    ensures var ex := ExecuteLive(reg, StagePoint(stage), live, data);
      var own := OwnValues(ex.1);
      forall i :: (0 <= i < |own| && own[i].PDict? && k in own[i].fields &&
                   (forall j :: i < j < |own| && own[j].PDict? ==> k !in own[j].fields)) ==>
        k in RunStageLive(reg, stage, data, live) && RunStageLive(reg, stage, data, live)[k] == own[i].fields[k]
    ensures var ex := ExecuteLive(reg, StagePoint(stage), live, data);
      var own := OwnValues(ex.1);
      k in ex.0 && (forall j :: 0 <= j < |own| && own[j].PDict? ==> k !in own[j].fields) ==>
        RunStageLive(reg, stage, data, live)[k] == ex.0[k]
  {
    var ex := ExecuteLive(reg, StagePoint(stage), live, data);
    assert RunStageLive(reg, stage, data, live) == MergeLive(ex.0, ex.1);
    MergeLiveDecides(ex.0, ex.1, k);
  }

  /** The merge on the shared dict: the last own dict result naming k decides it, else the dict keeps its value. */
  lemma MergeLiveDecides(base: map<string, PyVal>, results: seq<HookResult>, k: string)
    ensures var own := OwnValues(results);
      forall i :: (0 <= i < |own| && own[i].PDict? && k in own[i].fields &&
                   (forall j :: i < j < |own| && own[j].PDict? ==> k !in own[j].fields)) ==>
        k in MergeLive(base, results) && MergeLive(base, results)[k] == own[i].fields[k]
    ensures var own := OwnValues(results);
      k in base && (forall j :: 0 <= j < |own| && own[j].PDict? ==> k !in own[j].fields) ==>
        MergeLive(base, results)[k] == base[k]
  {
    var own := OwnValues(results);
    MergeLiveIsMergeOfOwnValues(base, results);
    forall i | 0 <= i < |own| && own[i].PDict? && k in own[i].fields &&
        (forall j :: i < j < |own| && own[j].PDict? ==> k !in own[j].fields)
      ensures k in MergeLive(base, results) && MergeLive(base, results)[k] == own[i].fields[k]
    {
      MergeLaterWins(base, own, i, k);
    }
    if k in base && (forall j :: 0 <= j < |own| && own[j].PDict? ==> k !in own[j].fields) {
      MergeKeepsUntouched(base, own, k);
    }
  }

  /** A hook as the members above see it: whatever the data, it leaves it alone and gives its outcome as a value. */
  function Pure(run: nat -> Outcome): (nat, map<string, PyVal>) -> HookRun
  {
    (h: nat, d: map<string, PyVal>) =>
      HookRun(d, match run(h) case Returned(v) => Gave(Value(v)) case Raised(e) => Threw(e))
  }

  function AsValues(vs: seq<PyVal>): (r: seq<HookResult>)
    ensures |r| == |vs|
    ensures OwnValues(r) == vs
  {
    if |vs| == 0 then [] else [Value(vs[0])] + AsValues(vs[1..])
  }

  lemma {:induction false} PureRunHooks(hooks: seq<nat>, run: nat -> Outcome, data: map<string, PyVal>)
    ensures RunHooks(hooks, Pure(run), data) == (data, AsValues(PluginManager.Returns(hooks, run)))
    decreases |hooks|
  {
    if |hooks| > 0 {
      PureRunHooks(hooks[1..], run, data);
      var rest := PluginManager.Returns(hooks[1..], run);
      match run(hooks[0])
      case Returned(v) =>
        assert PluginManager.Returns(hooks, run) == [v] + rest;
        assert ([v] + rest)[1..] == rest;
      case Raised(_) =>
        assert PluginManager.Returns(hooks, run) == rest;
    }
  }

  /**
   * For hooks that neither change the shared dict nor return it, the
   * stage on the shared dict is the stage above: RunStage, MergeResults and
   * their lemmas describe exactly this case.
   */
  lemma PureHooksAreRunStage(reg: Registry, stage: RagStage, data: map<string, PyVal>, run: nat -> Outcome)
    ensures RunStageLive(reg, stage, data, Pure(run)) == RunStage(reg, stage, data, run)
  {
    var point := StagePoint(stage);
    if point in reg.points {
      var hooks := reg.points[point] + PluginManager.Callbacks(reg.manager, point);
      PureRunHooks(hooks, run, data);
      PluginManager.ReturnsAppend(reg.points[point], PluginManager.Callbacks(reg.manager, point), run);
      MergeLiveIsMergeOfOwnValues(data, AsValues(PluginManager.Returns(hooks, run)));
    }
  }

  /**
   * A dict result {"a": 2} followed by the default hook's result, the
   * shared dict itself, leaves a == 2: the second update is a no-op.
   */
  lemma SameDictAfterValueKeepsValue()
    ensures var reg := Registry(map["rag.context_enhancement" := [0, 1]], PluginManager.NewManager());
      var live := (h: nat, d: map<string, PyVal>) =>
        if h == 0 then HookRun(d, Gave(Value(PDict(map["a" := PInt(2)])))) else HookRun(d, Gave(SameDict));
      RunStageLive(reg, EnhanceContext, map["a" := PInt(1)], live) == map["a" := PInt(2)]
  {
    var reg := Registry(map["rag.context_enhancement" := [0, 1]], PluginManager.NewManager());
    var live := (h: nat, d: map<string, PyVal>) =>
      if h == 0 then HookRun(d, Gave(Value(PDict(map["a" := PInt(2)])))) else HookRun(d, Gave(SameDict));
    var data := map["a" := PInt(1)];
    assert PluginManager.Callbacks(reg.manager, "rag.context_enhancement") == [];
    assert [0, 1] + [] == [0, 1];
    var v := Value(PDict(map["a" := PInt(2)]));
    var rs := [v, SameDict];
    assert [0, 1][1..] == [1] && [1][1..] == [];
    assert live(1, data) == HookRun(data, Gave(SameDict));
    assert RunHooks([], live, data) == (data, []);
    var one := RunHooks([1], live, data);
    assert one.1 == [SameDict] + [];
    assert [SameDict] + [] == [SameDict];
    assert one.0 == data && one.1 == [SameDict];
    assert live(0, data) == HookRun(data, Gave(v));
    var two := RunHooks([0, 1], live, data);
    assert two.1 == [v] + one.1;
    assert [v] + [SameDict] == rs;
    assert two.0 == data && two.1 == rs;
    var ex := ExecuteLive(reg, "rag.context_enhancement", live, data);
    assert ex.0 == data && ex.1 == rs;
    assert rs[..1] == [v];
    assert [v][..0] == [];
    assert MergeLive(data, [v]) == data + map["a" := PInt(2)];
    SameDictMergesToNothing(data, [v]);
    assert [v] + [SameDict] == rs;
  }

  /** A change a hook makes in place survives the stage when no result of its own overrides it. */
  lemma InPlaceChangeSurvives()
    ensures var reg := Registry(map["query.before_processing" := [0]], PluginManager.NewManager());
      var live := (h: nat, d: map<string, PyVal>) => HookRun(d["b" := PInt(3)], Gave(SameDict));
      RunStageLive(reg, BeforeQueryProcessing, map["a" := PInt(1)], live) == map["a" := PInt(1), "b" := PInt(3)]
  {
    var reg := Registry(map["query.before_processing" := [0]], PluginManager.NewManager());
    var live := (h: nat, d: map<string, PyVal>) => HookRun(d["b" := PInt(3)], Gave(SameDict));
    var data := map["a" := PInt(1)];
    assert PluginManager.Callbacks(reg.manager, "query.before_processing") == [];
    assert [0] + [] == [0];
    assert [0][1..] == [];
    assert live(0, data) == HookRun(data["b" := PInt(3)], Gave(SameDict));
    var after := data["b" := PInt(3)];
    assert RunHooks([], live, after) == (after, []);
    var one := RunHooks([0], live, data);
    assert one.1 == [SameDict] + [];
    assert [SameDict] + [] == [SameDict];
    assert one.0 == after && one.1 == [SameDict];
    SameDictMergesToNothing(after, []);
    assert [] + [SameDict] == [SameDict];
    assert MergeLive(after, []) == after;
  }
}

=== FILE: health_check.dfy ===
/**
 * HealthCheckService: named checks, their stored results and the overall
 * status computed from those results. A registered check is an opaque
 * handle; running it is the parameter `run`, and the clock is `now`.
 */
module HealthCheck {
  import opened PyCore

  datatype HealthStatus = Healthy | Degraded | Unhealthy | Unknown

  datatype ComponentHealth = ComponentHealth(
    name: string,
    status: HealthStatus,
    message: string,
    lastCheck: Option<real>,
    responseTime: Option<real>)

  /** A registered check function, known only by identity. */
  datatype Check = Check(id: nat)

  /** What calling a check function did: returned a health record or raised. */
  datatype CheckRun = Returned(health: ComponentHealth) | Raised(error: string)

  datatype Service = Service(
    checks: map<string, Check>,
    results: map<string, ComponentHealth>,
    startTime: real)

  datatype SystemHealth = SystemHealth(
    overall: HealthStatus,
    components: map<string, ComponentHealth>,
    lastCheck: real,
    uptime: real)

  const ErrorPrefix: string := "健康检查异常: "

  /** str(KeyError(name)): repr(name), which reads back as the name. */
  function KeyErrorText(name: string): (r: string)
    ensures Unrepr(r) == Some(name)
  {
    UnreprOfRepr(name);
    StrRepr(name)
  }

  // ---------------------------------------------------------------------
  // Overall status
  // ---------------------------------------------------------------------

  predicate AnyWith(results: map<string, ComponentHealth>, st: HealthStatus)
  {
    exists n :: n in results && results[n].status == st
  }

  /** The number of stored results with status st, as the source counts them. */
  function CountWith(results: map<string, ComponentHealth>, st: HealthStatus): (k: nat)
    ensures k > 0 <==> AnyWith(results, st)
  {
    var names := set n | n in results && results[n].status == st;
    if AnyWith(results, st) then
      var w :| w in results && results[w].status == st;
      assert w in names;
      |names|
    else
      assert names == {};
      |names|
  }

  /**
   * _calculate_overall_status: UNKNOWN with no stored results, UNHEALTHY if
   * any is unhealthy, else DEGRADED if any is degraded, else HEALTHY (a
   * stored UNKNOWN result counts as healthy).
   */
  function OverallStatus(results: map<string, ComponentHealth>): (r: HealthStatus)
    ensures r == Unknown <==> |results| == 0
    ensures r == Unhealthy <==> AnyWith(results, Unhealthy)
    ensures r == Degraded <==> AnyWith(results, Degraded) && !AnyWith(results, Unhealthy)
    ensures r == Healthy <==>
      (|results| > 0 && forall n :: n in results ==> results[n].status in {Healthy, Unknown})
  {
    if |results| == 0 then
      assert !AnyWith(results, Unhealthy) && !AnyWith(results, Degraded) by {
        assert results.Keys == {};
      }
      Unknown
    else if CountWith(results, Unhealthy) > 0 then Unhealthy
    else if CountWith(results, Degraded) > 0 then Degraded
    else
      assert forall n :: n in results ==> results[n].status in {Healthy, Unknown} by {
        forall n | n in results
          ensures results[n].status in {Healthy, Unknown}
        {
          assert results[n].status != Unhealthy && results[n].status != Degraded;
        }
      }
      Healthy
  }

  /** Adding an unhealthy result makes the overall status UNHEALTHY, whatever else is stored. */
  lemma UnhealthyDominates(results: map<string, ComponentHealth>, name: string, h: ComponentHealth)
    requires h.status == Unhealthy
    ensures OverallStatus(results[name := h]) == Unhealthy
  {
    assert results[name := h][name].status == Unhealthy;
  }

  // ---------------------------------------------------------------------
  // Registration
  // ---------------------------------------------------------------------

  /** register_health_check: adds or replaces; stored results are untouched. */
  function Register(s: Service, name: string, check: Check): (r: Service)
    ensures r.checks.Keys == s.checks.Keys + {name} && r.checks[name] == check
    ensures forall n :: n in s.checks && n != name ==> r.checks[n] == s.checks[n]
    ensures r.results == s.results
  {
    s.(checks := s.checks[name := check])
  }

  /** unregister_health_check: drops the check and its result; an unknown name changes nothing. */
  function Unregister(s: Service, name: string): (r: Service)
    ensures name !in s.checks ==> r == s
    ensures name !in r.checks && (name in s.checks ==> name !in r.results)
    ensures forall n :: n != name ==> (n in r.checks <==> n in s.checks) && (n in r.results <==> n in s.results)
    ensures forall n :: n in s.checks && n != name ==> r.checks[n] == s.checks[n]
    ensures forall n :: n in s.results && n != name ==> r.results[n] == s.results[n]
  {
    if name in s.checks then
      s.(checks := s.checks - {name}, results := s.results - {name})
    else s
  }

  /** Registering then unregistering a new name restores the service, apart from a result stored under it. */
  lemma RegisterUnregister(s: Service, name: string, check: Check)
    requires name !in s.checks && name !in s.results
    ensures Unregister(Register(s, name, check), name) == s
  {
    assert s.checks[name := check] - {name} == s.checks;
    assert s.results - {name} == s.results;
  }

  // ---------------------------------------------------------------------
  // Running checks
  // ---------------------------------------------------------------------

  /** The record _check_component stores for one name. */
  function CheckResult(s: Service, name: string, run: Check -> CheckRun, now: real, elapsed: real): (h: ComponentHealth)
    ensures name !in s.checks ==>
      h == ComponentHealth(name, Unhealthy, ErrorPrefix + KeyErrorText(name), Some(now), None)
    ensures name in s.checks && run(s.checks[name]).Raised? ==>
      h == ComponentHealth(name, Unhealthy, ErrorPrefix + run(s.checks[name]).error, Some(now), None)
    ensures name in s.checks && run(s.checks[name]).Returned? ==>
      h == run(s.checks[name]).health.(lastCheck := Some(now), responseTime := Some(elapsed))
  {
    if name !in s.checks then
      ComponentHealth(name, Unhealthy, ErrorPrefix + KeyErrorText(name), Some(now), None)
    else
      match run(s.checks[name])
      case Returned(health) => health.(lastCheck := Some(now), responseTime := Some(elapsed))
      case Raised(e) => ComponentHealth(name, Unhealthy, ErrorPrefix + e, Some(now), None)
  }

  /** _check_component: the result for `name` is (re)written, nothing else changes. */
  function CheckComponent(s: Service, name: string, run: Check -> CheckRun, now: real, elapsed: real): (r: Service)
    ensures r.checks == s.checks && r.startTime == s.startTime
    ensures r.results == s.results[name := CheckResult(s, name, run, now, elapsed)]
  {
    s.(results := s.results[name := CheckResult(s, name, run, now, elapsed)])
  }

  /** Every registered check run once; other stored results are kept. */
  function CheckAll(s: Service, run: Check -> CheckRun, now: real, elapsed: string -> real): (r: Service)
    ensures r.checks == s.checks && r.startTime == s.startTime
    ensures r.results.Keys == s.results.Keys + s.checks.Keys
    ensures forall n :: n in s.checks ==> r.results[n] == CheckResult(s, n, run, now, elapsed(n))
    ensures forall n :: n in s.results && n !in s.checks ==> r.results[n] == s.results[n]
  {
    var rerun := map n | n in s.checks :: CheckResult(s, n, run, now, elapsed(n));
    s.(results := s.results + rerun)
  }

  /**
   * check_health(component_name): a non-empty name runs that check only if
   * it is registered; an empty name (None) runs every check. The overall
   * status is always computed over every stored result.
   */
  function CheckHealth(s: Service, componentName: string, run: Check -> CheckRun, now: real, elapsed: string -> real)
    : (res: (SystemHealth, Service))
    ensures componentName != "" && componentName !in s.checks ==> res.1 == s
    ensures componentName != "" && componentName in s.checks ==>
      res.1 == CheckComponent(s, componentName, run, now, elapsed(componentName))
    ensures componentName == "" ==> res.1 == CheckAll(s, run, now, elapsed)
    ensures res.0.components == res.1.results
    ensures res.0.overall == OverallStatus(res.1.results)
    ensures res.0.uptime == now - s.startTime
  {
    var s1 :=
      if componentName != "" then
        (if componentName in s.checks then CheckComponent(s, componentName, run, now, elapsed(componentName)) else s)
      else CheckAll(s, run, now, elapsed);
    (SystemHealth(OverallStatus(s1.results), s1.results, now, now - s.startTime), s1)
  }

  /** is_healthy: after a full check, something is stored and nothing is DEGRADED or UNHEALTHY. */
  function IsHealthy(s: Service, run: Check -> CheckRun, now: real, elapsed: string -> real): (b: bool)
    ensures var rs := CheckAll(s, run, now, elapsed).results;
      b <==> |rs| > 0 && forall n :: n in rs ==> rs[n].status in {Healthy, Unknown}
  {
    CheckHealth(s, "", run, now, elapsed).0.overall == Healthy
  }

  /**
   * check_service_health: run the named check and return what was stored.
   * An unregistered name raises KeyError inside the guarded block, so an
   * UNHEALTHY record is stored and returned; UNKNOWN is never returned.
   */
  function CheckServiceHealth(s: Service, name: string, run: Check -> CheckRun, now: real, elapsed: real)
    : (res: (ComponentHealth, Service))
    ensures res.1 == CheckComponent(s, name, run, now, elapsed)
    ensures name in res.1.results && res.0 == res.1.results[name]
    ensures name !in s.checks ==> res.0.status == Unhealthy
    ensures res.0.status == Unknown ==> name in s.checks && run(s.checks[name]).Returned?
  {
    var s1 := CheckComponent(s, name, run, now, elapsed);
    (s1.results[name], s1)
  }

  /**
   * Asking about an unregistered service leaves an UNHEALTHY record that no
   * later full check replaces, so the system stays UNHEALTHY.
   */
  lemma UnknownServicePoisonsOverall(s: Service, name: string, run: Check -> CheckRun, now: real, elapsed: real,
                                     later: real, elapsedAll: string -> real)
    requires name !in s.checks
    ensures var s1 := CheckServiceHealth(s, name, run, now, elapsed).1;
      CheckHealth(s1, "", run, later, elapsedAll).0.overall == Unhealthy
  {
    var s1 := CheckServiceHealth(s, name, run, now, elapsed).1;
    var s2 := CheckHealth(s1, "", run, later, elapsedAll).1;
    assert s1.results[name].status == Unhealthy;
    assert s2.results[name] == s1.results[name];
    assert AnyWith(s2.results, Unhealthy);
  }

  /** get_component_health: the stored record, if any. */
  function GetComponentHealth(s: Service, name: string): (r: Option<ComponentHealth>)
    ensures r.Some? <==> name in s.results
    ensures r.Some? ==> r.value == s.results[name]
  {
    if name in s.results then Some(s.results[name]) else None
  }

  /** get_unhealthy_components: exactly the stored results that are UNHEALTHY or DEGRADED. */
  function UnhealthyComponents(s: Service): (r: map<string, ComponentHealth>)
    ensures forall n :: n in r <==> n in s.results && s.results[n].status in {Unhealthy, Degraded}
    ensures forall n :: n in r ==> r[n] == s.results[n]
  {
    map n | n in s.results && s.results[n].status in {Unhealthy, Degraded} :: s.results[n]
  }

  /** Nothing is reported as failing exactly when the overall status is HEALTHY or UNKNOWN. */
  lemma NoUnhealthyIffHealthyOrUnknown(s: Service)
    ensures |UnhealthyComponents(s)| == 0 <==> OverallStatus(s.results) in {Healthy, Unknown}
  {
    var u := UnhealthyComponents(s);
    if |u| == 0 {
      assert u.Keys == {};
      forall n | n in s.results
        ensures s.results[n].status != Unhealthy && s.results[n].status != Degraded
      {
        assert n !in u;
      }
    } else {
      var w :| w in u;
      assert s.results[w].status in {Unhealthy, Degraded};
      assert AnyWith(s.results, s.results[w].status);
    }
  }

  // ---------------------------------------------------------------------
  // The four built-in checks, given the readings they take
  // ---------------------------------------------------------------------

  /** Usage over `bad` percent is UNHEALTHY, over `warn` DEGRADED; no reading (psutil absent) is HEALTHY. */
  function UsageStatus(percent: Option<real>, warn: real, bad: real): (r: HealthStatus)
    requires warn <= bad
    ensures r != Unknown
    ensures percent.None? ==> r == Healthy
    ensures percent.Some? ==> (r == Unhealthy <==> percent.value > bad)
    ensures percent.Some? ==> (r == Healthy <==> percent.value <= warn)
  {
    match percent
    case None => Healthy
    case Some(p) => if p > bad then Unhealthy else if p > warn then Degraded else Healthy
  }

  /** The memory check: 80 % degrades, 90 % fails. */
  function MemoryStatus(percent: Option<real>): (r: HealthStatus)
    ensures percent.Some? && percent.value > 90.0 ==> r == Unhealthy
    ensures percent.Some? && 80.0 < percent.value <= 90.0 ==> r == Degraded
  {
    UsageStatus(percent, 80.0, 90.0)
  }

  /** The disk check: 90 % degrades, 95 % fails. */
  function DiskStatus(percent: Option<real>): (r: HealthStatus)
    ensures percent.Some? && percent.value > 95.0 ==> r == Unhealthy
    ensures percent.Some? && 90.0 < percent.value <= 95.0 ==> r == Degraded
  {
    UsageStatus(percent, 90.0, 95.0)
  }

  /** The database check: DEGRADED until a vector store exists. */
  function DatabaseStatus(vectorstoreReady: bool): (r: HealthStatus)
    ensures r == Healthy <==> vectorstoreReady
    ensures r != Unhealthy
  {
    if vectorstoreReady then Healthy else Degraded
  }

  /** The API key check: missing fails, a key not starting "AIza" degrades. */
  function ApiKeyStatus(key: string): (r: HealthStatus)
    ensures r == Unhealthy <==> key == ""
    ensures r == Healthy <==> key != "" && StartsWith(key, "AIza")
  {
    if key == "" then Unhealthy else if !StartsWith(key, "AIza") then Degraded else Healthy
  }
}

=== FILE: legacy_utils.dfy ===
/**
 * The module-level helpers of utils.py, which predate the utilities package.
 * Where a helper behaves exactly like the service version it is defined
 * through it; the differences are safe_filename without the "untitled"
 * fallback and split_into_batches without the batch_size guard.
 */
module LegacyUtils {
  import opened PyCore
  import UtilityService

  /** truncate_text, identical to the service version. */
  function TruncateText(text: string, maxLength: int, suffix: string): (r: string)
    ensures |text| <= maxLength ==> r == text
    ensures |text| > maxLength ==> EndsWith(r, suffix) && (|suffix| <= maxLength ==> |r| == maxLength)
  {
    UtilityService.TruncateText(text, maxLength, suffix)
  }

  /** safe_filename: replacement and strip only, so the result may be empty. */
  function SafeFilename(filename: string): (r: string)
    ensures UtilityService.NoUnsafe(r)
    ensures UtilityService.SafeFilename(filename) == if r == "" then "untitled" else r
  {
    UtilityService.ReplaceAndStrip(filename)
  }

  /** A name of unsafe characters and spaces alone comes back empty. */
  lemma SafeFilenameCanBeEmpty()
    ensures SafeFilename(" ") == ""
  {
    assert UtilityService.ReplaceEach(" ", UtilityService.UnsafeChars) == " " by {
      UtilityService.ReplaceEachNoop(" ", UtilityService.UnsafeChars);
    }
    assert IsSpace(' ');
    assert LeadSpaces(" ") == 1;
  }

  /**
   * split_into_batches with no guard: range(0, n, k) is empty for a
   * negative k (so []), raises for k == 0, and batches as the service
   * version for k > 0.
   */
  function SplitIntoBatches<T>(items: seq<T>, batchSize: int): (r: Result<seq<seq<T>>>)
    ensures batchSize == 0 <==> r.Err?
    ensures batchSize < 0 ==> r == Ok([])
    ensures batchSize > 0 ==> r == Ok(UtilityService.Batches(items, batchSize))
  {
    if batchSize == 0 then Err("range() arg 3 must not be zero")
    else if batchSize < 0 then Ok([])
    else Ok(UtilityService.Batches(items, batchSize))
  }

  /** clean_text, identical to the service version. */
  function CleanText(text: string): (r: string)
    ensures r == Join(" ", Words(text))
  {
    UtilityService.CleanText(text)
  }

  /** validate_file_type, identical to the service version minus its logging. */
  function ValidateFileType(path: string, allowed: seq<string>): (ok: bool)
    ensures ok <==> Lower(UtilityService.Extension(path)) in allowed
  {
    UtilityService.ValidateFileType(path, allowed)
  }

  /** ProgressTracker.update, the same capping as the service tracker. */
  function Update(t: UtilityService.Tracker, increment: int): (r: UtilityService.Tracker)
    ensures r.total == t.total && r.description == t.description
    ensures r.current <= t.total
    ensures t.current + increment <= t.total ==> r.current == t.current + increment
  {
    UtilityService.Update(t, increment)
  }

  /** ProgressTracker.get_progress: complete exactly when current has reached total. */
  function GetProgress(t: UtilityService.Tracker): (p: UtilityService.Progress)
    ensures p.isComplete <==> t.current >= t.total
    ensures t.total <= 0 ==> p.percentage == 0.0
    ensures p.current == t.current && p.total == t.total
  {
    UtilityService.GetProgress(t)
  }

  /** An update that reaches total completes the tracker. */
  lemma UpdatePastTotalCompletes(t: UtilityService.Tracker, increment: int)
    requires t.current + increment >= t.total
    ensures GetProgress(Update(t, increment)).isComplete
    ensures Update(t, increment).current == t.total
  {
  }
}

=== FILE: metrics.dfy ===
/**
 * MetricsService: bounded time series, counters, histogram windows, the
 * filtered snapshot and age-based clean-up. Timestamps are seconds (`now`
 * is the clock); values are exact reals.
 */
module Metrics {
  import opened PyCore

  type Tags = map<string, string>

  datatype MetricValue = MetricValue(name: string, value: real, timestamp: real, tags: Tags)

  datatype TimeSeries = TimeSeries(name: string, values: seq<MetricValue>, maxSize: int)

  const SeriesCapacity: int := 1000
  const HistogramCapacity: int := 1000
  const SnapshotPoints: int := 100
  const SecondsPerHour: real := 3600.0

  /** The last n elements of s (all of s when it is shorter). */
  function LastN<T>(s: seq<T>, n: nat): (r: seq<T>)
    ensures |r| == if |s| <= n then |s| else n
    ensures |s| <= n ==> r == s
  {
    if |s| <= n then s else s[|s| - n..]
  }

  /** TimeSeriesData.add_value: append, then drop the oldest point if over capacity. */
  function AddValue(ts: TimeSeries, v: MetricValue): (r: TimeSeries)
    ensures r.name == ts.name && r.maxSize == ts.maxSize
    ensures ts.maxSize >= 1 ==> |r.values| > 0 && r.values[|r.values| - 1] == v
    ensures 0 <= ts.maxSize && |ts.values| <= ts.maxSize ==> r.values == LastN(ts.values + [v], ts.maxSize)
    ensures |ts.values| < ts.maxSize ==> r.values == ts.values + [v]
  {
    var vs := ts.values + [v];
    if |vs| > ts.maxSize then ts.(values := vs[1..]) else ts.(values := vs)
  }

  function AddAll(ts: TimeSeries, vs: seq<MetricValue>): TimeSeries
  {
    if |vs| == 0 then ts else AddValue(AddAll(ts, vs[..|vs| - 1]), vs[|vs| - 1])
  }

  lemma LastNAppend<T>(h: seq<T>, v: T, n: nat)
    ensures LastN(LastN(h, n) + [v], n) == LastN(h + [v], n)
  {
    if |h| > n {
      var t := LastN(h, n);
      if n > 0 {
        assert (t + [v])[|t + [v]| - n..] == (h + [v])[|h + [v]| - n..];
      } else {
        assert LastN(t + [v], n) == [];
      }
    }
  }

  /** A series within capacity always holds exactly the newest maxSize points of its history. */
  lemma {:induction false} AddAllKeepsNewest(ts: TimeSeries, vs: seq<MetricValue>)
    requires 0 <= ts.maxSize && |ts.values| <= ts.maxSize
    ensures AddAll(ts, vs).values == LastN(ts.values + vs, ts.maxSize)
    ensures AddAll(ts, vs).maxSize == ts.maxSize
  {
    if |vs| > 0 {
      var init := vs[..|vs| - 1];
      var v := vs[|vs| - 1];
      AddAllKeepsNewest(ts, init);
      var h := ts.values + init;
      assert ts.values + vs == h + [v];
      LastNAppend(h, v, ts.maxSize);
    }
  }

  /** TimeSeriesData.get_latest: values[-count:], so a count of 0 gives every point. */
  function GetLatest(ts: TimeSeries, count: int): (r: seq<MetricValue>)
    ensures count == 0 ==> r == ts.values
    ensures count > 0 ==> r == LastN(ts.values, count)
    ensures count < 0 ==> r == Drop(ts.values, -count)
  {
    Drop(ts.values, -count)
  }

  predicate Within(v: MetricValue, lo: real, hi: real)
  {
    lo <= v.timestamp <= hi
  }

  /** TimeSeriesData.get_range: the points with start <= timestamp <= end, in stored order. */
  function GetRange(ts: TimeSeries, lo: real, hi: real): (r: seq<MetricValue>)
    ensures IsSubseq(r, ts.values)
    ensures forall i :: 0 <= i < |r| ==> Within(r[i], lo, hi)
    ensures forall i :: 0 <= i < |ts.values| && Within(ts.values[i], lo, hi) ==> ts.values[i] in r
    ensures |r| == CountKept(ts.values, InWindow(lo, hi))
  {
    FilterCount(ts.values, InWindow(lo, hi));
    Filter(ts.values, InWindow(lo, hi))
  }

  function InWindow(lo: real, hi: real): MetricValue -> bool
  {
    (v: MetricValue) => Within(v, lo, hi)
  }

  // ---------------------------------------------------------------------
  // The service
  // ---------------------------------------------------------------------

  datatype Metrics = Metrics(
    series: map<string, TimeSeries>,
    counters: map<string, real>,
    gauges: map<string, real>,
    histograms: map<string, seq<real>>,
    totalRecorded: nat)

  /** Every stored series keeps its name and is within its capacity. */
  ghost predicate Valid(m: Metrics)
  {
    (forall n :: n in m.series ==> m.series[n].name == n && m.series[n].maxSize == SeriesCapacity
                                   && |m.series[n].values| <= SeriesCapacity)
    && (forall n :: n in m.histograms ==> |m.histograms[n]| <= HistogramCapacity)
  }

  /** MetricsService.__init__: no series, counters, gauges or histograms yet. */
  function EmptyMetrics(): (m: Metrics)
    ensures m.series == map[] && m.counters == map[] && m.gauges == map[] && m.histograms == map[]
    ensures m.totalRecorded == 0
    ensures Valid(m)
  {
    Metrics(map[], map[], map[], map[], 0)
  }

  /** MetricsService.record_metric: the series is created with capacity 1000 on first use. */
  function RecordMetric(m: Metrics, name: string, value: real, tags: Tags, now: real): (r: Metrics)
    ensures name in r.series
    ensures name !in m.series ==>
      r.series[name].values == [MetricValue(name, value, now, tags)] && r.series[name].maxSize == SeriesCapacity
    ensures name in m.series ==> r.series[name] == AddValue(m.series[name], MetricValue(name, value, now, tags))
    ensures forall n :: n != name ==> (n in r.series <==> n in m.series)
    ensures forall n :: n in m.series && n != name ==> r.series[n] == m.series[n]
    ensures r.counters == m.counters && r.histograms == m.histograms && r.gauges == m.gauges
    ensures r.totalRecorded == m.totalRecorded + 1
    ensures Valid(m) ==> Valid(r)
  {
    var ts := if name in m.series then m.series[name] else TimeSeries(name, [], SeriesCapacity);
    m.(series := m.series[name := AddValue(ts, MetricValue(name, value, now, tags))],
       totalRecorded := m.totalRecorded + 1)
  }

  /** The name of the series a counter writes to. */
  function CounterSeries(name: string): string
  {
    name + "_total"
  }

  /** MetricsService.increment_counter: +1, then the new count is recorded into name_total. */
  function IncrementCounter(m: Metrics, name: string, tags: Tags, now: real): (r: Metrics)
    ensures name in r.counters
    ensures r.counters[name] == (if name in m.counters then m.counters[name] else 0.0) + 1.0
    ensures forall n :: n in m.counters && n != name ==> n in r.counters && r.counters[n] == m.counters[n]
    ensures r.counters.Keys == m.counters.Keys + {name}
    ensures r.histograms == m.histograms
    ensures forall n :: n in m.series ==> n in r.series
    ensures CounterSeries(name) in r.series
    ensures var s := r.series[CounterSeries(name)].values;
      Valid(m) ==> |s| > 0 && s[|s| - 1].value == r.counters[name]
    ensures Valid(m) ==> Valid(r)
  {
    var c := (if name in m.counters then m.counters[name] else 0.0) + 1.0;
    RecordMetric(m.(counters := m.counters[name := c]), CounterSeries(name), c, tags, now)
  }

  /** A counter whose name already ends in "_total" records into a "_total_total" series. */
  lemma CounterSuffixDoubles(m: Metrics, tags: Tags, now: real)
    ensures "cache_hit_total_total" in IncrementCounter(m, "cache_hit_total", tags, now).series
  {
    assert CounterSeries("cache_hit_total") == "cache_hit_total_total";
  }

  /** Counting n times from nothing gives exactly n. */
  lemma {:induction false} CounterCounts(m: Metrics, name: string, tags: Tags, now: real, n: nat)
    requires name !in m.counters
    ensures var r := Repeat(m, name, tags, now, n); n > 0 ==> r.counters[name] == n as real
    ensures n > 0 ==> name in Repeat(m, name, tags, now, n).counters
  {
    if n > 1 {
      CounterCounts(m, name, tags, now, n - 1);
    }
  }

  function Repeat(m: Metrics, name: string, tags: Tags, now: real, n: nat): Metrics
  {
    if n == 0 then m else IncrementCounter(Repeat(m, name, tags, now, n - 1), name, tags, now)
  }

  function SumOf(xs: seq<real>): real
  {
    if |xs| == 0 then 0.0 else SumOf(xs[..|xs| - 1]) + xs[|xs| - 1]
  }

  function MinOf(xs: seq<real>): (r: real)
    requires |xs| > 0
    ensures r in xs && forall i :: 0 <= i < |xs| ==> r <= xs[i]
  {
    if |xs| == 1 then xs[0]
    else
      var m := MinOf(xs[1..]);
      assert forall i :: 1 <= i < |xs| ==> xs[i] == xs[1..][i - 1];
      if xs[0] <= m then xs[0] else m
  }

  function MaxOf(xs: seq<real>): (r: real)
    requires |xs| > 0
    ensures r in xs && forall i :: 0 <= i < |xs| ==> xs[i] <= r
  {
    if |xs| == 1 then xs[0]
    else
      var m := MaxOf(xs[1..]);
      assert forall i :: 1 <= i < |xs| ==> xs[i] == xs[1..][i - 1];
      if xs[0] >= m then xs[0] else m
  }

  datatype HistStats = HistStats(count: nat, sum: real, avg: real, min: real, max: real)

  /** A lower bound on every element bounds the sum from below, and likewise above. */
  lemma {:induction false} SumBounds(xs: seq<real>, lo: real, hi: real)
    requires forall i :: 0 <= i < |xs| ==> lo <= xs[i] <= hi
    ensures (|xs| as real) * lo <= SumOf(xs) <= (|xs| as real) * hi
  {
    if |xs| > 0 {
      SumBounds(xs[..|xs| - 1], lo, hi);
      assert (|xs| as real) * lo == ((|xs| - 1) as real) * lo + lo;
      assert (|xs| as real) * hi == ((|xs| - 1) as real) * hi + hi;
    }
  }

  /** The statistics of a non-empty window: avg is sum / count, and min <= avg <= max. */
  function Stats(xs: seq<real>): (s: HistStats)
    requires |xs| > 0
    ensures s.count == |xs| && s.sum == SumOf(xs)
    ensures s.min in xs && s.max in xs
    ensures forall i :: 0 <= i < |xs| ==> s.min <= xs[i] <= s.max
    ensures s.min <= s.avg <= s.max
    ensures s.avg == s.sum / (s.count as real)
  {
    MeanBetween(xs);
    HistStats(|xs|, SumOf(xs), Mean(xs), MinOf(xs), MaxOf(xs))
  }

  function Mean(xs: seq<real>): real
    requires |xs| > 0
  {
    SumOf(xs) / (|xs| as real)
  }

  /** The mean of a window lies between its minimum and maximum. */
  lemma MeanBetween(xs: seq<real>)
    requires |xs| > 0
    ensures MinOf(xs) <= Mean(xs) <= MaxOf(xs)
  {
    MeanWithin(xs, MinOf(xs), MaxOf(xs));
  }

  lemma MeanWithin(xs: seq<real>, lo: real, hi: real)
    requires |xs| > 0
    requires forall i :: 0 <= i < |xs| ==> lo <= xs[i] <= hi
    ensures lo <= Mean(xs) <= hi
  {
    var n := |xs| as real;
    assert n * lo <= SumOf(xs) <= n * hi by {
      SumBounds(xs, lo, hi);
    }
    AverageBetween(SumOf(xs), n, lo, hi);
  }

  lemma AverageBetween(sum: real, n: real, lo: real, hi: real)
    requires n > 0.0 && n * lo <= sum <= n * hi
    ensures lo <= sum / n <= hi
  {
  }

  /** The five statistics record_histogram records, in order. */
  function RecordStats(m: Metrics, name: string, s: HistStats, tags: Tags, now: real): (r: Metrics)
    ensures name + "_count" in r.series && name + "_max" in r.series
    ensures r.histograms == m.histograms && r.counters == m.counters
    ensures forall n :: n in m.series ==> n in r.series
    ensures Valid(m) ==> Valid(r)
  {
    var m2 := RecordMetric(m, name + "_count", s.count as real, tags, now);
    var m3 := RecordMetric(m2, name + "_sum", s.sum, tags, now);
    var m4 := RecordMetric(m3, name + "_avg", s.avg, tags, now);
    var m5 := RecordMetric(m4, name + "_min", s.min, tags, now);
    RecordMetric(m5, name + "_max", s.max, tags, now)
  }

  /** One histogram window after appending a value. */
  function Window(prev: seq<real>, value: real): (w: seq<real>)
    ensures |w| > 0
    ensures |prev| <= HistogramCapacity ==> w == LastN(prev + [value], HistogramCapacity)
  {
    var appended := prev + [value];
    if |appended| > HistogramCapacity then appended[1..] else appended
  }

  /**
   * MetricsService.record_histogram: append to the window, drop the oldest
   * value beyond 1000, then record count, sum, avg, min and max as metrics
   * name_count ... name_max.
   */
  function RecordHistogram(m: Metrics, name: string, value: real, tags: Tags, now: real): (r: Metrics)
    ensures name in r.histograms
    ensures var prev := if name in m.histograms then m.histograms[name] else [];
      |prev| <= HistogramCapacity ==> r.histograms[name] == LastN(prev + [value], HistogramCapacity)
    ensures var prev := if name in m.histograms then m.histograms[name] else [];
      r.histograms == m.histograms[name := Window(prev, value)]
    ensures r.counters == m.counters
    ensures forall n :: n in m.series ==> n in r.series
    ensures name + "_count" in r.series && name + "_max" in r.series
    ensures Valid(m) ==> Valid(r)
  {
    var m1 := StoreWindow(m, name, value);
    RecordStats(m1, name, Stats(m1.histograms[name]), tags, now)
  }

  /** The histogram half of record_histogram: only the window of `name` changes. */
  function StoreWindow(m: Metrics, name: string, value: real): (r: Metrics)
    ensures var prev := if name in m.histograms then m.histograms[name] else [];
      r.histograms == m.histograms[name := Window(prev, value)]
    ensures r.series == m.series && r.counters == m.counters
    ensures Valid(m) ==> Valid(r)
  {
    var prev := if name in m.histograms then m.histograms[name] else [];
    m.(histograms := m.histograms[name := Window(prev, value)])
  }

  datatype Snapshot = Snapshot(
    counters: map<string, real>,
    gauges: map<string, real>,
    timeSeries: map<string, seq<MetricValue>>,
    histograms: map<string, HistStats>)

  /**
   * MetricsService.get_metrics: series whose name contains the pattern (all
   * of them for no or an empty pattern), each cut to its newest 100 points;
   * statistics for every non-empty histogram.
   */
  function GetMetrics(m: Metrics, pattern: Option<string>): (r: Snapshot)
    ensures forall n :: n in r.timeSeries <==>
      n in m.series && (pattern.None? || pattern.value == "" || Contains(n, pattern.value))
    ensures forall n :: n in r.timeSeries ==> r.timeSeries[n] == LastN(m.series[n].values, SnapshotPoints)
    ensures forall n :: n in r.histograms <==> n in m.histograms && |m.histograms[n]| > 0
    ensures r.counters == m.counters && r.gauges == m.gauges
  {
    var keep := (n: string) => pattern.None? || pattern.value == "" || Contains(n, pattern.value);
    Snapshot(
      m.counters,
      m.gauges,
      map n | n in m.series && keep(n) :: GetLatest(m.series[n], SnapshotPoints),
      map n | n in m.histograms && |m.histograms[n]| > 0 :: Stats(m.histograms[n]))
  }

  predicate Newer(v: MetricValue, cutoff: real)
  {
    v.timestamp > cutoff
  }

  function ClearSeries(ts: TimeSeries, cutoff: real): (r: TimeSeries)
    ensures r.name == ts.name && r.maxSize == ts.maxSize
    ensures IsSubseq(r.values, ts.values)
    ensures forall i :: 0 <= i < |r.values| ==> r.values[i].timestamp > cutoff
    ensures forall i :: 0 <= i < |ts.values| && ts.values[i].timestamp > cutoff ==> ts.values[i] in r.values
    ensures |r.values| == CountKept(ts.values, NewerThan(cutoff))
  {
    FilterCount(ts.values, NewerThan(cutoff));
    ts.(values := Filter(ts.values, NewerThan(cutoff)))
  }

  function NewerThan(cutoff: real): MetricValue -> bool
  {
    (v: MetricValue) => Newer(v, cutoff)
  }

  lemma ClearSeriesIdempotent(ts: TimeSeries, cutoff: real)
    ensures ClearSeries(ClearSeries(ts, cutoff), cutoff) == ClearSeries(ts, cutoff)
  {
    FilterIdempotent(ts.values, NewerThan(cutoff));
  }

  function Cutoff(olderThanHours: int, now: real): real
  {
    now - olderThanHours as real * SecondsPerHour
  }

  /** MetricsService.clear_metrics: every series keeps only points strictly newer than now - hours. */
  function ClearMetrics(m: Metrics, olderThanHours: int, now: real): (r: Metrics)
    ensures r.series.Keys == m.series.Keys
    ensures forall n :: n in m.series ==> r.series[n] == ClearSeries(m.series[n], Cutoff(olderThanHours, now))
    ensures r == m.(series := r.series)
    ensures r.counters == m.counters && r.histograms == m.histograms
    ensures Valid(m) ==> Valid(r)
  {
    m.(series := ClearAll(m.series, Cutoff(olderThanHours, now)))
  }

  function ClearAll(series: map<string, TimeSeries>, cutoff: real): (r: map<string, TimeSeries>)
    ensures r.Keys == series.Keys
    ensures forall n :: n in series ==> r[n] == ClearSeries(series[n], cutoff)
  {
    map n | n in series :: ClearSeries(series[n], cutoff)
  }

  lemma ClearAllIdempotent(series: map<string, TimeSeries>, cutoff: real)
    ensures ClearAll(ClearAll(series, cutoff), cutoff) == ClearAll(series, cutoff)
  {
    var r := ClearAll(series, cutoff);
    var r2 := ClearAll(r, cutoff);
    forall n | n in r
      ensures r2[n] == r[n]
    {
      ClearSeriesIdempotent(series[n], cutoff);
    }
  }

  /** Clearing twice with the same cutoff is clearing once. */
  lemma ClearMetricsIdempotent(m: Metrics, olderThanHours: int, now: real)
    ensures ClearMetrics(ClearMetrics(m, olderThanHours, now), olderThanHours, now)
         == ClearMetrics(m, olderThanHours, now)
  {
    ClearAllIdempotent(m.series, Cutoff(olderThanHours, now));
  }

  /** MetricsService.get_metric_history: [] for an unknown series, else the points of the last `hours`. */
  function GetMetricHistory(m: Metrics, name: string, hours: int, now: real): (r: seq<MetricValue>)
    ensures name !in m.series ==> r == []
    ensures name in m.series ==> IsSubseq(r, m.series[name].values)
    ensures forall i :: 0 <= i < |r| ==> now - hours as real * SecondsPerHour <= r[i].timestamp <= now
    ensures name in m.series ==> forall i ::
      (0 <= i < |m.series[name].values| &&
       now - hours as real * SecondsPerHour <= m.series[name].values[i].timestamp <= now) ==>
      m.series[name].values[i] in r
    ensures name in m.series ==>
      |r| == CountKept(m.series[name].values, InWindow(now - hours as real * SecondsPerHour, now))
  {
    if name !in m.series then []
    else GetRange(m.series[name], now - hours as real * SecondsPerHour, now)
  }
}

=== FILE: model_service.dfy ===
/**
 * ModelService: choosing the chat model. The available models and the
 * current choice live in the application state; the per-model metadata is
 * a dictionary, modelled as its items in insertion order so that listings
 * keep the order Python iterates them in.
 */
module ModelService {
  import opened PyCore
  import opened PyValue
  import opened ApplicationState

  /** The metadata dictionary's items, in insertion order. */
  type Metadata = seq<(string, map<string, PyVal>)>

  function Info(displayName: string, description: string, maxTokens: int, recommended: bool): map<string, PyVal>
  {
    map["display_name" := PStr(displayName), "description" := PStr(description),
        "max_tokens" := PInt(maxTokens), "recommended" := PBool(recommended)]
  }

  /** The metadata used when the configuration has no model_metadata. */
  const DefaultMetadata: Metadata := [
    ("gemini-2.5-flash-preview-05-20", Info("Gemini 2.5 Flash Preview", "最新预览版本，速度快，适合日常问答", 8192, true)),
    ("gemini-2.0-flash", Info("Gemini 2.0 Flash", "稳定版本，平衡速度和质量", 8192, true)),
    ("gemini-2.0-flash-lite", Info("Gemini 2.0 Flash Lite", "轻量版本，响应更快", 4096, false)),
    ("gemini-1.5-flash", Info("Gemini 1.5 Flash", "经典快速版本", 8192, false)),
    ("gemini-1.5-pro", Info("Gemini 1.5 Pro", "高质量版本，适合复杂问答", 32768, true))
  ]

  /** The fallback_models of the default configuration. */
  const DefaultFallbackModels: seq<string> := ["gemini-2.0-flash", "gemini-2.0-flash-lite", "gemini-1.5-flash", "gemini-1.5-pro"]

  /** get_model_info: the metadata stored under a name, None when there is none. */
  function ModelInfo(meta: Metadata, name: string): (r: Option<map<string, PyVal>>)
    ensures r.Some? <==> exists i :: 0 <= i < |meta| && meta[i].0 == name
    ensures r.Some? ==> exists i :: 0 <= i < |meta| && meta[i] == (name, r.value)
  {
    if |meta| == 0 then None
    else if meta[0].0 == name then Some(meta[0].1)
    else
      var r := ModelInfo(meta[1..], name);
      assert forall i :: 1 <= i < |meta| ==> meta[i] == meta[1..][i - 1];
      r
  }

  /** f-string text of the current model, which may be None. */
  function ModelText(m: Option<string>): string
  {
    if m.Some? then m.value else "None"
  }

  /**
   * switch_model: an unavailable name is refused with the state untouched;
   * otherwise the name becomes current and the QA chain is dropped so it is
   * rebuilt for the new model.
   */
  function SwitchModel(s: AppState, name: string, now: int): (r: (bool, string, AppState))
    ensures r.0 <==> name in s.availableModels
    ensures !r.0 ==> r.2 == s && r.1 == "❌ 不支持的模型: " + name
    ensures r.0 ==> r.2.currentModel == Some(name) && r.2.qaChain.None?
    ensures r.0 ==> r.1 == "✅ 模型已切换: " + ModelText(s.currentModel) + " → " + name
    ensures r.2.availableModels == s.availableModels && r.2.uploadedFiles == s.uploadedFiles
    ensures r.2.vectorstore == s.vectorstore && r.2.systemReady == s.systemReady
  {
    if name !in s.availableModels then (false, "❌ 不支持的模型: " + name, s)
    else
      var t := SetCurrentModel(s, name, now).value;
      (true, "✅ 模型已切换: " + ModelText(s.currentModel) + " → " + name, SetQaChain(t, None, now))
  }

  /** A switch never leaves the current model outside the available ones. */
  lemma SwitchKeepsModelValid(s: AppState, name: string, now: int)
    requires ModelValid(s)
    ensures ModelValid(SwitchModel(s, name, now).2)
  {
  }

  /** A second switch to the same model still succeeds and leaves the same choice. */
  lemma SwitchTwice(s: AppState, name: string, t1: int, t2: int)
    ensures var once := SwitchModel(s, name, t1);
      var twice := SwitchModel(once.2, name, t2);
      twice.0 == once.0 && twice.2.currentModel == once.2.currentModel
  {
  }

  /** info.get('recommended', False), as a truth value. */
  predicate Recommended(info: map<string, PyVal>)
  {
    Truthy(DictGet(info, "recommended", PBool(false)))
  }

  function Names(meta: Metadata): (r: seq<string>)
    ensures |r| == |meta|
    ensures forall i :: 0 <= i < |meta| ==> r[i] == meta[i].0
  {
    seq(|meta|, i requires 0 <= i < |meta| => meta[i].0)
  }

  /** Some entry under this name is marked recommended. */
  predicate RecommendedName(meta: Metadata, name: string)
  {
    exists i :: 0 <= i < |meta| && meta[i].0 == name && Recommended(meta[i].1)
  }

  lemma RecommendedNameTail(meta: Metadata, name: string)
    requires |meta| > 0 && RecommendedName(meta[1..], name)
    ensures RecommendedName(meta, name)
  {
    var i :| 0 <= i < |meta[1..]| && meta[1..][i].0 == name && Recommended(meta[1..][i].1);
    assert meta[i + 1] == meta[1..][i];
  }

  /** get_recommended_models: the recommended models that are available, in metadata order. */
  function RecommendedModels(meta: Metadata, available: seq<string>): (r: seq<string>)
    ensures IsSubseq(r, Names(meta))
    ensures forall j :: 0 <= j < |r| ==> r[j] in available && RecommendedName(meta, r[j])
    decreases |meta|
  {
    if |meta| == 0 then []
    else
      var rest := RecommendedModels(meta[1..], available);
      assert Names(meta) == [meta[0].0] + Names(meta[1..]);
      assert forall j :: 0 <= j < |rest| ==> RecommendedName(meta, rest[j]) by {
        forall j | 0 <= j < |rest|
          ensures RecommendedName(meta, rest[j])
        {
          RecommendedNameTail(meta, rest[j]);
        }
      }
      if Recommended(meta[0].1) && meta[0].0 in available then
        assert RecommendedName(meta, meta[0].0);
        [meta[0].0] + rest
      else SubseqSkip(rest, Names(meta)); rest
  }

  /** No recommended, available model is left out of the listing. */
  lemma {:induction false} RecommendedComplete(meta: Metadata, available: seq<string>, i: int)
    requires 0 <= i < |meta| && Recommended(meta[i].1) && meta[i].0 in available
    ensures meta[i].0 in RecommendedModels(meta, available)
    decreases i
  {
    if i > 0 {
      RecommendedComplete(meta[1..], available, i - 1);
    }
  }

  /** Of the last three default entries only 1.5 Pro is recommended. */
  lemma DefaultLastRecommendations()
    ensures RecommendedModels(DefaultMetadata[2..], DefaultFallbackModels) == ["gemini-1.5-pro"]
  {
    var m := DefaultMetadata;
    var a := DefaultFallbackModels;
    assert RecommendedModels(m[4..], a) == ["gemini-1.5-pro"] by {
      assert m[4..][1..] == [];
      assert Recommended(m[4].1) && m[4].0 == a[3];
    }
    assert m[2..][1..] == m[3..] && m[3..][1..] == m[4..];
    assert !Recommended(m[2].1) && !Recommended(m[3].1);
  }

  /** The last four default entries leave the 2.0 Flash and 1.5 Pro models under the default configuration. */
  lemma DefaultTailRecommendations()
    ensures RecommendedModels(DefaultMetadata[1..], DefaultFallbackModels) == ["gemini-2.0-flash", "gemini-1.5-pro"]
  {
    var m := DefaultMetadata;
    DefaultLastRecommendations();
    assert m[1..][1..] == m[2..];
    assert Recommended(m[1].1) && m[1].0 == DefaultFallbackModels[0];
  }

  /** With the default configuration the preview model is not offered, leaving two recommendations. */
  lemma DefaultRecommendations()
    ensures RecommendedModels(DefaultMetadata, DefaultFallbackModels) == ["gemini-2.0-flash", "gemini-1.5-pro"]
  {
    var m := DefaultMetadata;
    var a := DefaultFallbackModels;
    DefaultTailRecommendations();
    assert m[0].0 !in a by {
      assert |m[0].0| == 30;
      assert forall j :: 0 <= j < |a| ==> |a[j]| < 30;
    }
    UnavailableHeadSkipped(m, a);
  }

  /** A first entry that is not available adds nothing to the listing. */
  lemma UnavailableHeadSkipped(meta: Metadata, available: seq<string>)
    requires |meta| > 0 && meta[0].0 !in available
    ensures RecommendedModels(meta, available) == RecommendedModels(meta[1..], available)
  {
  }

  /** Python's name for the type of a value that cannot be compared with an int. */
  function TypeName(v: PyVal): string
  {
    match v
    case PNone => "NoneType"
    case PStr(_) => "str"
    case PList(_) => "list"
    case PDict(_) => "dict"
    case _ => "object"
  }

  /** The max_tokens entry, 0 when missing. */
  function MaxTokens(info: map<string, PyVal>): PyVal
  {
    DictGet(info, "max_tokens", PInt(0))
  }

  /** The model can be used: available, with non-empty metadata whose max_tokens is a number of at least 1000. */
  predicate Compatible(meta: Metadata, available: seq<string>, name: string)
  {
    && name in available
    && ModelInfo(meta, name).Some?
    && |ModelInfo(meta, name).value| > 0
    && IsNumber(MaxTokens(ModelInfo(meta, name).value))
    && AsReal(MaxTokens(ModelInfo(meta, name).value)) >= 1000.0
  }

  /**
   * validate_model_compatibility: refuses an unavailable model, one with
   * missing or empty metadata, and one whose max_tokens is below 1000; a
   * max_tokens that cannot be compared with 1000 raises and is reported.
   */
  function ValidateModelCompatibility(meta: Metadata, available: seq<string>, name: string,
                                      render: PyVal -> string): (r: (bool, string))
    ensures r.0 <==> Compatible(meta, available, name)
    ensures name !in available ==> r == (false, "模型 " + name + " 不在支持列表中")
    ensures name in available && (ModelInfo(meta, name).None? || |ModelInfo(meta, name).value| == 0) ==>
              r == (false, "模型 " + name + " 缺少元数据信息")
  {
    if name !in available then (false, "模型 " + name + " 不在支持列表中")
    else
      var info := ModelInfo(meta, name);
      if info.None? || |info.value| == 0 then (false, "模型 " + name + " 缺少元数据信息")
      else
        var maxTokens := MaxTokens(info.value);
        if !IsNumber(maxTokens) then
          (false, "验证模型兼容性时发生错误: '<' not supported between instances of '" + TypeName(maxTokens) + "' and 'int'")
        else if AsReal(maxTokens) < 1000.0 then
          (false, "模型 " + name + " token限制过低 (" + Str(maxTokens, render) + ")")
        else (true, "模型 " + name + " 兼容性验证通过")
  }

  /** Non-empty metadata whose max_tokens is a number of at least 1000. */
  predicate Ample(info: map<string, PyVal>)
  {
    |info| > 0 && IsNumber(MaxTokens(info)) && AsReal(MaxTokens(info)) >= 1000.0
  }

  /** When every entry is ample, each listed model passes as soon as it is available. */
  lemma {:induction false} AmpleMetadataCompatible(meta: Metadata, available: seq<string>, name: string)
    requires forall i :: 0 <= i < |meta| ==> Ample(meta[i].1)
    requires name in Names(meta) && name in available
    ensures Compatible(meta, available, name)
    decreases |meta|
  {
    if meta[0].0 != name {
      assert forall i :: 1 <= i < |meta| ==> meta[i] == meta[1..][i - 1];
      assert name in Names(meta[1..]) by {
        var i :| 0 <= i < |meta| && Names(meta)[i] == name;
        assert Names(meta[1..])[i - 1] == name;
      }
      AmpleMetadataCompatible(meta[1..], available, name);
    }
  }

  /** Every model of the default metadata has room for at least 4096 tokens, so each passes once it is available. */
  lemma DefaultModelsCompatible(available: seq<string>, name: string, render: PyVal -> string)
    requires name in Names(DefaultMetadata) && name in available
    ensures ValidateModelCompatibility(DefaultMetadata, available, name, render).0
  {
    assert forall i :: 0 <= i < |DefaultMetadata| ==> Ample(DefaultMetadata[i].1) by {
      forall i | 0 <= i < |DefaultMetadata|
        ensures Ample(DefaultMetadata[i].1)
      {
        var info := DefaultMetadata[i].1;
        assert "max_tokens" in info && info["max_tokens"].PInt? && info["max_tokens"].i >= 4096;
      }
    }
    AmpleMetadataCompatible(DefaultMetadata, available, name);
  }

  /** Compatibility implies availability, whatever the metadata says. */
  lemma CompatibleIsAvailable(meta: Metadata, available: seq<string>, name: string, render: PyVal -> string)
    requires ValidateModelCompatibility(meta, available, name, render).0
    ensures name in available && ModelInfo(meta, name).Some?
  {
  }

  /** force_model_reinit: drops the QA chain and readiness, keeping everything else. */
  function ForceModelReinit(s: AppState, now: int): (r: (string, AppState))
    ensures r.1.qaChain.None? && !r.1.systemReady
    ensures r.1.currentModel == s.currentModel && r.1.availableModels == s.availableModels
    ensures r.1.vectorstore == s.vectorstore && r.1.uploadedFiles == s.uploadedFiles
    ensures r.0 == "✅ 模型 " + ModelText(s.currentModel) + " 已重新初始化"
  {
    var t := SetSystemReady(SetQaChain(s, None, now), false, now);
    ("✅ 模型 " + ModelText(s.currentModel) + " 已重新初始化", t)
  }

  /** After a forced re-initialisation the state report shows no chain and not ready, and the same model. */
  lemma ReinitReport(s: AppState, now: int, isoformat: int -> string, status: Handle -> Outcome)
    ensures var info := StateInfo(ForceModelReinit(s, now).1, isoformat, status);
      && info["qa_chain_initialized"] == PBool(false)
      && info["system_ready"] == PBool(false)
      && info["current_model"] == StateInfo(s, isoformat, status)["current_model"]
  {
  }

  // ---------------------------------------------------------------------
  // Reports
  // ---------------------------------------------------------------------

  /**
   * The separator both reports are written with: the source's "\\n" literal,
   * which is a backslash followed by the letter n, not a line break.
   */
  const LineSep: string := "\\n"

  /** No name is listed twice, as in the dictionary the items come from. */
  predicate UniqueNames(meta: Metadata)
  {
    forall i, j :: 0 <= i < j < |meta| ==> meta[i].0 != meta[j].0
  }

  /** With unique names, the metadata found under a listed name is the one listed with it. */
  lemma ModelInfoAt(meta: Metadata, i: int)
    requires UniqueNames(meta) && 0 <= i < |meta|
    ensures ModelInfo(meta, meta[i].0) == Some(meta[i].1)
  {
    var r := ModelInfo(meta, meta[i].0);
    var j :| 0 <= j < |meta| && meta[j] == (meta[i].0, r.value);
    assert i == j;
  }

  /** `self._model_metadata.get(name, {})`; None, the unset current model, is never a key. */
  function InfoOrEmpty(meta: Metadata, name: Option<string>): (r: map<string, PyVal>)
    ensures name.Some? && ModelInfo(meta, name.value).Some? ==> r == ModelInfo(meta, name.value).value
    ensures name.None? || ModelInfo(meta, name.value).None? ==> r == map[]
  {
    if name.Some? && ModelInfo(meta, name.value).Some? then ModelInfo(meta, name.value).value else map[]
  }

  /** An f-string field `{info.get(key, default)}`. */
  function Field(info: map<string, PyVal>, key: string, default: PyVal, render: PyVal -> string): string
  {
    Str(DictGet(info, key, default), render)
  }

  /** The current model as a value: the display name's fallback, None when unset. */
  function ModelVal(m: Option<string>): (v: PyVal)
    ensures Str(v, (x: PyVal) => "") == ModelText(m)
  {
    if m.Some? then PStr(m.value) else PNone
  }

  /**
   * The five lines of get_model_status: display name (the model's own name
   * by default), description ('标准AI模型' by default), max_tokens ('未知' by
   * default), whether it is recommended, and whether the QA chain exists.
   */
  function StatusLines(meta: Metadata, s: AppState, render: PyVal -> string): (r: seq<string>)
    ensures |r| == 5
    ensures r[3] == "⭐ 推荐: 是" <==> Recommended(InfoOrEmpty(meta, s.currentModel))
    ensures r[4] == "🔧 状态: 就绪" <==> s.qaChain.Some?
  {
    var info := InfoOrEmpty(meta, s.currentModel);
    var star := "⭐ 推荐: ";
    assert (star + "否")[|star|] == '否';
    ["🤖 当前模型: " + Field(info, "display_name", ModelVal(s.currentModel), render),
     "📝 描述: " + Field(info, "description", PStr("标准AI模型"), render),
     "📊 最大token: " + Field(info, "max_tokens", PStr("未知"), render),
     "⭐ 推荐: " + (if Recommended(info) then "是" else "否"),
     "🔧 状态: " + (if s.qaChain.Some? then "就绪" else "需要初始化")]
  }

  /** get_model_status: the status lines joined; formatting a value never raises here, so the except branch is not reached. */
  function GetModelStatus(meta: Metadata, s: AppState, render: PyVal -> string): (r: string)
    ensures StartsWith(r, "🤖 当前模型: ")
    ensures EndsWith(r, if s.qaChain.Some? then "🔧 状态: 就绪" else "🔧 状态: 需要初始化")
  {
    var ls := StatusLines(meta, s, render);
    JoinBounds(LineSep, ls);
    Join(LineSep, ls)
  }

  /** A model without metadata is reported by its own name with every default. */
  lemma StatusOfUndescribedModel(meta: Metadata, s: AppState, render: PyVal -> string)
    requires s.currentModel.None? || ModelInfo(meta, s.currentModel.value).None?
    ensures StatusLines(meta, s, render)[..4] ==
      ["🤖 当前模型: " + ModelText(s.currentModel), "📝 描述: 标准AI模型", "📊 最大token: 未知", "⭐ 推荐: 否"]
  {
    var ls := StatusLines(meta, s, render);
    assert InfoOrEmpty(meta, s.currentModel) == map[];
    assert Str(ModelVal(s.currentModel), render) == ModelText(s.currentModel);
    assert ls[0] == "🤖 当前模型: " + ModelText(s.currentModel);
    assert ls[1] == "📝 描述: 标准AI模型";
    assert ls[2] == "📊 最大token: 未知";
    assert ls[3] == "⭐ 推荐: 否";
  }

  /** A model with metadata is reported by its display name, description and token limit. */
  lemma StatusOfDescribedModel(meta: Metadata, s: AppState, render: PyVal -> string,
                               display: string, description: string, maxTokens: int, recommended: bool)
    requires s.currentModel.Some? && ModelInfo(meta, s.currentModel.value) == Some(Info(display, description, maxTokens, recommended))
    ensures StatusLines(meta, s, render)[..4] ==
      ["🤖 当前模型: " + display, "📝 描述: " + description, "📊 最大token: " + IntToString(maxTokens),
       "⭐ 推荐: " + (if recommended then "是" else "否")]
  {
    var info := Info(display, description, maxTokens, recommended);
    assert DictGet(info, "display_name", ModelVal(s.currentModel)) == PStr(display);
    assert DictGet(info, "max_tokens", PStr("未知")) == PInt(maxTokens);
    assert Recommended(info) == recommended;
  }

  /** After a switch the report names the new model and asks for initialisation, the chain being dropped. */
  lemma StatusAfterSwitch(meta: Metadata, s: AppState, name: string, now: int, render: PyVal -> string)
    requires name in s.availableModels
    ensures var t := SwitchModel(s, name, now).2;
      StatusLines(meta, t, render)[4] == "🔧 状态: 需要初始化"
      && StatusLines(meta, t, render)[0] ==
         "🤖 当前模型: " + Field(InfoOrEmpty(meta, Some(name)), "display_name", PStr(name), render)
  {
  }

  /** What get_model_selection_info shows for one available model. */
  datatype Entry = Entry(display: string, isCurrent: bool, isRecommended: bool, description: string, maxTokens: string)

  /** The entry of model m, marked current when m is the current model and starred when its metadata recommends it. */
  function EntryOf(meta: Metadata, m: string, current: Option<string>, render: PyVal -> string): (e: Entry)
    ensures e.isCurrent <==> current == Some(m)
    ensures e.isRecommended <==> Recommended(InfoOrEmpty(meta, Some(m)))
    ensures ModelInfo(meta, m).None? ==> e == Entry(m, current == Some(m), false, "标准AI模型", "未知")
  {
    var info := InfoOrEmpty(meta, Some(m));
    Entry(Field(info, "display_name", PStr(m), render), current == Some(m), Recommended(info),
          Field(info, "description", PStr("标准AI模型"), render), Field(info, "max_tokens", PStr("未知"), render))
  }

  /** The entry as text: name with its marks in bold, then description and token limit. */
  function EntryText(e: Entry): string
  {
    "**" + e.display + (if e.isCurrent then " **(当前)**" else "") + (if e.isRecommended then " 🌟" else "") + "**" + LineSep
    + "- 描述: " + e.description + LineSep
    + "- 最大token: " + e.maxTokens + LineSep
  }

  /** The first and last parts of the model selection report. */
  const SelectionHeading: string := "## 🤖 可用模型信息" + LineSep
  const SelectionLegend: string := LineSep + "🌟 = 推荐模型"

  /** The report's parts: a heading, one entry per available model in order, and the legend. */
  function SelectionParts(meta: Metadata, s: AppState, render: PyVal -> string): (r: seq<string>)
    ensures |r| == |s.availableModels| + 2
    ensures r[0] == SelectionHeading && r[|r| - 1] == SelectionLegend
    ensures forall i :: 0 <= i < |s.availableModels| ==>
      r[i + 1] == EntryText(EntryOf(meta, s.availableModels[i], s.currentModel, render))
  {
    var entries := seq(|s.availableModels|, i requires 0 <= i < |s.availableModels| =>
      EntryText(EntryOf(meta, s.availableModels[i], s.currentModel, render)));
    var r := [SelectionHeading] + entries + [SelectionLegend];
    assert forall i :: 0 <= i < |entries| ==> r[i + 1] == entries[i];
    r
  }

  /** get_model_selection_info: the parts joined; as with the status, the except branch is not reached. */
  function GetModelSelectionInfo(meta: Metadata, s: AppState, render: PyVal -> string): (r: string)
    ensures StartsWith(r, SelectionHeading)
    ensures EndsWith(r, SelectionLegend)
  {
    var parts := SelectionParts(meta, s, render);
    JoinBounds(LineSep, parts);
    Join(LineSep, parts)
  }

  /** Some entry is marked current exactly when the current model is available. */
  lemma CurrentMarkedIffAvailable(meta: Metadata, s: AppState, render: PyVal -> string)
    ensures (exists i :: 0 <= i < |s.availableModels| && EntryOf(meta, s.availableModels[i], s.currentModel, render).isCurrent)
      <==> s.currentModel.Some? && s.currentModel.value in s.availableModels
  {
    if s.currentModel.Some? && s.currentModel.value in s.availableModels {
      var i :| 0 <= i < |s.availableModels| && s.availableModels[i] == s.currentModel.value;
      assert EntryOf(meta, s.availableModels[i], s.currentModel, render).isCurrent;
    }
  }

  /** The starred entries are exactly the available models get_recommended_models lists. */
  lemma StarsMatchRecommendations(meta: Metadata, available: seq<string>, m: string, current: Option<string>,
                                  render: PyVal -> string)
    requires UniqueNames(meta) && m in available
    ensures EntryOf(meta, m, current, render).isRecommended <==> m in RecommendedModels(meta, available)
  {
    if m in RecommendedModels(meta, available) {
      var i :| 0 <= i < |meta| && meta[i].0 == m && Recommended(meta[i].1);
      ModelInfoAt(meta, i);
    }
    if ModelInfo(meta, m).Some? && Recommended(ModelInfo(meta, m).value) {
      var i :| 0 <= i < |meta| && meta[i] == (m, ModelInfo(meta, m).value);
      RecommendedComplete(meta, available, i);
    }
  }
}

=== FILE: monitoring_middleware.dfy ===
/**
 * The monitoring middleware: the per-thread request context, the two
 * decorators monitor_performance and track_metrics, and the RAG metrics
 * tracker's tag buckets. The wrapped function is represented by its outcome,
 * the elapsed time by a parameter and the clock by `now`.
 */
module MonitoringMiddleware {
  import opened PyCore
  import opened PyValue
  import opened Metrics
  import QueryCache

  /** dict.update / {**a, **b}: keys of `over` win. */
  function Merge(base: Tags, over: Tags): (r: Tags)
    ensures r.Keys == base.Keys + over.Keys
    ensures forall k :: k in over ==> r[k] == over[k]
    ensures forall k :: k in base && k !in over ==> r[k] == base[k]
  {
    base + over
  }

  /** Updating with a and then with b is updating once with a merged with b. */
  lemma MergeAssociative(c: Tags, a: Tags, b: Tags)
    ensures Merge(Merge(c, a), b) == Merge(c, Merge(a, b))
  {
    var lhs := Merge(Merge(c, a), b);
    var rhs := Merge(c, Merge(a, b));
    assert lhs.Keys == rhs.Keys;
    forall k | k in lhs.Keys
      ensures lhs[k] == rhs[k]
    {
      if k in b {
      } else if k in a {
      }
    }
  }

  // ---------------------------------------------------------------------
  // Request context (one thread's view)
  // ---------------------------------------------------------------------

  /** The thread-local context; a thread that never set one reads as empty. */
  datatype RequestContext = NoContext | Context(values: Tags)

  /** set_request_context: create the map if missing, then merge (later keys win). */
  function SetRequestContext(c: RequestContext, update: Tags): (r: RequestContext)
    ensures r.Context?
    ensures r.values == Merge(GetRequestContext(c), update)
  {
    match c
    case NoContext => Context(map[] + update)
    case Context(v) => Context(v + update)
  }

  /** get_request_context: a copy of the map, or {} when none was ever set. */
  function GetRequestContext(c: RequestContext): (r: Tags)
    ensures c.NoContext? ==> r == map[]
    ensures c.Context? ==> r == c.values
  {
    match c
    case NoContext => map[]
    case Context(v) => v
  }

  /** clear_request_context: empties an existing map and creates none. */
  function ClearRequestContext(c: RequestContext): (r: RequestContext)
    ensures GetRequestContext(r) == map[]
    ensures r.Context? <==> c.Context?
  {
    match c
    case NoContext => NoContext
    case Context(_) => Context(map[])
  }

  /** Two successive set calls read back as one call with the merged update. */
  lemma SetTwice(c: RequestContext, a: Tags, b: Tags)
    ensures GetRequestContext(SetRequestContext(SetRequestContext(c, a), b))
         == Merge(GetRequestContext(c), Merge(a, b))
  {
    MergeAssociative(GetRequestContext(c), a, b);
  }

  /** After clearing, a set call reads back exactly its own update. */
  lemma ClearThenSet(c: RequestContext, update: Tags)
    ensures GetRequestContext(SetRequestContext(ClearRequestContext(c), update)) == update
  {
    var cleared := ClearRequestContext(c);
    assert GetRequestContext(cleared) == map[];
    assert Merge(map[], update) == update;
  }

  // ---------------------------------------------------------------------
  // monitor_performance
  // ---------------------------------------------------------------------

  /** `metric_name or f"{module}.{func}"`: an empty (or absent) name falls back. */
  function MetricName(metricName: string, moduleName: string, func: string): (r: string)
    ensures metricName != "" ==> r == metricName
    ensures metricName == "" ==> r == moduleName + "." + func
  {
    if metricName != "" then metricName else moduleName + "." + func
  }

  /** {'function': f, 'module': m, **context, **tags}. */
  function AllTags(func: string, moduleName: string, context: Tags, tags: Tags): (r: Tags)
    ensures "function" in r && "module" in r
    ensures forall k :: k in tags ==> k in r && r[k] == tags[k]
    ensures forall k :: k in context && k !in tags ==> k in r && r[k] == context[k]
    ensures "function" !in context && "function" !in tags ==> r["function"] == func
    ensures "module" !in context && "module" !in tags ==> r["module"] == moduleName
  {
    Merge(Merge(map["function" := func, "module" := moduleName], context), tags)
  }

  /** An explicit tag beats a context value, which beats the built-in tags. */
  lemma TagPrecedence(func: string, moduleName: string, context: Tags, tags: Tags)
    requires "function" in context && "function" !in tags && "module" in tags
    ensures AllTags(func, moduleName, context, tags)["function"] == context["function"]
    ensures AllTags(func, moduleName, context, tags)["module"] == tags["module"]
  {
  }

  /**
   * One call through the monitor_performance wrapper. On success the value
   * is returned unchanged after recording name_duration and
   * name_success_total; on failure name_duration and name_error_total are
   * recorded under the tags extended with error_type (the exception's class
   * name, carried by `Raised`) and the exception propagates unchanged.
   */
  function MonitorPerformance(
    m: Metrics, metricName: string, moduleName: string, func: string,
    context: RequestContext, tags: Tags, outcome: Outcome, elapsed: real, now: real
  ): (res: (Outcome, Metrics))
    ensures res.0 == outcome
    ensures var name := MetricName(metricName, moduleName, func);
      var prev := if name + "_duration" in m.histograms then m.histograms[name + "_duration"] else [];
      name + "_duration" in res.1.histograms
      && (|prev| < HistogramCapacity ==> res.1.histograms[name + "_duration"] == prev + [elapsed])
    ensures var name := MetricName(metricName, moduleName, func);
      var counter := if outcome.Returned? then name + "_success_total" else name + "_error_total";
      counter in res.1.counters
      && res.1.counters[counter] == (if counter in m.counters then m.counters[counter] else 0.0) + 1.0
    ensures var name := MetricName(metricName, moduleName, func);
      var counter := if outcome.Returned? then name + "_success_total" else name + "_error_total";
      res.1.counters.Keys == m.counters.Keys + {counter}
      && forall c :: c in m.counters && c != counter ==> res.1.counters[c] == m.counters[c]
    ensures Valid(m) ==> Valid(res.1)
  {
    var name := MetricName(metricName, moduleName, func);
    var allTags := AllTags(func, moduleName, GetRequestContext(context), tags);
    match outcome
    case Returned(_) =>
      var m1 := RecordHistogram(m, name + "_duration", elapsed, allTags, now);
      (outcome, IncrementCounter(m1, name + "_success_total", allTags, now))
    case Raised(errorType) =>
      var errorTags := allTags["error_type" := errorType];
      var m1 := RecordHistogram(m, name + "_duration", elapsed, errorTags, now);
      (outcome, IncrementCounter(m1, name + "_error_total", errorTags, now))
  }

  // ---------------------------------------------------------------------
  // track_metrics
  // ---------------------------------------------------------------------

  /** The metrics recorded for a returned value: a gauge point and a histogram value, numbers only. */
  function RecordResult(m: Metrics, gaugeName: string, histogramName: string, v: PyVal, tags: Tags, now: real): (r: Metrics)
    ensures !IsNumber(v) ==> r == m
    ensures r.counters == m.counters
    ensures histogramName == "" ==> r.histograms == m.histograms
    ensures IsNumber(v) && histogramName != "" ==> histogramName in r.histograms
    ensures IsNumber(v) && gaugeName != "" ==> gaugeName in r.series
    ensures Valid(m) ==> Valid(r)
  {
    if !IsNumber(v) then m
    else
      var m1 := if gaugeName != "" then RecordMetric(m, gaugeName, AsReal(v), tags, now) else m;
      if histogramName != "" then RecordHistogram(m1, histogramName, AsReal(v), tags, now) else m1
  }

  /**
   * One call through the track_metrics wrapper. The counter is incremented
   * before the function runs, so a failing call leaves both counter_name and
   * counter_name_error incremented; the outcome always passes through.
   */
  function TrackMetrics(
    m: Metrics, counterName: string, gaugeName: string, histogramName: string,
    context: RequestContext, tags: Tags, outcome: Outcome, now: real
  ): (res: (Outcome, Metrics))
    ensures res.0 == outcome
    ensures counterName != "" ==>
      (counterName in res.1.counters
       && res.1.counters[counterName] == (if counterName in m.counters then m.counters[counterName] else 0.0) + 1.0)
    ensures var errorCounter := counterName + "_error";
      counterName != "" && outcome.Raised? ==>
        (errorCounter in res.1.counters
         && res.1.counters[errorCounter] == (if errorCounter in m.counters then m.counters[errorCounter] else 0.0) + 1.0)
    ensures counterName == "" ==> res.1.counters == m.counters
    ensures (outcome.Raised? || !IsNumber(outcome.value)) ==> res.1.histograms == m.histograms
    ensures outcome.Returned? && IsNumber(outcome.value) && histogramName != "" ==> histogramName in res.1.histograms
    ensures Valid(m) ==> Valid(res.1)
  {
    var allTags := Merge(GetRequestContext(context), tags);
    var m1 := if counterName != "" then IncrementCounter(m, counterName, allTags, now) else m;
    match outcome
    case Returned(v) =>
      (outcome, RecordResult(m1, gaugeName, histogramName, v, allTags, now))
    case Raised(_) =>
      if counterName != "" then
        assert |counterName + "_error"| != |counterName|;
        (outcome, IncrementCounter(m1, counterName + "_error", allTags["status" := "error"], now))
      else (outcome, m1)
  }

  // ---------------------------------------------------------------------
  // RAG metrics tracker
  // ---------------------------------------------------------------------

  /** RAGMetricsTracker._get_length_bucket, as tag text. */
  function LengthBucketName(length: int): (r: string)
    ensures r == "short" <==> length <= 50
    ensures r == "very_long" <==> length > 500
  {
    match QueryCache.LengthBucketOf(length)
    case Short => "short"
    case Medium => "medium"
    case Long => "long"
    case VeryLong => "very_long"
  }

  datatype CountBucket = Small | MediumCount | Large | VeryLarge

  function CountRank(b: CountBucket): nat
  {
    match b
    case Small => 0
    case MediumCount => 1
    case Large => 2
    case VeryLarge => 3
  }

  /** RAGMetricsTracker._get_count_bucket: <=5, <=20, <=100, beyond. */
  function CountBucketOf(count: int): (b: CountBucket)
    ensures b == Small <==> count <= 5
    ensures b == MediumCount <==> 5 < count <= 20
    ensures b == Large <==> 20 < count <= 100
    ensures b == VeryLarge <==> count > 100
  {
    if count <= 5 then Small else if count <= 20 then MediumCount else if count <= 100 then Large else VeryLarge
  }

  function CountBucketName(b: CountBucket): string
  {
    match b
    case Small => "small"
    case MediumCount => "medium"
    case Large => "large"
    case VeryLarge => "very_large"
  }

  /** More vectors never land in a smaller bucket. */
  lemma CountBucketMonotone(a: int, b: int)
    requires a <= b
    ensures CountRank(CountBucketOf(a)) <= CountRank(CountBucketOf(b))
  {
  }

  /**
   * track_vector_operation: rag_vector_<op>_count, _time and _total, tagged
   * with the operation and the count bucket (caller tags win).
   */
  function TrackVectorOperation(m: Metrics, operation: string, count: int, time: real, tags: Tags, now: real): (r: Metrics)
    ensures "rag_vector_" + operation + "_count" in r.series
    ensures "rag_vector_" + operation + "_time" in r.histograms
    ensures var c := "rag_vector_" + operation + "_total";
      c in r.counters && r.counters[c] == (if c in m.counters then m.counters[c] else 0.0) + 1.0
    ensures Valid(m) ==> Valid(r)
  {
    var base := Merge(map["operation" := "vector_" + operation,
                          "vector_count_bucket" := CountBucketName(CountBucketOf(count))], tags);
    var m1 := RecordMetric(m, "rag_vector_" + operation + "_count", count as real, base, now);
    var m2 := RecordHistogram(m1, "rag_vector_" + operation + "_time", time, base, now);
    IncrementCounter(m2, "rag_vector_" + operation + "_total", base, now)
  }

  /** track_document_processing: documents processed, processing time, and one more processing run. */
  function TrackDocumentProcessing(m: Metrics, count: int, time: real, tags: Tags, now: real): (r: Metrics)
    ensures "rag_documents_processed" in r.series
    ensures "rag_document_processing_time" in r.histograms
    ensures var c := "rag_document_processing_total";
      c in r.counters && r.counters[c] == (if c in m.counters then m.counters[c] else 0.0) + 1.0
    ensures Valid(m) ==> Valid(r)
  {
    var base := Merge(map["operation" := "document_processing"], tags);
    var m1 := RecordMetric(m, "rag_documents_processed", count as real, base, now);
    var m2 := RecordHistogram(m1, "rag_document_processing_time", time, base, now);
    IncrementCounter(m2, "rag_document_processing_total", base, now)
  }
}

=== FILE: plugin_manager.dfy ===
/**
 * PluginManager: the plugin lifecycle (load, start, stop, unload), the
 * dependency check, and the extension-point callback lists. What a
 * plugin's own code does (importing it, initialize/start/stop/cleanup, a
 * callback) is passed in as the outcome of that call.
 */
module PluginManager {
  import opened PyCore
  import opened PyValue

  datatype PluginStatus = Unloaded | Loading | Loaded | Active | Error | Disabled

  datatype PluginInfo = PluginInfo(status: PluginStatus, errorMessage: string, dependencies: seq<string>)

  /** What happened when load_plugin imported, instantiated and initialised the plugin. */
  datatype LoadAttempt =
    | ImportFailed         // no module
    | InvalidClass         // no Plugin attribute, or not a Plugin subclass
    | InitFalse            // initialize() returned False
    | Initialized          // initialize() returned True
    | LoadRaised(msg: string)

  /** The result of a plugin hook that returns a bool: True, False or an exception. */
  datatype Answer = Yes | No | Raises(msg: string)

  datatype Manager = Manager(
    infos: map<string, PluginInfo>,
    loaded: set<string>,
    extensionPoints: map<string, seq<nat>>)

  function NewManager(): (m: Manager)
    ensures m.infos == map[] && m.loaded == {} && m.extensionPoints == map[]
  {
    Manager(map[], {}, map[])
  }

  /** Every loaded plugin has an info record. */
  ghost predicate Valid(m: Manager)
  {
    m.loaded <= m.infos.Keys
  }

  /** A discovered plugin's info is (re)stored, fresh and UNLOADED. */
  function Discover(m: Manager, name: string, dependencies: seq<string>): (r: Manager)
    ensures name in r.infos && r.infos[name] == PluginInfo(Unloaded, "", dependencies)
    ensures r.loaded == m.loaded && r.extensionPoints == m.extensionPoints
    ensures Valid(m) ==> Valid(r)
  {
    m.(infos := m.infos[name := PluginInfo(Unloaded, "", dependencies)])
  }

  function SetStatus(m: Manager, name: string, status: PluginStatus, message: string): (r: Manager)
    requires name in m.infos
    ensures r.infos.Keys == m.infos.Keys && r.infos[name].status == status
    ensures r.infos[name].dependencies == m.infos[name].dependencies
    ensures forall n :: n in m.infos && n != name ==> r.infos[n] == m.infos[n]
    ensures r.loaded == m.loaded && r.extensionPoints == m.extensionPoints
  {
    m.(infos := m.infos[name := m.infos[name].(status := status, errorMessage := message)])
  }

  /** _check_dependencies: each dependency is known and LOADED or ACTIVE, checked in order. */
  function DependenciesMet(infos: map<string, PluginInfo>, deps: seq<string>): (b: bool)
    ensures b <==> forall i :: 0 <= i < |deps| ==>
      deps[i] in infos && infos[deps[i]].status in {Loaded, Active}
  {
    if |deps| == 0 then true
    else if deps[0] !in infos then false
    else if infos[deps[0]].status !in {Loaded, Active} then false
    else
      assert forall i :: 1 <= i < |deps| ==> deps[i] == deps[1..][i - 1];
      DependenciesMet(infos, deps[1..])
  }

  /**
   * load_plugin: an already loaded plugin succeeds with no change; without
   * discovered info it fails; otherwise the plugin is marked LOADING, its
   * dependencies are checked (against that marking), and the attempt's
   * outcome decides between LOADED (and loaded) and ERROR.
   */
  function Load(m: Manager, name: string, attempt: LoadAttempt): (res: (bool, Manager))
    ensures name in m.loaded ==> res == (true, m)
    ensures name !in m.loaded && name !in m.infos ==> res == (false, m)
    ensures res.0 <==> name in res.1.loaded
    ensures res.1.infos.Keys == m.infos.Keys
    ensures res.0 && name !in m.loaded ==> name in m.infos && res.1.infos[name].status == Loaded
    ensures !res.0 && name in m.infos ==> res.1.infos[name].status == Error
    ensures res.1.loaded == (if res.0 then m.loaded + {name} else m.loaded)
    ensures forall n :: n in m.infos && n != name ==> res.1.infos[n] == m.infos[n]
    ensures Valid(m) ==> Valid(res.1)
  {
    if name in m.loaded then (true, m)
    else if name !in m.infos then (false, m)
    else
      var loading := SetStatus(m, name, Loading, m.infos[name].errorMessage);
      if !DependenciesMet(loading.infos, m.infos[name].dependencies) then
        (false, SetStatus(m, name, Error, "依赖检查失败"))
      else
        match attempt
        case ImportFailed => (false, SetStatus(m, name, Error, "模块导入失败"))
        case InvalidClass => (false, SetStatus(m, name, Error, "无效的插件类"))
        case InitFalse => (false, SetStatus(m, name, Error, "插件初始化失败"))
        case LoadRaised(msg) => (false, SetStatus(m, name, Error, msg))
        case Initialized =>
          var r := SetStatus(m, name, Loaded, m.infos[name].errorMessage);
          (true, r.(loaded := r.loaded + {name}))
  }

  /** A plugin that lists itself as a dependency never loads: it is LOADING while checked. */
  lemma SelfDependencyNeverLoads(m: Manager, name: string, attempt: LoadAttempt)
    requires name !in m.loaded && name in m.infos && name in m.infos[name].dependencies
    ensures !Load(m, name, attempt).0
  {
    var deps := m.infos[name].dependencies;
    var loading := SetStatus(m, name, Loading, m.infos[name].errorMessage);
    var i :| 0 <= i < |deps| && deps[i] == name;
    assert loading.infos[deps[i]].status == Loading;
  }

  /**
   * start_plugin: not loaded gives false; already ACTIVE gives true without
   * calling start(); start() True makes it ACTIVE, False makes it ERROR
   * (still loaded); an exception gives false and changes nothing.
   */
  function Start(m: Manager, name: string, started: Answer): (res: (bool, Manager))
    ensures name !in m.loaded ==> res == (false, m)
    ensures name in m.loaded && name in m.infos && m.infos[name].status == Active ==> res == (true, m)
    ensures res.0 ==> name in res.1.infos && res.1.infos[name].status == Active
    ensures res.1.loaded == m.loaded && res.1.infos.Keys == m.infos.Keys
    ensures started.Raises? ==> res.1 == m
    ensures name in m.loaded && name in m.infos && m.infos[name].status != Active && started == No ==>
      !res.0 && res.1.infos[name].status == Error
    ensures forall n :: n in m.infos && n != name ==> res.1.infos[n] == m.infos[n]
  {
    if name !in m.loaded then (false, m)
    else if name !in m.infos then (false, m)
    else if m.infos[name].status == Active then (true, m)
    else
      match started
      case Yes => (true, SetStatus(m, name, Active, m.infos[name].errorMessage))
      case No => (false, SetStatus(m, name, Error, "插件启动失败"))
      case Raises(_) => (false, m)
  }

  /** stop_plugin: not loaded counts as stopped; stop() True makes it LOADED; otherwise false and no change. */
  function Stop(m: Manager, name: string, stopped: Answer): (res: (bool, Manager))
    ensures name !in m.loaded ==> res == (true, m)
    ensures name in m.loaded && stopped != Yes ==> res == (false, m)
    ensures res.1.loaded == m.loaded && res.1.infos.Keys == m.infos.Keys
    ensures name in m.loaded && name in m.infos && stopped == Yes ==>
      res.0 && res.1.infos[name].status == Loaded
    ensures forall n :: n in m.infos && n != name ==> res.1.infos[n] == m.infos[n]
  {
    if name !in m.loaded then (true, m)
    else if name !in m.infos then (false, m)
    else
      match stopped
      case Yes => (true, SetStatus(m, name, Loaded, m.infos[name].errorMessage))
      case _ => (false, m)
  }

  /**
   * unload_plugin: an ACTIVE plugin is stopped first (the result ignored),
   * then cleanup() runs; if it raises the call fails with the plugin still
   * loaded, otherwise the plugin is removed and marked UNLOADED.
   */
  function Unload(m: Manager, name: string, stopped: Answer, cleanupRaises: bool): (res: (bool, Manager))
    requires Valid(m)
    ensures name !in m.loaded ==> res == (true, m)
    ensures res.0 <==> name !in res.1.loaded
    ensures res.1.infos.Keys == m.infos.Keys
    ensures res.0 && name in m.loaded ==> res.1.infos[name].status == Unloaded
    ensures res.1.loaded == (if res.0 then m.loaded - {name} else m.loaded)
    ensures forall n :: n in m.infos && n != name ==> res.1.infos[n] == m.infos[n]
    ensures Valid(res.1)
  {
    if name !in m.loaded then (true, m)
    else
      var m1 := if m.infos[name].status == Active then Stop(m, name, stopped).1 else m;
      if cleanupRaises then (false, m1)
      else
        var r := SetStatus(m1, name, Unloaded, m1.infos[name].errorMessage);
        (true, r.(loaded := r.loaded - {name}))
  }

  /** A full cycle: load, start, unload leaves the plugin UNLOADED and not loaded. */
  lemma LoadStartUnload(m: Manager, name: string)
    requires Valid(m) && name in m.infos && name !in m.loaded
    requires DependenciesMet(m.infos, m.infos[name].dependencies) && name !in m.infos[name].dependencies
    ensures var m1 := Load(m, name, Initialized);
      var m2 := Start(m1.1, name, Yes);
      var m3 := Unload(m2.1, name, Yes, false);
      m1.0 && m2.0 && m3.0 && name !in m3.1.loaded && m3.1.infos[name].status == Unloaded
  {
    var deps := m.infos[name].dependencies;
    var loading := SetStatus(m, name, Loading, m.infos[name].errorMessage);
    forall i | 0 <= i < |deps|
      ensures deps[i] in loading.infos && loading.infos[deps[i]].status in {Loaded, Active}
    {
      assert deps[i] != name;
    }
  }

  /** get_active_plugins: exactly the names whose status is ACTIVE. */
  function ActivePlugins(m: Manager): (r: set<string>)
    ensures forall n :: n in r <==> n in m.infos && m.infos[n].status == Active
  {
    set n | n in m.infos && m.infos[n].status == Active
  }

  /** register_extension_point: append the callback, creating the list if needed. */
  function RegisterExtensionPoint(m: Manager, point: string, callback: nat): (r: Manager)
    ensures point in r.extensionPoints
    ensures r.extensionPoints[point] ==
      (if point in m.extensionPoints then m.extensionPoints[point] else []) + [callback]
    ensures forall p :: p in m.extensionPoints && p != point ==>
      p in r.extensionPoints && r.extensionPoints[p] == m.extensionPoints[p]
    ensures r.infos == m.infos && r.loaded == m.loaded
  {
    var existing := if point in m.extensionPoints then m.extensionPoints[point] else [];
    m.(extensionPoints := m.extensionPoints[point := existing + [callback]])
  }

  /** The callback returns instead of raising. */
  function Returning(run: nat -> Outcome): nat -> bool
  {
    (c: nat) => run(c).Returned?
  }

  /** The values of callbacks that all return, in order. */
  function ValuesOf(cs: seq<nat>, run: nat -> Outcome): (r: seq<PyVal>)
    requires forall i :: 0 <= i < |cs| ==> run(cs[i]).Returned?
    ensures |r| == |cs|
  {
    seq(|cs|, i requires 0 <= i < |cs| => run(cs[i]).value)
  }

  /** The returned values of the callbacks that did not raise, in order. */
  function Returns(callbacks: seq<nat>, run: nat -> Outcome): (r: seq<PyVal>)
    ensures |r| <= |callbacks|
    ensures r == ValuesOf(Filter(callbacks, Returning(run)), run)
    ensures (forall i :: 0 <= i < |callbacks| ==> run(callbacks[i]).Returned?) ==>
      |r| == |callbacks| && forall i :: 0 <= i < |r| ==> r[i] == run(callbacks[i]).value
  {
    if |callbacks| == 0 then []
    else
      var rest := Returns(callbacks[1..], run);
      assert forall i :: 1 <= i < |callbacks| ==> callbacks[i] == callbacks[1..][i - 1];
      match run(callbacks[0])
      case Returned(v) => [v] + rest
      case Raised(_) => rest
  }

  lemma {:induction false} ReturnsAppend(a: seq<nat>, b: seq<nat>, run: nat -> Outcome)
    ensures Returns(a + b, run) == Returns(a, run) + Returns(b, run)
  {
    if |a| == 0 {
      assert a + b == b;
    } else {
      assert (a + b)[0] == a[0];
      assert (a + b)[1..] == a[1..] + b;
      ReturnsAppend(a[1..], b, run);
    }
  }

  /** The callbacks registered for a point, none for an unknown name. */
  function Callbacks(m: Manager, point: string): seq<nat>
  {
    if point in m.extensionPoints then m.extensionPoints[point] else []
  }

  /** call_extension_point: callbacks in registration order, failures skipped, [] for unknown names. */
  function CallExtensionPoint(m: Manager, point: string, run: nat -> Outcome): (r: seq<PyVal>)
    ensures point !in m.extensionPoints ==> r == []
    ensures point in m.extensionPoints ==> |r| <= |m.extensionPoints[point]|
    ensures r == ValuesOf(Filter(Callbacks(m, point), Returning(run)), run)
  {
    if point in m.extensionPoints then Returns(m.extensionPoints[point], run) else []
  }

  /** A newly registered callback's value comes last. */
  lemma RegisteredCallbackRunsLast(m: Manager, point: string, callback: nat, run: nat -> Outcome)
    requires run(callback).Returned?
    ensures CallExtensionPoint(RegisterExtensionPoint(m, point, callback), point, run)
         == CallExtensionPoint(m, point, run) + [run(callback).value]
  {
    var existing := if point in m.extensionPoints then m.extensionPoints[point] else [];
    ReturnsAppend(existing, [callback], run);
    assert Returns([callback], run) == [run(callback).value];
  }
}

=== FILE: production_config.dfy ===
/**
 * ProductionConfigManager: five configuration sections with dataclass
 * defaults, overridden from environment variables (with type coercion)
 * and then from per-section JSON files (only for keys the section already
 * has), the validation rules, the security headers and the production
 * hardening switch. A section is a field-name -> value map, since a file
 * may store any JSON value in any existing field. File contents are given
 * as already parsed values; reading and writing files is not modelled.
 */
module ProductionConfig {
  import opened PyCore
  import opened PyValue

  datatype Section = Security | Performance | Monitoring | Database | CacheSection

  type Fields = map<string, PyVal>

  datatype Config = Config(security: Fields, performance: Fields, monitoring: Fields, database: Fields, cache: Fields)

  function Get(c: Config, s: Section): Fields
  {
    match s
    case Security => c.security
    case Performance => c.performance
    case Monitoring => c.monitoring
    case Database => c.database
    case CacheSection => c.cache
  }

  function With(c: Config, s: Section, f: Fields): (r: Config)
    ensures Get(r, s) == f
    ensures forall t :: t != s ==> Get(r, t) == Get(c, t)
  {
    match s
    case Security => c.(security := f)
    case Performance => c.(performance := f)
    case Monitoring => c.(monitoring := f)
    case Database => c.(database := f)
    case CacheSection => c.(cache := f)
  }

  /** The value of one field, None standing for a field the section lacks. */
  function Field(c: Config, s: Section, name: string): PyVal
  {
    DictGet(Get(c, s), name, PNone)
  }

  // ---------------------------------------------------------------------
  // Defaults
  // ---------------------------------------------------------------------

  const DefaultSecurity: Fields := map[
    "api_key_encryption" := PBool(true),
    "rate_limiting_enabled" := PBool(true),
    "cors_origins" := PList([PStr("*")]),
    "max_file_size_mb" := PInt(50),
    "allowed_file_types" := PList([PStr(".pdf"), PStr(".txt"), PStr(".docx"), PStr(".md")]),
    "session_timeout" := PInt(3600),
    "csrf_protection" := PBool(true),
    "secure_headers" := PBool(true)
  ]

  const DefaultPerformance: Fields := map[
    "max_concurrent_requests" := PInt(100),
    "request_timeout" := PInt(300),
    "cache_size_mb" := PInt(512),
    "thread_pool_size" := PInt(8),
    "enable_compression" := PBool(true),
    "optimize_embeddings" := PBool(true),
    "batch_processing_size" := PInt(32),
    "memory_limit_mb" := PInt(2048),
    "cpu_cores_limit" := PInt(4)
  ]

  const DefaultAlertThresholds: Fields := map[
    "cpu_usage" := PFloat(80.0),
    "memory_usage" := PFloat(85.0),
    "error_rate" := PFloat(5.0),
    "response_time" := PFloat(2.0)
  ]

  const DefaultMonitoring: Fields := map[
    "metrics_enabled" := PBool(true),
    "health_check_interval" := PInt(60),
    "log_level" := PStr("INFO"),
    "error_reporting" := PBool(true),
    "performance_tracking" := PBool(true),
    "retention_days" := PInt(30),
    "alert_thresholds" := PDict(DefaultAlertThresholds)
  ]

  const DefaultDatabase: Fields := map[
    "connection_pool_size" := PInt(20),
    "connection_timeout" := PInt(30),
    "retry_attempts" := PInt(3),
    "backup_enabled" := PBool(true),
    "backup_interval_hours" := PInt(24),
    "vacuum_enabled" := PBool(true),
    "vacuum_interval_hours" := PInt(168)
  ]

  const DefaultCache: Fields := map[
    "redis_url" := PNone,
    "default_ttl" := PInt(3600),
    "max_cache_size_mb" := PInt(256),
    "eviction_policy" := PStr("LRU"),
    "compression_enabled" := PBool(true),
    "distributed" := PBool(false)
  ]

  /** The dataclass defaults, including the list and dict fields filled in by __post_init__. */
  const Defaults: Config := Config(DefaultSecurity, DefaultPerformance, DefaultMonitoring, DefaultDatabase, DefaultCache)

  // ---------------------------------------------------------------------
  // Environment overrides
  // ---------------------------------------------------------------------

  datatype VarKind = BoolVar | IntVar | StrVar

  datatype EnvMapping = EnvMapping(variable: string, section: Section, field: string, kind: VarKind)

  /** The environment variables read, in the order they are applied. */
  const EnvMappings: seq<EnvMapping> := [
    EnvMapping("SECURITY_API_KEY_ENCRYPTION", Security, "api_key_encryption", BoolVar),
    EnvMapping("SECURITY_RATE_LIMITING", Security, "rate_limiting_enabled", BoolVar),
    EnvMapping("SECURITY_MAX_FILE_SIZE", Security, "max_file_size_mb", IntVar),
    EnvMapping("SECURITY_SESSION_TIMEOUT", Security, "session_timeout", IntVar),
    EnvMapping("PERFORMANCE_MAX_REQUESTS", Performance, "max_concurrent_requests", IntVar),
    EnvMapping("PERFORMANCE_REQUEST_TIMEOUT", Performance, "request_timeout", IntVar),
    EnvMapping("PERFORMANCE_CACHE_SIZE", Performance, "cache_size_mb", IntVar),
    EnvMapping("PERFORMANCE_THREAD_POOL", Performance, "thread_pool_size", IntVar),
    EnvMapping("PERFORMANCE_MEMORY_LIMIT", Performance, "memory_limit_mb", IntVar),
    EnvMapping("MONITORING_LOG_LEVEL", Monitoring, "log_level", StrVar),
    EnvMapping("MONITORING_HEALTH_INTERVAL", Monitoring, "health_check_interval", IntVar),
    EnvMapping("MONITORING_RETENTION_DAYS", Monitoring, "retention_days", IntVar),
    EnvMapping("DATABASE_POOL_SIZE", Database, "connection_pool_size", IntVar),
    EnvMapping("DATABASE_TIMEOUT", Database, "connection_timeout", IntVar),
    EnvMapping("DATABASE_BACKUP_INTERVAL", Database, "backup_interval_hours", IntVar),
    EnvMapping("CACHE_REDIS_URL", CacheSection, "redis_url", StrVar),
    EnvMapping("CACHE_DEFAULT_TTL", CacheSection, "default_ttl", IntVar),
    EnvMapping("CACHE_MAX_SIZE", CacheSection, "max_cache_size_mb", IntVar)
  ]

  /** The coerced value of an environment text, None where int() raises ValueError. */
  function Coerce(kind: VarKind, text: string): (r: Option<PyVal>)
    ensures kind == BoolVar ==> r == Some(PBool(TruthyText(text)))
    ensures kind == IntVar ==> (r.Some? <==> ParseInt(text).Some?)
    ensures kind == IntVar && r.Some? ==> r.value == PInt(ParseInt(text).value)
    ensures kind == StrVar ==> r == Some(PStr(text))
  {
    match kind
    case BoolVar => Some(PBool(TruthyText(text)))
    case IntVar => (var n := ParseInt(text); if n.Some? then Some(PInt(n.value)) else None)
    case StrVar => Some(PStr(text))
  }

  /** One mapping: a present variable whose text coerces sets the field; otherwise nothing changes. */
  function ApplyEnv(c: Config, m: EnvMapping, env: map<string, string>): (r: Config)
    ensures m.variable !in env ==> r == c
    ensures m.variable in env && Coerce(m.kind, env[m.variable]).None? ==> r == c
    ensures m.variable in env && Coerce(m.kind, env[m.variable]).Some? ==>
      Get(r, m.section) == Get(c, m.section)[m.field := Coerce(m.kind, env[m.variable]).value]
    ensures forall t :: t != m.section ==> Get(r, t) == Get(c, t)
  {
    if m.variable !in env then c
    else
      var v := Coerce(m.kind, env[m.variable]);
      if v.None? then c
      else With(c, m.section, Get(c, m.section)[m.field := v.value])
  }

  /** _load_from_environment over a list of mappings, applied in order. */
  function LoadFromEnvironment(c: Config, mappings: seq<EnvMapping>, env: map<string, string>): (r: Config)
    ensures forall s :: (forall i :: 0 <= i < |mappings| ==> mappings[i].section != s) ==> Get(r, s) == Get(c, s)
    decreases |mappings|
  {
    if |mappings| == 0 then c
    else LoadFromEnvironment(ApplyEnv(c, mappings[0], env), mappings[1..], env)
  }

  /** Each mapping writes only a field the section already has. */
  lemma EnvMappingsTargetExistingFields()
    ensures forall i :: 0 <= i < |EnvMappings| ==> EnvMappings[i].field in Get(Defaults, EnvMappings[i].section)
  {
    forall i | 0 <= i < |EnvMappings|
      ensures EnvMappings[i].field in Get(Defaults, EnvMappings[i].section)
    {
      if i < 4 {
        assert EnvMappings[i].section == Security;
      } else if i < 9 {
        assert EnvMappings[i].section == Performance;
      } else if i < 12 {
        assert EnvMappings[i].section == Monitoring;
      } else if i < 15 {
        assert EnvMappings[i].section == Database;
      } else {
        assert EnvMappings[i].section == CacheSection;
      }
    }
  }

  /** With none of the variables set, the environment changes nothing. */
  lemma {:induction false} EmptyEnvironmentKeepsConfig(c: Config, mappings: seq<EnvMapping>)
    ensures LoadFromEnvironment(c, mappings, map[]) == c
    decreases |mappings|
  {
    if |mappings| > 0 {
      EmptyEnvironmentKeepsConfig(c, mappings[1..]);
    }
  }

  /** A variable that int() rejects leaves the configuration as it was. */
  lemma BadIntegerIgnored(c: Config, m: EnvMapping, env: map<string, string>)
    requires m.kind == IntVar && m.variable in env && ParseInt(env[m.variable]).None?
    ensures ApplyEnv(c, m, env) == c
  {
  }

  // ---------------------------------------------------------------------
  // Files
  // ---------------------------------------------------------------------

  /**
   * One section file: a JSON object updates exactly the keys the section
   * already has; any other content (data.items() raising) changes nothing.
   */
  function ApplyFile(fields: Fields, data: PyVal): (r: Fields)
    ensures r.Keys == fields.Keys
    ensures data.PDict? ==> forall k :: k in r ==> r[k] == (if k in data.fields then data.fields[k] else fields[k])
    ensures !data.PDict? ==> r == fields
  {
    if data.PDict? then map k | k in fields :: if k in data.fields then data.fields[k] else fields[k]
    else fields
  }

  /**
   * _load_from_files: the parsed content of each section's file, None for a
   * file that is absent or cannot be read or parsed.
   */
  function LoadFromFiles(c: Config, files: Section -> Option<PyVal>): (r: Config)
    ensures forall s :: Get(r, s).Keys == Get(c, s).Keys
    ensures forall s :: files(s).None? ==> Get(r, s) == Get(c, s)
    ensures forall s :: files(s).Some? ==> Get(r, s) == ApplyFile(Get(c, s), files(s).value)
  {
    var f := (s: Section) => if files(s).Some? then ApplyFile(Get(c, s), files(s).value) else Get(c, s);
    Config(f(Security), f(Performance), f(Monitoring), f(Database), f(CacheSection))
  }

  /** ProductionConfigManager(): defaults, then the environment, then the files. */
  function NewConfig(env: map<string, string>, files: Section -> Option<PyVal>): (c: Config)
    ensures forall s :: Get(c, s).Keys == Get(Defaults, s).Keys
  {
    var fromEnv := LoadFromEnvironment(Defaults, EnvMappings, env);
    EnvMappingsTargetExistingFields();
    EnvKeepsKeys(Defaults, EnvMappings, env);
    LoadFromFiles(fromEnv, files)
  }

  lemma {:induction false} EnvKeepsKeys(c: Config, mappings: seq<EnvMapping>, env: map<string, string>)
    requires forall i :: 0 <= i < |mappings| ==> mappings[i].field in Get(c, mappings[i].section)
    ensures forall s :: Get(LoadFromEnvironment(c, mappings, env), s).Keys == Get(c, s).Keys
    decreases |mappings|
  {
    if |mappings| > 0 {
      var c1 := ApplyEnv(c, mappings[0], env);
      assert forall s :: Get(c1, s).Keys == Get(c, s).Keys;
      EnvKeepsKeys(c1, mappings[1..], env);
    }
  }

  /** Whatever the environment and the files say, no section gains a field. */
  lemma FilesNeverAddFields(env: map<string, string>, files: Section -> Option<PyVal>)
    ensures forall s :: Get(NewConfig(env, files), s).Keys == Get(Defaults, s).Keys
  {
  }

  // ---------------------------------------------------------------------
  // validate_config
  // ---------------------------------------------------------------------

  datatype Rule =
    | FileSizeRule | SessionTimeoutRule | MaxRequestsRule | ThreadPoolRule
    | MemoryLimitRule | LogLevelRule | PoolSizeRule | DefaultTtlRule

  const LogLevels: seq<PyVal> := [PStr("DEBUG"), PStr("INFO"), PStr("WARNING"), PStr("ERROR"), PStr("CRITICAL")]

  /** The field each positivity rule constrains. */
  function RuleField(r: Rule): (sf: (Section, string))
    requires r != LogLevelRule
  {
    match r
    case FileSizeRule => (Security, "max_file_size_mb")
    case SessionTimeoutRule => (Security, "session_timeout")
    case MaxRequestsRule => (Performance, "max_concurrent_requests")
    case ThreadPoolRule => (Performance, "thread_pool_size")
    case MemoryLimitRule => (Performance, "memory_limit_mb")
    case PoolSizeRule => (Database, "connection_pool_size")
    case DefaultTtlRule => (CacheSection, "default_ttl")
  }

  function RuleValue(c: Config, r: Rule): PyVal
    requires r != LogLevelRule
  {
    Field(c, RuleField(r).0, RuleField(r).1)
  }

  /** A rule is broken: a field not positive, or a log level outside the five names. */
  predicate Violated(c: Config, r: Rule)
  {
    if r == LogLevelRule then Field(c, Monitoring, "log_level") !in LogLevels
    else IsNumber(RuleValue(c, r)) && AsReal(RuleValue(c, r)) <= 0.0
  }

  /** The rules in the order validate_config checks them. */
  const AllRules: seq<Rule> := [FileSizeRule, SessionTimeoutRule, MaxRequestsRule, ThreadPoolRule,
                                MemoryLimitRule, LogLevelRule, PoolSizeRule, DefaultTtlRule]

  lemma AllRulesListed(r: Rule)
    ensures r in AllRules
  {
  }

  /** `<=` with 0 is defined for every field a positivity rule reads. */
  predicate Comparable(c: Config, rules: seq<Rule>)
  {
    forall i :: 0 <= i < |rules| && rules[i] != LogLevelRule ==> IsNumber(RuleValue(c, rules[i]))
  }

  /** The broken rules among `rules`, in order. */
  function CheckAll(c: Config, rules: seq<Rule>): (out: seq<Rule>)
    ensures forall r :: r in out <==> r in rules && Violated(c, r)
    ensures IsSubseq(out, rules)
    ensures (forall i, j :: 0 <= i < j < |rules| ==> rules[i] != rules[j]) ==>
      forall i, j :: 0 <= i < j < |out| ==> out[i] != out[j]
  {
    if |rules| == 0 then []
    else
      var rest := CheckAll(c, rules[1..]);
      assert forall r :: r in rules <==> r == rules[0] || r in rules[1..];
      if Violated(c, rules[0]) then [rules[0]] + rest else rest
  }

  /** No rule of the list broken: nothing reported. */
  lemma {:induction false} CheckAllNone(c: Config, rules: seq<Rule>)
    requires forall i :: 0 <= i < |rules| ==> !Violated(c, rules[i])
    ensures CheckAll(c, rules) == []
  {
    if |rules| > 0 {
      assert !Violated(c, rules[0]);
      CheckAllNone(c, rules[1..]);
    }
  }

  /**
   * validate_config: exactly the broken rules, each once, in the order the
   * source checks them. A field that cannot be compared with 0 raises
   * TypeError, which is Err.
   */
  function ValidateConfig(c: Config): (res: Result<seq<Rule>>)
    ensures res.Ok? <==> Comparable(c, AllRules)
    ensures res.Ok? ==> forall r :: r in res.value <==> Violated(c, r)
    ensures res.Ok? ==> forall i, j :: 0 <= i < j < |res.value| ==> res.value[i] != res.value[j]
    ensures res.Ok? ==> IsSubseq(res.value, AllRules)
  {
    if !Comparable(c, AllRules) then Err("TypeError: '<=' not supported")
    else
      CheckAllRules(c);
      Ok(CheckAll(c, AllRules))
  }

  /** Checking every rule finds exactly the broken ones, each once, in rule order. */
  lemma CheckAllRules(c: Config)
    ensures forall r :: r in CheckAll(c, AllRules) <==> Violated(c, r)
    ensures forall i, j :: 0 <= i < j < |CheckAll(c, AllRules)| ==> CheckAll(c, AllRules)[i] != CheckAll(c, AllRules)[j]
    ensures IsSubseq(CheckAll(c, AllRules), AllRules)
  {
    forall r ensures r in AllRules { AllRulesListed(r); }
    AllRulesDistinct();
  }

  /** No rule is listed twice. */
  lemma AllRulesDistinct()
    ensures forall i, j :: 0 <= i < j < |AllRules| ==> AllRules[i] != AllRules[j]
  {
  }

  /** The defaults break no rule. */
  lemma DefaultsAreValid()
    ensures ValidateConfig(Defaults) == Ok([])
  {
    DefaultsUnbroken();
    CheckAllNone(Defaults, AllRules);
  }

  /** Every rule's field holds a number in the defaults, and no rule is broken. */
  lemma DefaultsUnbroken()
    ensures Comparable(Defaults, AllRules)
    ensures forall i :: 0 <= i < |AllRules| ==> !Violated(Defaults, AllRules[i])
  {
    DefaultRuleValues();
  }

  /** The default value of every rule's field. */
  lemma DefaultRuleValues()
    ensures RuleValue(Defaults, FileSizeRule) == PInt(50)
    ensures RuleValue(Defaults, SessionTimeoutRule) == PInt(3600)
    ensures RuleValue(Defaults, MaxRequestsRule) == PInt(100)
    ensures RuleValue(Defaults, ThreadPoolRule) == PInt(8)
    ensures RuleValue(Defaults, MemoryLimitRule) == PInt(2048)
    ensures RuleValue(Defaults, PoolSizeRule) == PInt(20)
    ensures RuleValue(Defaults, DefaultTtlRule) == PInt(3600)
    ensures Field(Defaults, Monitoring, "log_level") == LogLevels[1]
  {
    SecurityRuleValues();
    PerformanceRuleValues();
    StorageRuleValues();
    DefaultLogLevel();
  }

  lemma SecurityRuleValues()
    ensures RuleValue(Defaults, FileSizeRule) == PInt(50)
    ensures RuleValue(Defaults, SessionTimeoutRule) == PInt(3600)
  {
    SecurityLimits();
  }

  lemma PerformanceRuleValues()
    ensures RuleValue(Defaults, MaxRequestsRule) == PInt(100)
    ensures RuleValue(Defaults, ThreadPoolRule) == PInt(8)
    ensures RuleValue(Defaults, MemoryLimitRule) == PInt(2048)
  {
    PerformanceLimits();
  }

  lemma StorageRuleValues()
    ensures RuleValue(Defaults, PoolSizeRule) == PInt(20)
    ensures RuleValue(Defaults, DefaultTtlRule) == PInt(3600)
  {
    StorageLimits();
  }

  lemma DefaultLogLevel()
    ensures Field(Defaults, Monitoring, "log_level") == LogLevels[1]
  {
    MonitoringLimits();
  }

  lemma DefaultSectionValues()
    ensures "max_file_size_mb" in DefaultSecurity && DefaultSecurity["max_file_size_mb"] == PInt(50)
    ensures "session_timeout" in DefaultSecurity && DefaultSecurity["session_timeout"] == PInt(3600)
    ensures "max_concurrent_requests" in DefaultPerformance && DefaultPerformance["max_concurrent_requests"] == PInt(100)
    ensures "thread_pool_size" in DefaultPerformance && DefaultPerformance["thread_pool_size"] == PInt(8)
    ensures "memory_limit_mb" in DefaultPerformance && DefaultPerformance["memory_limit_mb"] == PInt(2048)
    ensures "connection_pool_size" in DefaultDatabase && DefaultDatabase["connection_pool_size"] == PInt(20)
    ensures "default_ttl" in DefaultCache && DefaultCache["default_ttl"] == PInt(3600)
    ensures "log_level" in DefaultMonitoring && DefaultMonitoring["log_level"] == PStr("INFO")
  {
    SecurityLimits();
    PerformanceLimits();
    StorageLimits();
    MonitoringLimits();
  }

  lemma SecurityLimits()
    ensures "max_file_size_mb" in DefaultSecurity && DefaultSecurity["max_file_size_mb"] == PInt(50)
    ensures "session_timeout" in DefaultSecurity && DefaultSecurity["session_timeout"] == PInt(3600)
  {
  }

  lemma PerformanceLimits()
    ensures "max_concurrent_requests" in DefaultPerformance && DefaultPerformance["max_concurrent_requests"] == PInt(100)
    ensures "thread_pool_size" in DefaultPerformance && DefaultPerformance["thread_pool_size"] == PInt(8)
    ensures "memory_limit_mb" in DefaultPerformance && DefaultPerformance["memory_limit_mb"] == PInt(2048)
  {
  }

  lemma StorageLimits()
    ensures "connection_pool_size" in DefaultDatabase && DefaultDatabase["connection_pool_size"] == PInt(20)
    ensures "default_ttl" in DefaultCache && DefaultCache["default_ttl"] == PInt(3600)
  {
  }

  lemma MonitoringLimits()
    ensures "log_level" in DefaultMonitoring && DefaultMonitoring["log_level"] == PStr("INFO")
  {
  }

  // ---------------------------------------------------------------------
  // Headers and hardening
  // ---------------------------------------------------------------------

  const SecurityHeaderMap: map<string, string> := map[
    "X-Content-Type-Options" := "nosniff",
    "X-Frame-Options" := "DENY",
    "X-XSS-Protection" := "1; mode=block",
    "Strict-Transport-Security" := "max-age=31536000; includeSubDomains",
    "Content-Security-Policy" := "default-src 'self'",
    "Referrer-Policy" := "strict-origin-when-cross-origin"
  ]

  /** get_security_headers: nothing when secure_headers is falsy, else the fixed six headers. */
  function SecurityHeaders(c: Config): (h: map<string, string>)
    ensures |h| == 0 <==> !Truthy(Field(c, Security, "secure_headers"))
    ensures |h| > 0 ==> h == SecurityHeaderMap
  {
    assert "Referrer-Policy" in SecurityHeaderMap;
    if !Truthy(Field(c, Security, "secure_headers")) then map[] else SecurityHeaderMap
  }

  /** The flags optimize_for_production forces on, by section. */
  function ForcedFlags(s: Section): set<string>
  {
    match s
    case Security => {"api_key_encryption", "rate_limiting_enabled", "csrf_protection", "secure_headers"}
    case Performance => {"enable_compression", "optimize_embeddings"}
    case Monitoring => {"metrics_enabled", "error_reporting", "performance_tracking"}
    case Database => {"backup_enabled", "vacuum_enabled"}
    case CacheSection => {"compression_enabled"}
  }

  /** Fields in `names` set to v (created if missing); the others untouched. */
  function SetAll(f: Fields, names: set<string>, v: PyVal): (r: Fields)
    ensures r.Keys == f.Keys + names
    ensures forall k :: k in names ==> r[k] == v
    ensures forall k :: k in f && k !in names ==> r[k] == f[k]
  {
    map k | k in f.Keys + names :: if k in names then v else f[k]
  }

  function Harden(c: Config, s: Section): (f: Fields)
    ensures forall k :: k in ForcedFlags(s) ==> k in f && f[k] == PBool(true)
    ensures s == Monitoring ==> "log_level" in f && f["log_level"] == PStr("INFO")
    ensures forall k :: k in Get(c, s) && k !in ForcedFlags(s) && (s, k) != (Monitoring, "log_level") ==>
      k in f && f[k] == Get(c, s)[k]
    ensures Get(c, s).Keys <= f.Keys
  {
    var f := SetAll(Get(c, s), ForcedFlags(s), PBool(true));
    if s == Monitoring then f["log_level" := PStr("INFO")] else f
  }

  /**
   * optimize_for_production: the twelve security, performance, monitoring,
   * database and cache flags become True and log_level "INFO"; every other
   * field keeps its value.
   */
  function OptimizeForProduction(c: Config): (r: Config)
    ensures forall s, k :: k in ForcedFlags(s) ==> Field(r, s, k) == PBool(true)
    ensures Field(r, Monitoring, "log_level") == PStr("INFO")
    ensures forall s, k :: k !in ForcedFlags(s) && (s, k) != (Monitoring, "log_level") && k in Get(c, s) ==>
      Field(r, s, k) == Field(c, s, k)
    ensures forall s :: Get(c, s).Keys <= Get(r, s).Keys
  {
    var r := Config(Harden(c, Security), Harden(c, Performance), Harden(c, Monitoring),
                    Harden(c, Database), Harden(c, CacheSection));
    HardenedSections(c, r);
    r
  }

  /** A configuration whose every section is the hardened one has the hardened fields. */
  lemma HardenedSections(c: Config, r: Config)
    requires r == Config(Harden(c, Security), Harden(c, Performance), Harden(c, Monitoring),
                         Harden(c, Database), Harden(c, CacheSection))
    ensures forall s, k :: k in ForcedFlags(s) ==> Field(r, s, k) == PBool(true)
    ensures Field(r, Monitoring, "log_level") == PStr("INFO")
    ensures forall s, k :: k !in ForcedFlags(s) && (s, k) != (Monitoring, "log_level") && k in Get(c, s) ==>
      Field(r, s, k) == Field(c, s, k)
    ensures forall s :: Get(c, s).Keys <= Get(r, s).Keys
  {
    forall s
      ensures Get(r, s) == Harden(c, s)
    {
    }
  }

  /** After hardening the headers are always the full set, and the log level never fails validation. */
  lemma OptimizedConfigSendsHeaders(c: Config)
    ensures SecurityHeaders(OptimizeForProduction(c)) == SecurityHeaderMap
    ensures !Violated(OptimizeForProduction(c), LogLevelRule)
  {
    assert "secure_headers" in ForcedFlags(Security);
    assert PStr("INFO") == LogLevels[1];
    assert "Referrer-Policy" in SecurityHeaderMap;
  }
}

=== FILE: py_core.dfy ===
/**
 * Python built-in behaviour the rest of the model relies on, written out
 * explicitly: optional values and error results, str.isspace/strip/split/join,
 * ASCII lower-casing, slice bounds with negative indices, and the decimal
 * rendering and parsing of integers done by str() and int(), and repr()
 * of a str.
 */
module PyCore {

  datatype Option<T> = None | Some(value: T)

  /** An operation that either produced a value or raised with a message. */
  datatype Result<T> = Ok(value: T) | Err(msg: string)

  // ---------------------------------------------------------------------
  // Whitespace
  // ---------------------------------------------------------------------

  /** The characters for which Python's str.isspace() holds. */
  const SpaceChars: set<char> := {
    ' ', '\t', '\n', '\U{b}', '\U{c}', '\r', '\U{1c}', '\U{1d}', '\U{1e}', '\U{1f}',
    '\U{85}', '\U{a0}', '\U{1680}', '\U{2000}', '\U{2001}', '\U{2002}', '\U{2003}',
    '\U{2004}', '\U{2005}', '\U{2006}', '\U{2007}', '\U{2008}', '\U{2009}', '\U{200a}',
    '\U{2028}', '\U{2029}', '\U{202f}', '\U{205f}', '\U{3000}'
  }

  predicate IsSpace(c: char)
  {
    c in SpaceChars
  }

  predicate NoSpace(s: string)
  {
    forall i :: 0 <= i < |s| ==> !IsSpace(s[i])
  }

  /** Number of leading whitespace characters. */
  function LeadSpaces(s: string): (n: nat)
    ensures n <= |s|
    ensures forall i :: 0 <= i < n ==> IsSpace(s[i])
    ensures n == |s| || !IsSpace(s[n])
  {
    if |s| > 0 && IsSpace(s[0]) then 1 + LeadSpaces(s[1..]) else 0
  }

  /** Number of trailing whitespace characters. */
  function TrailSpaces(s: string): (n: nat)
    ensures n <= |s|
    ensures forall i :: |s| - n <= i < |s| ==> IsSpace(s[i])
    ensures n == |s| || !IsSpace(s[|s| - n - 1])
  {
    if |s| > 0 && IsSpace(s[|s| - 1]) then 1 + TrailSpaces(s[..|s| - 1]) else 0
  }

  /**
   * str.strip(): the infix left after removing the leading and the trailing
   * whitespace runs; it neither starts nor ends with whitespace.
   */
  function Strip(s: string): (r: string)
    ensures |r| <= |s|
    ensures r == [] || (!IsSpace(r[0]) && !IsSpace(r[|r| - 1]))
    ensures var a := LeadSpaces(s);
      a + |r| <= |s| && r == s[a..a + |r|]
      && (forall i :: a + |r| <= i < |s| ==> IsSpace(s[i]))
  {
    var a := LeadSpaces(s);
    if a == |s| then [] else s[a..|s| - TrailSpaces(s)]
  }

  /** Stripping a string with no space at either end changes nothing. */
  lemma StripStripped(s: string)
    requires s == [] || (!IsSpace(s[0]) && !IsSpace(s[|s| - 1]))
    ensures Strip(s) == s
  {
    if |s| > 0 {
      assert LeadSpaces(s) == 0;
      assert TrailSpaces(s) == 0;
    }
  }

  /** One leading space before a stripped, non-empty string is all that strip removes. */
  lemma StripLeadingSpace(s: string)
    requires |s| > 0 && !IsSpace(s[0]) && !IsSpace(s[|s| - 1])
    ensures Strip([' '] + s) == s
  {
    var t := [' '] + s;
    assert t[1..] == s;
    assert LeadSpaces(s) == 0;
    assert LeadSpaces(t) == 1;
    assert TrailSpaces(t) == 0;
  }

  /** Length of the leading run of non-whitespace characters. */
  function WordLen(s: string): (n: nat)
    ensures n <= |s|
    ensures NoSpace(s[..n])
    ensures n == |s| || IsSpace(s[n])
  {
    if |s| == 0 || IsSpace(s[0]) then 0
    else
      var m := WordLen(s[1..]);
      assert s[..m + 1] == [s[0]] + s[1..][..m];
      m + 1
  }

  /** str.split() without arguments: the maximal runs of non-whitespace. */
  function Words(s: string): (r: seq<string>)
    ensures forall i :: 0 <= i < |r| ==> |r[i]| > 0 && NoSpace(r[i])
    decreases |s|
  {
    if |s| == 0 then []
    else if IsSpace(s[0]) then Words(s[1..])
    else
      var n := WordLen(s);
      [s[..n]] + Words(s[n..])
  }

  /** Every word str.split() returns is a substring of the text. */
  lemma {:induction false} WordsOccur(s: string)
    ensures forall i :: 0 <= i < |Words(s)| ==> Contains(s, Words(s)[i])
    decreases |s|
  {
    if |s| > 0 {
      if IsSpace(s[0]) {
        WordsOccur(s[1..]);
        assert Words(s) == Words(s[1..]);
        forall i | 0 <= i < |Words(s)|
          ensures Contains(s, Words(s)[i])
        {
          assert Contains(s[1..], Words(s[1..])[i]);
          ContainsInSuffix(s, 1, Words(s)[i]);
        }
      } else {
        var n := WordLen(s);
        WordsOccur(s[n..]);
        forall i | 0 <= i < |Words(s)|
          ensures Contains(s, Words(s)[i])
        {
          if i == 0 {
            assert OccursAt(s, s[..n], 0);
          } else {
            assert Words(s)[i] == Words(s[n..])[i - 1];
            assert Contains(s[n..], Words(s[n..])[i - 1]);
            ContainsInSuffix(s, n, Words(s)[i]);
          }
        }
      }
    }
  }

  /** What a suffix of a text contains, the text contains. */
  lemma ContainsInSuffix(s: string, k: nat, w: string)
    requires k <= |s| && Contains(s[k..], w)
    ensures Contains(s, w)
  {
    var j :| 0 <= j <= |s[k..]| - |w| && OccursAt(s[k..], w, j);
    assert s[j + k..j + k + |w|] == s[k..][j..j + |w|];
    assert OccursAt(s, w, j + k);
  }

  /** A word followed by nothing or by whitespace is read back as that word. */
  lemma {:induction false} WordsCons(w: string, t: string)
    requires |w| > 0 && NoSpace(w)
    requires t == [] || IsSpace(t[0])
    ensures Words(w + t) == [w] + Words(t)
  {
    WordLenOfWord(w, t);
    assert (w + t)[..|w|] == w;
    assert (w + t)[|w|..] == t;
  }

  lemma {:induction false} WordLenOfWord(w: string, t: string)
    requires NoSpace(w)
    requires t == [] || IsSpace(t[0])
    ensures WordLen(w + t) == |w|
    decreases |w|
  {
    if |w| == 0 {
      assert w + t == t;
    } else {
      assert (w + t)[1..] == w[1..] + t;
      WordLenOfWord(w[1..], t);
    }
  }

  /** Splitting a space-joined list of words gives the words back. */
  lemma {:induction false} WordsOfJoin(ws: seq<string>)
    requires forall i :: 0 <= i < |ws| ==> |ws[i]| > 0 && NoSpace(ws[i])
    ensures Words(Join(" ", ws)) == ws
  {
    if |ws| == 0 {
    } else if |ws| == 1 {
      assert ws[0] + [] == ws[0];
      WordsCons(ws[0], []);
    } else {
      var rest := Join(" ", ws[1..]);
      assert Join(" ", ws) == ws[0] + (" " + rest);
      WordsCons(ws[0], " " + rest);
      assert (" " + rest)[1..] == rest;
      WordsOfJoin(ws[1..]);
    }
  }

  /** A space-joined list of non-empty words starts and ends with a word character. */
  lemma {:induction false} JoinEnds(ws: seq<string>)
    requires |ws| > 0
    requires forall i :: 0 <= i < |ws| ==> |ws[i]| > 0 && NoSpace(ws[i])
    ensures var j := Join(" ", ws);
      |j| > 0 && !IsSpace(j[0]) && !IsSpace(j[|j| - 1])
  {
    if |ws| > 1 {
      JoinEnds(ws[1..]);
      var rest := Join(" ", ws[1..]);
      assert Join(" ", ws) == ws[0] + " " + rest;
    }
  }

  /** A space-joined list of words has nothing for strip() to remove. */
  lemma StripJoinedWords(ws: seq<string>)
    requires forall i :: 0 <= i < |ws| ==> |ws[i]| > 0 && NoSpace(ws[i])
    ensures Strip(Join(" ", ws)) == Join(" ", ws)
  {
    if |ws| > 0 {
      JoinEnds(ws);
      var j := Join(" ", ws);
      assert LeadSpaces(j) == 0;
      assert TrailSpaces(j) == 0;
    }
  }

  /** sep.join(parts). */
  function Join(sep: string, parts: seq<string>): string
  {
    if |parts| == 0 then ""
    else if |parts| == 1 then parts[0]
    else parts[0] + sep + Join(sep, parts[1..])
  }

  /** Joining two lists at once: the separator appears between them only when both are non-empty. */
  lemma {:induction false} JoinConcat(sep: string, a: seq<string>, b: seq<string>)
    ensures Join(sep, a + b) ==
      if |a| == 0 then Join(sep, b)
      else if |b| == 0 then Join(sep, a)
      else Join(sep, a) + sep + Join(sep, b)
  {
    if |a| == 0 {
      assert a + b == b;
    } else if |b| == 0 {
      assert a + b == a;
    } else if |a| > 1 {
      assert (a + b)[1..] == a[1..] + b;
      JoinConcat(sep, a[1..], b);
    }
  }

  /** A joined list opens with its first part and closes with its last. */
  lemma {:induction false} JoinBounds(sep: string, ws: seq<string>)
    requires |ws| > 0
    ensures StartsWith(Join(sep, ws), ws[0]) && EndsWith(Join(sep, ws), ws[|ws| - 1])
  {
    if |ws| > 1 {
      JoinBounds(sep, ws[1..]);
      var rest := Join(sep, ws[1..]);
      assert Join(sep, ws) == ws[0] + (sep + rest);
      assert Join(sep, ws) == (ws[0] + sep) + rest;
    }
  }

  // ---------------------------------------------------------------------
  // Characters and substrings
  // ---------------------------------------------------------------------

  /** str.lower() restricted to ASCII letters. */
  function LowerChar(c: char): char
  {
    if 'A' <= c <= 'Z' then (c as int + 32) as char else c
  }

  function Lower(s: string): (r: string)
    ensures |r| == |s|
    ensures forall i :: 0 <= i < |s| ==> r[i] == LowerChar(s[i])
  {
    seq(|s|, i requires 0 <= i < |s| => LowerChar(s[i]))
  }

  /** str.upper() restricted to ASCII letters. */
  function UpperChar(c: char): char
  {
    if 'a' <= c <= 'z' then (c as int - 32) as char else c
  }

  function Upper(s: string): (r: string)
    ensures |r| == |s|
    ensures forall i :: 0 <= i < |s| ==> r[i] == UpperChar(s[i])
  {
    seq(|s|, i requires 0 <= i < |s| => UpperChar(s[i]))
  }

  /** str.replace(c, d) for single characters. */
  function ReplaceChar(s: string, c: char, d: char): (r: string)
    ensures |r| == |s|
    ensures forall i :: 0 <= i < |s| ==> r[i] == (if s[i] == c then d else s[i])
  {
    seq(|s|, i requires 0 <= i < |s| => if s[i] == c then d else s[i])
  }

  /** The strings a boolean setting accepts as true once lower-cased. */
  predicate TruthyText(s: string)
  {
    Lower(s) in {"true", "1", "yes", "on"}
  }

  /** s[:4] + "..." + s[-4:], the masked form of a long secret. */
  function ShowEdges(s: string): (r: string)
    requires |s| > 8
    ensures |r| == 11
    ensures r[..4] == s[..4] && r[4..7] == "..." && r[7..] == s[|s| - 4..]
  {
    s[..4] + "..." + s[|s| - 4..]
  }

  /** str.split(c) for a one-character separator: the pieces between the separators. */
  function SplitOn(s: string, c: char): (r: seq<string>)
    ensures |r| > 0
    ensures forall i :: 0 <= i < |r| ==> c !in r[i]
    ensures Join([c], r) == s
    decreases |s|
  {
    var i := FindChar(s, c);
    if i == |s| then
      assert s[..i] == s;
      [s]
    else
      var rest := SplitOn(s[i + 1..], c);
      assert c !in s[..i];
      assert ([s[..i]] + rest)[1..] == rest;
      assert s == s[..i] + [c] + s[i + 1..];
      [s[..i]] + rest
  }

  /** A string without the separator splits into itself alone. */
  lemma SplitOnAbsent(s: string, c: char)
    requires c !in s
    ensures SplitOn(s, c) == [s]
  {
  }

  /** Splitting the joined pieces gives the pieces back, when none holds the separator. */
  lemma {:induction false} SplitOnJoin(ps: seq<string>, c: char)
    requires |ps| > 0
    requires forall i :: 0 <= i < |ps| ==> c !in ps[i]
    ensures SplitOn(Join([c], ps), c) == ps
    decreases |ps|
  {
    if |ps| == 1 {
      SplitOnAbsent(ps[0], c);
    } else {
      var rest := Join([c], ps[1..]);
      assert Join([c], ps) == ps[0] + [c] + rest;
      SplitOnCons(ps[0], c, rest);
      SplitOnJoin(ps[1..], c);
      assert ps == [ps[0]] + ps[1..];
    }
  }

  /** A piece without the separator, then the separator, splits off as the first piece. */
  lemma SplitOnCons(p: string, c: char, rest: string)
    requires c !in p
    ensures SplitOn(p + [c] + rest, c) == [p] + SplitOn(rest, c)
  {
    var s := p + [c] + rest;
    assert s[|p|] == c;
    assert forall j :: 0 <= j < |p| ==> s[j] == p[j];
    assert FindChar(s, c) == |p|;
    assert s[..|p|] == p;
    assert s[|p| + 1..] == rest;
  }

  /** s.split(c)[-1]: the text after the last c, all of s when there is none. */
  function LastPiece(s: string, c: char): (r: string)
    ensures c !in r
    ensures |r| <= |s| && r == s[|s| - |r|..]
  {
    s[AfterLast(s, c)..]
  }

  /** Any position with the characterising properties of AfterLast is AfterLast. */
  lemma AfterLastUnique(s: string, c: char, a: nat)
    requires a <= |s|
    requires a > 0 ==> s[a - 1] == c
    requires forall j :: a <= j < |s| ==> s[j] != c
    ensures AfterLast(s, c) == a
  {
  }

  lemma SplitOnStep(s: string, c: char)
    requires FindChar(s, c) < |s|
    ensures SplitOn(s, c) == [s[..FindChar(s, c)]] + SplitOn(s[FindChar(s, c) + 1..], c)
  {
  }

  /** After an occurrence of c at i, the last piece of s is the last piece of what follows i. */
  lemma LastPieceAfterFirst(s: string, c: char, i: nat)
    requires i < |s| && s[i] == c
    ensures LastPiece(s, c) == LastPiece(s[i + 1..], c)
  {
    var t := s[i + 1..];
    var b := AfterLast(t, c);
    assert forall j :: i + 1 + b <= j < |s| ==> s[j] == t[j - (i + 1)];
    assert s[i + b] == c by {
      if b > 0 {
        assert s[i + b] == t[b - 1];
      }
    }
    AfterLastUnique(s, c, i + 1 + b);
    assert s[i + 1 + b..] == t[b..];
  }

  /** LastPiece is indeed the last piece str.split produces. */
  lemma {:induction false} LastPieceOfSplit(s: string, c: char)
    ensures LastPiece(s, c) == SplitOn(s, c)[|SplitOn(s, c)| - 1]
    decreases |s|
  {
    var i := FindChar(s, c);
    if i == |s| {
      AfterLastUnique(s, c, 0);
    } else {
      var t := s[i + 1..];
      LastPieceOfSplit(t, c);
      SplitOnStep(s, c);
      LastPieceAfterFirst(s, c, i);
    }
  }

  /** A common prefix can be cancelled from both sides of an equation. */
  lemma PrefixCancel(p: string, a: string, b: string)
    ensures p + a == p + b ==> a == b
  {
    if p + a == p + b {
      assert a == (p + a)[|p|..];
      assert b == (p + b)[|p|..];
    }
  }

  /** Python's `<` on str: lexicographic by code point. */
  predicate StrLess(a: string, b: string)
  {
    if |a| == 0 then |b| > 0
    else if |b| == 0 then false
    else if a[0] == b[0] then StrLess(a[1..], b[1..])
    else a[0] < b[0]
  }

  lemma {:induction false} StrLessIrreflexive(a: string)
    ensures !StrLess(a, a)
    decreases |a|
  {
    if |a| > 0 {
      StrLessIrreflexive(a[1..]);
    }
  }

  lemma {:induction false} StrLessTransitive(a: string, b: string, c: string)
    requires StrLess(a, b) && StrLess(b, c)
    ensures StrLess(a, c)
    decreases |a|
  {
    if |a| > 0 && |b| > 0 && |c| > 0 && a[0] == b[0] && b[0] == c[0] {
      StrLessTransitive(a[1..], b[1..], c[1..]);
    }
  }

  lemma {:induction false} StrLessTotal(a: string, b: string)
    ensures a == b || StrLess(a, b) || StrLess(b, a)
    decreases |a|
  {
    if |a| > 0 && |b| > 0 && a[0] == b[0] {
      StrLessTotal(a[1..], b[1..]);
      if a[1..] == b[1..] {
        assert a == [a[0]] + a[1..] && b == [b[0]] + b[1..];
      }
    }
  }

  predicate StartsWith(s: string, p: string)
  {
    |p| <= |s| && s[..|p|] == p
  }

  predicate EndsWith(s: string, p: string)
  {
    |p| <= |s| && s[|s| - |p|..] == p
  }

  /** Python's `p in s` for strings. */
  predicate Contains(s: string, p: string)
  {
    exists i :: 0 <= i <= |s| - |p| && OccursAt(s, p, i)
  }

  predicate OccursAt(s: string, p: string, i: int)
  {
    0 <= i <= |s| - |p| && s[i..i + |p|] == p
  }

  /** Index of the first occurrence of c, or |s| when there is none. */
  function FindChar(s: string, c: char): (i: nat)
    ensures i <= |s|
    ensures i < |s| ==> s[i] == c
    ensures forall j :: 0 <= j < i ==> s[j] != c
  {
    if |s| == 0 then 0 else if s[0] == c then 0 else 1 + FindChar(s[1..], c)
  }

  /** Index just after the last occurrence of c, or 0 when there is none. */
  function AfterLast(s: string, c: char): (i: nat)
    ensures i <= |s|
    ensures i > 0 ==> s[i - 1] == c
    ensures forall j :: i <= j < |s| ==> s[j] != c
  {
    if |s| == 0 then 0 else if s[|s| - 1] == c then |s| else AfterLast(s[..|s| - 1], c)
  }

  /** filename.rsplit('.', 1)[0] when the name has a dot: everything before the last dot. */
  function Stem(filename: string): (r: string)
    ensures '.' !in filename ==> r == filename
    ensures '.' in filename ==> r + "." + LastPiece(filename, '.') == filename
    ensures |r| <= |filename|
  {
    if '.' in filename then
      var a := AfterLast(filename, '.');
      assert filename == filename[..a - 1] + "." + filename[a..];
      filename[..a - 1]
    else filename
  }

  /** A subset is no larger than its superset. */
  lemma SubsetSize<T>(a: set<T>, b: set<T>)
    requires a <= b
    ensures |a| <= |b|
  {
    assert b == a + (b - a);
  }

  /** min(1.0, x) */
  function AtMostOne(x: real): (r: real)
    ensures r <= 1.0
    ensures x <= 1.0 ==> r == x
  {
    if x < 1.0 then x else 1.0
  }

  /** count / n as a float, for a count out of n. */
  function Share(count: nat, n: nat): (r: real)
    requires 0 < n && count <= n
    ensures 0.0 <= r <= 1.0
    ensures r == 0.0 <==> count == 0
    ensures count == n ==> r == 1.0
  {
    count as real / n as real
  }

  // ---------------------------------------------------------------------
  // Slices with Python's negative indices
  // ---------------------------------------------------------------------

  /** The position a slice bound k denotes in a sequence of length n. */
  function SliceBound(n: nat, k: int): (b: nat)
    ensures b <= n
    ensures 0 <= k <= n ==> b == k
    ensures k > n ==> b == n
    ensures -(n as int) <= k < 0 ==> b == n + k
    ensures k < -(n as int) ==> b == 0
  {
    if k < 0 then (if n + k < 0 then 0 else n + k) else if k > n then n else k
  }

  /** s[:k] */
  function Take<T>(s: seq<T>, k: int): seq<T>
  {
    s[..SliceBound(|s|, k)]
  }

  /** s[k:] */
  function Drop<T>(s: seq<T>, k: int): seq<T>
  {
    s[SliceBound(|s|, k)..]
  }

  // ---------------------------------------------------------------------
  // Integers as text
  // ---------------------------------------------------------------------

  /** [f(x) for x in xs] where each call may raise (None): None as soon as one does. */
  function MapAll<A, B>(xs: seq<A>, f: A -> Option<B>): (r: Option<seq<B>>)
    ensures r.Some? <==> forall i :: 0 <= i < |xs| ==> f(xs[i]).Some?
    ensures r.Some? ==> |r.value| == |xs|
    ensures r.Some? ==> forall i :: 0 <= i < |xs| ==> Some(r.value[i]) == f(xs[i])
  {
    if |xs| == 0 then Some([])
    else
      var rest := MapAll(xs[1..], f);
      assert forall i :: 1 <= i < |xs| ==> xs[i] == xs[1..][i - 1];
      if f(xs[0]).None? || rest.None? then None
      else Some([f(xs[0]).value] + rest.value)
  }

  /** a is b with some elements left out, the rest in order. */
  predicate IsSubseq<T(==)>(a: seq<T>, b: seq<T>)
    decreases |b|
  {
    if |a| == 0 then true
    else if |b| == 0 then false
    else if a[0] == b[0] then IsSubseq(a[1..], b[1..])
    else IsSubseq(a, b[1..])
  }

  /** Dropping the head of b keeps a subsequence of it one of b. */
  lemma {:induction false} SubseqSkip<T>(a: seq<T>, b: seq<T>)
    requires |b| > 0 && IsSubseq(a, b[1..])
    ensures IsSubseq(a, b)
    decreases |b|, 0
  {
    if |a| > 0 && a[0] == b[0] {
      SubseqDropFirst(a, b[1..]);
    }
  }

  /** Dropping the head of a subsequence leaves a subsequence. */
  lemma {:induction false} SubseqDropFirst<T>(a: seq<T>, b: seq<T>)
    requires |a| > 0 && IsSubseq(a, b)
    ensures IsSubseq(a[1..], b)
    decreases |b|, 1
  {
    if a[0] == b[0] {
      SubseqSkip(a[1..], b);
    } else {
      SubseqDropFirst(a, b[1..]);
      SubseqSkip(a[1..], b);
    }
  }

  lemma {:induction false} SubseqRefl<T>(a: seq<T>)
    ensures IsSubseq(a, a)
    decreases |a|
  {
    if |a| > 0 {
      SubseqRefl(a[1..]);
    }
  }

  /** Subsequences of two lists concatenate to a subsequence of their concatenation. */
  lemma {:induction false} SubseqConcat<T>(a1: seq<T>, b1: seq<T>, a2: seq<T>, b2: seq<T>)
    requires IsSubseq(a1, b1) && IsSubseq(a2, b2)
    ensures IsSubseq(a1 + a2, b1 + b2)
    decreases |b1|
  {
    if |b1| == 0 {
      assert a1 + a2 == a2 && b1 + b2 == b2;
    } else if |a1| > 0 && a1[0] == b1[0] {
      SubseqConcat(a1[1..], b1[1..], a2, b2);
      assert (a1 + a2)[1..] == a1[1..] + a2 && (b1 + b2)[1..] == b1[1..] + b2;
    } else {
      SubseqConcat(a1, b1[1..], a2, b2);
      assert (b1 + b2)[1..] == b1[1..] + b2;
      SubseqSkip(a1 + a2, b1 + b2);
    }
  }

  /** [x for x in s if keep(x)] */
  function Filter<T(==)>(s: seq<T>, keep: T -> bool): (r: seq<T>)
    ensures |r| <= |s|
    ensures IsSubseq(r, s)
    ensures forall i :: 0 <= i < |r| ==> keep(r[i])
    ensures forall i :: 0 <= i < |s| && keep(s[i]) ==> s[i] in r
  {
    if |s| == 0 then []
    else
      var rest := Filter(s[1..], keep);
      assert forall i :: 1 <= i < |s| ==> s[i] == s[1..][i - 1];
      if keep(s[0]) then [s[0]] + rest else rest
  }

  /** How many elements pass, counted from the back. */
  function CountKept<T>(s: seq<T>, keep: T -> bool): nat
  {
    if |s| == 0 then 0 else CountKept(s[..|s| - 1], keep) + (if keep(s[|s| - 1]) then 1 else 0)
  }

  /** The filter keeps exactly as many elements as pass. */
  lemma {:induction false} FilterCount<T>(s: seq<T>, keep: T -> bool)
    ensures |Filter(s, keep)| == CountKept(s, keep)
  {
    if |s| > 0 {
      var init := s[..|s| - 1];
      FilterCount(init, keep);
      assert s == init + [s[|s| - 1]];
      FilterConcat(init, [s[|s| - 1]], keep);
    }
  }

  /** An element of a sequence sits at some position of every permutation of it. */
  lemma InPermutation<T>(a: seq<T>, b: seq<T>, x: T) returns (j: nat)
    requires multiset(a) == multiset(b) && x in a
    ensures j < |b| && b[j] == x
  {
    assert x in multiset(a);
    assert x in b;
    j :| j < |b| && b[j] == x;
  }

  /** Everything the filter keeps comes from the input. */
  lemma {:induction false} FilterMembers<T>(s: seq<T>, keep: T -> bool)
    ensures forall i :: 0 <= i < |Filter(s, keep)| ==> Filter(s, keep)[i] in s
  {
    if |s| > 0 {
      FilterMembers(s[1..], keep);
    }
  }

  /** Filtering keeps everything exactly when every element passes. */
  lemma {:induction false} FilterAll<T>(s: seq<T>, keep: T -> bool)
    requires forall i :: 0 <= i < |s| ==> keep(s[i])
    ensures Filter(s, keep) == s
  {
    if |s| > 0 {
      FilterAll(s[1..], keep);
      assert s == [s[0]] + s[1..];
    }
  }

  /** Filtering twice by the same test is filtering once. */
  lemma {:induction false} FilterIdempotent<T>(s: seq<T>, keep: T -> bool)
    ensures Filter(Filter(s, keep), keep) == Filter(s, keep)
  {
    var r := Filter(s, keep);
    FilterAll(r, keep);
  }

  /** Filtering a concatenation filters each part. */
  lemma {:induction false} FilterConcat<T>(a: seq<T>, b: seq<T>, keep: T -> bool)
    ensures Filter(a + b, keep) == Filter(a, keep) + Filter(b, keep)
  {
    if |a| == 0 {
      assert a + b == b;
    } else {
      assert (a + b)[1..] == a[1..] + b;
      FilterConcat(a[1..], b, keep);
    }
  }

  lemma FilterSingle<T>(x: T, keep: T -> bool)
    ensures Filter([x], keep) == if keep(x) then [x] else []
  {
    assert [x][1..] == [];
  }

  /** list.index: the position of the first occurrence. */
  function FirstIndex<T(==)>(s: seq<T>, x: T): (i: nat)
    requires x in s
    ensures i < |s| && s[i] == x && x !in s[..i]
  {
    if s[0] == x then 0
    else
      assert x in s[1..];
      var j := FirstIndex(s[1..], x);
      assert s[..j + 1] == [s[0]] + s[1..][..j];
      j + 1
  }

  /** list.remove: drop the first occurrence; a value that is absent leaves the list as it is. */
  function RemoveFirst<T(==)>(s: seq<T>, x: T): (r: seq<T>)
    ensures x !in s ==> r == s
    ensures |r| == if x in s then |s| - 1 else |s|
  {
    if |s| == 0 then s
    else if s[0] == x then s[1..]
    else [s[0]] + RemoveFirst(s[1..], x)
  }

  /** Removing cuts out exactly the first occurrence and keeps the rest in order. */
  lemma {:induction false} RemoveFirstCutsFirst<T>(s: seq<T>, x: T)
    requires x in s
    ensures var i := FirstIndex(s, x); RemoveFirst(s, x) == s[..i] + s[i + 1..]
  {
    if s[0] != x {
      assert x in s[1..];
      RemoveFirstCutsFirst(s[1..], x);
      var j := FirstIndex(s[1..], x);
      assert FirstIndex(s, x) == j + 1;
      assert s[..j + 1] == [s[0]] + s[1..][..j];
      assert s[j + 2..] == s[1..][j + 1..];
    }
  }

  /** Filtering keeps nothing exactly when no element passes. */
  lemma {:induction false} FilterNone<T>(s: seq<T>, keep: T -> bool)
    requires forall i :: 0 <= i < |s| ==> !keep(s[i])
    ensures Filter(s, keep) == []
  {
    if |s| > 0 {
      FilterNone(s[1..], keep);
    }
  }

  predicate IsDigit(c: char)
  {
    '0' <= c <= '9'
  }

  function DigitChar(d: nat): char
    requires d < 10
  {
    ('0' as int + d) as char
  }

  /** str(n) for a natural number. */
  function NatToString(n: nat): (s: string)
    ensures |s| > 0
    ensures forall i :: 0 <= i < |s| ==> IsDigit(s[i])
    decreases n
  {
    if n < 10 then [DigitChar(n)] else NatToString(n / 10) + [DigitChar(n % 10)]
  }

  /** str(i) for any integer. */
  function IntToString(i: int): string
  {
    if i < 0 then "-" + NatToString(-i) else NatToString(i)
  }

  /** The value of a string of ASCII digits, underscores ignored. */
  function DigitsValue(s: string): nat
  {
    if |s| == 0 then 0
    else
      var last := s[|s| - 1];
      if IsDigit(last) then DigitsValue(s[..|s| - 1]) * 10 + (last as int - '0' as int)
      else DigitsValue(s[..|s| - 1])
  }

  /**
   * The digit part Python's int() accepts: ASCII digits with single
   * underscores allowed between two digits.
   */
  predicate WellFormedDigits(s: string)
  {
    |s| > 0 && IsDigit(s[0]) && IsDigit(s[|s| - 1])
    && (forall i :: 0 <= i < |s| ==> IsDigit(s[i]) || s[i] == '_')
    && (forall i :: 0 <= i < |s| - 1 ==> s[i] == '_' ==> s[i + 1] != '_')
  }

  /** int(text) on a string: Some(value), or None where Python raises ValueError. */
  function ParseInt(text: string): (r: Option<int>)
    ensures r.Some? <==>
      var t := Strip(text);
      (|t| > 0 && (t[0] == '+' || t[0] == '-') && WellFormedDigits(t[1..]))
      || WellFormedDigits(t)
  {
    var t := Strip(text);
    if |t| > 0 && (t[0] == '+' || t[0] == '-') then
      if WellFormedDigits(t[1..]) then
        Some(if t[0] == '-' then -(DigitsValue(t[1..]) as int) else DigitsValue(t[1..]))
      else None
    else if WellFormedDigits(t) then Some(DigitsValue(t))
    else None
  }

  lemma {:induction false} DigitsValueOfNat(n: nat)
    ensures DigitsValue(NatToString(n)) == n
    decreases n
  {
    if n >= 10 {
      var p := NatToString(n / 10);
      var t := p + [DigitChar(n % 10)];
      assert t[..|t| - 1] == p;
      DigitsValueOfNat(n / 10);
    }
  }

  /** A digit is not whitespace. */
  lemma DigitNotSpace(c: char)
    requires IsDigit(c)
    ensures !IsSpace(c)
  {
  }

  /** int(str(i)) == i: parsing the decimal rendering of an integer gives it back. */
  lemma ParseIntOfIntToString(i: int)
    ensures ParseInt(IntToString(i)) == Some(i)
  {
    var t := IntToString(i);
    var digits := NatToString(if i < 0 then -i else i);
    assert t[|t| - 1] == digits[|digits| - 1];
    DigitNotSpace(digits[|digits| - 1]);
    if i >= 0 {
      DigitNotSpace(digits[0]);
    }
    StripStripped(t);
    DigitsValueOfNat(if i < 0 then -i else i);
    if i < 0 {
      assert t[1..] == digits;
    }
    assert WellFormedDigits(digits);
  }

  // ---------------------------------------------------------------------
  // repr() of a str
  // ---------------------------------------------------------------------

  /** The quote repr() puts around s: double quotes only when s holds a single quote and no double quote. */
  function ReprQuote(s: string): (q: char)
    ensures q == '"' <==> '\'' in s && '"' !in s
    ensures q == '\'' || q == '"'
  {
    if '\'' in s && '"' !in s then '"' else '\''
  }

  /**
   * The Latin-1 characters str.isprintable() rejects, other than tab, newline
   * and carriage return: C0 controls, DEL, C1 controls, no-break space and soft hyphen.
   */
  predicate HexEscaped(c: char)
  {
    c as int < 32 || 127 <= c as int <= 160 || c as int == 173
  }

  function HexDigit(d: nat): char
    requires d < 16
  {
    "0123456789abcdef"[d]
  }

  function HexValue(c: char): Option<nat>
  {
    if '0' <= c <= '9' then Some(c as int - '0' as int)
    else if 'a' <= c <= 'f' then Some(c as int - 'a' as int + 10)
    else None
  }

  /** How repr() writes one character inside quotes q. */
  function EscapeChar(c: char, q: char): string
  {
    if c == '\\' then "\\\\"
    else if c == q then ['\\', q]
    else if c == '\t' then "\\t"
    else if c == '\n' then "\\n"
    else if c == '\r' then "\\r"
    else if HexEscaped(c) then ['\\', 'x', HexDigit(c as int / 16), HexDigit(c as int % 16)]
    else [c]
  }

  function Escape(s: string, q: char): string
  {
    if s == [] then [] else EscapeChar(s[0], q) + Escape(s[1..], q)
  }

  /**
   * repr(s) for a str. Characters beyond Latin-1 that str.isprintable()
   * rejects are kept as they are rather than written as \u or \U escapes.
   */
  function StrRepr(s: string): (r: string)
    ensures |r| >= 2 && r[0] == ReprQuote(s) && r[|r| - 1] == ReprQuote(s)
  {
    var q := ReprQuote(s);
    [q] + Escape(s, q) + [q]
  }

  function Cons(c: char, r: Option<string>): Option<string>
  {
    if r.Some? then Some([c] + r.value) else None
  }

  /**
   * Reading the inside of a string literal quoted by q back: None for a
   * stray backslash, an unknown escape or an unescaped quote q.
   */
  function Unescape(t: string, q: char): Option<string>
    decreases |t|
  {
    if t == [] then Some([])
    else if t[0] == q then None
    else if t[0] != '\\' then Cons(t[0], Unescape(t[1..], q))
    else if |t| < 2 then None
    else if t[1] == '\\' || t[1] == '\'' || t[1] == '"' then Cons(t[1], Unescape(t[2..], q))
    else if t[1] == 't' then Cons('\t', Unescape(t[2..], q))
    else if t[1] == 'n' then Cons('\n', Unescape(t[2..], q))
    else if t[1] == 'r' then Cons('\r', Unescape(t[2..], q))
    else if t[1] == 'x' && |t| >= 4 && HexValue(t[2]).Some? && HexValue(t[3]).Some? then
      Cons((HexValue(t[2]).value * 16 + HexValue(t[3]).value) as char, Unescape(t[4..], q))
    else None
  }

  /** A quoted literal read back, None when it is not one. */
  function Unrepr(r: string): Option<string>
  {
    if |r| >= 2 && (r[0] == '\'' || r[0] == '"') && r[|r| - 1] == r[0] then Unescape(r[1..|r| - 1], r[0])
    else None
  }

  lemma HexRoundTrip(d: nat)
    requires d < 16
    ensures HexValue(HexDigit(d)) == Some(d)
  {
  }

  /** One escaped character reads back as itself, whatever follows. */
  lemma UnescapeChar(c: char, q: char, rest: string)
    requires q == '\'' || q == '"'
    ensures Unescape(EscapeChar(c, q) + rest, q) == Cons(c, Unescape(rest, q))
  {
    var t := EscapeChar(c, q) + rest;
    if c == '\\' || c == q || c == '\t' || c == '\n' || c == '\r' {
      assert t[2..] == rest;
    } else if HexEscaped(c) {
      var n := c as int;
      HexRoundTrip(n / 16);
      HexRoundTrip(n % 16);
      assert t[4..] == rest;
      assert (HexValue(t[2]).value * 16 + HexValue(t[3]).value) as char == c;
    } else {
      assert t[1..] == rest;
    }
  }

  lemma {:induction false} UnescapeEscape(s: string, q: char)
    requires q == '\'' || q == '"'
    ensures Unescape(Escape(s, q), q) == Some(s)
  {
    if s != [] {
      UnescapeChar(s[0], q, Escape(s[1..], q));
      UnescapeEscape(s[1..], q);
      assert [s[0]] + s[1..] == s;
    }
  }

  /** eval(repr(s)) == s: the literal repr() writes reads back as the string. */
  lemma UnreprOfRepr(s: string)
    ensures Unrepr(StrRepr(s)) == Some(s)
  {
    var q := ReprQuote(s);
    var r := StrRepr(s);
    assert r[1..|r| - 1] == Escape(s, q);
    UnescapeEscape(s, q);
  }

  /** A character repr() writes as itself. */
  predicate Plain(c: char)
  {
    c != '\'' && c != '\\' && c != '\t' && c != '\n' && c != '\r' && !HexEscaped(c)
  }

  lemma {:induction false} EscapePlain(s: string, q: char)
    requires q == '\''
    requires forall i :: 0 <= i < |s| ==> Plain(s[i])
    ensures Escape(s, q) == s
  {
    if s != [] {
      EscapePlain(s[1..], q);
      assert [s[0]] + s[1..] == s;
    }
  }

  /** Without quotes, backslashes or unprintable characters, repr(s) is s in single quotes. */
  lemma PlainRepr(s: string)
    requires forall i :: 0 <= i < |s| ==> Plain(s[i])
    ensures StrRepr(s) == "'" + s + "'"
  {
    EscapePlain(s, '\'');
  }

  /** repr("it's") is "it's" in double quotes; repr("a\\b") doubles the backslash. */
  lemma ReprExamples()
    ensures StrRepr("it's") == "\"it's\""
    ensures StrRepr("a\\b") == "'a\\\\b'"
  {
    assert Escape("s", '"') == "s";
    assert Escape("b", '\'') == "b";
  }
}

=== FILE: py_value.dfy ===
/**
 * Dynamically typed Python values as they travel through caches, metadata
 * dictionaries and configuration: None, bool, int, float, str, list, dict
 * with string keys, and any other object (kept only by its str() text).
 */
module PyValue {
  import opened PyCore

  datatype PyVal =
    | PNone
    | PBool(b: bool)
    | PInt(i: int)
    | PFloat(f: real)
    | PStr(s: string)
    | PList(items: seq<PyVal>)
    | PDict(fields: map<string, PyVal>)
    | PObj(text: string)

  /** The outcome of calling user code: a returned value or a raised exception. */
  datatype Outcome = Returned(value: PyVal) | Raised(error: string)

  /** Python truthiness (bool(v)); any other object is truthy. */
  predicate Truthy(v: PyVal)
  {
    match v
    case PNone => false
    case PBool(b) => b
    case PInt(i) => i != 0
    case PFloat(f) => f != 0.0
    case PStr(s) => |s| > 0
    case PList(items) => |items| > 0
    case PDict(fields) => |fields| > 0
    case PObj(_) => true
  }

  /** json.dumps succeeds: no arbitrary object anywhere inside. */
  predicate IsJsonable(v: PyVal)
  {
    match v
    case PObj(_) => false
    case PList(items) => forall i :: 0 <= i < |items| ==> IsJsonable(items[i])
    case PDict(fields) => forall k :: k in fields ==> IsJsonable(fields[k])
    case _ => true
  }

  /**
   * str(v) for the scalar cases; floats, lists and dicts are rendered by
   * `render`, which stands for Python's repr machinery.
   */
  function Str(v: PyVal, render: PyVal -> string): (r: string)
    ensures v.PStr? ==> r == v.s
    ensures v.PInt? ==> r == IntToString(v.i)
    ensures v.PObj? ==> r == v.text
  {
    match v
    case PNone => "None"
    case PBool(b) => if b then "True" else "False"
    case PInt(i) => IntToString(i)
    case PStr(s) => s
    case PObj(t) => t
    case _ => render(v)
  }

  /** dict.get(key, default) */
  function DictGet(d: map<string, PyVal>, key: string, default: PyVal): (r: PyVal)
    ensures key in d ==> r == d[key]
    ensures key !in d ==> r == default
  {
    if key in d then d[key] else default
  }

  /** isinstance(v, (int, float)) for the value kinds modelled here; bool counts as int. */
  predicate IsNumber(v: PyVal)
  {
    v.PInt? || v.PFloat? || v.PBool?
  }

  function AsReal(v: PyVal): real
    requires IsNumber(v)
  {
    match v
    case PInt(i) => i as real
    case PFloat(f) => f
    case PBool(b) => if b then 1.0 else 0.0
  }
}

=== FILE: query_cache.dfy ===
/**
 * The query cache layered on the cache engine: query-key normalisation and
 * hashing, the `query:` and `retrieval:` namespaces, storing and rebuilding
 * query records, and invalidation.
 *
 * SHA-256 and MD5 hex digests and json.dumps(sort_keys=True) are
 * uninterpreted functions (`Hashers`); the serialised size of a stored value
 * is the function `sizeOf`; `now` is the clock in seconds and `nowIso` its
 * isoformat() text.
 */
module QueryCache {
  import opened PyCore
  import opened PyValue
  import opened CacheEngine

  datatype Hashers = Hashers(
    sha256: string -> string,
    md5: string -> string,
    json: map<string, PyVal> -> string)

  const QueryPrefix: string := "query:"
  const RetrievalPrefix: string := "retrieval:"
  const DefaultQueryTtl: int := 1800
  const DefaultRetrievalTtl: int := 3600

  /** Digests that never collide; assumed only where a lemma says so. */
  ghost predicate InjectiveSha(h: Hashers)
  {
    forall a, b :: h.sha256(a) == h.sha256(b) ==> a == b
  }

  /** query.strip().lower() */
  function Normalize(query: string): string
  {
    Lower(Strip(query))
  }

  /**
   * The text fed to SHA-256: the normalised query, the model name, the MD5 of
   * a non-empty context and the JSON of non-empty extra parameters, with no
   * separators between them.
   */
  function HashInput(h: Hashers, query: string, model: string, context: string, extra: map<string, PyVal>)
    : (r: string)
    ensures StartsWith(r, Normalize(query) + model)
    ensures context == "" && |extra| == 0 ==> r == Normalize(query) + model
  {
    Normalize(query) + model
    + (if context != "" then h.md5(context) else "")
    + (if |extra| > 0 then h.json(extra) else "")
  }

  /** QueryCache.get_query_hash */
  function QueryHash(h: Hashers, query: string, model: string, context: string, extra: map<string, PyVal>)
    : string
  {
    h.sha256(HashInput(h, query, model, context, extra))
  }

  /** Queries that agree after strip().lower() hash equally under the same model, context and extras. */
  lemma NormalizedQueriesHashEqually(h: Hashers, q1: string, q2: string, model: string, context: string,
                                     extra: map<string, PyVal>)
    requires Normalize(q1) == Normalize(q2)
    ensures QueryHash(h, q1, model, context, extra) == QueryHash(h, q2, model, context, extra)
  {
  }

  /** Surrounding whitespace and letter case do not reach the hash: "  Foo? " hashes as "foo?". */
  lemma PaddedQueryExample(h: Hashers, model: string, context: string, extra: map<string, PyVal>)
    ensures QueryHash(h, "  Foo? ", model, context, extra) == QueryHash(h, "foo?", model, context, extra)
  {
    NormalizePadded();
    NormalizePlain();
  }

  lemma NormalizePadded()
    ensures Normalize("  Foo? ") == "foo?"
  {
    var s := "  Foo? ";
    assert IsSpace(' ') && !IsSpace('F') && !IsSpace('?');
    assert s[0] == ' ' && s[1] == ' ' && s[2] == 'F' && s[5] == '?' && s[6] == ' ';
    assert LeadSpaces(s) == 2;
    assert TrailSpaces(s) == 1;
    assert Strip(s) == s[2..6] == "Foo?";
    assert LowerChar('F') == 'f';
    assert Lower("Foo?") == "foo?";
  }

  lemma NormalizePlain()
    ensures Normalize("foo?") == "foo?"
  {
    var t := "foo?";
    assert !IsSpace('f') && !IsSpace('?');
    assert LeadSpaces(t) == 0 && TrailSpaces(t) == 0;
    assert Strip(t) == t;
    assert Lower(t) == t;
  }

  /**
   * The parts are concatenated without separators, so different
   * (query, model) pairs can share a hash whatever the digest is.
   */
  lemma NoSeparatorCollision(h: Hashers)
    ensures QueryHash(h, "ab", "c", "", map[]) == QueryHash(h, "a", "bc", "", map[])
  {
    assert LeadSpaces("ab") == 0 && TrailSpaces("ab") == 0;
    assert LeadSpaces("a") == 0 && TrailSpaces("a") == 0;
    assert Normalize("ab") == "ab" && Normalize("a") == "a";
    assert "ab" + "c" == "a" + "bc";
  }

  /** Non-empty extra parameters (with a non-empty JSON text) always change the hash of a collision-free digest. */
  lemma ExtraParamsChangeHash(h: Hashers, query: string, model: string, context: string,
                              extra: map<string, PyVal>)
    requires InjectiveSha(h) && |extra| > 0 && h.json(extra) != ""
    ensures QueryHash(h, query, model, context, extra) != QueryHash(h, query, model, context, map[])
  {
    var a := HashInput(h, query, model, context, extra);
    var b := HashInput(h, query, model, context, map[]);
    assert |a| > |b|;
  }

  // ---------------------------------------------------------------------
  // Query records
  // ---------------------------------------------------------------------

  /** QueryCacheEntry; `cachedAt` is the isoformat() text of the store time. */
  datatype QueryEntry = QueryEntry(
    queryHash: string,
    originalQuery: string,
    response: string,
    retrievedChunks: seq<PyVal>,
    contextUsed: string,
    modelName: string,
    responseTime: real,
    cachedAt: string,
    metadata: map<string, PyVal>)

  /** QueryCacheEntry.to_dict; rebuilding from it gives the same record back. */
  function ToDict(e: QueryEntry): (d: map<string, PyVal>)
    ensures |d| > 0
    ensures FromDict(PDict(d)) == Some(e)
  {
    EntryFieldsReadable(e);
    EntryFields(e)
  }

  function EntryFields(e: QueryEntry): map<string, PyVal>
  {
    map[
      "query_hash" := PStr(e.queryHash),
      "original_query" := PStr(e.originalQuery),
      "response" := PStr(e.response),
      "retrieved_chunks" := PList(e.retrievedChunks),
      "context_used" := PStr(e.contextUsed),
      "model_name" := PStr(e.modelName),
      "response_time" := PFloat(e.responseTime),
      "cached_at" := PStr(e.cachedAt),
      "metadata" := PDict(e.metadata)]
  }

  lemma EntryFieldsReadable(e: QueryEntry)
    ensures var d := EntryFields(e);
      && d["query_hash"] == PStr(e.queryHash) && d["original_query"] == PStr(e.originalQuery)
      && d["response"] == PStr(e.response) && d["retrieved_chunks"] == PList(e.retrievedChunks)
      && d["context_used"] == PStr(e.contextUsed) && d["model_name"] == PStr(e.modelName)
      && d["response_time"] == PFloat(e.responseTime) && d["cached_at"] == PStr(e.cachedAt)
      && d["metadata"] == PDict(e.metadata)
  {
  }

  predicate HasStr(d: map<string, PyVal>, k: string)
  {
    k in d && d[k].PStr?
  }

  /**
   * The record rebuilt by get_query_result: a missing required key fails
   * (KeyError), a missing "metadata" becomes {}. The field type tests go
   * beyond the dataclass, which checks no types; every record this model
   * stores has fields of the right types, so the difference is never reached.
   */
  function FromDict(v: PyVal): (r: Option<QueryEntry>)
    ensures r.Some? ==> v.PDict? && "query_hash" in v.fields && "response" in v.fields
  {
    if !v.PDict? then None
    else
      var d := v.fields;
      if HasStr(d, "query_hash") && HasStr(d, "original_query") && HasStr(d, "response")
         && "retrieved_chunks" in d && d["retrieved_chunks"].PList?
         && HasStr(d, "context_used") && HasStr(d, "model_name")
         && "response_time" in d && d["response_time"].PFloat?
         && HasStr(d, "cached_at")
         && ("metadata" !in d || d["metadata"].PDict?)
      then
        Some(QueryEntry(
          d["query_hash"].s, d["original_query"].s, d["response"].s,
          d["retrieved_chunks"].items, d["context_used"].s, d["model_name"].s,
          d["response_time"].f, d["cached_at"].s,
          if "metadata" in d then d["metadata"].fields else map[]))
      else None
  }

  /** `ttl or fallback` */
  function StoreTtl(ttl: Option<int>, fallback: int): (t: int)
    ensures fallback != 0 ==> t != 0
    ensures ttl.Some? && ttl.value != 0 ==> t == ttl.value
  {
    if ttl.None? || ttl.value == 0 then fallback else ttl.value
  }

  /** `metadata or {}` */
  function MetadataOr(m: Option<map<string, PyVal>>): map<string, PyVal>
  {
    if m.None? then map[] else m.value
  }

  /** The record cache_query_result builds. */
  function QueryRecord(h: Hashers, query: string, response: string, chunks: seq<PyVal>, contextUsed: string,
                       modelName: string, responseTime: real, metadata: Option<map<string, PyVal>>,
                       nowIso: string): QueryEntry
  {
    QueryEntry(QueryHash(h, query, modelName, contextUsed, map[]), query, response, chunks, contextUsed,
               modelName, responseTime, nowIso, MetadataOr(metadata))
  }

  /** The side record cache_query_result stores under `retrieval:`. */
  function SideRecord(query: string, chunks: seq<PyVal>, contextUsed: string): map<string, PyVal>
  {
    map["chunks" := PList(chunks), "context" := PStr(contextUsed), "query" := PStr(query)]
  }

  /**
   * QueryCache.cache_query_result: stores the record under
   * query:<hash(query, model, context)> with ttl `ttl or 1800` and, only if
   * that put succeeded, the side record under retrieval:<same hash> with the
   * same ttl. Returns the first put's result.
   */
  function CacheQueryResult(cfg: Config, c: Cache<PyVal>, h: Hashers, sizeOf: PyVal -> nat,
                            query: string, response: string, chunks: seq<PyVal>, contextUsed: string,
                            modelName: string, responseTime: real, metadata: Option<map<string, PyVal>>,
                            ttl: Option<int>, now: real, nowIso: string): (r: Step<PyVal, bool>)
    requires WellFormed(c) && cfg.maxSize >= 1
    ensures WellFormed(r.cache)
    ensures var e := QueryRecord(h, query, response, chunks, contextUsed, modelName, responseTime, metadata, nowIso);
      r.out <==> sizeOf(PDict(ToDict(e))) <= cfg.maxMemory
    ensures !r.out ==> r.cache == c
    ensures var hs := QueryHash(h, query, modelName, contextUsed, map[]);
      var side := PDict(SideRecord(query, chunks, contextUsed));
      r.out && sizeOf(side) <= cfg.maxMemory ==>
        RetrievalPrefix + hs in r.cache.entries
        && r.cache.entries[RetrievalPrefix + hs].value == side
        && r.cache.entries[RetrievalPrefix + hs].ttl == Some(StoreTtl(ttl, DefaultQueryTtl))
    ensures Valid(c) ==> Valid(r.cache)
  {
    var e := QueryRecord(h, query, response, chunks, contextUsed, modelName, responseTime, metadata, nowIso);
    var t := Some(StoreTtl(ttl, DefaultQueryTtl));
    var first := Put(cfg, c, QueryPrefix + e.queryHash, PDict(ToDict(e)), sizeOf(PDict(ToDict(e))), t, now);
    if first.out then
      var side := PDict(SideRecord(query, chunks, contextUsed));
      var second := Put(cfg, first.cache, RetrievalPrefix + e.queryHash, side, sizeOf(side), t, now);
      Step(second.cache, true)
    else first
  }

  /**
   * QueryCache.get_query_result: looks up query:<hash(query, model, context,
   * extra)>; a truthy cached dict is rebuilt into a record, anything else
   * (a miss, a falsy value, a missing field) gives None.
   */
  function GetQueryResult(cfg: Config, c: Cache<PyVal>, h: Hashers, query: string, model: string,
                          context: string, extra: map<string, PyVal>, now: real)
    : (r: Step<PyVal, Option<QueryEntry>>)
    ensures var g := Get(cfg, c, QueryPrefix + QueryHash(h, query, model, context, extra), now);
      r.cache == g.cache
      && (r.out.Some? ==> g.out.Some? && Truthy(g.out.value) && r.out == FromDict(g.out.value))
      && (g.out.Some? && Truthy(g.out.value) ==> r.out == FromDict(g.out.value))
      && (g.out.None? ==> r.out.None?)
  {
    var g := Get(cfg, c, QueryPrefix + QueryHash(h, query, model, context, extra), now);
    if g.out.Some? && Truthy(g.out.value) then Step(g.cache, FromDict(g.out.value))
    else Step(g.cache, None)
  }

  /** Keys under different namespaces never coincide. */
  lemma PrefixesDiffer(a: string, b: string)
    ensures QueryPrefix + a != RetrievalPrefix + b
  {
    assert (QueryPrefix + a)[0] == 'q';
    assert (RetrievalPrefix + b)[0] == 'r';
  }

  /**
   * Round trip: with room for both records and no expiry in between, a
   * query cached with some model and context is found again by any query
   * with the same normalised text, with the same model and context and no
   * extra parameters, and the stored response, chunks, context and model
   * come back unchanged.
   */
  lemma QueryRoundTrip(cfg: Config, c: Cache<PyVal>, h: Hashers, sizeOf: PyVal -> nat,
                       query: string, response: string, chunks: seq<PyVal>, contextUsed: string,
                       modelName: string, responseTime: real, metadata: Option<map<string, PyVal>>,
                       ttl: Option<int>, now: real, nowIso: string, query2: string, later: real)
    requires Valid(c) && cfg.maxSize >= 1
    requires Normalize(query2) == Normalize(query)
    requires |c.order| + 2 <= cfg.maxSize
    requires var e := QueryRecord(h, query, response, chunks, contextUsed, modelName, responseTime, metadata, nowIso);
      c.stats.totalSize + sizeOf(PDict(ToDict(e))) + sizeOf(PDict(SideRecord(query, chunks, contextUsed)))
        <= cfg.maxMemory
    requires later - now <= StoreTtl(ttl, DefaultQueryTtl) as real
    ensures var r := CacheQueryResult(cfg, c, h, sizeOf, query, response, chunks, contextUsed, modelName,
                                      responseTime, metadata, ttl, now, nowIso);
      var g := GetQueryResult(cfg, r.cache, h, query2, modelName, contextUsed, map[], later);
      r.out && g.out.Some?
      && g.out.value == QueryRecord(h, query, response, chunks, contextUsed, modelName, responseTime, metadata, nowIso)
      && g.out.value.response == response && g.out.value.retrievedChunks == chunks
      && g.out.value.contextUsed == contextUsed && g.out.value.modelName == modelName
  {
    var e := QueryRecord(h, query, response, chunks, contextUsed, modelName, responseTime, metadata, nowIso);
    var r := CacheQueryResult(cfg, c, h, sizeOf, query, response, chunks, contextUsed, modelName,
                              responseTime, metadata, ttl, now, nowIso);
    var qk := QueryPrefix + e.queryHash;
    BothRecordsStored(cfg, c, h, sizeOf, query, response, chunks, contextUsed, modelName,
                      responseTime, metadata, ttl, now, nowIso);
    var stored := r.cache.entries[qk];
    assert !IsExpired(stored, later);
    NormalizedQueriesHashEqually(h, query2, query, modelName, contextUsed, map[]);
    var g := Get(cfg, r.cache, qk, later);
    assert g.out == Some(PDict(ToDict(e)));
    assert Truthy(PDict(ToDict(e)));
  }

  /** With room for both records, the query record stays stored, unchanged, after the side record is written. */
  lemma BothRecordsStored(cfg: Config, c: Cache<PyVal>, h: Hashers, sizeOf: PyVal -> nat,
                          query: string, response: string, chunks: seq<PyVal>, contextUsed: string,
                          modelName: string, responseTime: real, metadata: Option<map<string, PyVal>>,
                          ttl: Option<int>, now: real, nowIso: string)
    requires Valid(c) && cfg.maxSize >= 1
    requires |c.order| + 2 <= cfg.maxSize
    requires var e := QueryRecord(h, query, response, chunks, contextUsed, modelName, responseTime, metadata, nowIso);
      c.stats.totalSize + sizeOf(PDict(ToDict(e))) + sizeOf(PDict(SideRecord(query, chunks, contextUsed)))
        <= cfg.maxMemory
    ensures var e := QueryRecord(h, query, response, chunks, contextUsed, modelName, responseTime, metadata, nowIso);
      var r := CacheQueryResult(cfg, c, h, sizeOf, query, response, chunks, contextUsed, modelName,
                                responseTime, metadata, ttl, now, nowIso);
      var qk := QueryPrefix + e.queryHash;
      r.out && qk in r.cache.entries
      && r.cache.entries[qk] == Entry(PDict(ToDict(e)), now, now, 0, Some(StoreTtl(ttl, DefaultQueryTtl)),
                                      sizeOf(PDict(ToDict(e))))
  {
    var e := QueryRecord(h, query, response, chunks, contextUsed, modelName, responseTime, metadata, nowIso);
    var t := Some(StoreTtl(ttl, DefaultQueryTtl));
    PrefixesDiffer(e.queryHash, e.queryHash);
    PutTwiceWithRoom(cfg, c, QueryPrefix + e.queryHash, PDict(ToDict(e)), sizeOf(PDict(ToDict(e))),
                     RetrievalPrefix + e.queryHash, PDict(SideRecord(query, chunks, contextUsed)),
                     sizeOf(PDict(SideRecord(query, chunks, contextUsed))), t, now);
  }

  /**
   * QueryCache.invalidate_query: hashes (query, model) with an empty context
   * and no extras, deletes both namespaced keys, and reports whether either
   * existed.
   */
  function InvalidateQuery(c: Cache<PyVal>, h: Hashers, query: string, model: string): (r: Step<PyVal, bool>)
    requires WellFormed(c)
    ensures var hs := QueryHash(h, query, model, "", map[]);
      (r.out <==> QueryPrefix + hs in c.entries || RetrievalPrefix + hs in c.entries)
      && QueryPrefix + hs !in r.cache.entries && RetrievalPrefix + hs !in r.cache.entries
      && (forall k :: k in c.entries && k != QueryPrefix + hs && k != RetrievalPrefix + hs ==>
            k in r.cache.entries && r.cache.entries[k] == c.entries[k])
    ensures WellFormed(r.cache)
    ensures Valid(c) ==> Valid(r.cache)
  {
    var hs := QueryHash(h, query, model, "", map[]);
    var d1 := Delete(c, QueryPrefix + hs);
    var d2 := Delete(d1.cache, RetrievalPrefix + hs);
    Step(d2.cache, d1.out || d2.out)
  }

  /**
   * Invalidation ignores context: with a collision-free digest, a record
   * cached with a non-empty context (whose MD5 text is non-empty) survives
   * invalidate_query of the same query and model.
   */
  lemma InvalidateMissesContextualEntry(c: Cache<PyVal>, h: Hashers, query: string, model: string,
                                        context: string)
    requires WellFormed(c) && InjectiveSha(h)
    requires context != "" && h.md5(context) != ""
    requires QueryPrefix + QueryHash(h, query, model, context, map[]) in c.entries
    ensures var k := QueryPrefix + QueryHash(h, query, model, context, map[]);
      k in InvalidateQuery(c, h, query, model).cache.entries
  {
    var a := HashInput(h, query, model, context, map[]);
    var b := HashInput(h, query, model, "", map[]);
    assert |a| > |b|;
    var ha := QueryHash(h, query, model, context, map[]);
    var hb := QueryHash(h, query, model, "", map[]);
    assert ha != hb;
    PrefixCancel(QueryPrefix, ha, hb);
    PrefixesDiffer(ha, hb);
  }

  // ---------------------------------------------------------------------
  // Retrieval records
  // ---------------------------------------------------------------------

  /** retrieval:<sha256(normalised query)>, the key of the retrieval-only methods. */
  function RetrievalKey(h: Hashers, query: string): string
  {
    RetrievalPrefix + h.sha256(Normalize(query))
  }

  /**
   * The side record written by cache_query_result lives under the key the
   * retrieval methods use exactly when the model name and context are both
   * empty (for a collision-free digest and non-empty MD5 texts).
   */
  lemma SideRecordKeyMatchesRetrievalKey(h: Hashers, query: string, model: string, context: string)
    ensures model == "" && context == "" ==>
      RetrievalPrefix + QueryHash(h, query, model, context, map[]) == RetrievalKey(h, query)
    ensures InjectiveSha(h) && (model != "" || (context != "" && h.md5(context) != "")) ==>
      RetrievalPrefix + QueryHash(h, query, model, context, map[]) != RetrievalKey(h, query)
  {
    var a := HashInput(h, query, model, context, map[]);
    if model == "" && context == "" {
      assert a == Normalize(query);
    }
    if InjectiveSha(h) && (model != "" || (context != "" && h.md5(context) != "")) {
      assert |a| > |Normalize(query)|;
      assert h.sha256(a) != h.sha256(Normalize(query));
      PrefixCancel(RetrievalPrefix, h.sha256(a), h.sha256(Normalize(query)));
    }
  }

  /** The record cache_retrieval_result stores. */
  function RetrievalRecord(query: string, chunks: seq<PyVal>, retrievalTime: real, nowIso: string)
    : map<string, PyVal>
  {
    map["query" := PStr(query), "chunks" := PList(chunks), "retrieval_time" := PFloat(retrievalTime),
        "cached_at" := PStr(nowIso)]
  }

  /** QueryCache.cache_retrieval_result: one put under RetrievalKey with ttl `ttl or 3600`. */
  function CacheRetrievalResult(cfg: Config, c: Cache<PyVal>, h: Hashers, sizeOf: PyVal -> nat,
                                query: string, chunks: seq<PyVal>, retrievalTime: real, ttl: Option<int>,
                                now: real, nowIso: string): (r: Step<PyVal, bool>)
    requires WellFormed(c) && cfg.maxSize >= 1
    ensures WellFormed(r.cache)
    ensures var v := PDict(RetrievalRecord(query, chunks, retrievalTime, nowIso));
      (r.out <==> sizeOf(v) <= cfg.maxMemory)
      && (r.out ==> RetrievalKey(h, query) in r.cache.entries
                    && r.cache.entries[RetrievalKey(h, query)].value == v
                    && r.cache.entries[RetrievalKey(h, query)].ttl == Some(StoreTtl(ttl, DefaultRetrievalTtl)))
    ensures Valid(c) ==> Valid(r.cache)
  {
    var v := PDict(RetrievalRecord(query, chunks, retrievalTime, nowIso));
    Put(cfg, c, RetrievalKey(h, query), v, sizeOf(v), Some(StoreTtl(ttl, DefaultRetrievalTtl)), now)
  }

  /** QueryCache.get_retrieval_result: whatever get returns for RetrievalKey, falsy values included. */
  function GetRetrievalResult(cfg: Config, c: Cache<PyVal>, h: Hashers, query: string, now: real)
    : (r: Step<PyVal, Option<PyVal>>)
    ensures r.out.Some? <==>
      RetrievalKey(h, query) in c.entries && !IsExpired(c.entries[RetrievalKey(h, query)], now)
    ensures r.out.Some? ==> r.out.value == c.entries[RetrievalKey(h, query)].value
  {
    Get(cfg, c, RetrievalKey(h, query), now)
  }

  /** A retrieval record is found again, unexpired, by any query with the same normalised text. */
  lemma RetrievalRoundTrip(cfg: Config, c: Cache<PyVal>, h: Hashers, sizeOf: PyVal -> nat,
                           query: string, chunks: seq<PyVal>, retrievalTime: real, ttl: Option<int>,
                           now: real, nowIso: string, query2: string, later: real)
    requires WellFormed(c) && cfg.maxSize >= 1
    requires Normalize(query2) == Normalize(query)
    requires sizeOf(PDict(RetrievalRecord(query, chunks, retrievalTime, nowIso))) <= cfg.maxMemory
    requires later - now <= StoreTtl(ttl, DefaultRetrievalTtl) as real
    ensures var r := CacheRetrievalResult(cfg, c, h, sizeOf, query, chunks, retrievalTime, ttl, now, nowIso);
      GetRetrievalResult(cfg, r.cache, h, query2, later).out
        == Some(PDict(RetrievalRecord(query, chunks, retrievalTime, nowIso)))
  {
    var r := CacheRetrievalResult(cfg, c, h, sizeOf, query, chunks, retrievalTime, ttl, now, nowIso);
    var k := RetrievalKey(h, query);
    assert r.cache.entries[k].createdAt == now;
  }

  // ---------------------------------------------------------------------
  // Length buckets
  // ---------------------------------------------------------------------

  datatype LengthBucket = Short | Medium | Long | VeryLong

  function BucketRank(b: LengthBucket): nat
  {
    match b
    case Short => 0
    case Medium => 1
    case Long => 2
    case VeryLong => 3
  }

  /** _get_length_bucket: <= 50 short, <= 200 medium, <= 500 long, else very long. */
  function LengthBucketOf(n: int): (b: LengthBucket)
    ensures b == Short <==> n <= 50
    ensures b == Medium <==> 50 < n <= 200
    ensures b == Long <==> 200 < n <= 500
    ensures b == VeryLong <==> n > 500
  {
    if n <= 50 then Short else if n <= 200 then Medium else if n <= 500 then Long else VeryLong
  }

  /** Longer inputs never land in a smaller bucket. */
  lemma LengthBucketMonotone(m: int, n: int)
    requires m <= n
    ensures BucketRank(LengthBucketOf(m)) <= BucketRank(LengthBucketOf(n))
  {
  }
}

=== FILE: rerank_retriever.dfy ===
/**
 * RerankRetriever: a base retriever wrapped with a file-name boost and the
 * LLM reranker. The base retriever is the `fetch` parameter, its answer for
 * the `k` it is configured with at call time (None when it raises); the
 * retriever's search_kwargs are the `Base` record.
 */
module RerankRetriever {
  import opened PyCore
  import opened PyValue
  import opened Documents
  import opened StableSort
  import ConfigurationService
  import RerankService

  // ---------------------------------------------------------------------
  // Settings
  // ---------------------------------------------------------------------

  datatype RetrieverSettings = RetrieverSettings(
    initialK: int,
    finalK: int,
    filenameBoost: bool,
    boostScore: real,
    matchThreshold: real)

  /** `given or configured`: a missing or zero argument falls back to the configured value. */
  function OrConfigured(given: Option<int>, configured: int): (n: int)
    ensures given.Some? && given.value != 0 ==> n == given.value
    ensures given.None? || given == Some(0) ==> n == configured
  {
    if given.Some? && given.value != 0 then given.value else configured
  }

  /** __init__: explicit arguments first, then the configuration, then the defaults 8, 4, 0.2 and 0.3. */
  function LoadRetrieverSettings(initialK: Option<int>, finalK: Option<int>, filenameBoost: bool,
                                 values: map<string, PyVal>,
                                 parseFloat: ConfigurationService.FloatParser): (st: RetrieverSettings)
    ensures st.initialK == OrConfigured(initialK, RerankService.GetInt(values, "rerank_initial_k", 8))
    ensures st.finalK == OrConfigured(finalK, RerankService.GetInt(values, "rerank_final_k", 4))
    ensures st.filenameBoost == filenameBoost
    ensures st.boostScore == RerankService.GetFloat(values, "filename_boost_score", 0.2, parseFloat)
    ensures st.matchThreshold == RerankService.GetFloat(values, "filename_match_threshold", 0.3, parseFloat)
  {
    RetrieverSettings(
      OrConfigured(initialK, RerankService.GetInt(values, "rerank_initial_k", 8)),
      OrConfigured(finalK, RerankService.GetInt(values, "rerank_final_k", 4)),
      filenameBoost,
      RerankService.GetFloat(values, "filename_boost_score", 0.2, parseFloat),
      RerankService.GetFloat(values, "filename_match_threshold", 0.3, parseFloat))
  }

  /** With no arguments and an empty configuration the retriever uses 8, 4, 0.2 and 0.3. */
  lemma EmptyConfigDefaults(parseFloat: ConfigurationService.FloatParser)
    ensures LoadRetrieverSettings(None, None, true, map[], parseFloat) == RetrieverSettings(8, 4, true, 0.2, 0.3)
  {
  }

  /** A zero k argument is falsy, so the configured value replaces it. */
  lemma ZeroArgumentUsesConfig(values: map<string, PyVal>, parseFloat: ConfigurationService.FloatParser)
    requires "rerank_final_k" in values && values["rerank_final_k"] == PInt(6)
    ensures LoadRetrieverSettings(None, Some(0), false, values, parseFloat).finalK == 6
  {
  }

  // ---------------------------------------------------------------------
  // File-name match score
  // ---------------------------------------------------------------------

  /** set(s.split()) */
  function WordSet(s: string): (r: set<string>)
    ensures forall w :: w in r <==> w in Words(s)
  {
    set w | w in Words(s)
  }

  /** The stem with '_' and '-' read as spaces. */
  function Spaced(stem: string): (r: string)
    ensures |r| == |stem|
    ensures forall i :: 0 <= i < |stem| ==> r[i] == (if stem[i] == '_' || stem[i] == '-' then ' ' else stem[i])
  {
    ReplaceChar(ReplaceChar(stem, '_', ' '), '-', ' ')
  }

  /** The word set of the file name: its stem's words once '_' and '-' separate words. */
  function NameWords(filename: string): set<string>
  {
    WordSet(Spaced(Stem(filename)))
  }

  /** The query words that occur anywhere in the stem. */
  function InStem(q: set<string>, stem: string): (r: set<string>)
    ensures r <= q
    ensures forall w :: w in r <==> w in q && Contains(stem, w)
  {
    set w | w in q && Contains(stem, w)
  }

  /**
   * _calculate_filename_match on an already lower-cased query and file name:
   * 0.4 Jaccard of the word sets, 0.4 share of query words found as name
   * words, 0.2 share of query words found inside the stem.
   */
  function FilenameMatch(query: string, filename: string): (r: real)
    ensures 0.0 <= r <= 1.0
    ensures query == [] || filename == [] ==> r == 0.0
    ensures WordSet(query) == {} || NameWords(filename) == {} ==> r == 0.0
  {
    if query == [] || filename == [] then 0.0
    else
      var stem := Stem(filename);
      var q := WordSet(query);
      var f := NameWords(filename);
      if q == {} || f == {} then 0.0
      else
        SubsetSize(q * f, q + f);
        SubsetSize(q * f, q);
        SubsetSize(q, q + f);
        SubsetSize(InStem(q, stem), q);
        var jaccard := Share(|q * f|, |q + f|);
        var exact := Share(|q * f|, |q|);
        var substring := Share(|InStem(q, stem)|, |q|);
        AtMostOne(jaccard * 0.4 + exact * 0.4 + substring * 0.2)
  }

  /**
   * A score is positive exactly when some query word is a name word or
   * occurs in the stem.
   */
  lemma MatchPositiveIff(query: string, filename: string)
    requires query != [] && filename != []
    ensures FilenameMatch(query, filename) > 0.0 <==>
      WordSet(query) != {} && NameWords(filename) != {} &&
      (WordSet(query) * NameWords(filename) != {} || InStem(WordSet(query), Stem(filename)) != {})
  {
    var q := WordSet(query);
    var f := NameWords(filename);
    if q != {} && f != {} {
      SubsetSize(q * f, q + f);
      SubsetSize(q, q + f);
    }
  }

  /** A word of the spaced stem sits in the stem itself at the same place. */
  lemma SpacedOccurrence(stem: string, w: string, j: int)
    requires OccursAt(Spaced(stem), w, j) && NoSpace(w)
    ensures OccursAt(stem, w, j)
  {
    var sp := Spaced(stem);
    forall t | 0 <= t < |w|
      ensures stem[j + t] == w[t]
    {
      assert sp[j + t] == w[t];
      assert IsSpace(' ');
    }
  }

  /** Every name word occurs in the stem. */
  lemma NameWordsInStem(filename: string)
    ensures forall w :: w in NameWords(filename) ==> Contains(Stem(filename), w)
  {
    var stem := Stem(filename);
    var sp := Spaced(stem);
    WordsOccur(sp);
    forall w | w in NameWords(filename)
      ensures Contains(stem, w)
    {
      var i :| 0 <= i < |Words(sp)| && Words(sp)[i] == w;
      var j :| 0 <= j <= |sp| - |w| && OccursAt(sp, w, j);
      SpacedOccurrence(stem, w, j);
    }
  }

  /** A query whose words are exactly the file name's words scores the full 1.0. */
  lemma SameWordsScoreOne(query: string, filename: string)
    requires query != [] && filename != []
    requires WordSet(query) == NameWords(filename) != {}
    ensures FilenameMatch(query, filename) == 1.0
  {
    var q := WordSet(query);
    NameWordsInStem(filename);
    assert InStem(q, Stem(filename)) == q;
    assert q * q == q && q + q == q;
  }

  // ---------------------------------------------------------------------
  // File-name boost
  // ---------------------------------------------------------------------

  /**
   * The file name a document is matched on: the last "/" segment of its
   * source ("" without one); None when the source is not text, where the
   * string methods raise.
   */
  function FilenameOf(d: Document): (r: Option<string>)
    ensures "source" !in d.metadata ==> r == Some("")
    ensures "source" in d.metadata && d.metadata["source"].PStr? ==> r == Some(LastPiece(d.metadata["source"].s, '/'))
    ensures "source" in d.metadata && !d.metadata["source"].PStr? ==> r.None?
  {
    match MetaGet(d, "source", PStr(""))
    case PStr(s) => Some(LastPiece(s, '/'))
    case _ => None
  }

  /** source.split("/")[-1] if "/" in source else source */
  lemma FilenameIsLastSegment(source: string)
    ensures '/' !in source ==> LastPiece(source, '/') == source
    ensures '/' in source ==> LastPiece(source, '/') == SplitOn(source, '/')[|SplitOn(source, '/')| - 1]
  {
    if '/' in source {
      LastPieceOfSplit(source, '/');
    } else {
      AfterLastUnique(source, '/', 0);
    }
  }

  /** The match score of one document, on the lower-cased query and file name. */
  function DocScore(query: string, name: string): real
  {
    FilenameMatch(Lower(query), Lower(name))
  }

  /** One step of the boost loop: a copy marked with its score above the threshold, the document itself otherwise. */
  function Mark(query: string, d: Document, threshold: real): (r: Option<Document>)
    ensures r.Some? <==> FilenameOf(d).Some?
    ensures r.Some? ==> r.value.pageContent == d.pageContent
    ensures r.Some? && DocScore(query, FilenameOf(d).value) > threshold ==>
      r.value.metadata == d.metadata["filename_match_score" := PFloat(DocScore(query, FilenameOf(d).value))]
                                     ["boosted" := PBool(true)]
    ensures r.Some? && DocScore(query, FilenameOf(d).value) <= threshold ==> r.value == d
  {
    match FilenameOf(d)
    case None => None
    case Some(name) =>
      var score := DocScore(query, name);
      if score > threshold then
        Some(Document(d.pageContent, d.metadata["filename_match_score" := PFloat(score)]["boosted" := PBool(true)]))
      else Some(d)
  }

  /** The boost loop over all documents; None as soon as one raises. */
  function MarkAll(query: string, docs: seq<Document>, threshold: real): (r: Option<seq<Document>>)
    ensures r.Some? <==> forall i :: 0 <= i < |docs| ==> FilenameOf(docs[i]).Some?
    ensures r.Some? ==> |r.value| == |docs|
    ensures r.Some? ==> forall i :: 0 <= i < |docs| ==> Some(r.value[i]) == Mark(query, docs[i], threshold)
  {
    MapAll(docs, d => Mark(query, d, threshold))
  }

  /** metadata.get("filename_match_score", 0.0) as the sort reads it. */
  function MatchKey(d: Document): (k: real)
    ensures "filename_match_score" !in d.metadata ==> k == 0.0
    ensures d.metadata.Keys >= {"filename_match_score"} && d.metadata["filename_match_score"].PFloat? ==>
      k == d.metadata["filename_match_score"].f
  {
    var v := MetaGet(d, "filename_match_score", PFloat(0.0));
    if IsNumber(v) then AsReal(v) else 0.0
  }

  /** The sort key, metadata.get("filename_match_score", 0.0). */
  function SortKeyOf(d: Document): PyVal
  {
    MetaGet(d, "filename_match_score", PFloat(0.0))
  }

  /** Every score the sort compares is a number. */
  predicate KeysAreNumbers(docs: seq<Document>)
  {
    forall i :: 0 <= i < |docs| ==>
      "filename_match_score" in docs[i].metadata ==> IsNumber(docs[i].metadata["filename_match_score"])
  }

  /** Every score the sort compares is a string. */
  predicate KeysAreTexts(docs: seq<Document>)
  {
    forall i :: 0 <= i < |docs| ==> SortKeyOf(docs[i]).PStr?
  }

  /**
   * The keys of a list of two or more can all be compared with each other:
   * numbers (int, float, bool) with numbers, or str with str. Any other mix,
   * and None, dict or other objects, makes the sort raise.
   */
  predicate KeysComparable(docs: seq<Document>)
  {
    |docs| < 2 || KeysAreNumbers(docs) || KeysAreTexts(docs)
  }

  /** key(a) >= key(b) as Python compares two comparable keys. */
  predicate KeyAtLeast(a: PyVal, b: PyVal)
  {
    (IsNumber(a) && IsNumber(b) && AsReal(a) >= AsReal(b))
    || (a.PStr? && b.PStr? && !StrLess(a.s, b.s))
  }

  /** The keys never increase along the list. */
  predicate SortedByScore(docs: seq<Document>)
  {
    forall i, j :: 0 <= i < j < |docs| ==> KeyAtLeast(SortKeyOf(docs[i]), SortKeyOf(docs[j]))
  }

  /** The string keys of the list. */
  function TextKeys(docs: seq<Document>): set<string>
  {
    set i | 0 <= i < |docs| && SortKeyOf(docs[i]).PStr? :: SortKeyOf(docs[i]).s
  }

  /** A string key as its rank among the list's string keys. */
  function TextRankKey(keys: set<string>): Document -> real
  {
    d => (if SortKeyOf(d).PStr? then TextRank(keys, SortKeyOf(d).s) else 0) as real
  }

  /** The real-valued key the stable sort uses: the number itself, or the rank of the string. */
  function BoostKey(ms: seq<Document>): Document -> real
  {
    if KeysAreNumbers(ms) then MatchKey else TextRankKey(TextKeys(ms))
  }

  /** With numeric keys, MatchKey is the key's value. */
  lemma NumericKeyIsMatchKey(d: Document)
    requires KeysAreNumbers([d])
    ensures IsNumber(SortKeyOf(d)) && MatchKey(d) == AsReal(SortKeyOf(d))
  {
    assert [d][0] == d;
  }

  /** Sorting on BoostKey leaves a list of comparable keys in Python's descending key order. */
  lemma BoostKeySorts(ms: seq<Document>)
    requires KeysComparable(ms)
    ensures SortedByScore(SortDesc(ms, BoostKey(ms)))
  {
    var r := SortDesc(ms, BoostKey(ms));
    SortDescMembers(ms, BoostKey(ms));
    if |ms| >= 2 && !KeysAreNumbers(ms) {
      var keys := TextKeys(ms);
      forall i, j | 0 <= i < j < |r|
        ensures KeyAtLeast(SortKeyOf(r[i]), SortKeyOf(r[j]))
      {
        var a :| 0 <= a < |ms| && ms[a] == r[i];
        var b :| 0 <= b < |ms| && ms[b] == r[j];
        assert SortKeyOf(ms[a]).s in keys && SortKeyOf(ms[b]).s in keys;
        TextRankOrder(keys, SortKeyOf(r[i]).s, SortKeyOf(r[j]).s);
        assert BoostKey(ms)(r[i]) >= BoostKey(ms)(r[j]);
      }
    } else if KeysAreNumbers(ms) {
      forall i, j | 0 <= i < j < |r|
        ensures KeyAtLeast(SortKeyOf(r[i]), SortKeyOf(r[j]))
      {
        var a :| 0 <= a < |ms| && ms[a] == r[i];
        var b :| 0 <= b < |ms| && ms[b] == r[j];
        assert KeysAreNumbers([ms[a]]) && KeysAreNumbers([ms[b]]);
        NumericKeyIsMatchKey(r[i]);
        NumericKeyIsMatchKey(r[j]);
      }
    }
  }

  /**
   * _apply_filename_boost: mark every document, then sort them by score,
   * highest first, stably. A non-text source raises; so does sorting two
   * or more documents whose scores cannot all be compared with each other.
   */
  function ApplyFilenameBoost(query: string, docs: seq<Document>, threshold: real): (r: Result<seq<Document>>)
    ensures |docs| == 0 ==> r == Ok(docs)
    ensures |docs| > 0 ==>
      (r.Ok? <==> (MarkAll(query, docs, threshold).Some? && KeysComparable(MarkAll(query, docs, threshold).value)))
    ensures r.Ok? ==> |r.value| == |docs| && SortedByScore(r.value)
    ensures r.Ok? && (|docs| == 0 || KeysAreNumbers(MarkAll(query, docs, threshold).value)) ==>
      SortedDesc(r.value, MatchKey)
  {
    if |docs| == 0 then Ok(docs)
    else
      match MarkAll(query, docs, threshold)
      case None => Err("AttributeError: source is not a string")
      case Some(ms) =>
        if !KeysComparable(ms) then Err("TypeError: '<' not supported between score types")
        else
          BoostKeySorts(ms);
          Ok(SortDesc(ms, BoostKey(ms)))
  }

  /** The boost reorders the marked documents: the same documents, each as often. */
  lemma BoostPermutes(query: string, docs: seq<Document>, threshold: real)
    requires ApplyFilenameBoost(query, docs, threshold).Ok? && |docs| > 0
    ensures multiset(ApplyFilenameBoost(query, docs, threshold).value) ==
            multiset(MarkAll(query, docs, threshold).value)
  {
    var ms := MarkAll(query, docs, threshold).value;
    SortDescPermutes(ms, BoostKey(ms));
  }

  /**
   * Documents with equal sort keys keep the order the base retriever gave
   * them: BoostKey is the numeric score, or a rank that is equal exactly
   * for equal strings.
   */
  lemma BoostIsStable(query: string, docs: seq<Document>, threshold: real, k: real)
    requires ApplyFilenameBoost(query, docs, threshold).Ok? && |docs| > 0
    ensures var ms := MarkAll(query, docs, threshold).value;
      WithKey(ApplyFilenameBoost(query, docs, threshold).value, BoostKey(ms), k) == WithKey(ms, BoostKey(ms), k)
  {
    var ms := MarkAll(query, docs, threshold).value;
    SortDescIsStable(ms, BoostKey(ms), k);
  }

  /** Two marked documents with string scores get equal sort keys exactly when the strings are equal. */
  lemma EqualTextKeysIff(ms: seq<Document>, i: int, j: int)
    requires !KeysAreNumbers(ms) && 0 <= i < |ms| && 0 <= j < |ms|
    requires SortKeyOf(ms[i]).PStr? && SortKeyOf(ms[j]).PStr?
    ensures BoostKey(ms)(ms[i]) == BoostKey(ms)(ms[j]) <==> SortKeyOf(ms[i]) == SortKeyOf(ms[j])
  {
    TextRankOrder(TextKeys(ms), SortKeyOf(ms[i]).s, SortKeyOf(ms[j]).s);
  }

  /** Two documents whose scores are the strings "x" and "y" sort as Python sorts them, "y" first. */
  lemma {:induction false} TextScoresSort(a: Document, b: Document)
    requires SortKeyOf(a) == PStr("x") && SortKeyOf(b) == PStr("y")
    ensures KeysComparable([a, b])
    ensures SortDesc([a, b], BoostKey([a, b])) == [b, a]
  {
    var ms := [a, b];
    assert !KeysAreNumbers(ms) by {
      assert "filename_match_score" in ms[0].metadata;
    }
    assert KeysAreTexts(ms);
    assert StrLess("x", "y");
    EqualTextKeysIff(ms, 0, 1);
    TextRankOrder(TextKeys(ms), "x", "y");
    assert BoostKey(ms)(a) < BoostKey(ms)(b);
    assert [a, b][..1] == [a];
    assert SortDesc([a], BoostKey(ms)) == [a];
  }

  /**
   * Two documents that stay unboosted and carry the stored scores "x" and
   * "y" are compared as strings, not refused: the boost returns "y" first.
   */
  lemma {:induction false} StringScoresAreSorted(query: string, a: Document, b: Document, threshold: real)
    requires Mark(query, a, threshold) == Some(a) && Mark(query, b, threshold) == Some(b)
    requires SortKeyOf(a) == PStr("x") && SortKeyOf(b) == PStr("y")
    ensures ApplyFilenameBoost(query, [a, b], threshold) == Ok([b, a])
  {
    MarkPairFixed(query, a, b, threshold);
    TextScoresSort(a, b);
    BoostSortsMarked(query, [a, b], threshold, [b, a]);
  }

  /** When marking changes nothing and the keys compare, the boost is the stable sort on BoostKey. */
  lemma BoostSortsMarked(query: string, ms: seq<Document>, threshold: real, sorted: seq<Document>)
    requires |ms| > 0 && MarkAll(query, ms, threshold) == Some(ms) && KeysComparable(ms)
    requires SortDesc(ms, BoostKey(ms)) == sorted
    ensures ApplyFilenameBoost(query, ms, threshold) == Ok(sorted)
  {
  }

  /** Marking leaves a pair as it is when it leaves both documents as they are. */
  lemma MarkPairFixed(query: string, a: Document, b: Document, threshold: real)
    requires Mark(query, a, threshold) == Some(a) && Mark(query, b, threshold) == Some(b)
    ensures MarkAll(query, [a, b], threshold) == Some([a, b])
  {
    MarkAllFixed(query, [a, b], threshold);
  }

  /** Marking leaves the list as it is when it leaves every document as it is. */
  lemma MarkAllFixed(query: string, ms: seq<Document>, threshold: real)
    requires forall i :: 0 <= i < |ms| ==> Mark(query, ms[i], threshold) == Some(ms[i])
    ensures MarkAll(query, ms, threshold) == Some(ms)
  {
    var m := MarkAll(query, ms, threshold);
    forall i | 0 <= i < |ms|
      ensures FilenameOf(ms[i]).Some?
    {
      assert Mark(query, ms[i], threshold).Some?;
    }
    assert m.Some?;
    forall i | 0 <= i < |ms|
      ensures m.value[i] == ms[i]
    {
      assert Some(m.value[i]) == Mark(query, ms[i], threshold);
    }
    assert |m.value| == |ms|;
    assert m.value == ms;
  }

  /** Documents with no score and no name above the threshold come back untouched and in order. */
  lemma NoMatchKeepsOrder(query: string, docs: seq<Document>, threshold: real)
    requires forall i :: 0 <= i < |docs| ==> FilenameOf(docs[i]).Some?
    requires forall i :: 0 <= i < |docs| ==> DocScore(query, FilenameOf(docs[i]).value) <= threshold
    requires forall i :: 0 <= i < |docs| ==> "filename_match_score" !in docs[i].metadata
    ensures ApplyFilenameBoost(query, docs, threshold) == Ok(docs)
  {
    if |docs| > 0 {
      assert MarkAll(query, docs, threshold) == Some(docs) by {
        NothingMarked(query, docs, threshold);
      }
      assert KeysAreNumbers(docs);
      assert SortDesc(docs, MatchKey) == docs by {
        assert forall i :: 0 <= i < |docs| ==> MatchKey(docs[i]) == 0.0;
        SortDescOfSorted(docs, MatchKey);
      }
    }
  }

  /** With every name at or below the threshold, marking changes no document. */
  lemma NothingMarked(query: string, docs: seq<Document>, threshold: real)
    requires forall i :: 0 <= i < |docs| ==> FilenameOf(docs[i]).Some?
    requires forall i :: 0 <= i < |docs| ==> DocScore(query, FilenameOf(docs[i]).value) <= threshold
    ensures MarkAll(query, docs, threshold) == Some(docs)
  {
    var ms := MarkAll(query, docs, threshold).value;
    forall i | 0 <= i < |docs|
      ensures ms[i] == docs[i]
    {
      assert Some(ms[i]) == Mark(query, docs[i], threshold);
    }
    assert ms == docs;
  }

  // ---------------------------------------------------------------------
  // Retrieval
  // ---------------------------------------------------------------------

  /**
   * The base retriever's search_kwargs as far as they matter here: whether
   * it has them, and the value under 'k' if any.
   */
  datatype Base = Base(hasSearchKwargs: bool, k: Option<PyVal>)

  /** search_kwargs.get('k', 4) */
  function OriginalK(b: Base): (v: PyVal)
    ensures b.k.Some? ==> v == b.k.value
    ensures b.k.None? ==> v == PInt(4)
  {
    if b.k.Some? then b.k.value else PInt(4)
  }

  /**
   * Retrieval with k temporarily set to `k` when the base retriever has
   * search_kwargs. The old value is written back after a successful call
   * only; when the call raises, k stays at `k` and the result is [].
   */
  function RetrieveWithK(b: Base, k: int, fetch: Option<PyVal> -> Option<seq<Document>>): (r: (seq<Document>, Base))
    requires b.hasSearchKwargs
    ensures fetch(Some(PInt(k))).Some? ==> r.0 == fetch(Some(PInt(k))).value && r.1 == b.(k := Some(OriginalK(b)))
    ensures fetch(Some(PInt(k))).None? ==> r.0 == [] && r.1 == b.(k := Some(PInt(k)))
  {
    match fetch(Some(PInt(k)))
    case Some(ds) => (ds, b.(k := Some(OriginalK(b))))
    case None => ([], b.(k := Some(PInt(k))))
  }

  /** _get_initial_documents: retrieve initial_k documents; [] when the base retriever raises. */
  function InitialDocuments(b: Base, initialK: int, fetch: Option<PyVal> -> Option<seq<Document>>): (r: (seq<Document>, Base))
    ensures !b.hasSearchKwargs ==> r.1 == b
    ensures !b.hasSearchKwargs ==> r.0 == (if fetch(None).Some? then fetch(None).value else [])
    ensures b.hasSearchKwargs ==> r == RetrieveWithK(b, initialK, fetch)
  {
    if b.hasSearchKwargs then RetrieveWithK(b, initialK, fetch)
    else
      match fetch(None)
      case Some(ds) => (ds, b)
      case None => ([], b)
  }

  /**
   * After a successful retrieval a retriever that had a k has it back; one
   * that raised is left with k = initial_k and nothing retrieved.
   */
  lemma InitialRestoresOnlyOnSuccess(b: Base, initialK: int, fetch: Option<PyVal> -> Option<seq<Document>>)
    requires b.hasSearchKwargs
    ensures fetch(Some(PInt(initialK))).Some? && b.k.Some? ==> InitialDocuments(b, initialK, fetch).1 == b
    ensures fetch(Some(PInt(initialK))).None? ==>
      InitialDocuments(b, initialK, fetch) == ([], Base(true, Some(PInt(initialK))))
  {
  }

  /** The base retriever returns at most k documents when asked for k. */
  ghost predicate HonoursK(fetch: Option<PyVal> -> Option<seq<Document>>)
  {
    forall n: int :: n >= 0 && fetch(Some(PInt(n))).Some? ==> |fetch(Some(PInt(n))).value| <= n
  }

  /** _get_fallback_documents: retrieval capped at final_k; [] when it raises too. */
  function FallbackDocuments(b: Base, finalK: int, fetch: Option<PyVal> -> Option<seq<Document>>): (r: (seq<Document>, Base))
    ensures !b.hasSearchKwargs ==> r.1 == b
    ensures !b.hasSearchKwargs ==> r.0 == (if fetch(None).Some? then Take(fetch(None).value, finalK) else [])
    ensures b.hasSearchKwargs ==> r == RetrieveWithK(b, finalK, fetch)
    ensures finalK >= 0 && (!b.hasSearchKwargs || HonoursK(fetch)) ==> |r.0| <= finalK
  {
    if b.hasSearchKwargs then RetrieveWithK(b, finalK, fetch)
    else
      match fetch(None)
      case Some(ds) => (Take(ds, finalK), b)
      case None => ([], b)
  }

  /**
   * get_relevant_documents: initial retrieval, the optional boost, then the
   * reranker; an exception on the way (the boost is where one can arise)
   * falls back to plain retrieval.
   */
  function GetRelevantDocuments(st: RetrieverSettings, rs: RerankService.RerankSettings, llmReady: bool,
                                query: string, b: Base, fetch: Option<PyVal> -> Option<seq<Document>>,
                                cached: seq<Document>, replies: nat -> Option<string>): (r: (seq<Document>, Base))
    ensures |InitialDocuments(b, st.initialK, fetch).0| == 0 ==>
      r == ([], InitialDocuments(b, st.initialK, fetch).1)
  {
    var (initial, b1) := InitialDocuments(b, st.initialK, fetch);
    if |initial| == 0 then ([], b1)
    else
      var boosted := if st.filenameBoost then ApplyFilenameBoost(query, initial, st.matchThreshold) else Ok(initial);
      match boosted
      case Err(_) => FallbackDocuments(b1, st.finalK, fetch)
      case Ok(ds) => (RerankService.RerankDocuments(rs, llmReady, ds, Some(st.finalK), cached, replies), b1)
  }

  /** When the boost raises, the answer is the fallback retrieval, at most final_k documents. */
  lemma BoostFailureFallsBack(st: RetrieverSettings, rs: RerankService.RerankSettings, llmReady: bool,
                              query: string, b: Base, fetch: Option<PyVal> -> Option<seq<Document>>,
                              cached: seq<Document>, replies: nat -> Option<string>)
    requires st.filenameBoost && st.finalK >= 0 && HonoursK(fetch)
    requires ApplyFilenameBoost(query, InitialDocuments(b, st.initialK, fetch).0, st.matchThreshold).Err?
    ensures var r := GetRelevantDocuments(st, rs, llmReady, query, b, fetch, cached, replies);
      r == FallbackDocuments(InitialDocuments(b, st.initialK, fetch).1, st.finalK, fetch) && |r.0| <= st.finalK
  {
  }

  /**
   * Without a cached answer, every document returned was retrieved (and
   * possibly marked) and there are at most final_k of them.
   */
  lemma ResultComesFromRetrieval(st: RetrieverSettings, rs: RerankService.RerankSettings, llmReady: bool,
                                 query: string, b: Base, fetch: Option<PyVal> -> Option<seq<Document>>,
                                 replies: nat -> Option<string>)
    requires !st.filenameBoost && st.finalK > 0
    ensures var initial := InitialDocuments(b, st.initialK, fetch).0;
      var r := GetRelevantDocuments(st, rs, llmReady, query, b, fetch, [], replies).0;
      |r| <= st.finalK && forall i :: 0 <= i < |r| ==> r[i] in initial
  {
    var initial := InitialDocuments(b, st.initialK, fetch).0;
    if |initial| > 0 {
      UncachedRerankKeeps(rs, llmReady, initial, st.finalK, replies);
    }
  }

  /** Reranking with nothing cached keeps at most k of its input documents. */
  lemma UncachedRerankKeeps(rs: RerankService.RerankSettings, llmReady: bool, docs: seq<Document>, k: int,
                            replies: nat -> Option<string>)
    requires k > 0
    ensures var r := RerankService.RerankDocuments(rs, llmReady, docs, Some(k), [], replies);
      |r| <= k && forall i :: 0 <= i < |r| ==> r[i] in docs
  {
    var r := RerankService.RerankDocuments(rs, llmReady, docs, Some(k), [], replies);
    assert RerankService.EffectiveK(rs, Some(k)) == k;
    if !(rs.useRerank && llmReady) {
      assert r == Take(docs, k);
    }
  }

  /**
   * The default path, boost on: when the boost succeeds and no answer is
   * cached, at most final_k documents come back, each the marked copy of a
   * retrieved document.
   */
  lemma BoostedResultComesFromRetrieval(st: RetrieverSettings, rs: RerankService.RerankSettings, llmReady: bool,
                                        query: string, b: Base, fetch: Option<PyVal> -> Option<seq<Document>>,
                                        replies: nat -> Option<string>)
    requires st.filenameBoost && st.finalK > 0
    requires ApplyFilenameBoost(query, InitialDocuments(b, st.initialK, fetch).0, st.matchThreshold).Ok?
    ensures var initial := InitialDocuments(b, st.initialK, fetch).0;
      var r := GetRelevantDocuments(st, rs, llmReady, query, b, fetch, [], replies).0;
      |r| <= st.finalK &&
      forall i :: 0 <= i < |r| ==>
        exists j :: 0 <= j < |initial| && Mark(query, initial[j], st.matchThreshold) == Some(r[i])
  {
    var initial := InitialDocuments(b, st.initialK, fetch).0;
    if |initial| > 0 {
      var ds := ApplyFilenameBoost(query, initial, st.matchThreshold).value;
      var r := RerankService.RerankDocuments(rs, llmReady, ds, Some(st.finalK), [], replies);
      UncachedRerankKeeps(rs, llmReady, ds, st.finalK, replies);
      forall i | 0 <= i < |r|
        ensures exists j :: 0 <= j < |initial| && Mark(query, initial[j], st.matchThreshold) == Some(r[i])
      {
        BoostedComesFromMarks(query, initial, st.matchThreshold, r[i]);
      }
    }
  }

  /** A document the boost returns is the marked copy of one of the retrieved documents. */
  lemma BoostedComesFromMarks(query: string, initial: seq<Document>, threshold: real, x: Document)
    requires ApplyFilenameBoost(query, initial, threshold).Ok? && |initial| > 0
    requires x in ApplyFilenameBoost(query, initial, threshold).value
    ensures exists j :: 0 <= j < |initial| && Mark(query, initial[j], threshold) == Some(x)
  {
    var ds := ApplyFilenameBoost(query, initial, threshold).value;
    var ms := MarkAll(query, initial, threshold).value;
    BoostPermutes(query, initial, threshold);
    var j := InPermutation(ds, ms, x);
    assert Mark(query, initial[j], threshold) == Some(ms[j]);
  }
}

=== FILE: rerank_service.dfy ===
/**
 * RerankService: the typed configuration getters, diversity-aware
 * round-robin selection by document source, the parsing of the score list
 * the LLM returns, the threshold-and-truncate ranking with its retries,
 * and the fallbacks of rerank_documents.
 *
 * The configuration service is its table of values (`values`, get_value
 * being a lookup with a default); float() on a string is a parameter; the
 * LLM is `replies`, the content returned by attempt n or None when that
 * attempt raised; the cache is the list it returns for this query.
 */
module RerankService {
  import opened PyCore
  import opened PyValue
  import opened Documents
  import ConfigurationService
  import StableSort

  // ---------------------------------------------------------------------
  // Configuration
  // ---------------------------------------------------------------------

  datatype RerankSettings = RerankSettings(
    useRerank: bool,
    initialK: int,
    finalK: int,
    scoreThreshold: real,
    cacheTtl: int,
    temperature: real,
    maxRetries: int,
    useDiversity: bool,
    maxPerSource: int,
    minSources: int)

  /** int() of a float: truncation toward zero. */
  function Trunc(f: real): (n: int)
    ensures f >= 0.0 ==> n as real <= f < n as real + 1.0
    ensures f < 0.0 ==> n as real - 1.0 < f <= n as real
  {
    if f >= 0.0 then f.Floor else -((-f).Floor)
  }

  /** _get_bool_config: a string is true when its lower-case form is one of the four words; anything else by truthiness. */
  function GetBool(values: map<string, PyVal>, key: string, default: bool): (b: bool)
    ensures key !in values ==> b == default
    ensures key in values && values[key].PStr? ==> (b <==> Lower(values[key].s) in {"true", "1", "yes", "on"})
    ensures key in values && !values[key].PStr? ==> (b <==> Truthy(values[key]))
  {
    var v := DictGet(values, key, PBool(default));
    if v.PStr? then TruthyText(v.s) else Truthy(v)
  }

  /**
   * int(value): ints, bools and floats convert; a string converts when
   * int() accepts its text; None, lists and dicts raise TypeError. Either
   * error gives the default.
   */
  function AsInt(v: PyVal): (r: Option<int>)
    ensures v.PInt? ==> r == Some(v.i)
    ensures v.PStr? ==> r == ParseInt(v.s)
    ensures v.PNone? || v.PList? || v.PDict? || v.PObj? ==> r.None?
  {
    match v
    case PInt(i) => Some(i)
    case PBool(b) => Some(if b then 1 else 0)
    case PFloat(f) => Some(Trunc(f))
    case PStr(s) => ParseInt(s)
    case _ => None
  }

  function GetInt(values: map<string, PyVal>, key: string, default: int): (n: int)
    ensures key !in values ==> n == default
    ensures key in values && AsInt(values[key]).Some? ==> n == AsInt(values[key]).value
    ensures key in values && AsInt(values[key]).None? ==> n == default
  {
    if key !in values then default
    else match AsInt(values[key])
      case Some(n) => n
      case None => default
  }

  /** float(value), the string case going through `parseFloat`. */
  function AsFloat(v: PyVal, parseFloat: ConfigurationService.FloatParser): (r: Option<real>)
    ensures v.PFloat? ==> r == Some(v.f)
    ensures v.PInt? ==> r == Some(v.i as real)
    ensures v.PStr? ==> r == parseFloat(v.s)
    ensures v.PNone? || v.PList? || v.PDict? || v.PObj? ==> r.None?
  {
    match v
    case PFloat(f) => Some(f)
    case PInt(i) => Some(i as real)
    case PBool(b) => Some(if b then 1.0 else 0.0)
    case PStr(s) => parseFloat(s)
    case _ => None
  }

  function GetFloat(values: map<string, PyVal>, key: string, default: real,
                    parseFloat: ConfigurationService.FloatParser): (x: real)
    ensures key !in values ==> x == default
    ensures key in values && AsFloat(values[key], parseFloat).Some? ==> x == AsFloat(values[key], parseFloat).value
    ensures key in values && AsFloat(values[key], parseFloat).None? ==> x == default
  {
    if key !in values then default
    else match AsFloat(values[key], parseFloat)
      case Some(x) => x
      case None => default
  }

  /** The settings __init__ reads, each with its default. */
  function LoadSettings(values: map<string, PyVal>, parseFloat: ConfigurationService.FloatParser): (st: RerankSettings)
    ensures st.useRerank == GetBool(values, "use_rerank", true)
    ensures st.initialK == GetInt(values, "rerank_initial_k", 8)
    ensures st.finalK == GetInt(values, "rerank_final_k", 4)
    ensures st.cacheTtl == GetInt(values, "rerank_cache_ttl", 3600)
    ensures st.temperature == GetFloat(values, "rerank_temperature", 0.1, parseFloat)
    ensures st.scoreThreshold == GetFloat(values, "rerank_score_threshold", 0.6, parseFloat)
    ensures st.maxRetries == GetInt(values, "rerank_max_retries", 3)
    ensures st.useDiversity == GetBool(values, "use_diversity_retrieval", true)
    ensures st.maxPerSource == GetInt(values, "diversity_max_per_source", 3)
    ensures st.minSources == GetInt(values, "diversity_min_sources", 2)
  {
    RerankSettings(
      GetBool(values, "use_rerank", true),
      GetInt(values, "rerank_initial_k", 8),
      GetInt(values, "rerank_final_k", 4),
      GetFloat(values, "rerank_score_threshold", 0.6, parseFloat),
      GetInt(values, "rerank_cache_ttl", 3600),
      GetFloat(values, "rerank_temperature", 0.1, parseFloat),
      GetInt(values, "rerank_max_retries", 3),
      GetBool(values, "use_diversity_retrieval", true),
      GetInt(values, "diversity_max_per_source", 3),
      GetInt(values, "diversity_min_sources", 2))
  }

  /** With nothing configured every setting takes its default. */
  lemma EmptyConfigDefaults(parseFloat: ConfigurationService.FloatParser)
    ensures LoadSettings(map[], parseFloat) ==
      RerankSettings(true, 8, 4, 0.6, 3600, 0.1, 3, true, 3, 2)
  {
  }

  /** A setting int() rejects keeps its default; one it accepts is used, whatever its type. */
  lemma IntSettingFallsBack(values: map<string, PyVal>, text: string)
    requires "rerank_final_k" in values && values["rerank_final_k"] == PStr(text)
    ensures ParseInt(text).None? ==> LoadSettings(values, (s: string) => None).finalK == 4
    ensures ParseInt(text).Some? ==> LoadSettings(values, (s: string) => None).finalK == ParseInt(text).value
  {
  }

  /** A string flag reads "Yes" or "ON" as true and "false" or "" as false. */
  lemma BoolSettingWords(values: map<string, PyVal>)
    requires "use_rerank" in values
    ensures values["use_rerank"] == PStr("Yes") ==> GetBool(values, "use_rerank", false)
    ensures values["use_rerank"] == PStr("ON") ==> GetBool(values, "use_rerank", false)
    ensures values["use_rerank"] == PStr("false") ==> !GetBool(values, "use_rerank", true)
    ensures values["use_rerank"] == PStr("") ==> !GetBool(values, "use_rerank", true)
  {
    assert Lower("Yes") == "yes";
    assert Lower("ON") == "on";
    assert Lower("false") == "false";
  }

  // ---------------------------------------------------------------------
  // Diversity: grouping by source and round-robin selection
  // ---------------------------------------------------------------------

  /** No key occurs twice. */
  predicate Distinct(ks: seq<string>)
  {
    forall i, j :: 0 <= i < j < |ks| ==> ks[i] != ks[j]
  }

  /** The distinct keys of s in order of first appearance: the insertion order of source_groups. */
  function Sources<T>(s: seq<T>, key: T -> string): (r: seq<string>)
    ensures Distinct(r)
    ensures forall i :: 0 <= i < |s| ==> key(s[i]) in r
  {
    if |s| == 0 then []
    else
      var init := s[..|s| - 1];
      var prev := Sources(init, key);
      var k := key(s[|s| - 1]);
      assert forall i :: 0 <= i < |init| ==> init[i] == s[i];
      if k in prev then prev else prev + [k]
  }

  /** source_groups[k]: the elements of s whose key is k, in their order in s. */
  function Group<T>(s: seq<T>, key: T -> string, k: string): seq<T>
  {
    if |s| == 0 then [] else (if key(s[0]) == k then [s[0]] else []) + Group(s[1..], key, k)
  }

  /** A group holds only elements of s with the group's key. */
  lemma {:induction false} GroupMembers<T>(s: seq<T>, key: T -> string, k: string)
    ensures forall i :: 0 <= i < |Group(s, key, k)| ==> key(Group(s, key, k)[i]) == k && Group(s, key, k)[i] in s
  {
    if |s| > 0 {
      var head := if key(s[0]) == k then [s[0]] else [];
      var rest := Group(s[1..], key, k);
      GroupMembers(s[1..], key, k);
      assert Group(s, key, k) == head + rest;
      forall i | 0 <= i < |head + rest|
        ensures key((head + rest)[i]) == k && (head + rest)[i] in s
      {
        if i >= |head| {
          assert (head + rest)[i] == rest[i - |head|];
          assert rest[i - |head|] in s[1..];
        }
      }
    }
  }

  lemma {:induction false} GroupConcat<T>(a: seq<T>, b: seq<T>, key: T -> string, k: string)
    ensures Group(a + b, key, k) == Group(a, key, k) + Group(b, key, k)
  {
    if |a| == 0 {
      assert a + b == b;
    } else {
      var head := if key(a[0]) == k then [a[0]] else [];
      assert (a + b)[0] == a[0] && (a + b)[1..] == a[1..] + b;
      assert Group(a + b, key, k) == head + Group(a[1..] + b, key, k);
      GroupConcat(a[1..], b, key, k);
      assert Group(a, key, k) == head + Group(a[1..], key, k);
    }
  }

  lemma {:induction false} GroupAbsent<T>(s: seq<T>, key: T -> string, k: string)
    requires forall i :: 0 <= i < |s| ==> key(s[i]) != k
    ensures Group(s, key, k) == []
  {
    if |s| > 0 {
      GroupAbsent(s[1..], key, k);
    }
  }

  /** Every element of a group has the group's key, so it is its own group. */
  lemma {:induction false} GroupOfGroup<T>(s: seq<T>, key: T -> string, k: string)
    requires forall i :: 0 <= i < |s| ==> key(s[i]) == k
    ensures Group(s, key, k) == s
  {
    if |s| > 0 {
      GroupOfGroup(s[1..], key, k);
      assert s == [s[0]] + s[1..];
    }
  }

  /** docs[round_num] when the group has that many documents. */
  function Pick<T>(g: seq<T>, r: nat): seq<T>
  {
    if r < |g| then [g[r]] else []
  }

  /** One round: the r-th element of each group, groups in the order of ks. */
  function Round<T>(s: seq<T>, key: T -> string, ks: seq<string>, r: nat): seq<T>
  {
    if |ks| == 0 then [] else Pick(Group(s, key, ks[0]), r) + Round(s, key, ks[1..], r)
  }

  /** Rounds 0 .. m-1, one after the other. */
  function Rounds<T>(s: seq<T>, key: T -> string, ks: seq<string>, m: nat): seq<T>
  {
    if m == 0 then [] else Rounds(s, key, ks, m - 1) + Round(s, key, ks, m - 1)
  }

  /** Every element of xs is an element of s. */
  predicate Within<T(==)>(xs: seq<T>, s: seq<T>)
  {
    forall i :: 0 <= i < |xs| ==> xs[i] in s
  }

  lemma WithinConcat<T>(a: seq<T>, b: seq<T>, s: seq<T>)
    requires Within(a, s) && Within(b, s)
    ensures Within(a + b, s)
  {
    forall i | 0 <= i < |a + b|
      ensures (a + b)[i] in s
    {
      if i >= |a| {
        assert (a + b)[i] == b[i - |a|];
      }
    }
  }

  /** A pick from a group only takes elements of s. */
  lemma PickWithin<T>(s: seq<T>, key: T -> string, k: string, r: nat)
    ensures Within(Pick(Group(s, key, k), r), s)
  {
    GroupMembers(s, key, k);
  }

  /** A round only takes elements of s. */
  lemma {:induction false} RoundMembers<T>(s: seq<T>, key: T -> string, ks: seq<string>, r: nat)
    ensures Within(Round(s, key, ks, r), s)
  {
    if |ks| > 0 {
      var p := Pick(Group(s, key, ks[0]), r);
      var rest := Round(s, key, ks[1..], r);
      assert Round(s, key, ks, r) == p + rest;
      PickWithin(s, key, ks[0], r);
      RoundMembers(s, key, ks[1..], r);
      WithinConcat(p, rest, s);
    }
  }

  /** Any number of rounds only takes elements of s. */
  lemma {:induction false} RoundsMembers<T>(s: seq<T>, key: T -> string, ks: seq<string>, m: nat)
    ensures Within(Rounds(s, key, ks, m), s)
    decreases m, 1
  {
    if m > 0 {
      RoundsMembersStep(s, key, ks, m - 1);
    }
  }

  lemma {:induction false} RoundsMembersStep<T>(s: seq<T>, key: T -> string, ks: seq<string>, n: nat)
    ensures Within(Rounds(s, key, ks, n + 1), s)
    decreases n + 1, 0
  {
    var before := Rounds(s, key, ks, n);
    var last := Round(s, key, ks, n);
    assert Rounds(s, key, ks, n + 1) == before + last;
    RoundsMembers(s, key, ks, n);
    RoundMembers(s, key, ks, n);
    WithinConcat(before, last, s);
  }

  /** A round contributes to a key's group exactly that key's r-th element. */
  lemma {:induction false} RoundOfKey<T>(s: seq<T>, key: T -> string, ks: seq<string>, r: nat, k: string)
    requires Distinct(ks)
    ensures Group(Round(s, key, ks, r), key, k) == if k in ks then Pick(Group(s, key, k), r) else []
  {
    if |ks| > 0 {
      var p := Pick(Group(s, key, ks[0]), r);
      var rest := ks[1..];
      var tail := Round(s, key, rest, r);
      assert Round(s, key, ks, r) == p + tail;
      assert Group(p + tail, key, k) == Group(p, key, k) + Group(tail, key, k) by {
        GroupConcat(p, tail, key, k);
      }
      assert Group(tail, key, k) == if k in rest then Pick(Group(s, key, k), r) else [] by {
        DistinctTail(ks);
        RoundOfKey(s, key, rest, r, k);
      }
      assert k in ks <==> k == ks[0] || k in rest by {
        assert ks == [ks[0]] + rest;
      }
      if ks[0] == k {
        assert Group(p, key, k) == p by {
          PickOfGroup(s, key, k, r);
        }
        assert k !in rest by {
          DistinctHeadNotInTail(ks);
        }
        assert p + [] == p;
      } else {
        assert Group(p, key, k) == [] by {
          PickOfOtherGroup(s, key, ks[0], k, r);
        }
        assert [] + Group(tail, key, k) == Group(tail, key, k);
      }
    }
  }

  /** A pick from the group of k is its own group for k. */
  lemma PickOfGroup<T>(s: seq<T>, key: T -> string, k: string, r: nat)
    ensures Group(Pick(Group(s, key, k), r), key, k) == Pick(Group(s, key, k), r)
  {
    GroupMembers(s, key, k);
    GroupOfGroup(Pick(Group(s, key, k), r), key, k);
  }

  /** A pick from the group of j holds nothing for any other key. */
  lemma PickOfOtherGroup<T>(s: seq<T>, key: T -> string, j: string, k: string, r: nat)
    requires j != k
    ensures Group(Pick(Group(s, key, j), r), key, k) == []
  {
    GroupMembers(s, key, j);
    GroupAbsent(Pick(Group(s, key, j), r), key, k);
  }

  lemma DistinctTail(ks: seq<string>)
    requires |ks| > 0 && Distinct(ks)
    ensures Distinct(ks[1..])
  {
    forall i, j | 0 <= i < j < |ks[1..]|
      ensures ks[1..][i] != ks[1..][j]
    {
      assert ks[1..][i] == ks[i + 1] && ks[1..][j] == ks[j + 1];
    }
  }

  lemma DistinctHeadNotInTail(ks: seq<string>)
    requires |ks| > 0 && Distinct(ks)
    ensures ks[0] !in ks[1..]
  {
    forall i | 0 <= i < |ks[1..]|
      ensures ks[1..][i] != ks[0]
    {
      assert ks[1..][i] == ks[i + 1];
    }
  }

  /** After m rounds a listed key's group is the first m elements of its group in s. */
  lemma {:induction false} RoundsOfKey<T>(s: seq<T>, key: T -> string, ks: seq<string>, m: nat, k: string)
    requires Distinct(ks)
    requires k in ks
    ensures Group(Rounds(s, key, ks, m), key, k) == Take(Group(s, key, k), m)
    decreases m, 1
  {
    if m == 0 {
      assert Take(Group(s, key, k), 0) == [];
    } else {
      RoundsOfKeyStep(s, key, ks, m - 1, k);
    }
  }

  /** The inductive step of RoundsOfKey: round n adds the n-th element of the key's group. */
  lemma {:induction false} RoundsOfKeyStep<T>(s: seq<T>, key: T -> string, ks: seq<string>, n: nat, k: string)
    requires Distinct(ks)
    requires k in ks
    ensures Group(Rounds(s, key, ks, n + 1), key, k) == Take(Group(s, key, k), n + 1)
    decreases n + 1, 0
  {
    var g := Group(s, key, k);
    var before := Rounds(s, key, ks, n);
    var last := Round(s, key, ks, n);
    calc {
      Group(Rounds(s, key, ks, n + 1), key, k);
      Group(before + last, key, k);
      { GroupConcat(before, last, key, k); }
      Group(before, key, k) + Group(last, key, k);
      { RoundsOfKey(s, key, ks, n, k); RoundOfKey(s, key, ks, n, k); }
      Take(g, n) + Pick(g, n);
      { TakeStep(g, n); }
      Take(g, n + 1);
    }
  }

  /** g[:n+1] is g[:n] followed by g[n], when there is one. */
  lemma TakeStep<T>(g: seq<T>, n: nat)
    ensures Take(g, n + 1) == Take(g, n) + Pick(g, n)
  {
    if n < |g| {
      assert g[..n] + [g[n]] == g[..n + 1];
    }
  }

  /** The source a document is grouped under; None where the source is not a string and the grouping raises. */
  function SourceOf(d: Document): (r: Option<string>)
    ensures "source" !in d.metadata ==> r == Some("unknown")
    ensures "source" in d.metadata && d.metadata["source"].PStr? ==> r == Some(LastPiece(d.metadata["source"].s, '/'))
    ensures "source" in d.metadata && !d.metadata["source"].PStr? ==> r.None?
  {
    match MetaGet(d, "source", PStr("unknown"))
    case PStr(s) => Some(LastPiece(s, '/'))
    case _ => None
  }

  /** A text source is grouped under source.split("/")[-1]. */
  lemma SourceIsLastSegment(d: Document)
    requires "source" in d.metadata && d.metadata["source"].PStr?
    ensures var s := d.metadata["source"].s;
      SourceOf(d) == Some(SplitOn(s, '/')[|SplitOn(s, '/')| - 1])
  {
    LastPieceOfSplit(d.metadata["source"].s, '/');
  }

  predicate SourcesAreText(docs: seq<Document>)
  {
    forall i :: 0 <= i < |docs| ==> SourceOf(docs[i]).Some?
  }

  /** The grouping key, for documents whose source is text. */
  function SourceKey(d: Document): string
  {
    match SourceOf(d)
    case Some(s) => s
    case None => ""
  }

  /**
   * _apply_diversity_retrieval: the input itself when it is empty or spans
   * fewer than min_sources sources; otherwise max_per_source round-robin
   * rounds over the sources in order of first appearance. A source that is
   * not a string makes it raise.
   */
  function Diversity(st: RerankSettings, docs: seq<Document>): (r: Result<seq<Document>>)
    ensures |docs| == 0 ==> r == Ok(docs)
    ensures |docs| > 0 ==> (r.Ok? <==> SourcesAreText(docs))
    ensures r.Ok? && |Sources(docs, SourceKey)| < st.minSources ==> r.value == docs
    ensures r.Ok? ==> Within(r.value, docs)
  {
    if |docs| == 0 then Ok(docs)
    else if !SourcesAreText(docs) then Err("TypeError: source is not a string")
    else
      var ks := Sources(docs, SourceKey);
      if |ks| < st.minSources then
        assert Within(docs, docs);
        Ok(docs)
      else
        var m := if st.maxPerSource > 0 then st.maxPerSource else 0;
        RoundsMembers(docs, SourceKey, ks, m);
        Ok(Rounds(docs, SourceKey, ks, m))
  }

  /** Over all the keys of s, m rounds keep for every key the first m elements of its group. */
  lemma RoundsPerKey<T>(s: seq<T>, key: T -> string, m: nat, k: string)
    ensures Group(Rounds(s, key, Sources(s, key), m), key, k) == Take(Group(s, key, k), m)
  {
    var ks := Sources(s, key);
    if k in ks {
      RoundsOfKey(s, key, ks, m, k);
    } else {
      GroupAbsent(s, key, k);
      var out := Rounds(s, key, ks, m);
      RoundsMembers(s, key, ks, m);
      forall i | 0 <= i < |out|
        ensures key(out[i]) != k
      {
        var j :| 0 <= j < |s| && s[j] == out[i];
        assert key(s[j]) in ks;
      }
      GroupAbsent(out, key, k);
    }
  }

  /** With enough sources the diversity step is the round-robin over all of them. */
  lemma DiversityIsRounds(st: RerankSettings, docs: seq<Document>)
    requires |docs| > 0 && SourcesAreText(docs) && |Sources(docs, SourceKey)| >= st.minSources
    requires st.maxPerSource >= 0
    ensures Diversity(st, docs) == Ok(Rounds(docs, SourceKey, Sources(docs, SourceKey), st.maxPerSource))
  {
  }

  /**
   * Each source keeps its first max_per_source documents, in their original
   * order; sources with fewer keep them all.
   */
  lemma DiversityPerSource(st: RerankSettings, docs: seq<Document>, k: string)
    requires SourcesAreText(docs) && |Sources(docs, SourceKey)| >= st.minSources
    requires st.maxPerSource >= 0
    ensures Diversity(st, docs).Ok?
    ensures Group(Diversity(st, docs).value, SourceKey, k) == Take(Group(docs, SourceKey, k), st.maxPerSource)
  {
    if |docs| > 0 {
      DiversityIsRounds(st, docs);
      RoundsPerKey(docs, SourceKey, st.maxPerSource, k);
    }
  }

  /** Every listed source has at least one document. */
  lemma {:induction false} SourcesAreUsed<T>(s: seq<T>, key: T -> string, j: nat)
    requires j < |Sources(s, key)|
    ensures |Group(s, key, Sources(s, key)[j])| > 0
  {
    var init := s[..|s| - 1];
    var last := s[|s| - 1];
    assert s == init + [last];
    GroupConcat(init, [last], key, Sources(s, key)[j]);
    if j < |Sources(init, key)| {
      SourcesAreUsed(init, key, j);
    } else {
      assert [last][1..] == [];
    }
  }

  // ---------------------------------------------------------------------
  // Parsing the score list
  // ---------------------------------------------------------------------

  /** A character of the pattern's class [\d\.,\s]. */
  predicate ScoreChar(c: char)
  {
    IsDigit(c) || c == '.' || c == ',' || IsSpace(c)
  }

  /** The length of the run of class characters starting at i. */
  function RunLength(s: string, i: nat): (n: nat)
    requires i <= |s|
    ensures i + n <= |s|
    ensures forall j :: i <= j < i + n ==> ScoreChar(s[j])
    ensures i + n < |s| ==> !ScoreChar(s[i + n])
    decreases |s| - i
  {
    if i == |s| || !ScoreChar(s[i]) then 0 else 1 + RunLength(s, i + 1)
  }

  /**
   * The pattern \[([\d\.,\s]+)\] matches at i. Since ']' is outside the
   * class, the greedy run either ends at a ']' or no shorter run can, so
   * the match is decided by the maximal run.
   */
  predicate MatchesAt(s: string, i: nat)
  {
    i < |s| && s[i] == '[' && RunLength(s, i + 1) > 0
    && i + 1 + RunLength(s, i + 1) < |s| && s[i + 1 + RunLength(s, i + 1)] == ']'
  }

  /** re.search: the leftmost position at or after i where the pattern matches. */
  function Search(s: string, i: nat): (r: Option<nat>)
    requires i <= |s|
    ensures r.Some? ==> i <= r.value && MatchesAt(s, r.value)
    ensures r.Some? ==> forall j :: i <= j < r.value ==> !MatchesAt(s, j)
    ensures r.None? ==> forall j :: i <= j < |s| ==> !MatchesAt(s, j)
    decreases |s| - i
  {
    if i == |s| then None
    else if MatchesAt(s, i) then Some(i)
    else Search(s, i + 1)
  }

  predicate AllDigits(s: string)
  {
    forall i :: 0 <= i < |s| ==> IsDigit(s[i])
  }

  function Pow10(n: nat): (p: nat)
    ensures p > 0
  {
    if n == 0 then 1 else 10 * Pow10(n - 1)
  }

  /** The text before the first dot. */
  function WholePart(t: string): (w: string)
    ensures |w| <= |t| && t[..|w|] == w && '.' !in w
  {
    t[..FindChar(t, '.')]
  }

  /** The text after the first dot, "" when there is none. */
  function FracPart(t: string): (f: string)
    ensures f == "" || (|f| < |t| && t[|t| - |f| - 1] == '.' && t[|t| - |f|..] == f)
  {
    var d := FindChar(t, '.');
    if d < |t| then t[d + 1..] else ""
  }

  /**
   * What float() accepts among texts of class characters: digits with at
   * most one dot and at least one digit. An empty piece, a lone dot, two
   * dots or inner whitespace raise ValueError.
   */
  predicate DecimalText(t: string)
  {
    AllDigits(WholePart(t)) && AllDigits(FracPart(t)) && |WholePart(t)| + |FracPart(t)| > 0
  }

  /** The exact value float() gives a decimal text. */
  function DecimalValue(t: string): (x: real)
    ensures x >= 0.0
  {
    DigitsValue(WholePart(t)) as real + DigitsValue(FracPart(t)) as real / Pow10(|FracPart(t)|) as real
  }

  /** A decimal text is non-empty and made of digits and at most one dot. */
  lemma DecimalTextShape(t: string)
    requires DecimalText(t)
    ensures |t| > 0
    ensures forall i :: 0 <= i < |t| ==> IsDigit(t[i]) || t[i] == '.'
    ensures forall i, j :: 0 <= i < j < |t| && t[i] == '.' ==> t[j] != '.'
  {
    var d := FindChar(t, '.');
    if d < |t| {
      assert t == WholePart(t) + "." + FracPart(t);
    } else {
      assert t == WholePart(t);
    }
  }

  /** The decimal rendering of a natural number reads back as that number. */
  lemma DecimalOfNat(n: nat)
    ensures DecimalText(NatToString(n)) && DecimalValue(NatToString(n)) == n as real
  {
    var t := NatToString(n);
    assert FindChar(t, '.') == |t| by {
      assert forall i :: 0 <= i < |t| ==> t[i] != '.';
    }
    assert t[..|t|] == t;
    DigitsValueOfNat(n);
  }

  /** Reading every piece, stripped: None as soon as one raises. */
  function ParseAll(pieces: seq<string>): (r: Option<seq<real>>)
    ensures r.Some? <==> forall i :: 0 <= i < |pieces| ==> DecimalText(Strip(pieces[i]))
    ensures r.Some? ==> |r.value| == |pieces|
    ensures r.Some? ==> forall i :: 0 <= i < |pieces| ==> r.value[i] == DecimalValue(Strip(pieces[i]))
  {
    MapAll(pieces, ParsePiece)
  }

  /** float(piece.strip()), None where it raises. */
  function ParsePiece(piece: string): Option<real>
  {
    if DecimalText(Strip(piece)) then Some(DecimalValue(Strip(piece))) else None
  }

  /** max(0.0, min(1.0, x)) */
  function Clamp(x: real): (y: real)
    ensures 0.0 <= y <= 1.0
    ensures 0.0 <= x <= 1.0 ==> y == x
    ensures x > 1.0 ==> y == 1.0
    ensures x < 0.0 ==> y == 0.0
  {
    if x > 1.0 then 1.0 else if x < 0.0 then 0.0 else x
  }

  function ClampAll(xs: seq<real>): (ys: seq<real>)
    ensures |ys| == |xs|
    ensures forall i :: 0 <= i < |xs| ==> ys[i] == Clamp(xs[i])
  {
    seq(|xs|, i requires 0 <= i < |xs| => Clamp(xs[i]))
  }

  /**
   * _parse_scores: the first bracketed list, split at commas, each piece
   * read as a number; exactly `expected` numbers, each clamped into [0, 1];
   * None otherwise.
   */
  function ParseScores(response: string, expected: nat): (r: Option<seq<real>>)
    ensures Search(response, 0).None? ==> r.None?
    ensures r.Some? ==> |r.value| == expected && expected > 0
    ensures r.Some? ==> forall i :: 0 <= i < |r.value| ==> 0.0 <= r.value[i] <= 1.0
  {
    match Search(response, 0)
    case None => None
    case Some(i) =>
      var group := response[i + 1 .. i + 1 + RunLength(response, i + 1)];
      match ParseAll(SplitOn(group, ','))
      case None => None
      case Some(scores) => if |scores| == expected then Some(ClampAll(scores)) else None
  }

  /** A run of class characters followed by a character outside the class is the maximal run. */
  lemma {:induction false} RunLengthExact(s: string, i: nat, n: nat)
    requires i + n < |s|
    requires forall j :: i <= j < i + n ==> ScoreChar(s[j])
    requires !ScoreChar(s[i + n])
    ensures RunLength(s, i) == n
    decreases n
  {
    if n > 0 {
      RunLengthExact(s, i + 1, n - 1);
    }
  }

  /** A piece of the list: class characters other than the comma, a number once stripped. */
  predicate ScorePiece(p: string)
  {
    (forall j :: 0 <= j < |p| ==> ScoreChar(p[j]) && p[j] != ',')
    && DecimalText(Strip(p))
  }

  lemma {:induction false} JoinOfScoreChars(ps: seq<string>)
    requires forall i :: 0 <= i < |ps| ==> forall j :: 0 <= j < |ps[i]| ==> ScoreChar(ps[i][j])
    ensures forall j :: 0 <= j < |Join(",", ps)| ==> ScoreChar(Join(",", ps)[j])
  {
    if |ps| > 1 {
      JoinOfScoreChars(ps[1..]);
    }
  }

  /** A bracketed run of class characters matches at its opening bracket and its run is the whole body. */
  lemma BracketedMatches(body: string)
    requires |body| > 0
    requires forall j :: 0 <= j < |body| ==> ScoreChar(body[j])
    ensures Search("[" + body + "]", 0) == Some(0)
    ensures RunLength("[" + body + "]", 1) == |body|
    ensures ("[" + body + "]")[1 .. 1 + |body|] == body
  {
    var s := "[" + body + "]";
    assert s[0] == '[' && s[1 + |body|] == ']';
    assert !ScoreChar(']');
    forall j | 1 <= j < 1 + |body|
      ensures ScoreChar(s[j])
    {
      assert s[j] == body[j - 1];
    }
    RunLengthExact(s, 1, |body|);
    assert s[1 .. 1 + |body|] == body;
    assert MatchesAt(s, 0);
  }

  /** Score pieces are non-empty, so their join is too, and it holds only class characters. */
  lemma ScoreListBody(ps: seq<string>)
    requires |ps| > 0
    requires forall i :: 0 <= i < |ps| ==> ScorePiece(ps[i])
    ensures |Join(",", ps)| > 0
    ensures forall j :: 0 <= j < |Join(",", ps)| ==> ScoreChar(Join(",", ps)[j])
    ensures forall i :: 0 <= i < |ps| ==> ',' !in ps[i]
  {
    JoinOfScoreChars(ps);
    assert |ps[0]| > 0;
    JoinConcat(",", [ps[0]], ps[1..]);
    assert [ps[0]] + ps[1..] == ps;
    forall i | 0 <= i < |ps|
      ensures ',' !in ps[i]
    {
      assert forall j :: 0 <= j < |ps[i]| ==> ps[i][j] != ',';
    }
  }

  /**
   * The list the prompt asks for, "[" + the pieces joined by commas + "]",
   * reads back as the pieces' numbers, clamped, when there are as many
   * pieces as documents.
   */
  lemma ParseScoresOfList(ps: seq<string>)
    requires |ps| > 0
    requires forall i :: 0 <= i < |ps| ==> ScorePiece(ps[i])
    ensures var r := ParseScores("[" + Join(",", ps) + "]", |ps|);
      r.Some? && forall i :: 0 <= i < |ps| ==> r.value[i] == Clamp(DecimalValue(Strip(ps[i])))
  {
    var body := Join(",", ps);
    ScoreListBody(ps);
    BracketedMatches(body);
    SplitOnJoin(ps, ',');
    ParseScoresOfGroup("[" + body + "]", body, ps);
  }

  /** Once the match and its pieces are known, the scores are the pieces' values, clamped. */
  lemma ParseScoresOfGroup(response: string, body: string, ps: seq<string>)
    requires Search(response, 0) == Some(0)
    requires 1 + RunLength(response, 1) <= |response| && response[1 .. 1 + RunLength(response, 1)] == body
    requires SplitOn(body, ',') == ps
    requires ParseAll(ps).Some?
    ensures ParseScores(response, |ps|) == Some(ClampAll(ParseAll(ps).value))
  {
  }

  /** "0.d" reads as d tenths. */
  lemma DecimalTenths(t: string, d: nat)
    requires d < 10 && t == ['0', '.', DigitChar(d)]
    ensures DecimalText(t) && DecimalValue(t) == d as real / 10.0
  {
    assert FindChar(t, '.') == 1;
    assert WholePart(t) == "0" && FracPart(t) == [DigitChar(d)];
    assert DigitsValue([DigitChar(d)]) == d by {
      assert [DigitChar(d)][..0] == [];
    }
    assert DigitsValue("0") == 0 by {
      assert "0"[..0] == [];
    }
  }

  /**
   * "0.d", with or without one leading space, is a score piece worth d
   * tenths: the pieces of the prompt's example "[0.9, 0.7, 0.3, 0.8]".
   */
  lemma TenthsPiece(p: string, d: nat)
    requires d < 10
    requires p == ['0', '.', DigitChar(d)] || p == [' ', '0', '.', DigitChar(d)]
    ensures ScorePiece(p) && DecimalValue(Strip(p)) == d as real / 10.0
  {
    var t := ['0', '.', DigitChar(d)];
    DigitNotSpace(t[0]);
    DigitNotSpace(t[2]);
    StripStripped(t);
    if p != t {
      assert p == [' '] + t;
      StripLeadingSpace(t);
    }
    DecimalTenths(t, d);
  }

  /** A list of the wrong length is refused. */
  lemma WrongCountRefused(ps: seq<string>, expected: nat)
    requires |ps| > 0 && |ps| != expected
    requires forall i :: 0 <= i < |ps| ==> ScorePiece(ps[i])
    ensures ParseScores("[" + Join(",", ps) + "]", expected).None?
  {
    ParseScoresOfList(ps);
  }

  // ---------------------------------------------------------------------
  // Ranking
  // ---------------------------------------------------------------------

  function Score(p: (Document, real)): real
  {
    p.1
  }

  /** list(zip(documents, scores)): pairs up to the shorter length. */
  function Zip(docs: seq<Document>, scores: seq<real>): (ps: seq<(Document, real)>)
    ensures |ps| == if |docs| <= |scores| then |docs| else |scores|
    ensures forall i :: 0 <= i < |ps| ==> ps[i] == (docs[i], scores[i])
  {
    var n := if |docs| <= |scores| then |docs| else |scores|;
    seq(n, i requires 0 <= i < n => (docs[i], scores[i]))
  }

  /** The pairs whose score reaches the threshold, in order. */
  function AtLeast(ps: seq<(Document, real)>, threshold: real): (r: seq<(Document, real)>)
    ensures |r| <= |ps|
    ensures forall i :: 0 <= i < |r| ==> r[i].1 >= threshold && r[i] in ps
  {
    if |ps| == 0 then []
    else
      var rest := AtLeast(ps[1..], threshold);
      assert forall x :: x in ps[1..] ==> x in ps;
      (if ps[0].1 >= threshold then [ps[0]] else []) + rest
  }

  /** Keeping a subsequence keeps the order. */
  lemma {:induction false} AtLeastKeepsSorted(ps: seq<(Document, real)>, threshold: real)
    requires StableSort.SortedDesc(ps, Score)
    ensures StableSort.SortedDesc(AtLeast(ps, threshold), Score)
  {
    if |ps| > 0 {
      var rest := AtLeast(ps[1..], threshold);
      assert StableSort.SortedDesc(ps[1..], Score) by {
        forall i, j | 0 <= i < j < |ps[1..]|
          ensures Score(ps[1..][i]) >= Score(ps[1..][j])
        {
          assert ps[1..][i] == ps[i + 1] && ps[1..][j] == ps[j + 1];
        }
      }
      AtLeastKeepsSorted(ps[1..], threshold);
      if ps[0].1 >= threshold {
        var r := [ps[0]] + rest;
        assert AtLeast(ps, threshold) == r;
        assert forall j :: 0 <= j < |ps[1..]| ==> Score(ps[1..][j]) <= Score(ps[0]) by {
          forall j | 0 <= j < |ps[1..]|
            ensures Score(ps[1..][j]) <= Score(ps[0])
          {
            assert ps[1..][j] == ps[j + 1];
          }
        }
        AtLeastBelow(ps[1..], threshold, Score(ps[0]));
        forall i, j | 0 <= i < j < |r|
          ensures Score(r[i]) >= Score(r[j])
        {
          assert r[j] == rest[j - 1];
          if i > 0 {
            assert r[i] == rest[i - 1];
          }
        }
      } else {
        assert AtLeast(ps, threshold) == rest;
      }
    }
  }

  /** A bound on every score of ps bounds every score the threshold keeps. */
  lemma {:induction false} AtLeastBelow(ps: seq<(Document, real)>, threshold: real, bound: real)
    requires forall i :: 0 <= i < |ps| ==> Score(ps[i]) <= bound
    ensures forall i :: 0 <= i < |AtLeast(ps, threshold)| ==> Score(AtLeast(ps, threshold)[i]) <= bound
  {
    if |ps| > 0 {
      assert forall i :: 0 <= i < |ps[1..]| ==> ps[1..][i] == ps[i + 1];
      AtLeastBelow(ps[1..], threshold, bound);
    }
  }



  /** Each pair occurs as often as in the input if its score reaches the threshold, never otherwise. */
  lemma {:induction false} AtLeastCount(ps: seq<(Document, real)>, threshold: real, p: (Document, real))
    ensures multiset(AtLeast(ps, threshold))[p] == if p.1 >= threshold then multiset(ps)[p] else 0
  {
    if |ps| > 0 {
      AtLeastCount(ps[1..], threshold, p);
      assert ps == [ps[0]] + ps[1..];
    }
  }

  /** Equal scores at or above the threshold keep their relative order through the filter. */
  lemma {:induction false} AtLeastKeepsEqualScores(ps: seq<(Document, real)>, threshold: real, k: real)
    requires k >= threshold
    ensures StableSort.WithKey(AtLeast(ps, threshold), Score, k) == StableSort.WithKey(ps, Score, k)
  {
    if |ps| > 0 {
      AtLeastKeepsEqualScores(ps[1..], threshold, k);
      var rest := AtLeast(ps[1..], threshold);
      assert Score(ps[0]) == ps[0].1;
      if ps[0].1 >= threshold {
        assert ([ps[0]] + rest)[1..] == rest;
        assert ([ps[0]] + rest)[0] == ps[0];
      } else {
        assert AtLeast(ps, threshold) == rest;
      }
    }
  }

  /**
   * The ranking: sorted by score, highest first, ties in input order, then
   * every pair below the threshold dropped.
   */
  function Ranked(docs: seq<Document>, scores: seq<real>, threshold: real): (r: seq<(Document, real)>)
    ensures StableSort.SortedDesc(r, Score)
    ensures forall i :: 0 <= i < |r| ==> r[i].1 >= threshold
  {
    var sorted := StableSort.SortDesc(Zip(docs, scores), Score);
    AtLeastKeepsSorted(sorted, threshold);
    AtLeast(sorted, threshold)
  }

  /** The ranking holds exactly the scored documents that reach the threshold, each as often as given. */
  lemma RankedPermutes(docs: seq<Document>, scores: seq<real>, threshold: real, p: (Document, real))
    ensures multiset(Ranked(docs, scores, threshold))[p] ==
      if p.1 >= threshold then multiset(Zip(docs, scores))[p] else 0
  {
    var z := Zip(docs, scores);
    StableSort.SortDescPermutes(z, Score);
    AtLeastCount(StableSort.SortDesc(z, Score), threshold, p);
  }

  /** Documents with equal scores keep their input order. */
  lemma RankedIsStable(docs: seq<Document>, scores: seq<real>, threshold: real, k: real)
    requires k >= threshold
    ensures StableSort.WithKey(Ranked(docs, scores, threshold), Score, k) ==
      StableSort.WithKey(Zip(docs, scores), Score, k)
  {
    var z := Zip(docs, scores);
    AtLeastKeepsEqualScores(StableSort.SortDesc(z, Score), threshold, k);
    StableSort.SortDescIsStable(z, Score, k);
  }

  /** The documents of a list of pairs. */
  function Firsts(ps: seq<(Document, real)>): (ds: seq<Document>)
    ensures |ds| == |ps|
    ensures forall i :: 0 <= i < |ps| ==> ds[i] == ps[i].0
  {
    seq(|ps|, i requires 0 <= i < |ps| => ps[i].0)
  }

  /** Every ranked document is one of the input documents. */
  lemma RankedFromInput(docs: seq<Document>, scores: seq<real>, threshold: real)
    ensures forall i :: 0 <= i < |Ranked(docs, scores, threshold)| ==> Ranked(docs, scores, threshold)[i].0 in docs
  {
    var r := Ranked(docs, scores, threshold);
    var z := Zip(docs, scores);
    forall i | 0 <= i < |r|
      ensures r[i].0 in docs
    {
      RankedPermutes(docs, scores, threshold, r[i]);
      assert r[i] in multiset(r);
      assert r[i] in z;
      var j :| 0 <= j < |z| && z[j] == r[i];
    }
  }

  // ---------------------------------------------------------------------
  // _perform_rerank
  // ---------------------------------------------------------------------

  /** The scores one reply yields for `count` documents: what `if scores:` accepts. */
  function ReplyScores(reply: string, count: nat): (r: Option<seq<real>>)
    ensures r.Some? ==> |r.value| == count && count > 0
    ensures r.Some? ==> forall i :: 0 <= i < count ==> 0.0 <= r.value[i] <= 1.0
  {
    var sc := ParseScores(reply, count);
    if sc.Some? && |sc.value| > 0 then sc else None
  }

  /** ReplyScores for a fixed number of documents, as the parser the attempts use. */
  function ScoresFor(count: nat): (parse: string -> Option<seq<real>>)
    ensures forall t :: parse(t) == ReplyScores(t, count)
  {
    t => ReplyScores(t, count)
  }

  /** The documents a parsed reply selects: the ranking truncated to final_k. */
  function Selected(st: RerankSettings, docs: seq<Document>, scores: seq<real>, k: int): (r: seq<Document>)
    ensures k >= 0 ==> |r| <= k
    ensures forall i :: 0 <= i < |r| ==> r[i] in docs
  {
    var ranked := Ranked(docs, scores, st.scoreThreshold);
    RankedFromInput(docs, scores, st.scoreThreshold);
    Firsts(Take(ranked, k))
  }

  /** The reply of an attempt is usable: it came back and `parse` reads scores from it. */
  predicate Usable(reply: Option<string>, parse: string -> Option<seq<real>>)
  {
    reply.Some? && parse(reply.value).Some?
  }

  /**
   * Attempts attempt .. max_retries-1, each reply read by `parse`: a usable
   * reply decides; a raised call on the last attempt propagates; otherwise
   * the next attempt, and after the last one the first final_k documents.
   */
  function Attempts(st: RerankSettings, docs: seq<Document>, k: int, replies: nat -> Option<string>,
                    parse: string -> Option<seq<real>>, attempt: nat): (r: Result<seq<Document>>)
    ensures r.Ok? && k >= 0 ==> |r.value| <= k
    ensures r.Ok? ==> forall i :: 0 <= i < |r.value| ==> r.value[i] in docs
    ensures r.Err? ==> st.maxRetries >= 1 && replies(st.maxRetries - 1).None?
    decreases st.maxRetries - attempt
  {
    if attempt >= st.maxRetries then Ok(Take(docs, k))
    else if Usable(replies(attempt), parse) then
      Ok(Selected(st, docs, parse(replies(attempt).value).value, k))
    else if replies(attempt).None? && attempt == st.maxRetries - 1 then
      Err("LLM invocation failed")
    else Attempts(st, docs, k, replies, parse, attempt + 1)
  }

  /** The first usable reply decides the ranking, whatever came before. */
  lemma {:induction false} FirstUsableReplyDecides(st: RerankSettings, docs: seq<Document>, k: int,
                                                   replies: nat -> Option<string>, parse: string -> Option<seq<real>>,
                                                   from: nat, a: nat)
    requires from <= a < st.maxRetries
    requires forall j :: from <= j < a ==> !Usable(replies(j), parse)
    requires forall j :: from <= j < a ==> replies(j).Some? || j < st.maxRetries - 1
    requires Usable(replies(a), parse)
    ensures Attempts(st, docs, k, replies, parse, from) == Ok(Selected(st, docs, parse(replies(a).value).value, k))
    decreases a - from
  {
    if from < a {
      FirstUsableReplyDecides(st, docs, k, replies, parse, from + 1, a);
    }
  }

  /** When no reply is usable and the last call returned, the first final_k documents come back. */
  lemma {:induction false} NoUsableReplyFallsBack(st: RerankSettings, docs: seq<Document>, k: int,
                                                  replies: nat -> Option<string>, parse: string -> Option<seq<real>>,
                                                  from: nat)
    requires forall j :: from <= j < st.maxRetries ==> !Usable(replies(j), parse)
    requires st.maxRetries >= 1 ==> replies(st.maxRetries - 1).Some?
    ensures Attempts(st, docs, k, replies, parse, from) == Ok(Take(docs, k))
    decreases st.maxRetries - from
  {
    if from < st.maxRetries {
      NoUsableReplyFallsBack(st, docs, k, replies, parse, from + 1);
    }
  }

  /**
   * `"/" in source` in _build_rerank_prompt, for source =
   * metadata.get("source", "未知文档"), raises: None, bools and numbers
   * are not iterable (TypeError), and a list holding "/" or a dict with a
   * "/" key passes the test and has no split() (AttributeError). Other
   * objects are taken to support neither test. A text source never raises.
   */
  predicate PromptSourceRaises(v: PyVal)
  {
    match v
    case PStr(_) => false
    case PList(items) => PStr("/") in items
    case PDict(fields) => "/" in fields
    case _ => true
  }

  /** _build_rerank_prompt raises for one of the documents. */
  predicate PromptRaises(docs: seq<Document>)
  {
    exists i :: 0 <= i < |docs| && PromptSourceRaises(MetaGet(docs[i], "source", PStr("未知文档")))
  }

  /**
   * _perform_rerank: no more documents than final_k come back unchanged;
   * otherwise the prompt is built, which raises for a source the prompt
   * builder rejects, and then the attempts decide, each reply read for this
   * many documents.
   */
  function PerformRerank(st: RerankSettings, docs: seq<Document>, k: int, replies: nat -> Option<string>)
    : (r: Result<seq<Document>>)
    ensures |docs| <= k ==> r == Ok(docs)
    ensures |docs| > k && PromptRaises(docs) ==> r.Err?
    ensures r.Ok? && k >= 0 ==> |r.value| <= k
    ensures r.Ok? ==> forall i :: 0 <= i < |r.value| ==> r.value[i] in docs
    ensures r.Err? ==> |docs| > k && (PromptRaises(docs) || (st.maxRetries >= 1 && replies(st.maxRetries - 1).None?))
  {
    if |docs| <= k then Ok(docs)
    else if PromptRaises(docs) then Err("TypeError: argument of type is not iterable")
    else Attempts(st, docs, k, replies, ScoresFor(|docs|), 0)
  }

  /**
   * With more documents than final_k and a prompt that could be built, the
   * first reply that parses decides:
   * the documents ranked by its scores, cut at the threshold and at final_k.
   */
  lemma PerformRerankUsesFirstScores(st: RerankSettings, docs: seq<Document>, k: int,
                                     replies: nat -> Option<string>, a: nat)
    requires |docs| > k && a < st.maxRetries && !PromptRaises(docs)
    requires forall j :: 0 <= j < a ==> replies(j).Some? && ReplyScores(replies(j).value, |docs|).None?
    requires replies(a).Some? && ReplyScores(replies(a).value, |docs|).Some?
    ensures PerformRerank(st, docs, k, replies) ==
      Ok(Selected(st, docs, ReplyScores(replies(a).value, |docs|).value, k))
  {
    FirstUsableReplyDecides(st, docs, k, replies, ScoresFor(|docs|), 0, a);
  }

  /** When every reply comes back but none parses and the prompt was built, the first final_k documents are returned. */
  lemma PerformRerankFallsBack(st: RerankSettings, docs: seq<Document>, k: int, replies: nat -> Option<string>)
    requires |docs| > k && !PromptRaises(docs)
    requires forall j :: 0 <= j < st.maxRetries ==> replies(j).Some? && ReplyScores(replies(j).value, |docs|).None?
    ensures PerformRerank(st, docs, k, replies) == Ok(Take(docs, k))
  {
    NoUsableReplyFallsBack(st, docs, k, replies, ScoresFor(|docs|), 0);
  }

  // ---------------------------------------------------------------------
  // rerank_documents
  // ---------------------------------------------------------------------

  /** `final_k or self.final_k`: an absent or zero argument takes the configured value. */
  function EffectiveK(st: RerankSettings, finalK: Option<int>): (k: int)
    ensures finalK.Some? && finalK.value != 0 ==> k == finalK.value
    ensures finalK.None? || finalK == Some(0) ==> k == st.finalK
  {
    if finalK.Some? && finalK.value != 0 then finalK.value else st.finalK
  }

  /**
   * rerank_documents. `llmReady` says whether an LLM was created; `cached`
   * is what the cache returns for this query ([] on a miss). A failure of
   * diversity or ranking returns the first final_k of the documents as
   * they stood when it happened.
   */
  function RerankDocuments(st: RerankSettings, llmReady: bool, docs: seq<Document>, finalK: Option<int>,
                           cached: seq<Document>, replies: nat -> Option<string>): (r: seq<Document>)
    ensures !(st.useRerank && llmReady) ==> r == Take(docs, EffectiveK(st, finalK))
    ensures st.useRerank && llmReady && |docs| == 0 ==> r == []
    ensures st.useRerank && llmReady && |docs| > 0 && |cached| > 0 ==> r == cached
    ensures st.useRerank && llmReady && |cached| == 0 ==>
      (EffectiveK(st, finalK) >= 0 ==> |r| <= EffectiveK(st, finalK))
      && forall i :: 0 <= i < |r| ==> r[i] in docs
    ensures st.useRerank && llmReady && |docs| > 0 && |cached| == 0 && st.useDiversity && Diversity(st, docs).Err? ==>
      r == Take(docs, EffectiveK(st, finalK))
    ensures st.useRerank && llmReady && |docs| > 0 && |cached| == 0 ==>
      var diverse := if st.useDiversity then Diversity(st, docs) else Ok(docs);
      diverse.Ok? && PerformRerank(st, diverse.value, EffectiveK(st, finalK), replies).Ok? ==>
        r == PerformRerank(st, diverse.value, EffectiveK(st, finalK), replies).value
    ensures (st.useRerank && llmReady && |docs| > EffectiveK(st, finalK) && |docs| > 0 && |cached| == 0 &&
             !st.useDiversity && PromptRaises(docs)) ==>
      r == Take(docs, EffectiveK(st, finalK))
  {
    var k := EffectiveK(st, finalK);
    if !(st.useRerank && llmReady) then Take(docs, k)
    else if |docs| == 0 then []
    else if |cached| > 0 then cached
    else
      var diverse := if st.useDiversity then Diversity(st, docs) else Ok(docs);
      match diverse
      case Err(_) => Take(docs, k)
      case Ok(ds) =>
        match PerformRerank(st, ds, k, replies)
        case Ok(ranked) => ranked
        case Err(_) => Take(ds, k)
  }

  /** With diversity off and too few documents to rank, a cache miss returns the input itself. */
  lemma FewDocumentsPassThrough(st: RerankSettings, docs: seq<Document>, finalK: Option<int>,
                                replies: nat -> Option<string>)
    requires st.useRerank && !st.useDiversity
    requires |docs| <= EffectiveK(st, finalK)
    ensures RerankDocuments(st, true, docs, finalK, [], replies) == docs
  {
  }

  /** A raised final attempt falls back to the first final_k of the diversity-ordered documents. */
  lemma FailedRankingUsesDiverseOrder(st: RerankSettings, docs: seq<Document>, finalK: Option<int>,
                                      replies: nat -> Option<string>)
    requires st.useRerank && st.useDiversity && |docs| > 0
    requires Diversity(st, docs).Ok?
    requires PerformRerank(st, Diversity(st, docs).value, EffectiveK(st, finalK), replies).Err?
    ensures RerankDocuments(st, true, docs, finalK, [], replies) ==
      Take(Diversity(st, docs).value, EffectiveK(st, finalK))
  {
  }

  /**
   * With diversity off, a source the prompt builder rejects makes the
   * ranking raise, and rerank_documents falls back to the first final_k
   * documents whatever the replies say.
   */
  lemma RejectedSourceFallsBack(st: RerankSettings, docs: seq<Document>, finalK: Option<int>,
                                replies: nat -> Option<string>, i: int)
    requires st.useRerank && !st.useDiversity
    requires |docs| > EffectiveK(st, finalK) && |docs| > 0
    requires 0 <= i < |docs| && PromptSourceRaises(MetaGet(docs[i], "source", PStr("未知文档")))
    ensures RerankDocuments(st, true, docs, finalK, [], replies) == Take(docs, EffectiveK(st, finalK))
  {
    assert PromptRaises(docs);
  }

  /** A source the grouping accepts is one the prompt builder accepts. */
  lemma TextSourceBuildsPrompt(d: Document)
    requires SourceOf(d).Some?
    ensures !PromptSourceRaises(MetaGet(d, "source", PStr("未知文档")))
  {
  }

  /** With diversity on, every source is text once diversity succeeds, so the prompt never raises. */
  lemma DiverseSourcesBuildPrompt(st: RerankSettings, docs: seq<Document>)
    requires |docs| > 0 && Diversity(st, docs).Ok?
    ensures !PromptRaises(Diversity(st, docs).value)
  {
    var ds := Diversity(st, docs).value;
    assert SourcesAreText(docs);
    assert Within(ds, docs);
    forall i | 0 <= i < |ds|
      ensures !PromptSourceRaises(MetaGet(ds[i], "source", PStr("未知文档")))
    {
      var j :| 0 <= j < |docs| && docs[j] == ds[i];
      TextSourceBuildsPrompt(docs[j]);
    }
  }
}

=== FILE: semantic_text_splitter.dfy ===
/**
 * SemanticTextSplitter: paragraphs, then sentences packed greedily into
 * chunks, long sentences split at word boundaries, overlap carried over from
 * the previous chunk, and small chunks dropped. The two regular-expression
 * or NLTK splits are parameters of the splitter: `paragraphs` is the raw
 * re.split on paragraph breaks and `sentences` the raw sentence
 * tokenization (NLTK, or the regex fallback when NLTK finds one sentence or
 * fails); the splitter itself strips their pieces and drops the empty ones.
 */
module SemanticTextSplitter {
  import opened PyCore
  import opened PyValue
  import opened Documents

  datatype Splitter = Splitter(
    chunkSize: int,
    chunkOverlap: int,
    minChunkSize: int,
    maxChunkSize: int,
    paragraphs: string -> seq<string>,
    sentences: string -> seq<string>)

  /** The constructor defaults: 1000, 200, 100 and 2000 characters. */
  function NewSplitter(paragraphs: string -> seq<string>, sentences: string -> seq<string>): (s: Splitter)
    ensures s.chunkSize == 1000 && s.chunkOverlap == 200 && s.minChunkSize == 100 && s.maxChunkSize == 2000
  {
    Splitter(1000, 200, 100, 2000, paragraphs, sentences)
  }

  /** Non-empty, with no whitespace at either end: what strip() leaves of a non-blank string. */
  predicate Clean(s: string)
  {
    |s| > 0 && !IsSpace(s[0]) && !IsSpace(s[|s| - 1])
  }

  /** [p.strip() for p in parts if p.strip()] */
  function StripNonEmpty(parts: seq<string>): (r: seq<string>)
    ensures forall i :: 0 <= i < |r| ==> Clean(r[i])
    ensures |r| <= |parts|
    ensures forall i :: 0 <= i < |r| ==> exists j :: 0 <= j < |parts| && r[i] == Strip(parts[j])
  {
    if |parts| == 0 then []
    else
      var rest := StripNonEmpty(parts[1..]);
      var p := Strip(parts[0]);
      if p != "" then [p] + rest else rest
  }

  /** A piece is kept exactly when it is not blank. */
  lemma {:induction false} StripNonEmptyKeepsNonBlank(parts: seq<string>)
    ensures |StripNonEmpty(parts)| == |parts| <==> forall j :: 0 <= j < |parts| ==> Strip(parts[j]) != ""
  {
    if |parts| > 0 {
      StripNonEmptyKeepsNonBlank(parts[1..]);
      assert forall j :: 1 <= j < |parts| ==> parts[j] == parts[1..][j - 1];
    }
  }

  /** _split_by_paragraphs: the stripped, non-blank pieces of the paragraph split. */
  function SplitByParagraphs(sp: Splitter, text: string): (r: seq<string>)
    ensures forall i :: 0 <= i < |r| ==> Clean(r[i])
  {
    StripNonEmpty(sp.paragraphs(text))
  }

  /** _split_by_sentences: the stripped, non-blank pieces of the sentence tokenization. */
  function SplitBySentences(sp: Splitter, text: string): (r: seq<string>)
    ensures forall i :: 0 <= i < |r| ==> Clean(r[i])
  {
    StripNonEmpty(sp.sentences(text))
  }

  // ---------------------------------------------------------------------
  // Greedy packing
  // ---------------------------------------------------------------------

  /** The text accumulated so far as a list: nothing, or the one current chunk. */
  function Pending(cur: string): seq<string>
  {
    if cur == "" then [] else [cur]
  }

  /** chunks.append(current_chunk.strip()) when current_chunk is non-empty. */
  function Flush(cur: string): (r: seq<string>)
    ensures cur == "" || Clean(cur) ==> r == Pending(cur)
  {
    if cur == "" then []
    else
      assert Clean(cur) ==> Strip(cur) == cur by {
        if Clean(cur) { StripStripped(cur); }
      }
      [Strip(cur)]
  }

  /** Adding a piece to the current chunk with a space does not change the joined text. */
  lemma ExtendPending(cur: string, w: string, rest: seq<string>)
    requires w != ""
    ensures var potential := if cur != "" then cur + " " + w else w;
      Join(" ", Pending(potential) + rest) == Join(" ", Pending(cur) + ([w] + rest))
  {
    var potential := if cur != "" then cur + " " + w else w;
    JoinConcat(" ", [w], rest);
    JoinConcat(" ", [potential], rest);
    if cur != "" {
      assert Pending(cur) + ([w] + rest) == [cur] + ([w] + rest);
      JoinConcat(" ", [cur], [w] + rest);
    } else {
      assert Pending(cur) + ([w] + rest) == [w] + rest;
    }
  }

  predicate AllWords(ws: seq<string>)
  {
    forall i :: 0 <= i < |ws| ==> |ws[i]| > 0 && NoSpace(ws[i])
  }

  /**
   * The loop of _force_split_long_sentence from the current chunk `cur`:
   * a word joins the chunk while the result stays within `size`, otherwise
   * the chunk is flushed and the word starts the next one.
   */
  function PackWords(ws: seq<string>, cur: string, size: int): (r: seq<string>)
    requires AllWords(ws)
    requires cur == "" || Clean(cur)
    requires |cur| <= size || NoSpace(cur)
    ensures forall i :: 0 <= i < |r| ==> Clean(r[i]) && (|r[i]| <= size || NoSpace(r[i]))
    ensures |r| == 0 <==> cur == "" && ws == []
    ensures Join(" ", r) == Join(" ", Pending(cur) + ws)
    decreases |ws|
  {
    if |ws| == 0 then Flush(cur)
    else
      var w := ws[0];
      var potential := if cur != "" then cur + " " + w else w;
      if |potential| <= size then
        ExtendPending(cur, w, ws[1..]);
        assert ws == [w] + ws[1..];
        PackWords(ws[1..], potential, size)
      else
        var r := Flush(cur) + PackWords(ws[1..], w, size);
        JoinConcat(" ", Pending(cur), PackWords(ws[1..], w, size));
        JoinConcat(" ", Pending(cur), ws);
        assert ws == [w] + ws[1..];
        r
  }

  /** The chunk c opens with the whole piece p: it is p, or p and a space and more. */
  predicate Leads(c: string, p: string)
  {
    c == p || StartsWith(c, p + " ")
  }

  /** A chunk that opens with cur + " " + w opens with cur. */
  lemma LeadsExtended(c: string, cur: string, w: string)
    requires Leads(c, cur + " " + w)
    ensures Leads(c, cur)
  {
    assert (cur + " " + w)[..|cur| + 1] == cur + " ";
    if c != cur + " " + w {
      assert c[..|cur| + 1] == (c[..|cur + " " + w|])[..|cur| + 1];
    }
  }

  /**
   * Greedy packing of pieces into chunks: every chunk but the last was
   * flushed only because the piece that opens the next chunk would have
   * taken it past `size`.
   */
  predicate Greedy(r: seq<string>, pieces: seq<string>, size: int)
  {
    forall i :: 0 <= i < |r| - 1 ==> Overflows(r[i], r[i + 1], pieces, size)
  }

  /** The chunk `next` opens with a piece that would have taken chunk c past `size`. */
  predicate Overflows(c: string, next: string, pieces: seq<string>, size: int)
  {
    exists j :: 0 <= j < |pieces| && Leads(next, pieces[j]) && |c| + 1 + |pieces[j]| > size
  }

  /** Greedy over the later pieces is greedy over all of them. */
  lemma GreedyOverMore(r: seq<string>, pieces: seq<string>, size: int)
    requires |pieces| > 0 && Greedy(r, pieces[1..], size)
    ensures Greedy(r, pieces, size)
  {
    forall i | 0 <= i < |r| - 1
      ensures Overflows(r[i], r[i + 1], pieces, size)
    {
      assert Overflows(r[i], r[i + 1], pieces[1..], size);
      var j :| 0 <= j < |pieces[1..]| && Leads(r[i + 1], pieces[1..][j]) && |r[i]| + 1 + |pieces[1..][j]| > size;
      assert pieces[1..][j] == pieces[j + 1];
      assert 0 <= j + 1 < |pieces| && Leads(r[i + 1], pieces[j + 1]) && |r[i]| + 1 + |pieces[j + 1]| > size;
    }
  }

  /** A chunk flushed because the first piece did not fit, before a greedy packing that opens with that piece. */
  lemma GreedyAfterFlush(cur: string, tail: seq<string>, pieces: seq<string>, size: int)
    requires |pieces| > 0 && |tail| > 0 && Leads(tail[0], pieces[0])
    requires |cur| + 1 + |pieces[0]| > size
    requires Greedy(tail, pieces[1..], size)
    ensures Greedy([cur] + tail, pieces, size)
  {
    GreedyOverMore(tail, pieces, size);
    var r := [cur] + tail;
    forall i | 0 <= i < |r| - 1
      ensures Overflows(r[i], r[i + 1], pieces, size)
    {
      if i == 0 {
        assert Leads(r[1], pieces[0]);
      } else {
        assert r[i] == tail[i - 1] && r[i + 1] == tail[i];
        assert Overflows(tail[i - 1], tail[i], pieces, size);
      }
    }
  }

  /**
   * The word packing is greedy, and the pending chunk is extended, never
   * split.
   */
  lemma {:induction false} PackWordsIsGreedy(ws: seq<string>, cur: string, size: int)
    requires AllWords(ws)
    requires cur == "" || Clean(cur)
    requires |cur| <= size || NoSpace(cur)
    ensures var r := PackWords(ws, cur, size);
      (cur != "" ==> |r| > 0 && Leads(r[0], cur)) && Greedy(r, ws, size)
    decreases |ws|
  {
    var r := PackWords(ws, cur, size);
    if |ws| > 0 {
      var w := ws[0];
      var potential := if cur != "" then cur + " " + w else w;
      var rest := ws[1..];
      assert AllWords(rest);
      if |potential| <= size {
        PackWordsIsGreedy(rest, potential, size);
        assert r == PackWords(rest, potential, size);
        if cur != "" {
          LeadsExtended(r[0], cur, w);
        }
        GreedyOverMore(r, ws, size);
      } else {
        var tail := PackWords(rest, w, size);
        PackWordsIsGreedy(rest, w, size);
        if cur != "" {
          assert r == [cur] + tail;
          GreedyAfterFlush(cur, tail, ws, size);
        } else {
          assert r == tail;
          GreedyOverMore(r, ws, size);
        }
      }
    }
  }

  /**
   * _force_split_long_sentence: word-boundary chunks that join back, with
   * single spaces, to the sentence's words; each is within chunk_size
   * unless it is one word that is longer on its own.
   */
  function ForceSplitLongSentence(sp: Splitter, sentence: string): (r: seq<string>)
    ensures Join(" ", r) == Join(" ", Words(sentence))
    ensures forall i :: 0 <= i < |r| ==> Clean(r[i]) && (|r[i]| <= sp.chunkSize || NoSpace(r[i]))
    ensures |r| == 0 <==> Words(sentence) == []
  {
    assert Pending("") + Words(sentence) == Words(sentence);
    PackWords(Words(sentence), "", sp.chunkSize)
  }

  /** Reading the force-split chunks back word by word gives exactly the sentence's words. */
  lemma ForceSplitKeepsWords(sp: Splitter, sentence: string)
    ensures Words(Join(" ", ForceSplitLongSentence(sp, sentence))) == Words(sentence)
  {
    WordsOfJoin(Words(sentence));
  }

  /** A chunk the paragraph packing may produce: within one of the two sizes, or a single word. */
  predicate Bounded(sp: Splitter, c: string)
  {
    |c| <= sp.chunkSize || |c| <= sp.maxChunkSize || NoSpace(c)
  }

  /** What a sentence contributes to the text of the chunks: itself, or its words when force-split. */
  function NormalizedOne(sp: Splitter, s: string): string
  {
    if |s| > sp.maxChunkSize then Join(" ", Words(s)) else s
  }

  function Normalized(sp: Splitter, ss: seq<string>): (r: seq<string>)
    ensures |r| == |ss|
  {
    if |ss| == 0 then [] else [NormalizedOne(sp, ss[0])] + Normalized(sp, ss[1..])
  }

  /** Two lists with the same non-empty joined text can be swapped behind a common prefix. */
  lemma JoinCongruence(p: seq<string>, a: seq<string>, b: seq<string>)
    requires |a| > 0 && |b| > 0 && Join(" ", a) == Join(" ", b)
    ensures Join(" ", p + a) == Join(" ", p + b)
  {
    JoinConcat(" ", p, a);
    JoinConcat(" ", p, b);
  }

  lemma WordsOfClean(s: string)
    requires Clean(s)
    ensures Words(s) != []
  {
  }

  /** The text of a force-split sentence and the chunks after it, behind the pending chunk. */
  lemma PieceThenTail(p: seq<string>, forced: seq<string>, tail: seq<string>, n: string, nr: seq<string>)
    requires |forced| > 0 && Join(" ", forced) == n
    requires Join(" ", tail) == Join(" ", nr)
    requires |tail| == 0 <==> nr == []
    ensures Join(" ", p + forced + tail) == Join(" ", p + ([n] + nr))
  {
    assert p + forced + tail == p + (forced + tail);
    if |tail| == 0 {
      assert forced + tail == forced;
      assert [n] + nr == [n];
      JoinCongruence(p, forced, [n]);
    } else {
      JoinConcat(" ", forced, tail);
      JoinConcat(" ", [n], nr);
      JoinCongruence(p, forced + tail, [n] + nr);
    }
  }

  predicate AllClean(ss: seq<string>)
  {
    forall i :: 0 <= i < |ss| ==> Clean(ss[i])
  }

  /**
   * The sentence loop of _process_paragraph from the current chunk `cur`:
   * an over-long sentence flushes the chunk and is force-split; any other
   * joins the chunk while the result stays within chunk_size, or else
   * flushes it and starts the next one.
   */
  function PackSentences(sp: Splitter, ss: seq<string>, cur: string): (r: seq<string>)
    requires AllClean(ss)
    requires cur == "" || Clean(cur)
    requires Bounded(sp, cur)
    ensures forall i :: 0 <= i < |r| ==> Clean(r[i]) && Bounded(sp, r[i])
    ensures |r| == 0 <==> cur == "" && ss == []
    decreases |ss|
  {
    if |ss| == 0 then Flush(cur)
    else
      var s := ss[0];
      assert Clean(s);
      if |s| > sp.maxChunkSize then
        WordsOfClean(s);
        var flushed := Flush(cur);
        var forced := ForceSplitLongSentence(sp, s);
        var rest := PackSentences(sp, ss[1..], "");
        GoodChunksConcat(sp, flushed, forced);
        GoodChunksConcat(sp, flushed + forced, rest);
        flushed + forced + rest
      else
        var potential := if cur != "" then cur + " " + s else s;
        PotentialClean(cur, s);
        if |potential| <= sp.chunkSize then PackSentences(sp, ss[1..], potential)
        else
          var rest := PackSentences(sp, ss[1..], s);
          GoodChunksConcat(sp, Flush(cur), rest);
          Flush(cur) + rest
  }

  /** Every chunk is stripped and within the size bounds. */
  predicate GoodChunks(sp: Splitter, r: seq<string>)
  {
    forall i :: 0 <= i < |r| ==> Clean(r[i]) && Bounded(sp, r[i])
  }

  lemma GoodChunksConcat(sp: Splitter, a: seq<string>, b: seq<string>)
    requires GoodChunks(sp, a) && GoodChunks(sp, b)
    ensures GoodChunks(sp, a + b)
  {
    forall i | 0 <= i < |a + b|
      ensures Clean((a + b)[i]) && Bounded(sp, (a + b)[i])
    {
      if i >= |a| {
        assert (a + b)[i] == b[i - |a|];
      }
    }
  }

  /** current_chunk + " " + sentence of two stripped pieces is stripped. */
  lemma PotentialClean(cur: string, s: string)
    requires cur == "" || Clean(cur)
    requires Clean(s)
    ensures Clean(if cur != "" then cur + " " + s else s)
  {
    if cur != "" {
      var p := cur + " " + s;
      assert p[0] == cur[0] && p[|p| - 1] == s[|s| - 1];
    }
  }

  /**
   * The chunks of the sentence loop, joined with single spaces, give the
   * pending chunk and the sentences joined the same way, a force-split
   * sentence reading as its space-separated words: nothing is lost or
   * reordered.
   */
  lemma {:induction false} PackSentencesText(sp: Splitter, ss: seq<string>, cur: string)
    requires AllClean(ss)
    requires cur == "" || Clean(cur)
    requires Bounded(sp, cur)
    ensures Join(" ", PackSentences(sp, ss, cur)) == Join(" ", Pending(cur) + Normalized(sp, ss))
    decreases |ss|
  {
    if |ss| == 0 {
      assert Pending(cur) + Normalized(sp, ss) == Pending(cur);
    } else {
      var s := ss[0];
      var rest := ss[1..];
      assert Clean(s);
      assert ss == [s] + rest;
      assert AllClean(rest);
      if |s| > sp.maxChunkSize {
        var forced := ForceSplitLongSentence(sp, s);
        var tail := PackSentences(sp, rest, "");
        WordsOfClean(s);
        PackSentencesText(sp, rest, "");
        assert Pending("") + Normalized(sp, rest) == Normalized(sp, rest);
        assert Normalized(sp, ss) == [Join(" ", Words(s))] + Normalized(sp, rest);
        PieceThenTail(Pending(cur), forced, tail, Join(" ", Words(s)), Normalized(sp, rest));
      } else {
        var potential := if cur != "" then cur + " " + s else s;
        assert Normalized(sp, ss) == [s] + Normalized(sp, rest);
        if |potential| <= sp.chunkSize {
          PackSentencesText(sp, rest, potential);
          ExtendPending(cur, s, Normalized(sp, rest));
        } else {
          var tail := PackSentences(sp, rest, s);
          PackSentencesText(sp, rest, s);
          JoinCongruence(Pending(cur), tail, Normalized(sp, ss));
        }
      }
    }
  }

  /**
   * Among sentences none of which needs force-splitting, the packing is
   * greedy: a chunk is flushed only when the sentence that opens the next
   * chunk would have taken it past chunk_size.
   */
  lemma {:induction false} PackSentencesIsGreedy(sp: Splitter, ss: seq<string>, cur: string)
    requires AllClean(ss) && forall i :: 0 <= i < |ss| ==> |ss[i]| <= sp.maxChunkSize
    requires cur == "" || Clean(cur)
    requires Bounded(sp, cur)
    ensures var r := PackSentences(sp, ss, cur);
      (cur != "" ==> |r| > 0 && Leads(r[0], cur)) && Greedy(r, ss, sp.chunkSize)
    decreases |ss|
  {
    var r := PackSentences(sp, ss, cur);
    if |ss| > 0 {
      var s := ss[0];
      var potential := if cur != "" then cur + " " + s else s;
      var rest := ss[1..];
      assert Clean(s) && AllClean(rest);
      assert |s| <= sp.maxChunkSize;
      if |potential| <= sp.chunkSize {
        PackSentencesIsGreedy(sp, rest, potential);
        assert r == PackSentences(sp, rest, potential);
        if cur != "" {
          LeadsExtended(r[0], cur, s);
        }
        GreedyOverMore(r, ss, sp.chunkSize);
      } else {
        var tail := PackSentences(sp, rest, s);
        PackSentencesIsGreedy(sp, rest, s);
        if cur != "" {
          assert r == [cur] + tail;
          GreedyAfterFlush(cur, tail, ss, sp.chunkSize);
        } else {
          assert r == tail;
          GreedyOverMore(r, ss, sp.chunkSize);
        }
      }
    }
  }

  /**
   * _process_paragraph: a paragraph within chunk_size is its own chunk;
   * otherwise its sentences are packed, every chunk then within chunk_size
   * or max_chunk_size, or a single over-long word.
   */
  function ProcessParagraph(sp: Splitter, paragraph: string): (r: seq<string>)
    ensures |paragraph| <= sp.chunkSize ==> r == [paragraph]
    ensures |paragraph| > sp.chunkSize ==>
      (forall i :: 0 <= i < |r| ==> Clean(r[i]) && Bounded(sp, r[i]))
      && Join(" ", r) == Join(" ", Normalized(sp, SplitBySentences(sp, paragraph)))
  {
    if |paragraph| <= sp.chunkSize then [paragraph]
    else
      var ss := SplitBySentences(sp, paragraph);
      var r := PackSentences(sp, ss, "");
      assert Join(" ", r) == Join(" ", Normalized(sp, ss)) by {
        PackSentencesText(sp, ss, "");
        assert Pending("") + Normalized(sp, ss) == Normalized(sp, ss);
      }
      r
  }

  /** Sentences that all fit together in chunk_size come out as one chunk. */
  lemma {:induction false} SmallSentencesPackTogether(sp: Splitter, ss: seq<string>, cur: string)
    requires AllClean(ss) && forall i :: 0 <= i < |ss| ==> |ss[i]| <= sp.maxChunkSize
    requires cur == "" || Clean(cur)
    requires Bounded(sp, cur)
    requires cur != "" || ss != []
    requires |Join(" ", Pending(cur) + ss)| <= sp.chunkSize
    ensures PackSentences(sp, ss, cur) == [Join(" ", Pending(cur) + ss)]
    decreases |ss|
  {
    if |ss| == 0 {
      assert Pending(cur) + ss == [cur];
      StripStripped(cur);
    } else {
      var s, rest := ss[0], ss[1..];
      var potential := if cur != "" then cur + " " + s else s;
      JoinPotential(cur, s, rest);
      assert ss == [s] + rest;
      assert PackSentences(sp, ss, cur) == PackSentences(sp, rest, potential);
      SmallSentencesPackTogether(sp, rest, potential);
    }
  }

  /** Taking the next sentence into the current chunk keeps the joined text, and the chunk is no longer than it. */
  lemma JoinPotential(cur: string, s: string, rest: seq<string>)
    requires cur == "" || Clean(cur)
    requires Clean(s)
    ensures var potential := if cur != "" then cur + " " + s else s;
      && Clean(potential)
      && Join(" ", Pending(potential) + rest) == Join(" ", Pending(cur) + ([s] + rest))
      && |potential| <= |Join(" ", Pending(potential) + rest)|
  {
    var potential := if cur != "" then cur + " " + s else s;
    ExtendPending(cur, s, rest);
    JoinConcat(" ", [potential], rest);
  }

  // ---------------------------------------------------------------------
  // Overlap
  // ---------------------------------------------------------------------

  lemma JoinOfClean(ws: seq<string>)
    requires forall i :: 0 <= i < |ws| ==> Clean(ws[i])
    ensures ws != [] ==> Join(" ", ws) != ""
  {
    if |ws| > 1 {
      assert |Join(" ", ws)| >= |ws[0]|;
    }
  }

  /**
   * The reversed loop of _extract_overlap: sentences are put in front of
   * the overlap collected so far while it stays within `size`.
   */
  function CollectTail(ss: seq<string>, acc: seq<string>, size: int): (k: nat)
    requires AllClean(ss) && AllClean(acc)
    requires |Join(" ", acc)| <= size || acc == []
    ensures k <= |ss|
    ensures |Join(" ", ss[k..] + acc)| <= size || ss[k..] + acc == []
    ensures k > 0 ==> |Join(" ", ss[k - 1..] + acc)| > size
    decreases |ss|
  {
    if |ss| == 0 then 0
    else
      var s := ss[|ss| - 1];
      var overlap := Join(" ", acc);
      var potential := if overlap != "" then s + " " + overlap else s;
      if |potential| <= size then
        PrependSentence(s, acc);
        var k := CollectTail(ss[..|ss| - 1], [s] + acc, size);
        TailRegroup(ss, acc, k);
        k
      else
        assert ss[|ss|..] + acc == acc;
        assert ss[|ss| - 1..] + acc == [s] + acc;
        PrependSentence(s, acc);
        |ss|
  }

  /** Joining a clean sentence in front of the collected overlap, as the loop writes it. */
  lemma PrependSentence(s: string, acc: seq<string>)
    requires Clean(s) && AllClean(acc)
    ensures AllClean([s] + acc)
    ensures Join(" ", [s] + acc) == if Join(" ", acc) != "" then s + " " + Join(" ", acc) else s
  {
    JoinConcat(" ", [s], acc);
    JoinOfClean(acc);
    forall i | 0 <= i < |[s] + acc|
      ensures Clean(([s] + acc)[i])
    {
      if i > 0 {
        assert ([s] + acc)[i] == acc[i - 1];
      }
    }
  }

  lemma TailRegroup(ss: seq<string>, acc: seq<string>, k: nat)
    requires k <= |ss| - 1
    ensures ss[..|ss| - 1][k..] + ([ss[|ss| - 1]] + acc) == ss[k..] + acc
    ensures k > 0 ==> ss[..|ss| - 1][k - 1..] + ([ss[|ss| - 1]] + acc) == ss[k - 1..] + acc
  {
    if k > 0 {
      assert ss[k - 1..] == ss[..|ss| - 1][k - 1..] + [ss[|ss| - 1]];
    }
    assert ss[k..] == ss[..|ss| - 1][k..] + [ss[|ss| - 1]];
  }

  /** ss[k..] is the longest run of final sentences whose joined text fits in `size`. */
  predicate LongestTail(ss: seq<string>, k: nat, size: int)
    requires k <= |ss|
  {
    (|Join(" ", ss[k..])| <= size || k == |ss|) && (k > 0 ==> |Join(" ", ss[k - 1..])| > size)
  }

  /**
   * _extract_overlap: the whole text when it fits; otherwise the longest
   * run of final sentences that fits in overlap_size, or, when that is
   * shorter than half of overlap_size, the stripped last overlap_size
   * characters.
   */
  function ExtractOverlap(sp: Splitter, text: string, overlapSize: int): (r: string)
    ensures |text| <= overlapSize ==> r == text
    ensures |text| > overlapSize && overlapSize > 0 ==> |r| <= overlapSize
    ensures |text| > overlapSize ==>
      r == Strip(Drop(text, -overlapSize))
      || (|r| >= overlapSize / 2
          && exists k :: 0 <= k <= |SplitBySentences(sp, text)| && r == Join(" ", SplitBySentences(sp, text)[k..]))
  {
    if |text| <= overlapSize then text
    else
      var ss := SplitBySentences(sp, text);
      var k := CollectTail(ss, [], overlapSize);
      assert ss[k..] + [] == ss[k..];
      var overlap := Join(" ", ss[k..]);
      if |overlap| < overlapSize / 2 then Strip(Drop(text, -overlapSize))
      else overlap
  }

  /**
   * Which overlap _extract_overlap takes from an over-long text: the longest
   * run of final sentences that fits in overlap_size, unless that run is
   * shorter than half of overlap_size, when it is the stripped last
   * overlap_size characters instead.
   */
  lemma ExtractOverlapUsesLongestTail(sp: Splitter, text: string, overlapSize: int)
    requires |text| > overlapSize
    ensures var ss := SplitBySentences(sp, text);
      exists k :: 0 <= k <= |ss| && LongestTail(ss, k, overlapSize) &&
        ExtractOverlap(sp, text, overlapSize) ==
          (if |Join(" ", ss[k..])| < overlapSize / 2 then Strip(Drop(text, -overlapSize)) else Join(" ", ss[k..]))
  {
    var ss := SplitBySentences(sp, text);
    var k := CollectTail(ss, [], overlapSize);
    CollectedTailIsLongest(ss, overlapSize);
    var overlap := Join(" ", ss[k..]);
    assert ExtractOverlap(sp, text, overlapSize) ==
      (if |overlap| < overlapSize / 2 then Strip(Drop(text, -overlapSize)) else overlap);
  }

  /** The tail the reversed loop collects from nothing is the longest one that fits. */
  lemma CollectedTailIsLongest(ss: seq<string>, size: int)
    requires AllClean(ss)
    ensures CollectTail(ss, [], size) <= |ss| && LongestTail(ss, CollectTail(ss, [], size), size)
  {
    var k := CollectTail(ss, [], size);
    assert ss[k..] + [] == ss[k..];
    if k > 0 {
      assert ss[k - 1..] + [] == ss[k - 1..];
    }
  }

  /** One step of _add_overlap: the overlap of the previous chunk, if any, in front of the chunk. */
  function WithOverlap(sp: Splitter, previous: string, chunk: string): (r: string)
    requires sp.chunkOverlap > 0
    ensures var o := ExtractOverlap(sp, previous, sp.chunkOverlap);
      r == (if o != "" then o + " " + chunk else chunk)
    ensures r == chunk || exists o :: 0 < |o| <= sp.chunkOverlap && r == o + " " + chunk
  {
    var o := ExtractOverlap(sp, previous, sp.chunkOverlap);
    if o != "" then o + " " + chunk else chunk
  }

  /**
   * _add_overlap: unchanged for at most one chunk or a non-positive
   * overlap; otherwise the first chunk as is and every later chunk prefixed
   * with the overlap taken from its predecessor.
   */
  function AddOverlap(sp: Splitter, chunks: seq<string>): (r: seq<string>)
    ensures |r| == |chunks|
    ensures |chunks| <= 1 || sp.chunkOverlap <= 0 ==> r == chunks
    ensures |chunks| > 0 ==> r[0] == chunks[0]
    ensures |chunks| > 1 && sp.chunkOverlap > 0 ==>
      forall i :: 0 < i < |chunks| ==> r[i] == WithOverlap(sp, chunks[i - 1], chunks[i])
  {
    if |chunks| <= 1 || sp.chunkOverlap <= 0 then chunks
    else
      [chunks[0]] + seq(|chunks| - 1, i requires 0 <= i < |chunks| - 1 => WithOverlap(sp, chunks[i], chunks[i + 1]))
  }

  // ---------------------------------------------------------------------
  // split_text and split_documents
  // ---------------------------------------------------------------------

  /** The paragraph loop of split_text: blank paragraphs skipped, the rest processed in order. */
  function ProcessAll(sp: Splitter, paragraphs: seq<string>): (r: seq<string>)
    ensures |paragraphs| == 0 ==> r == []
  {
    if |paragraphs| == 0 then []
    else
      var rest := ProcessAll(sp, paragraphs[1..]);
      if |Strip(paragraphs[0])| == 0 then rest else ProcessParagraph(sp, paragraphs[0]) + rest
  }

  /** The final filter of split_text: chunks whose stripped length reaches min_chunk_size. */
  function KeepLargeEnough(sp: Splitter, chunks: seq<string>): (r: seq<string>)
    ensures forall i :: 0 <= i < |r| ==> |Strip(r[i])| >= sp.minChunkSize
    ensures IsSubseq(r, chunks)
    ensures forall i :: 0 <= i < |chunks| && |Strip(chunks[i])| >= sp.minChunkSize ==> chunks[i] in r
    ensures |r| == CountKept(chunks, LargeEnough(sp))
  {
    FilterCount(chunks, LargeEnough(sp));
    Filter(chunks, LargeEnough(sp))
  }

  function LargeEnough(sp: Splitter): string -> bool
  {
    c => |Strip(c)| >= sp.minChunkSize
  }

  /**
   * split_text: [] for a blank text; otherwise paragraphs processed,
   * overlap added, and only chunks of at least min_chunk_size kept.
   */
  function SplitText(sp: Splitter, text: string): (r: seq<string>)
    ensures Strip(text) == "" ==> r == []
    ensures forall i :: 0 <= i < |r| ==> |Strip(r[i])| >= sp.minChunkSize
  {
    if Strip(text) == "" then []
    else
      var chunks := ProcessAll(sp, SplitByParagraphs(sp, text));
      KeepLargeEnough(sp, AddOverlap(sp, chunks))
  }

  /**
   * The chunks of a non-blank text are the overlapped paragraph chunks in
   * order, minus exactly those shorter than min_chunk_size: every long enough
   * chunk is kept, and the count matches.
   */
  lemma SplitTextKeepsOrder(sp: Splitter, text: string)
    requires Strip(text) != ""
    ensures var overlapped := AddOverlap(sp, ProcessAll(sp, SplitByParagraphs(sp, text)));
      IsSubseq(SplitText(sp, text), overlapped)
      && (forall i :: 0 <= i < |overlapped| && |Strip(overlapped[i])| >= sp.minChunkSize ==>
        overlapped[i] in SplitText(sp, text))
      && |SplitText(sp, text)| == CountKept(overlapped, LargeEnough(sp))
  {
    var overlapped := AddOverlap(sp, ProcessAll(sp, SplitByParagraphs(sp, text)));
    var r := KeepLargeEnough(sp, overlapped);
    assert SplitText(sp, text) == r;
  }

  /** One short paragraph of at least min_chunk_size characters is returned as the only chunk. */
  lemma OneShortParagraph(sp: Splitter, text: string, p: string)
    requires Strip(text) != ""
    requires SplitByParagraphs(sp, text) == [p]
    requires sp.minChunkSize <= |p| <= sp.chunkSize
    ensures SplitText(sp, text) == [p]
  {
    assert Clean(p) by {
      assert SplitByParagraphs(sp, text)[0] == p;
    }
    ShortParagraphChunks(sp, p);
  }

  lemma ShortParagraphChunks(sp: Splitter, p: string)
    requires Clean(p) && sp.minChunkSize <= |p| <= sp.chunkSize
    ensures KeepLargeEnough(sp, AddOverlap(sp, ProcessAll(sp, [p]))) == [p]
  {
    assert Strip(p) == p by {
      StripStripped(p);
    }
    assert ProcessAll(sp, [p]) == [p] by {
      assert [p][1..] == [];
      assert ProcessParagraph(sp, p) == [p];
    }
    assert AddOverlap(sp, [p]) == [p];
    FilterAll([p], LargeEnough(sp));
  }

  /** The keys split_documents adds to each chunk's copy of the metadata. */
  function ChunkMetadata(meta: map<string, PyVal>, index: nat, total: nat): (m: map<string, PyVal>)
    ensures m.Keys == meta.Keys + {"chunk_index", "chunk_total", "splitter_type", "chunk_method"}
    ensures m["chunk_index"] == PInt(index) && m["chunk_total"] == PInt(total)
    ensures m["splitter_type"] == PStr("semantic") && m["chunk_method"] == PStr("sentence_boundary")
    ensures forall k :: k in meta && k !in {"chunk_index", "chunk_total", "splitter_type", "chunk_method"} ==>
      m[k] == meta[k]
  {
    meta["chunk_index" := PInt(index)]["chunk_total" := PInt(total)]
        ["splitter_type" := PStr("semantic")]["chunk_method" := PStr("sentence_boundary")]
  }

  /** The documents made from one input document and its chunks. */
  function DocumentChunks(d: Document, chunks: seq<string>): (r: seq<Document>)
    ensures |r| == |chunks|
    ensures forall i :: 0 <= i < |r| ==>
      r[i].pageContent == chunks[i] && r[i].metadata == ChunkMetadata(d.metadata, i, |chunks|)
  {
    seq(|chunks|, i requires 0 <= i < |chunks| => Document(chunks[i], ChunkMetadata(d.metadata, i, |chunks|)))
  }

  function Flatten(xss: seq<seq<string>>): seq<string>
  {
    if |xss| == 0 then [] else xss[0] + Flatten(xss[1..])
  }

  /** The loop of split_documents over documents whose chunks are already known. */
  function TagAll(docs: seq<Document>, chunks: seq<seq<string>>): (r: seq<Document>)
    requires |chunks| == |docs|
    ensures |r| == |Flatten(chunks)|
    ensures forall j :: 0 <= j < |r| ==> r[j].pageContent == Flatten(chunks)[j]
    ensures forall j :: 0 <= j < |r| ==> "splitter_type" in r[j].metadata && r[j].metadata["splitter_type"] == PStr("semantic")
  {
    if |docs| == 0 then []
    else
      var head := DocumentChunks(docs[0], chunks[0]);
      var rest := TagAll(docs[1..], chunks[1..]);
      assert forall j :: 0 <= j < |head| ==> (head + rest)[j] == head[j];
      assert forall j :: |head| <= j < |head| + |rest| ==> (head + rest)[j] == rest[j - |head|];
      head + rest
  }

  /** Every chunk split_text produces for the documents, one list per document. */
  function ChunkLists(sp: Splitter, docs: seq<Document>): (r: seq<seq<string>>)
    ensures |r| == |docs|
    ensures forall i :: 0 <= i < |docs| ==> r[i] == SplitText(sp, docs[i].pageContent)
  {
    seq(|docs|, i requires 0 <= i < |docs| => SplitText(sp, docs[i].pageContent))
  }

  /**
   * split_documents: one document per chunk, the chunks of each document in
   * turn, every one carrying the splitter's label.
   */
  function SplitDocuments(sp: Splitter, docs: seq<Document>): (r: seq<Document>)
    ensures |r| == |Flatten(ChunkLists(sp, docs))|
    ensures forall j :: 0 <= j < |r| ==> r[j].pageContent == Flatten(ChunkLists(sp, docs))[j]
    ensures forall j :: 0 <= j < |r| ==> "splitter_type" in r[j].metadata && r[j].metadata["splitter_type"] == PStr("semantic")
  {
    TagAll(docs, ChunkLists(sp, docs))
  }

  /** The documents made from the first input are its chunks with their index and the count. */
  lemma FirstDocumentChunks(sp: Splitter, docs: seq<Document>, k: nat)
    requires |docs| > 0 && k < |SplitText(sp, docs[0].pageContent)|
    ensures var n := |SplitText(sp, docs[0].pageContent)|;
      var d := SplitDocuments(sp, docs)[k];
      d.pageContent == SplitText(sp, docs[0].pageContent)[k]
      && d.metadata == ChunkMetadata(docs[0].metadata, k, n)
  {
    var lists := ChunkLists(sp, docs);
    assert lists[0] == SplitText(sp, docs[0].pageContent);
    var head := DocumentChunks(docs[0], lists[0]);
    assert TagAll(docs, lists) == head + TagAll(docs[1..], lists[1..]);
  }

  /**
   * Chunk i of document d lands after the chunks of the documents before it,
   * with d's content at i and d's metadata tagged with i and d's chunk count.
   */
  lemma {:induction false} TagAllPlacesChunk(docs: seq<Document>, chunks: seq<seq<string>>, d: nat, i: nat)
    requires |chunks| == |docs| && d < |docs| && i < |chunks[d]|
    ensures |Flatten(chunks[..d])| + i < |TagAll(docs, chunks)|
    ensures TagAll(docs, chunks)[|Flatten(chunks[..d])| + i] ==
      Document(chunks[d][i], ChunkMetadata(docs[d].metadata, i, |chunks[d]|))
  {
    var head := DocumentChunks(docs[0], chunks[0]);
    var rest := TagAll(docs[1..], chunks[1..]);
    assert TagAll(docs, chunks) == head + rest;
    if d == 0 {
      assert chunks[..0] == [];
    } else {
      TagAllPlacesChunk(docs[1..], chunks[1..], d - 1, i);
      assert chunks[..d][0] == chunks[0] && chunks[..d][1..] == chunks[1..][..d - 1];
      assert Flatten(chunks[..d]) == chunks[0] + Flatten(chunks[1..][..d - 1]);
    }
  }

  /**
   * split_documents tags every chunk of every document: chunk i of document
   * d sits after the chunks of the earlier documents and carries d's metadata
   * with its index, the chunk count and the splitter's labels.
   */
  lemma EveryDocumentChunks(sp: Splitter, docs: seq<Document>, d: nat, i: nat)
    requires d < |docs| && i < |SplitText(sp, docs[d].pageContent)|
    ensures var lists := ChunkLists(sp, docs);
      var r := SplitDocuments(sp, docs);
      var j := |Flatten(lists[..d])| + i;
      j < |r| && r[j].pageContent == SplitText(sp, docs[d].pageContent)[i] &&
      r[j].metadata == ChunkMetadata(docs[d].metadata, i, |SplitText(sp, docs[d].pageContent)|)
  {
    TagAllPlacesChunk(docs, ChunkLists(sp, docs), d, i);
  }
}

=== FILE: stable_sort.dfy ===
/**
 * Python's list.sort(key=..., reverse=True) on a real-valued key, which the
 * rerankers and the retrieval services use: a stable sort into
 * non-increasing key order, modelled as insertion sort in which a new
 * element goes after every element whose key is at least its own.
 */
module StableSort {
  import opened PyCore

  /** Keys never increase along the sequence. */
  predicate SortedDesc<T>(s: seq<T>, key: T -> real)
  {
    forall i, j :: 0 <= i < j < |s| ==> key(s[i]) >= key(s[j])
  }

  /** The elements whose key is k, in their order in s. */
  function WithKey<T>(s: seq<T>, key: T -> real, k: real): seq<T>
  {
    if |s| == 0 then [] else (if key(s[0]) == k then [s[0]] else []) + WithKey(s[1..], key, k)
  }

  lemma {:induction false} WithKeyConcat<T>(a: seq<T>, b: seq<T>, key: T -> real, k: real)
    ensures WithKey(a + b, key, k) == WithKey(a, key, k) + WithKey(b, key, k)
  {
    if |a| == 0 {
      assert a + b == b;
    } else {
      var head := if key(a[0]) == k then [a[0]] else [];
      assert (a + b)[0] == a[0] && (a + b)[1..] == a[1..] + b;
      assert WithKey(a + b, key, k) == head + WithKey(a[1..] + b, key, k);
      WithKeyConcat(a[1..], b, key, k);
      assert WithKey(a, key, k) == head + WithKey(a[1..], key, k);
    }
  }

  lemma {:induction false} WithKeyNone<T>(s: seq<T>, key: T -> real, k: real)
    requires forall i :: 0 <= i < |s| ==> key(s[i]) != k
    ensures WithKey(s, key, k) == []
  {
    if |s| > 0 {
      WithKeyNone(s[1..], key, k);
    }
  }

  /** Put x after the leading elements whose key is at least key(x). */
  function Insert<T>(x: T, s: seq<T>, key: T -> real): (r: seq<T>)
    ensures |r| == |s| + 1
  {
    if |s| == 0 then [x]
    else if key(s[0]) >= key(x) then
      [s[0]] + Insert(x, s[1..], key)
    else
      [x] + s
  }

  lemma {:induction false} InsertPermutes<T>(x: T, s: seq<T>, key: T -> real)
    ensures multiset(Insert(x, s, key)) == multiset(s) + multiset{x}
  {
    if |s| > 0 && key(s[0]) >= key(x) {
      InsertPermutes(x, s[1..], key);
      assert s == [s[0]] + s[1..];
    }
  }

  lemma InsertMembers<T>(x: T, s: seq<T>, key: T -> real)
    ensures forall i :: 0 <= i < |Insert(x, s, key)| ==> Insert(x, s, key)[i] == x || Insert(x, s, key)[i] in s
  {
    var r := Insert(x, s, key);
    InsertPermutes(x, s, key);
    forall i | 0 <= i < |r|
      ensures r[i] == x || r[i] in s
    {
      assert r[i] in multiset(r);
    }
  }

  lemma {:induction false} InsertSorted<T>(x: T, s: seq<T>, key: T -> real)
    requires SortedDesc(s, key)
    ensures SortedDesc(Insert(x, s, key), key)
  {
    if |s| > 0 && key(s[0]) >= key(x) {
      var rest := Insert(x, s[1..], key);
      InsertSorted(x, s[1..], key);
      InsertMembers(x, s[1..], key);
      assert forall j :: 0 <= j < |rest| ==> key(s[0]) >= key(rest[j]);
      assert Insert(x, s, key) == [s[0]] + rest;
    }
  }

  /** sorted(s, key=key, reverse=True) */
  function SortDesc<T>(s: seq<T>, key: T -> real): (r: seq<T>)
    ensures |r| == |s|
    ensures SortedDesc(r, key)
  {
    if |s| == 0 then []
    else
      var init := s[..|s| - 1];
      assert s == init + [s[|s| - 1]];
      InsertSorted(s[|s| - 1], SortDesc(init, key), key);
      Insert(s[|s| - 1], SortDesc(init, key), key)
  }

  /** The sorted sequence is a permutation of the input. */
  lemma {:induction false} SortDescPermutes<T>(s: seq<T>, key: T -> real)
    ensures multiset(SortDesc(s, key)) == multiset(s)
  {
    if |s| > 0 {
      var init := s[..|s| - 1];
      SortDescPermutes(init, key);
      InsertPermutes(s[|s| - 1], SortDesc(init, key), key);
      assert s == init + [s[|s| - 1]];
    }
  }

  /** Everything in the sorted sequence comes from the input, and everything in the input is in it. */
  lemma SortDescMembers<T>(s: seq<T>, key: T -> real)
    ensures forall i :: 0 <= i < |SortDesc(s, key)| ==> SortDesc(s, key)[i] in s
    ensures forall i :: 0 <= i < |s| ==> s[i] in SortDesc(s, key)
  {
    SortDescPermutes(s, key);
    var r := SortDesc(s, key);
    forall i | 0 <= i < |r|
      ensures r[i] in s
    {
      assert r[i] in multiset(r);
    }
    forall i | 0 <= i < |s|
      ensures s[i] in r
    {
      assert s[i] in multiset(s);
    }
  }

  lemma {:induction false} InsertKeepsEqualKeysInOrder<T>(x: T, s: seq<T>, key: T -> real, k: real)
    requires SortedDesc(s, key)
    ensures WithKey(Insert(x, s, key), key, k) ==
      if key(x) == k then WithKey(s, key, k) + [x] else WithKey(s, key, k)
  {
    assert WithKey([x], key, k) == if key(x) == k then [x] else [] by {
      assert [x][1..] == [];
    }
    if |s| == 0 {
    } else if key(s[0]) >= key(x) {
      assert SortedDesc(s[1..], key);
      InsertKeepsEqualKeysInOrder(x, s[1..], key, k);
      var rest := Insert(x, s[1..], key);
      var head := if key(s[0]) == k then [s[0]] else [];
      assert Insert(x, s, key) == [s[0]] + rest;
      assert ([s[0]] + rest)[0] == s[0] && ([s[0]] + rest)[1..] == rest;
      assert WithKey([s[0]] + rest, key, k) == head + WithKey(rest, key, k);
      assert WithKey(s, key, k) == head + WithKey(s[1..], key, k);
    } else {
      WithKeyConcat([x], s, key, k);
      if key(x) == k {
        assert forall i :: 0 <= i < |s| ==> key(s[i]) <= key(s[0]) < k;
        WithKeyNone(s, key, k);
      }
    }
  }

  /**
   * Stability: among elements with any one key, the sorted sequence keeps
   * the input order.
   */
  lemma {:induction false} SortDescIsStable<T>(s: seq<T>, key: T -> real, k: real)
    ensures WithKey(SortDesc(s, key), key, k) == WithKey(s, key, k)
  {
    if |s| > 0 {
      var init := s[..|s| - 1];
      var last := s[|s| - 1];
      var sorted := SortDesc(init, key);
      assert SortDesc(s, key) == Insert(last, sorted, key);
      SortDescIsStable(init, key, k);
      InsertKeepsEqualKeysInOrder(last, sorted, key, k);
      LastWithKey(s, key, k);
    }
  }

  /** Filtering by key splits off the last element. */
  lemma LastWithKey<T>(s: seq<T>, key: T -> real, k: real)
    requires |s| > 0
    ensures WithKey(s, key, k) ==
      WithKey(s[..|s| - 1], key, k) + (if key(s[|s| - 1]) == k then [s[|s| - 1]] else [])
  {
    var last := s[|s| - 1];
    assert s == s[..|s| - 1] + [last];
    WithKeyConcat(s[..|s| - 1], [last], key, k);
    assert [last][1..] == [];
  }

  /** A sequence already in non-increasing key order is left as it is. */
  lemma {:induction false} SortDescOfSorted<T>(s: seq<T>, key: T -> real)
    requires SortedDesc(s, key)
    ensures SortDesc(s, key) == s
  {
    if |s| > 0 {
      var init := s[..|s| - 1];
      SortDescOfSorted(init, key);
      InsertAtEnd(s[|s| - 1], init, key);
      assert s == init + [s[|s| - 1]];
    }
  }

  lemma {:induction false} InsertAtEnd<T>(x: T, s: seq<T>, key: T -> real)
    requires SortedDesc(s, key)
    requires forall i :: 0 <= i < |s| ==> key(s[i]) >= key(x)
    ensures Insert(x, s, key) == s + [x]
  {
    if |s| > 0 {
      InsertAtEnd(x, s[1..], key);
      assert s == [s[0]] + s[1..];
    }
  }

  // ---------------------------------------------------------------------
  // Text keys
  // ---------------------------------------------------------------------

  /**
   * The rank of x among a finite set of texts: how many of them sort
   * before it. Within the set, ranks order texts as str comparison does,
   * so sorting on the rank is sorting on the text.
   */
  function TextRank(keys: set<string>, x: string): nat
  {
    |set y | y in keys && StrLess(y, x)|
  }

  /** A text of the set that sorts before another has the smaller rank. */
  lemma TextRankMonotone(keys: set<string>, a: string, b: string)
    requires a in keys && StrLess(a, b)
    ensures TextRank(keys, a) < TextRank(keys, b)
  {
    var sa := set y | y in keys && StrLess(y, a);
    var sb := set y | y in keys && StrLess(y, b);
    forall y | y in sa
      ensures y in sb
    {
      StrLessTransitive(y, a, b);
    }
    StrLessIrreflexive(a);
    assert a in sb - sa;
    assert sb == sa + (sb - sa);
    assert |sb| == |sa| + |sb - sa|;
  }

  /** Within the set, rank order is text order and equal ranks mean equal texts. */
  lemma TextRankOrder(keys: set<string>, a: string, b: string)
    requires a in keys && b in keys
    ensures TextRank(keys, a) < TextRank(keys, b) <==> StrLess(a, b)
    ensures TextRank(keys, a) == TextRank(keys, b) <==> a == b
  {
    StrLessTotal(a, b);
    if StrLess(a, b) {
      TextRankMonotone(keys, a, b);
    } else if StrLess(b, a) {
      TextRankMonotone(keys, b, a);
    }
  }
}

=== FILE: utility_service.dfy ===
/**
 * UtilityService and ProgressTracker of the utilities package: text
 * truncation and clean-up, batching, safe file names, file-type checks and
 * file-size units.
 */
module UtilityService {
  import opened PyCore

  /** text[:maxLength - len(suffix)] + suffix once text is longer than maxLength. */
  function TruncateText(text: string, maxLength: int, suffix: string): (r: string)
    ensures |text| <= maxLength ==> r == text
    ensures |text| > maxLength ==>
      EndsWith(r, suffix) && StartsWith(text, r[..|r| - |suffix|])
      && (|suffix| <= maxLength ==> |r| == maxLength)
  {
    if |text| <= maxLength then text
    else Take(text, maxLength - |suffix|) + suffix
  }

  /** Consecutive slices items[i:i + k] for i in range(0, len(items), k). */
  function Batches<T>(items: seq<T>, k: nat): (r: seq<seq<T>>)
    requires k > 0
    decreases |items|
  {
    if |items| == 0 then []
    else if |items| <= k then [items]
    else [items[..k]] + Batches(items[k..], k)
  }

  function Concat<T>(ss: seq<seq<T>>): seq<T>
  {
    if |ss| == 0 then [] else ss[0] + Concat(ss[1..])
  }

  lemma {:induction false} BatchesConcat<T>(items: seq<T>, k: nat)
    requires k > 0
    ensures Concat(Batches(items, k)) == items
    decreases |items|
  {
    if |items| > k {
      BatchesConcat(items[k..], k);
      assert Batches(items, k)[1..] == Batches(items[k..], k);
      assert items == items[..k] + items[k..];
    }
  }

  lemma CeilDivStep(n: nat, k: nat)
    requires k > 0 && n > k
    ensures (n + k - 1) / k == 1 + (n - k + k - 1) / k
  {
    var m := n - 1;
    var q := m / k;
    var r := m % k;
    assert m == q * k + r && 0 <= r < k;
    assert n + k - 1 == (q + 1) * k + r;
    DivUnique(n + k - 1, k, q + 1, r);
    DivUnique(n - 1, k, q, r);
  }

  lemma {:induction false} MulAtLeast(d: nat, k: nat)
    requires d >= 1
    ensures d * k >= k
  {
    if d > 1 {
      MulAtLeast(d - 1, k);
      assert d * k == (d - 1) * k + k;
    }
  }

  lemma DivUnique(x: int, k: int, q: int, r: int)
    requires k > 0 && 0 <= r < k && x == q * k + r
    ensures x / k == q
  {
    var q0 := x / k;
    var r0 := x % k;
    assert x == q0 * k + r0;
    if q0 < q {
      var d := q - q0;
      assert q * k == q0 * k + d * k;
      MulAtLeast(d, k);
    } else if q0 > q {
      var d := q0 - q;
      assert q0 * k == q * k + d * k;
      MulAtLeast(d, k);
    }
  }

  /** There are ceil(n / k) batches. */
  lemma {:induction false} BatchesCount<T>(items: seq<T>, k: nat)
    requires k > 0
    ensures |Batches(items, k)| == (|items| + k - 1) / k
    decreases |items|
  {
    if |items| > k {
      BatchesCount(items[k..], k);
      CeilDivStep(|items|, k);
    } else if |items| > 0 {
      assert (|items| + k - 1) / k == 1;
    }
  }

  /** Every batch but the last holds exactly k items; the last holds between 1 and k. */
  lemma {:induction false} BatchesSizes<T>(items: seq<T>, k: nat)
    requires k > 0
    ensures var b := Batches(items, k);
      (forall i :: 0 <= i < |b| - 1 ==> |b[i]| == k)
      && (|b| > 0 ==> 0 < |b[|b| - 1]| <= k)
    decreases |items|
  {
    if |items| > k {
      BatchesSizes(items[k..], k);
      var b := Batches(items, k);
      assert b[1..] == Batches(items[k..], k);
      forall i | 0 <= i < |b| - 1
        ensures |b[i]| == k
      {
        if i > 0 {
          assert b[i] == b[1..][i - 1];
        }
      }
    }
  }

  lemma BatchesStep<T>(items: seq<T>, i: nat, k: nat)
    requires k > 0 && i < |items|
    ensures var j := if i + k < |items| then i + k else |items|;
      Batches(items[i..], k) == [items[i..j]] + Batches(items[j..], k)
  {
    var j := if i + k < |items| then i + k else |items|;
    if i + k < |items| {
      assert items[i..][..k] == items[i..j];
      assert items[i..][k..] == items[j..];
    } else {
      assert items[i..j] == items[i..];
      assert items[j..] == [];
    }
  }

  /** split_into_batches: rejects batch_size <= 0, otherwise walks the list in steps of batch_size. */
  method SplitIntoBatches<T>(items: seq<T>, batchSize: int) returns (r: Result<seq<seq<T>>>)
    ensures batchSize <= 0 <==> r.Err?
    ensures batchSize > 0 ==> r == Ok(Batches(items, batchSize))
  {
    if batchSize <= 0 {
      return Err("batch_size must be greater than 0");
    }
    var batches: seq<seq<T>> := [];
    var i := 0;
    while i < |items|
      invariant 0 <= i <= |items|
      invariant batches + Batches(items[i..], batchSize) == Batches(items, batchSize)
      decreases |items| - i
    {
      var j := if i + batchSize < |items| then i + batchSize else |items|;
      BatchesStep(items, i, batchSize);
      batches := batches + [items[i..j]];
      i := j;
    }
    assert Batches(items[i..], batchSize) == [];
    assert batches + [] == batches;
    return Ok(batches);
  }

  /** The nine characters safe_filename replaces. */
  const UnsafeChars: string := "<>:\"/\\|?*"

  /** The replace loop over the unsafe characters, one character at a time. */
  function ReplaceEach(s: string, cs: string): (r: string)
    ensures |r| == |s|
    decreases |cs|
  {
    if |cs| == 0 then s else ReplaceEach(ReplaceChar(s, cs[0], '_'), cs[1..])
  }

  /** Since '_' is not itself replaced, the loop maps each unsafe character to '_' and keeps the rest. */
  lemma {:induction false} ReplaceEachPointwise(s: string, cs: string)
    requires '_' !in cs
    ensures forall i :: 0 <= i < |s| ==> ReplaceEach(s, cs)[i] == (if s[i] in cs then '_' else s[i])
    decreases |cs|
  {
    if |cs| > 0 {
      var t := ReplaceChar(s, cs[0], '_');
      ReplaceEachPointwise(t, cs[1..]);
      forall i | 0 <= i < |s|
        ensures ReplaceEach(s, cs)[i] == (if s[i] in cs then '_' else s[i])
      {
        assert s[i] in cs <==> s[i] == cs[0] || s[i] in cs[1..] by {
          assert cs == [cs[0]] + cs[1..];
        }
      }
    }
  }

  /** Replacement then strip, shared by both variants of safe_filename. */
  function ReplaceAndStrip(filename: string): (r: string)
    ensures NoUnsafe(r)
    ensures Strip(r) == r
  {
    ReplaceAndStripSafe(filename);
    Strip(ReplaceEach(filename, UnsafeChars))
  }

  predicate NoUnsafe(s: string)
  {
    forall i :: 0 <= i < |s| ==> s[i] !in UnsafeChars
  }

  lemma ReplaceAndStripSafe(filename: string)
    ensures NoUnsafe(Strip(ReplaceEach(filename, UnsafeChars)))
    ensures Strip(Strip(ReplaceEach(filename, UnsafeChars))) == Strip(ReplaceEach(filename, UnsafeChars))
  {
    assert '_' !in UnsafeChars;
    ReplaceStripAvoids(filename, UnsafeChars);
  }

  /** Replacing the characters of `cs` by '_' and stripping leaves none of them and nothing more to strip. */
  lemma ReplaceStripAvoids(filename: string, cs: string)
    requires '_' !in cs
    ensures forall i :: 0 <= i < |Strip(ReplaceEach(filename, cs))| ==> Strip(ReplaceEach(filename, cs))[i] !in cs
    ensures Strip(Strip(ReplaceEach(filename, cs))) == Strip(ReplaceEach(filename, cs))
  {
    var replaced := ReplaceEach(filename, cs);
    ReplaceEachPointwise(filename, cs);
    assert forall i :: 0 <= i < |replaced| ==> replaced[i] !in cs;
    var r := Strip(replaced);
    StripKeepsChars(replaced);
    StripStripped(r);
  }

  lemma StripKeepsChars(s: string)
    ensures forall i :: 0 <= i < |Strip(s)| ==> Strip(s)[i] in s
  {
    var a := LeadSpaces(s);
    var r := Strip(s);
    forall i | 0 <= i < |r|
      ensures r[i] in s
    {
      assert r[i] == s[a + i];
    }
  }

  /** UtilityService.safe_filename: never empty, never holding an unsafe character. */
  function SafeFilename(filename: string): (r: string)
    ensures |r| > 0
    ensures NoUnsafe(r)
  {
    var s := ReplaceAndStrip(filename);
    if |s| == 0 then "untitled" else s
  }

  lemma {:induction false} ReplaceEachNoop(s: string, cs: string)
    requires forall i :: 0 <= i < |s| ==> s[i] !in cs
    ensures ReplaceEach(s, cs) == s
    decreases |cs|
  {
    if |cs| > 0 {
      assert ReplaceChar(s, cs[0], '_') == s;
      ReplaceEachNoop(s, cs[1..]);
    }
  }

  /** A safe name is its own safe name. */
  lemma SafeFilenameIdempotent(filename: string)
    ensures SafeFilename(SafeFilename(filename)) == SafeFilename(filename)
  {
    var s := SafeFilename(filename);
    if ReplaceAndStrip(filename) == [] {
      UntitledIsClean();
    }
    SafeFilenameFixes(s);
  }

  lemma UntitledIsClean()
    ensures NoUnsafe("untitled") && Strip("untitled") == "untitled"
  {
    LowercaseIsSafe("untitled");
    assert !IsSpace('u') && !IsSpace('d');
    StripStripped("untitled");
  }

  /** Lower-case ASCII letters are never among the unsafe characters. */
  lemma LowercaseIsSafe(s: string)
    requires forall i :: 0 <= i < |s| ==> 'a' <= s[i] <= 'z'
    ensures NoUnsafe(s)
  {
    forall i | 0 <= i < |s|
      ensures s[i] !in UnsafeChars
    {
      assert forall j :: 0 <= j < |UnsafeChars| ==> UnsafeChars[j] < 'a' || 'z' < UnsafeChars[j];
    }
  }

  /** A non-empty, stripped name without unsafe characters is its own safe name. */
  lemma SafeFilenameFixes(s: string)
    requires |s| > 0 && NoUnsafe(s) && Strip(s) == s
    ensures SafeFilename(s) == s
  {
    CleanNameUnchanged(s, UnsafeChars);
  }

  /** A stripped name with none of the characters of `cs` passes replacement and strip unchanged. */
  lemma CleanNameUnchanged(s: string, cs: string)
    requires forall i :: 0 <= i < |s| ==> s[i] !in cs
    requires Strip(s) == s
    ensures Strip(ReplaceEach(s, cs)) == s
  {
    ReplaceEachNoop(s, cs);
  }

  /** ' '.join(text.split()).strip() */
  function CleanText(text: string): (r: string)
    ensures r == Join(" ", Words(text))
  {
    StripJoinedWords(Words(text));
    Strip(Join(" ", Words(text)))
  }

  /** Cleaning cleaned text changes nothing. */
  lemma CleanTextIdempotent(text: string)
    ensures CleanText(CleanText(text)) == CleanText(text)
  {
    WordsOfJoin(Words(text));
  }

  /** Cleaned text holds no two consecutive spaces, no other whitespace, and no space at either end. */
  lemma {:induction false} CleanTextShape(ws: seq<string>)
    requires forall i :: 0 <= i < |ws| ==> |ws[i]| > 0 && NoSpace(ws[i])
    ensures var r := Join(" ", ws);
      (forall i :: 0 <= i < |r| ==> r[i] == ' ' || !IsSpace(r[i]))
      && (forall i :: 0 <= i < |r| - 1 ==> r[i] != ' ' || r[i + 1] != ' ')
      && (|r| > 0 ==> r[0] != ' ' && r[|r| - 1] != ' ')
  {
    if |ws| > 1 {
      CleanTextShape(ws[1..]);
      var t := Join(" ", ws[1..]);
      var r := Join(" ", ws);
      assert r == ws[0] + " " + t;
      JoinEnds(ws[1..]);
      forall i | 0 <= i < |r| - 1
        ensures r[i] != ' ' || r[i + 1] != ' '
      {
        if i < |ws[0]| - 1 {
          assert r[i] == ws[0][i];
        } else if i == |ws[0]| - 1 {
          assert r[i] == ws[0][i];
        } else if i == |ws[0]| {
          assert r[i + 1] == t[0];
        } else {
          assert r[i] == t[i - |ws[0]| - 1] && r[i + 1] == t[i - |ws[0]|];
        }
      }
      forall i | 0 <= i < |r|
        ensures r[i] == ' ' || !IsSpace(r[i])
      {
        if i < |ws[0]| {
          assert r[i] == ws[0][i];
        } else if i > |ws[0]| {
          assert r[i] == t[i - |ws[0]| - 1];
        }
      }
      assert r[0] == ws[0][0];
      assert r[|r| - 1] == t[|t| - 1];
    } else if |ws| == 1 {
      assert Join(" ", ws) == ws[0];
    }
  }

  /** The index of the last `c` in s, or -1 (str.rfind). */
  function RFind(s: string, c: char): (i: int)
    ensures -1 <= i < |s|
    ensures i >= 0 ==> s[i] == c
    ensures forall j :: i < j < |s| ==> s[j] != c
  {
    AfterLast(s, c) as int - 1
  }

  /**
   * os.path.splitext(path)[1] on POSIX paths: from the last '.' of the final
   * path component, unless every character before that '.' in the component
   * is a '.' (a leading-dot name has no extension).
   */
  function Extension(path: string): (e: string)
    ensures e == "" || (e[0] == '.' && EndsWith(path, e) && '/' !in e && '.' !in e[1..])
  {
    var sep := RFind(path, '/');
    var dot := RFind(path, '.');
    if dot > sep && exists i :: sep + 1 <= i < dot && path[i] != '.' then
      assert forall j :: dot < j < |path| ==> path[j] != '/';
      assert path[dot..] == path[|path| - (|path| - dot)..];
      path[dot..]
    else ""
  }

  predicate NoSlashAfter(s: string, i: int)
  {
    forall j :: i < j < |s| && 0 <= j ==> s[j] != '/'
  }

  /** A name with a stem that is not all dots keeps the text after its last dot as the extension. */
  lemma ExtensionOfName(stem: string, ext: string)
    requires '/' !in ext && '.' !in ext
    requires exists i :: 0 <= i < |stem| && stem[i] != '.' && stem[i] != '/' && NoSlashAfter(stem, i)
    ensures Extension(stem + "." + ext) == "." + ext
  {
    var p := stem + "." + ext;
    var i :| 0 <= i < |stem| && stem[i] != '.' && stem[i] != '/' && NoSlashAfter(stem, i);
    assert p[|stem|] == '.';
    assert forall j :: |stem| < j < |p| ==> p[j] == ext[j - |stem| - 1];
    var dot := RFind(p, '.');
    assert dot == |stem|;
    var sep := RFind(p, '/');
    assert sep < i;
    assert p[i] == stem[i];
    assert p[dot..] == "." + ext;
  }

  /** A leading-dot name such as ".env" has no extension. */
  lemma DotFileHasNoExtension()
    ensures Extension(".env") == ""
  {
    var s := ".env";
    assert s[0] == '.' && s[1] != '.' && s[2] != '.' && s[3] != '.';
    assert RFind(s, '.') == 0;
  }

  /** validate_file_type: the lower-cased extension is one of the allowed ones. */
  function ValidateFileType(path: string, allowed: seq<string>): (ok: bool)
    ensures ok ==> Extension(path) != "" || "" in allowed
    ensures ok <==> exists i :: 0 <= i < |allowed| && allowed[i] == Lower(Extension(path))
  {
    Lower(Extension(path)) in allowed
  }

  /** "report.PDF" is a valid ".pdf" file: the check ignores case. */
  lemma UpperCaseExtensionAccepted()
    ensures ValidateFileType("report.PDF", [".pdf"])
  {
    assert "report"[0] == 'r' && NoSlashAfter("report", 0);
    ExtensionOfName("report", "PDF");
    assert "report" + "." + "PDF" == "report.PDF";
    assert Lower(".PDF") == ".pdf";
  }

  datatype SizeUnit = B | KB | MB | GB

  /** The unit format_file_size picks; the decimal rendering of KB and larger is `render`. */
  function FileSizeUnit(sizeBytes: int): (u: SizeUnit)
    ensures u == B <==> sizeBytes < 1024
    ensures u == KB <==> 1024 <= sizeBytes < 1024 * 1024
    ensures u == MB <==> 1024 * 1024 <= sizeBytes < 1024 * 1024 * 1024
    ensures u == GB <==> sizeBytes >= 1024 * 1024 * 1024
  {
    if sizeBytes < 1024 then B
    else if sizeBytes < 1024 * 1024 then KB
    else if sizeBytes < 1024 * 1024 * 1024 then MB
    else GB
  }

  /** The unit's label, as printed after the value. */
  function UnitName(u: SizeUnit): string
  {
    match u
    case B => "B"
    case KB => "KB"
    case MB => "MB"
    case GB => "GB"
  }

  /** Bytes per unit: 1024 to the power of the unit's rank. */
  function UnitBytes(u: SizeUnit): (n: real)
    ensures n >= 1.0
  {
    match u
    case B => 1.0
    case KB => 1024.0
    case MB => 1024.0 * 1024.0
    case GB => 1024.0 * 1024.0 * 1024.0
  }

  /**
   * format_file_size: "{n} B" below 1024; otherwise the size in units of
   * FileSizeUnit, rendered to one decimal by `render`, a space and the unit.
   */
  function FormatFileSize(sizeBytes: int, render: real -> string): (r: string)
    ensures sizeBytes < 1024 ==> r == IntToString(sizeBytes) + " B"
    ensures var u := FileSizeUnit(sizeBytes);
      u != B ==> r == render(sizeBytes as real / UnitBytes(u)) + " " + UnitName(u)
    ensures FileSizeUnit(sizeBytes) == KB ==> EndsWith(r, " KB")
    ensures FileSizeUnit(sizeBytes) == MB ==> EndsWith(r, " MB")
    ensures FileSizeUnit(sizeBytes) == GB ==> EndsWith(r, " GB")
  {
    match FileSizeUnit(sizeBytes)
    case B => IntToString(sizeBytes) + " B"
    case KB => render(sizeBytes as real / 1024.0) + " KB"
    case MB => render(sizeBytes as real / (1024.0 * 1024.0)) + " MB"
    case GB => render(sizeBytes as real / (1024.0 * 1024.0 * 1024.0)) + " GB"
  }

  /**
   * The value shown before KB or MB lies in [1, 1024): the unit is the
   * largest one the size fills. Before GB it is at least 1.
   */
  lemma ScaledSizeInRange(sizeBytes: int)
    requires FileSizeUnit(sizeBytes) != B
    ensures var u := FileSizeUnit(sizeBytes);
      var v := sizeBytes as real / UnitBytes(u);
      1.0 <= v && (u != GB ==> v < 1024.0)
  {
    var u := FileSizeUnit(sizeBytes);
    var x := sizeBytes as real;
    var d := UnitBytes(u);
    assert d <= x;
    if u != GB {
      assert x < 1024.0 * d;
    }
  }

  // ---------------------------------------------------------------------
  // ProgressTracker
  // ---------------------------------------------------------------------

  datatype Tracker = Tracker(total: int, current: int, description: string)

  datatype Progress = Progress(current: int, total: int, percentage: real, description: string, isComplete: bool)

  /** ProgressTracker(total): starts at 0. */
  function NewTracker(total: int, description: string): (t: Tracker)
    ensures t.current == 0 && t.total == total
  {
    Tracker(total, 0, description)
  }

  /** ProgressTracker.update: add the increment, then cap at total (no lower bound). */
  function Update(t: Tracker, increment: int): (r: Tracker)
    ensures r.total == t.total && r.description == t.description
    ensures r.current <= t.total
    ensures r.current == if t.current + increment > t.total then t.total else t.current + increment
  {
    var c := t.current + increment;
    t.(current := if c > t.total then t.total else c)
  }

  /** ProgressTracker.get_progress, with the percentage left unrounded. */
  function GetProgress(t: Tracker): (p: Progress)
    ensures p.isComplete <==> t.current >= t.total
    ensures t.total <= 0 ==> p.percentage == 0.0
    ensures t.total > 0 && 0 <= t.current ==> 0.0 <= p.percentage <= 100.0 || t.current > t.total
    ensures p.current == t.current && p.total == t.total
  {
    var pct := if t.total > 0 then (t.current as real / t.total as real) * 100.0 else 0.0;
    Progress(t.current, t.total, pct, t.description, t.current >= t.total)
  }

  function Sum(xs: seq<int>): int
  {
    if |xs| == 0 then 0 else Sum(xs[..|xs| - 1]) + xs[|xs| - 1]
  }

  function UpdateAll(t: Tracker, incs: seq<int>): (r: Tracker)
    ensures r.total == t.total
  {
    if |incs| == 0 then t else Update(UpdateAll(t, incs[..|incs| - 1]), incs[|incs| - 1])
  }

  /** With non-negative increments from a fresh tracker, progress is the running total capped at total. */
  lemma {:induction false} UpdatesCapAtTotal(total: int, description: string, incs: seq<int>)
    requires total >= 0
    requires forall i :: 0 <= i < |incs| ==> incs[i] >= 0
    ensures var t := UpdateAll(NewTracker(total, description), incs);
      t.current == if Sum(incs) > total then total else Sum(incs)
  {
    if |incs| > 0 {
      var init := incs[..|incs| - 1];
      UpdatesCapAtTotal(total, description, init);
      assert Sum(incs) == Sum(init) + incs[|incs| - 1];
      assert UpdateAll(NewTracker(total, description), incs)
          == Update(UpdateAll(NewTracker(total, description), init), incs[|incs| - 1]);
    }
  }
}
